=== FILE: README.md ===
# Symposium backend core in Dafny

This project models the decision-making core of the Symposium conference and
poster-platform backend, a TypeScript Express server. It covers four parts.

- **Authorization and entitlements.** The middlewares decide who may see or
  change an event, a presentation or a comment: identity from a Firebase ID
  token, event-admin and block-list checks, privacy levels, event visibility
  and uptime, and subscription expiry, quotas and tier-derived feature flags.
- **Submission validators.** These cover the presentation form, the event's
  form configuration, and the field checks of the event, live-session and
  alternative-presentation routes.
- **String and collection utilities.** These are the row helpers,
  `queryFormat`, and the SQL clause builders of `shared-queries.ts`.
- **Route logic.** This is the pure part of the event, authentication, user
  e-mail, comment and presentation routes.

JavaScript's dynamic values are one datatype, `Js.Val`. It is written out with
JavaScript's truthiness, `typeof`, property access that may throw, and the
string methods the handlers call. A handler's result is `Http.Outcome`. It
either passes on with `next()`, sends a status, raises an error handed to
`next(err)`, or leaves a rejected promise unhandled. `res.locals` is the class
`ResponseLocals.Locals`, whose fields the middlewares write. Database reads,
Firebase calls and other opaque library calls are parameters of the functions
that use them. Code that works step by step in the source is modelled as
methods with loops, proved against the functions beside them:

- the presenter padding;
- the clause builders;
- the key-by-key update objects;
- the `aggregateRowValuesAsObject` rewrite of an array;
- the random string.

Each module follows one source file. The table below names the source lines
each member models.

## Model

| member | source | states |
|---|---|---|
| Js.NatToString | routes/alternative-presentations.ts:138-142 | the decimal text of a number, as `'presenter' + (index + 2)` builds it: at least one character, digits only, no leading zero |
| Js.NatToStringRoundTrip | routes/presentations.ts:1063-1068 | reading back the digits of `String(n)` gives `n` |
| Js.Lower | routes/authentication.ts:452 | `toLowerCase` keeps the length and lower-cases each character on its own |
| Js.IndexOfFrom | routes/alternative-presentations.ts:225-242 | `indexOf` finds the first occurrence at or after the start position, and no occurrence lies before it; with no result there is none at all |
| Js.Split | backend/authentication-middleware.ts:400-404 | `split` on a non-empty separator always yields at least one piece |
| Js.SplitJoin | routes/authentication.ts:449 | joining the pieces of `s.split(sep)` with `sep` gives `s` back |
| Js.SplitPiecesFree | routes/authentication.ts:449 | no piece of a split contains the separator |
| Js.SplitLastIsSuffix | routes/alternative-presentations.ts:231-237 | the last piece of a split is a suffix of the string: the whole string, or the text after the last separator |
| Js.SplitWithout | services/eventImages.service.ts:147 | a string without the separator character splits into itself alone |
| Js.SplitOnce | backend/authentication-middleware.ts:404 | `a + c + b` with no other `c` splits into exactly `[a, b]` |
| Js.SpaceEnd | routes/liveSessions.ts:56-59 | the scan over leading white space: every character it passes is white space and it stops at the end or at a character that is not |
| Js.SpaceStart | routes/liveSessions.ts:56-59 | the backward scan over trailing white space: every character it passes is white space and it stops at the lower bound or after a character that is not |
| Js.TrimStart | routes/liveSessions.ts:56-59 | the leading-whitespace cut: a suffix of the input, everything cut is white space, and it does not start with white space |
| Http.Then | routes/index.ts:119 | chained middlewares: the first that does not call `next()` decides, otherwise the second does |
| Js.Truthy | helpers/event.utils.ts:8 | `!!v`: undefined, null, NaN, false, 0 and '' are falsy; every other value, arrays and objects included, is truthy |
| Js.Get | routes/events.ts:686 | reading a property throws a TypeError on null or undefined; on an object it gives the stored value or undefined, on anything else undefined |
| Js.ToNumber | routes/liveSessions.ts:136 | `Number(v)`: null, false and [] are 0, true is 1, a number is itself, a string of decimal digits its value ('' is 0), a one-element array the number of its element (null and undefined inside give 0); everything else is NaN |
| Js.LodashIsEmpty | routes/index.ts:156 | lodash `isEmpty`: a string, array or object is empty iff it has no entries; every other value is empty |
| Js.Trim | routes/liveSessions.ts:56-59 | `trim` is a piece of the input at some offset, everything before and after it is white space, and it neither starts nor ends with white space |
| Js.TrimIdempotent | routes/liveSessions.ts:56-59 | trimming a trimmed text changes nothing |
| EventUtils.EndOfDay | helpers/event.utils.ts:22-23 | `endOfDay` is the last millisecond of the day containing `t`: not before `t`, less than a day after it |
| EventUtils.EndOfDayMonotone | helpers/event.utils.ts:22-23 | a later instant never has an earlier end of day |
| EventUtils.EndOfDayShift | helpers/event.utils.ts:22-23 | moving an instant by whole days moves its end of day by the same days |
| EventUtils.EndOfDaySameDay | helpers/event.utils.ts:22-23 | two instants of the same day share their end of day |
| EventUtils.GetMaxEventDate | helpers/event.utils.ts:15-17 | an invalid date iff the start or the uptime is missing; otherwise its day ends exactly `eventUptimeInDays` days after the start day ends |
| EventUtils.MaxEventDateIsUptimeDaysLater | helpers/event.utils.ts:15-17 | getMaxEventDate is the start shifted forward by exactly `eventUptimeInDays` days, and its day ends that many days after the start day |
| EventUtils.IsEventExpiredByUptime | helpers/event.utils.ts:21-25 | expired by uptime iff the end of today is strictly after the end of the start day plus the uptime days; a null uptime never expires |
| EventUtils.LastUptimeDayNotExpired | helpers/event.utils.ts:21-25 | the last uptime day itself is not expired; the following day is |
| EventUtils.ExpiryMonotoneInNow | helpers/event.utils.ts:21-25 | an event expired at one time is expired at every later time |
| EventUtils.NullUptimeNeverExpires | helpers/event.utils.ts:16 | `addDays(start, null)` is an invalid date, so a null uptime never expires an event |
| EventUtils.IsEventPrivate | helpers/event.utils.ts:5 | a missing event is not private; an event is private iff its privacyLevel is one of the four non-public levels |
| EventUtils.IsUserAuthorizedForEvent | helpers/event.utils.ts:7-12 | false without claims, without claims.eventIds or without the event; otherwise true iff the event's id is in claims.eventIds |
| SubscriptionUtils.IsSubscriptionExpired | backend/helpers/subscription.utils.ts:10-13 | a subscription is expired iff it has an endDate and now is strictly after it (its partners NoEndDateNeverExpires and ExpiryBoundary state the two cases) |
| SubscriptionUtils.RecurringOnly | backend/helpers/subscription.utils.ts:21 | the filter keeps exactly the 'recurring' subscriptions of the list and no more entries than it is given |
| SubscriptionUtils.RecurringOnlyKeepsOrder | backend/helpers/subscription.utils.ts:21 | the filter keeps input order: filtering a concatenation concatenates the filtered parts |
| SubscriptionUtils.NoEndDateNeverExpires | backend/helpers/subscription.utils.ts:12 | a subscription without an endDate is never expired |
| SubscriptionUtils.ExpiryBoundary | backend/helpers/subscription.utils.ts:11-12 | with an endDate, expired iff now is strictly after it; at the end instant itself it is still live |
| SubscriptionUtils.CanPurchaseNewSubscriptionOrEvent | backend/helpers/subscription.utils.ts:20-22 | purchase allowed iff no subscription in the list is billed 'recurring' |
| SubscriptionUtils.SinglePurchasesPermit | backend/helpers/subscription.utils.ts:21 | an empty list or a list of only 'single' subscriptions always permits purchase |
| SubscriptionQuota.Remaining | queries/subscriptions.ts:105-114 | one remaining amount: never negative, and either 0 or the limit minus the count |
| SubscriptionQuota.CalculateRemainingSubscriptionUsage | queries/subscriptions.ts:104-116 | each of events, presentations, live sessions and admin accounts is the clamped remainder of its own limit and count |
| SubscriptionQuota.GetSubscriptionQuotaUsage | queries/subscriptions.ts:77-102 | throws iff the subscription is missing; otherwise `current` holds the lengths of the event, presentation, live-session and admin lists, and `left` is the clamped remainder of each limit after `current` |
| SubscriptionQuota.GetSubscriptionUsage | queries/subscriptions.ts:57-65 | throws iff the subscription is missing; liveSessions is always 0 |
| SubscriptionQuota.UsageAgreesWithRemaining | queries/subscriptions.ts:60 | the events available reported by getSubscriptionUsage are max(0, eventsNumberLimit - live events) |
| SubscriptionQuota.RemainingMonotone | queries/subscriptions.ts:105-114 | for a fixed limit the remainder does not grow as the count grows, and is 0 once the count reaches the limit |
| SubscriptionQuota.RemainingIsClampedDifference | queries/subscriptions.ts:111-114 | with a limit, the remainder is the limit minus the count when positive and 0 otherwise |
| SubscriptionQuota.NullLimitLeavesNothing | queries/subscriptions.ts:105-108 | a null limit leaves 0 remaining: the subtraction reads null as 0 |
| SubscriptionQuota.RemainingIndependent | queries/subscriptions.ts:105-114 | each remaining amount depends only on its own limit and its own count |
| SubscriptionPresence.SubscriptionPresenceOutcome | subscription-middleware.ts:3-19 | without claims the request is never answered; otherwise next() iff a non-empty list is read, 403 iff the list is null or empty, 500 iff the read fails |
| SubscriptionPresence.IsConsumerHasSubscription | subscription-middleware.ts:8-10 | the outcome above, and res.locals.subscriptions holds the list exactly when the request proceeds; nothing else in res.locals changes |
| FeatureFlags.CreateEventFeatureFlags | repositories/event-feature-flag.repository.ts:20-31 | the inserted row carries the given eventId, useLatestSubmission true, and each of the five feature columns is the flag rule applied to the tier's column of the same name |
| FeatureFlags.ColumnsAreIndependent | repositories/event-feature-flag.repository.ts:20-31 | each feature column follows its own tier column alone: changing one tier column changes exactly one row column |
| FeatureFlags.WithheldIffFalsyNonNull | repositories/event-feature-flag.repository.ts:20-31 | a feature is withheld iff its tier column is falsy but not null |
| FeatureFlags.FlagRule | repositories/event-feature-flag.repository.ts:24-28 | a null tier column grants the feature; a non-null one grants it iff truthy |
| FeatureFlags.AllNullTierGrantsEverything | repositories/event-feature-flag.repository.ts:24-28 | a tier whose five columns are all null grants all five features |
| SubscriptionGuards.SubscriptionLimitMiddleware | middlewares/subscription.middleware.ts:22-47 | missing claims fail; then NotFound for a missing subscription and Forbidden for an expired one; it proceeds iff the quota looked up under the caller's consumerId exists and is not exceeded |
| SubscriptionGuards.SubscriptionLimitMiddlewareBySubscription | middlewares/subscription.middleware.ts:22-47 | the same chain with the quota looked up under the guard's own subscriptionId: it proceeds iff that subscription's quota exists and is not exceeded |
| SubscriptionGuards.CreateEventGuard | middlewares/subscription.middleware.ts:49-105 | the first failing check decides: NotFound iff the subscription is missing; BadRequest iff every earlier check passes and the event duplicates an existing code or name or starts after it ends; it proceeds iff every check passes, including the uptime bound on the end date |
| SubscriptionGuards.IsSubscriptionLimitExceeded | middlewares/subscription.middleware.ts:107-135 | events and admin accounts are exceeded iff their limit is set and the current count reaches it; live sessions never are (stated case by case in EventsLimitRule and AdminAndLiveSessionRules) |
| SubscriptionGuards.QuotaOf | middlewares/subscription.middleware.ts:109 | succeeds iff the id is present and known, with the quota stored under it; otherwise it throws |
| SubscriptionGuards.EventsLimitRule | middlewares/subscription.middleware.ts:111-116 | a null eventsNumberLimit is never exceeded; otherwise exceeded iff the current events reach the limit |
| SubscriptionGuards.AdminAndLiveSessionRules | middlewares/subscription.middleware.ts:118-134 | the same rule for numAdminAccounts; the live-session limit is never exceeded |
| SubscriptionGuards.NullLimitUnlimitedButNothingLeft | middlewares/subscription.middleware.ts:112-114 | a null events limit is unlimited for the guard while the remaining-quota arithmetic reports 0 left |
| SubscriptionGuards.SubscriptionZeroRefused | middlewares/subscription.middleware.ts:60-62 | subscription 0 is refused with Forbidden whatever its expiry, quota or payload |
| SubscriptionGuards.EndDateBoundaries | middlewares/subscription.middleware.ts:85-97 | an event may end on its start day and on the last uptime day, but not on the day after |
| SubscriptionGuards.NullUptimeNeverLimitsEndDate | middlewares/subscription.middleware.ts:87-97 | a tier without uptime never refuses an end date |
| SubscriptionGuards.ExpiryCheckedBeforeQuota | middlewares/subscription.middleware.ts:33-39 | an expired subscription is refused with Forbidden whatever the quota |
| SubscriptionGuards.QuotaOfConsumerLetsExhaustedSubscriptionThrough | middlewares/subscription.middleware.ts:37 | a concrete request whose subscription has used up its events passes the guard as written and is refused by the corrected guard |
| SubscriptionGuards.ExhaustedSubscriptionRefused | middlewares/subscription.middleware.ts:69-71 | with the quota read by subscription id, neither the corrected guard nor createEventGuard lets an exhausted subscription through |
| EventGuards.IsConsumerBlockedFromEvent | backend/middlewares/event.middleware.ts:83-89 | a missing or zero consumerId or eventId counts as blocked; otherwise blocked iff the eventId is in the blocked list, and a failed read throws |
| EventGuards.IsUserBlockedFromEvent | backend/middlewares/event.middleware.ts:17-38 | no claims: next(); a missing event or eventId 0 gives 404, a failed read 500, a blocked caller 401, otherwise next() |
| EventGuards.ResolvePresentation | backend/middlewares/event.middleware.ts:47-50 | the presentation found by id wins; the hash lookup is used only when the id lookup finds nothing |
| EventGuards.IsUserBlockedFromPresentation | backend/middlewares/event.middleware.ts:40-67 | no claims: next(); a failed id or hash read is never answered; no presentation at all gives 500; otherwise the event check above decides |
| EventGuards.IsUserBlockedFromSession | backend/middlewares/event.middleware.ts:69-81 | no claims: next(); 401 iff the event is found and the caller is blocked from it; no other response is sent |
| EventGuards.GetSingleEventGuard | backend/middlewares/event.middleware.ts:94-122 | the guard only proceeds, or throws NotFound, Forbidden or an internal error |
| EventGuards.SingleEventNotFoundFirst | backend/middlewares/event.middleware.ts:99-102 | a missing or soft-deleted event is NotFound before any subscription is looked at |
| EventGuards.SingleEventSubscriptionChecks | backend/middlewares/event.middleware.ts:104-118 | a live event passes iff its subscription exists, is not expired and has not expired the event by uptime; a missing subscription is Forbidden |
| EventGuards.SingleEventNullUptime | backend/middlewares/event.middleware.ts:114 | a null eventUptimeInDays never causes an uptime rejection |
| EventGuards.AnonymousCallersPass | backend/middlewares/event.middleware.ts:19-21 | all three block guards let callers without claims through (also lines 42-44 and 72-74) |
| EventGuards.MissingConsumerIsBlocked | backend/middlewares/event.middleware.ts:84-86 | claims without a consumerId are answered 401 by the event and session guards |
| EventGuards.IdLookupTakesPrecedence | backend/middlewares/event.middleware.ts:47-50 | once the id lookup finds a presentation, the hash lookup cannot change the outcome |
| AuthGuards.GetBearerAuthTokenFromHeader | backend/authentication-middleware.ts:399-405 | a non-empty token only comes from a header that matches `bearer<ws>.+` and splits on ' ' into two parts, and is then the second part; the token never contains a space |
| AuthGuards.MatchesBearerPattern | backend/authentication-middleware.ts:400 | `/^bearer\s.+$/i`: 'bearer' in any case, one white-space character, then at least one character with no line terminator (NonBearerHeadersGiveNothing states its use) |
| AuthGuards.BearerRoundTrip | backend/authentication-middleware.ts:399-405 | 'Bearer ' in any letter case followed by a space-free single-line token gives that token back |
| AuthGuards.NonBearerHeadersGiveNothing | backend/authentication-middleware.ts:400-402 | a missing, empty or non-bearer header gives '' |
| AuthGuards.JoinConsumer | backend/authentication-middleware.ts:27-29 | the join succeeds iff the token names a consumerId that has a row; it then sets institutionId and institutionCode from that row and keeps every other claim |
| AuthGuards.SignInWrites | backend/authentication-middleware.ts:23-29 | a token that does not verify writes nothing; one that verifies stores the token, and its claims are the consumer-joined claims when it signs in and the token's own claims otherwise |
| AuthGuards.SignIn | backend/authentication-middleware.ts:23-29 | succeeds iff the token verifies and the consumer joins; res.locals.token and userClaims change as above and nothing else does |
| AuthGuards.AuthenticatedOutcome | backend/authentication-middleware.ts:14-38 | next() iff the header's token signs in, 401 otherwise |
| AuthGuards.CheckIsAuthenticated | backend/authentication-middleware.ts:14-38 | the outcome above, with the writes of signing in and no others |
| AuthGuards.SoftCheckIsAuthenticated | backend/authentication-middleware.ts:40-65 | always next(), with the writes of signing in and no others |
| AuthGuards.CheckIsEventAdmin | backend/authentication-middleware.ts:67-105 | 401 without an eventId or eventCode; next() iff claims exist and the admin row read (by eventId when there is one) has isAdmin 1; otherwise it refuses, and without claims it never answers |
| AuthGuards.SoftCheckIsEventAdmin | backend/authentication-middleware.ts:107-141 | always next(); isEventAdmin is set from the admin row only with a consumerId and an eventId or eventCode, and nothing else changes |
| AuthGuards.CheckIsAuthenticatedPresentations | backend/authentication-middleware.ts:178-200 | only next() or 401 |
| AuthGuards.PresentationsGuardIff | backend/authentication-middleware.ts:181-192 | an unresolved event passes; otherwise 401 iff the event is not public and the caller is not registered for it |
| AuthGuards.SinglePresentationOutcome | backend/authentication-middleware.ts:202-250 | only next() or 401 |
| AuthGuards.CheckIsAuthenticatedSinglePresentation | backend/authentication-middleware.ts:202-250 | the outcome above, with the token and claims writes it makes and no others |
| AuthGuards.HashLinkBypass | backend/authentication-middleware.ts:205-216 | a presentation found only by hash on a 'presentationHash' event passes without any identity and writes nothing |
| AuthGuards.NoBypassById | backend/authentication-middleware.ts:220-245 | a presentation found by id on a non-public event passes only with a signed-in token registered for the event |
| AuthGuards.MissingPresentationIsUnauthorized | backend/authentication-middleware.ts:209-211 | a presentation found neither by id nor by hash gives 401, not 404 |
| AuthGuards.PosterOutcome | backend/authentication-middleware.ts:305-356 | only next() or 401 |
| AuthGuards.CheckPosterAuthorized | backend/authentication-middleware.ts:305-356 | the outcome above, with the token and claims writes it makes and no others |
| AuthGuards.PosterInstitutionHashRule | backend/authentication-middleware.ts:308-315 | on an 'institutionHash' event: allowed iff the poster found by id belongs to the event |
| AuthGuards.PosterSameHashRule | backend/authentication-middleware.ts:317-335 | when the hash is the posterId: allowed outright unless the event is 'private', then iff the caller signs in and is registered for it |
| AuthGuards.PosterOtherHashRule | backend/authentication-middleware.ts:336-346 | otherwise: allowed iff the presentation of the hash and the poster are both found and share their eventId |
| AuthGuards.CheckCommentPosterAuthorized | backend/authentication-middleware.ts:358-379 | next() iff the poster and its event are found, the caller is not blocked, is registered when the event is 'private', and supplied the event hash when it is 'institutionHash' |
| AuthGuards.CheckIsUserOwner | backend/authentication-middleware.ts:252-267 | next() iff claims exist and body.consumerId equals the claimed consumerId as numbers |
| AuthGuards.OwnerComparesNumbers | backend/authentication-middleware.ts:255 | the string '7' and the number 7 both match consumer 7; a missing body id does not |
| AuthGuards.CheckParentCommentNotDeleted | backend/authentication-middleware.ts:381-397 | next() iff the parent comment is found and has no deleteDate |
| AuthGuards.EventIdPreferred | backend/authentication-middleware.ts:74-80 | with an eventId, the row read by eventCode cannot change the outcome |
| AuthGuards.SoftAdminAgreesWithCheck | backend/authentication-middleware.ts:107-141 | the soft check changes isEventAdmin only with a consumerId and an event key, and then sets it to true iff the hard check would pass |
| Comments.Redact | routes/index.ts:92-97 | a deleted or hidden comment gets comment '', consumerId -1 and empty names; any other comment is returned unchanged; ids, dates and replies are kept |
| Comments.RedactAll | routes/index.ts:90-99 | the redaction map keeps the length and order and redacts each reply on its own |
| Comments.RepliesTo | routes/index.ts:84 | the replies fetched for a comment are rows of the table whose parentCommentId is that comment |
| Comments.RepliesAreThoseOfTheParent | routes/index.ts:84 | a row is among the replies of a comment iff it is in the table with that parentCommentId |
| Comments.Thread | routes/index.ts:83-108 | keeps the comment id; entry k of its replies is the redacted k-th reply fetched for it; a hidden top-level comment loses its text and author |
| Comments.GetComments | routes/index.ts:79-112 | in place, each top-level comment becomes its thread: its replies attached and redacted, and itself redacted |
| Comments.AttachReplies | routes/index.ts:83-85 | in place, each top-level comment gets the rows of the table that answer it, in table order, as its replies; nothing else changes |
| Comments.RedactThreads | routes/index.ts:88-108 | in place, each top-level comment has every reply redacted, then is redacted itself when deleted or hidden |
| Comments.RedactIdempotent | routes/index.ts:92-107 | redacting twice is redacting once |
| Comments.ThreadKeepsVisibleComments | routes/index.ts:88-109 | a visible top-level comment keeps its text and author, gets one entry per reply, and every visible reply is kept unchanged in order |
| Comments.SignedInAfterAuthentication | routes/index.ts:119 | after checkIsAuthenticated passes, res.locals.userClaims holds the signed-in claims |
| Comments.PostCommentAfterAuthentication | routes/index.ts:119 | once authenticated, postComment's outcome is the owner check followed by the poster check |
| Comments.PostCommentGuards | routes/index.ts:119 | the method running the three middlewares in place gives the outcome of the chain |
| Comments.PostCommentOutcome | routes/index.ts:119 | checkIsAuthenticated, then checkIsUserOwner, then checkCommentPosterAuthorized; the first refusal decides (PostCommentRequirements states when it passes) |
| Comments.PostReplyOutcome | routes/index.ts:194 | the comment chain followed by checkParentCommentNotDeleted (PostReplyRequirements states when it passes) |
| Comments.PostCommentRequirements | routes/index.ts:119 | a comment is accepted only from a signed-in caller whose body consumerId is their own, on a found poster whose event does not block them |
| Comments.PostReplyRequirements | routes/index.ts:194 | a reply is accepted iff the comment chain accepts and the parent comment is found and not deleted |
| Comments.NonEmptyEmails | routes/index.ts:154-156 | the alternates notified are only non-empty emails taken from the list |
| Comments.CommentRecipients | routes/index.ts:137-174 | the notifications go to the primary presenter, then to each non-empty presenter2..8 email in order |
| Comments.EveryNonEmptyAlternateNotified | routes/index.ts:154-156 | an alternate is notified iff it is in the list and non-empty |
| PresentationForms.Elements | routes/presentations.ts:962 | the elements a `for (i < v.length)` loop visits exist exactly when `v.length` is defined, and there are `v.length` of them |
| PresentationForms.FindLabel | routes/presentations.ts:879-881 | `optionLabels.find(...)` returns a configured label equal to the value up to case, and finds nothing iff no label matches |
| PresentationForms.LabelAcceptedIff | routes/presentations.ts:879-883 | a level, radio value, checkbox item or subject passes iff it is a non-empty string equal to some option label case-insensitively |
| PresentationForms.CheckOptions | routes/presentations.ts:962-971 | the loop that stops at the first unmatched value reports success iff every value is accepted |
| PresentationForms.TextCheck | routes/presentations.ts:751-755 | no error iff the value is a truthy string; otherwise exactly one missing or invalid error on that field |
| PresentationForms.EmailCheck | routes/presentations.ts:765-769 | no error iff the value is a truthy string that isValidEmail accepts; otherwise one missing or invalid error on that field |
| PresentationForms.RequiredLink | routes/presentations.ts:810-814 | no error iff the link is a truthy string that isValidYouTubeLink accepts |
| PresentationForms.OptionalLink | routes/presentations.ts:803-806 | no error iff the link is absent or a valid YouTube link; otherwise exactly one invalid error |
| PresentationForms.MediaErrors | routes/presentations.ts:789-832 | only media errors; a falsy presentationType is the single missing-type error; a type other than poster, oral or exhibition (with media data present) is the single invalid-type error |
| PresentationForms.FirstPresenterErrors | routes/presentations.ts:750-772 | the first-presenter checks give only mandatory, non-media errors |
| PresentationForms.TitleAbstractErrors | routes/presentations.ts:775-786 | the title and abstract checks give only mandatory, non-media errors |
| PresentationForms.MandatoryErrors | routes/presentations.ts:749-832 | only mandatory-field errors, and none about media in edit mode |
| PresentationForms.ValidPresentersCount | routes/presentations.ts:842-845 | for a non-negative maxAddlPresenters, from 1 to 1 + maxAddlPresenters; never more than the number of presenters given; exactly 1 when maxAddlPresenters is 0 or there is no presenter list |
| PresentationForms.ValidPresentersCountIsCappedLength | routes/presentations.ts:842-845 | the validated presenters are 1 + min(maxAddlPresenters, n - 1): between 1 and n |
| PresentationForms.TwoPresentersBothChecked | routes/presentations.ts:842-845 | with maxAddlPresenters of at least 1, both of two presenters are validated |
| PresentationForms.LevelErrors | routes/presentations.ts:873-884 | at most one level error; a displayed, present level that is not 'NULL' passes iff it matches an option label |
| PresentationForms.ExtraValueMissing | routes/presentations.ts:898-901 | an extra value counts as missing when there are no extra values, when it is falsy except a number field's loose zero, or when a checkbox value has no length (ExtraFieldError states what follows) |
| PresentationForms.ExtraValueValid | routes/presentations.ts:905-945 | a present radio value must match a label, every checkbox element must, a number must not be NaN, and anything else must be a string (ExtraFieldError states what follows) |
| PresentationForms.ConfiguredErrors | routes/presentations.ts:839-1028 | the presenter, subjects and presentation extra-field checks, in that order, over the presenters the count admits (ConfiguredErrorsAreNotMedia and ConfiguredSubjectsInvalidAtMostOnce state its properties) |
| PresentationForms.ExtraFieldError | routes/presentations.ts:896-949 | at most one error per extra field, on that field's hash: missing only when the field is required, otherwise invalid; a hidden field gives none |
| PresentationForms.ExtraFieldErrors | routes/presentations.ts:976-1028 | at most one error per configured field, each on an extra value of the same owner |
| PresentationForms.PresenterErrors | routes/presentations.ts:851-949 | each error of one presenter is a missing or invalid error on that presenter's own fields |
| PresentationForms.PresentersErrors | routes/presentations.ts:848-950 | every error names one of the first `count` presenters |
| PresentationForms.SubjectErrors | routes/presentations.ts:955-973 | no error, one missing-subjects error, or a single invalid-subjects error |
| PresentationForms.FormErrors | routes/presentations.ts:742-745 | a missing submission or eventId gives exactly the one missing-request-data error |
| PresentationForms.CheckExtraFields | routes/presentations.ts:976-1028 | the forEach pushing extra-value errors builds exactly the list the specification function describes |
| PresentationForms.CheckPresenters | routes/presentations.ts:848-950 | the presenter loop builds exactly the presenter error list |
| PresentationForms.CheckSubjects | routes/presentations.ts:955-973 | the subjects check builds exactly the subject error list |
| PresentationForms.GetPresentationFormErrors | routes/presentations.ts:733-1031 | the method pushing errors step by step returns exactly the error list of the specification function |
| PresentationForms.ConfiguredChecksFollowMandatory | routes/presentations.ts:839-1028 | with no mandatory error, the errors are those of the capped presenters, then the subjects, then the presentation extra fields |
| PresentationForms.MandatoryFailureShortCircuits | routes/presentations.ts:834-837 | any mandatory error ends validation: the result is non-empty and holds only mandatory errors |
| PresentationForms.ConfiguredErrorsAreNotMedia | routes/presentations.ts:839-1028 | the configuration-based checks never report media errors |
| PresentationForms.EditModeSkipsMedia | routes/presentations.ts:789 | in edit mode no error concerns presentationType or media |
| PresentationForms.NewSubmissionNeedsType | routes/presentations.ts:790-791 | a new submission without a presentationType reports it missing |
| PresentationForms.AcceptedSubmission | routes/presentations.ts:749-832 | an accepted form has a first presenter with non-empty names and a valid email, a string title and abstract, and outside edit mode a poster, oral or exhibition type |
| PresentationForms.SubjectsInvalidAtMostOnce | routes/presentations.ts:967-970 | the invalid-subjects error appears at most once in the whole list |
| PresentationForms.ConfiguredSubjectsInvalidAtMostOnce | routes/presentations.ts:962-971 | within the configuration-based errors the invalid-subjects error appears at most once |
| PresentationData.StringifyNumber | routes/presentations.ts:1066-1067 | a number value becomes a string; every other value is kept as it is |
| PresentationData.StringifiedNumberReadsBack | routes/presentations.ts:1066-1067 | the string a number value becomes reads back as the same number |
| PresentationData.KeepConfigured | routes/presentations.ts:1062-1070 | only configured hashes are kept, and a key is kept iff the submitted values are an object holding it and it is configured |
| PresentationData.KeepConfiguredIff | routes/presentations.ts:1063-1069 | a submitted key is kept iff it equals a configured extra-field hash, and its value is kept with numbers turned into strings |
| PresentationData.PresenterExtraValues | routes/presentations.ts:1041-1056 | throws iff some presenter is null or undefined; otherwise one entry per presenter with truthy, non-empty extra values, in order, each those values reduced to the configured hashes with numbers turned into strings |
| PresentationData.ValidSubmissionFormExtraValues | routes/presentations.ts:1033-1077 | throws iff a configured part cannot be read (presenter data not an array or holding a nullish presenter; nullish presentation data); the presenters part is the reduced extra values of each presenter that has them, in order; a presentation key is kept iff it was submitted and is configured, with numbers turned into strings |
| PresentationData.FindLower | routes/presentations.ts:1089 | with no labels the result is none; otherwise it throws iff the value is not a string, and gives the first label equal to the value up to case, or none when no label is |
| PresentationData.FirstLower | routes/presentations.ts:1122 | the first label whose lower case is the lowered value, or none iff no label has it |
| PresentationData.FindAll | routes/presentations.ts:1138-1140 | throws iff finding some value throws; otherwise entry i is what find gives for value i |
| PresentationData.FindAllMembers | routes/presentations.ts:1138-1140 | a tag is in the mapped list iff find gives it for some value |
| PresentationData.Positions | routes/presentations.ts:1088 | the positions of the kept elements: each in range and kept, strictly increasing, and every kept position present |
| PresentationData.FilterMap | routes/presentations.ts:1088-1089 | filter then map throws iff some presenter is nullish or a kept presenter's mapping throws |
| PresentationData.FilterMapInOrder | routes/presentations.ts:1088-1089 | the result has one entry per kept presenter, in order, each the mapping of that presenter |
| PresentationData.LevelTags | routes/presentations.ts:1087-1090 | throws iff some presenter's level cannot be read or matched; otherwise one tag per presenter with a level, in order, each the label find gives for that level |
| PresentationData.AnswerTags | routes/presentations.ts:1101-1114 | a radio answer gives the one label find gives for it; a checkbox answer must be an array and gives the labels found for its values; it throws iff those throw |
| PresentationData.Concat | routes/presentations.ts:1110-1113 | the reduce concatenation holds exactly the members of the lists |
| PresentationData.ConcatFilterMap | routes/presentations.ts:1108-1114 | a tag is in the concatenated mapped lists iff some kept presenter's mapping gives it |
| PresentationData.PresenterFieldValues | routes/presentations.ts:1102-1114 | throws iff some presenter is nullish or an answering presenter's answer throws; a tag is collected iff some answering presenter's answer gives it |
| PresentationData.Append | routes/presentations.ts:1098-1105 | appending to a label creates the key when missing, extends only that key, and a tag is then under a label iff it was or it was appended there |
| PresentationData.FieldStep | routes/presentations.ts:1097-1116 | an active field adds its label to the keys and its tags under that label; an inactive one changes nothing |
| PresentationData.FieldTags | routes/presentations.ts:1094-1117 | the forEach over the extra fields throws iff some active field's tags throw; otherwise the keys are the old keys plus every active field's label |
| PresentationData.FieldTagsMembers | routes/presentations.ts:1094-1117 | a tag is under a label iff it was before or some active field with that label gives it |
| PresentationData.LevelSection | routes/presentations.ts:1085-1091 | throws iff the level can filter and the presenters are not an array or a level throws; the level label then holds exactly the level tags |
| PresentationData.PresenterFieldsSection | routes/presentations.ts:1093-1117 | throws iff some presenter field is active and the presenters are not an array or its values throw; labels and tags grow by exactly the active fields' |
| PresentationData.SubjectsSection | routes/presentations.ts:1119-1124 | throws iff subjects can filter and the subjects cannot be read or matched; the subjects label then holds exactly the found subjects, overwriting earlier tags, and other labels are kept |
| PresentationData.PresentationFieldsSection | routes/presentations.ts:1126-1143 | throws iff some presentation field is active and the presentation data is nullish or its tags throw; labels and tags grow by exactly the active fields' |
| PresentationData.FilterFieldTags | routes/presentations.ts:1083-1143 | throws iff a section throws; the keys are exactly the labels of the filterable fields, and a tag is under a label iff a section gives it there, the subjects overwriting the presenter sections under their label |
| PresentationData.OmittedFilterSubjectsThrow | routes/presentations.ts:1120-1123 | a displayed, filterable subjects field with no subjects submitted throws |
| PresentationData.FoundIsOption | routes/presentations.ts:1089 | a label find gives is one of the labels searched |
| PresentationData.FindAllOptions | routes/presentations.ts:1138-1140 | every label found for a list is one of the labels searched |
| PresentationData.AnswerTagsOptions | routes/presentations.ts:1101-1114 | every tag of an answer is an option label of its field |
| PresentationData.PresenterFieldValuesOptions | routes/presentations.ts:1102-1114 | every tag collected from the presenters is an option label of the field |
| PresentationData.LevelTagsOptions | routes/presentations.ts:1087-1090 | every level tag is a level option label |
| PresentationData.SectionTagIsOption | routes/presentations.ts:1085-1143 | a tag a section gives under a label is an option of a filterable field with that label |
| PresentationData.DerivedTagsAreOptions | routes/presentations.ts:1083-1143 | every derived tag name is an option label of a filterable field, under that field's label |
| PresentationData.Unique | routes/presentations.ts:1152-1156 | de-duplication keeps exactly the tags of the input and is no longer than it |
| PresentationData.UniqueHasNoDuplicates | routes/presentations.ts:1152-1156 | the de-duplicated list has no repeated tag |
| PresentationData.UniqueKeepsDistinctLists | routes/presentations.ts:1152-1156 | a list without repeats is returned as it is |
| PresentationData.UniquePrefix | routes/presentations.ts:1152-1156 | the first-occurrence order is kept: de-duplicating a prefix gives a prefix of the result |
| PresentationData.Dedupe | routes/presentations.ts:1152-1156 | the loop pushing unseen tags builds the de-duplicated list |
| PresentationData.DedupeAll | routes/presentations.ts:1146-1157 | every label keeps its key and gets its de-duplicated list |
| PresentationData.GetSubmissionFormFilterFieldTags | routes/presentations.ts:1079-1160 | throws iff the tag derivation throws; otherwise each label maps to its derived tags de-duplicated, with no repeats |
| PresentationData.TagIdsToDelete | routes/presentations.ts:631-633 | an existing tag is deleted iff its name is no longer derived under its type |
| PresentationData.TagsToSave | routes/presentations.ts:646-662 | a (label, name) pair is saved iff the name is derived under the label and no existing tag of that type has that name |
| PresentationData.DiffReachesDerivedTags | routes/presentations.ts:645-669 | every derived tag is either saved or already present, and nothing else is saved |
| PresentationData.SaveNewTags | routes/presentations.ts:645-669 | the loop completes iff every derived tag is found, saving exactly the ids of the new pairs; otherwise it stops at a derived tag that is not found, having saved only ids of new pairs |
| PresentationData.Presenters | routes/presentations.ts:329-345 | every listed presenter has a first name, and details beyond the names are included iff the caller is an event admin |
| PresentationData.PresentersStep | routes/presentations.ts:329-345 | one more slot adds one presenter iff its first name is truthy |
| PresentationData.PresentersInSlotOrder | routes/presentations.ts:329-345 | one presenter per slot with a first name, in slot order, each that slot's view |
| PresentationData.BuildPresenters | routes/presentations.ts:431-447 | the loop over the eight slots builds exactly that list |
| PresentationData.RedactionKeepsNames | routes/presentations.ts:336-339 | admins and non-admins get the same presenters with the same first and last names |
| EventConfig.OptionalText | routes/events.ts:720-728 | no error iff an optional descriptive value (hash, label, description) is absent or a string |
| EventConfig.OptionLabelErrors | routes/events.ts:743-747 | no error iff every option label is a string; at most one error per label |
| EventConfig.ChoiceConfigErrors | routes/events.ts:716-749 | a displayed level or subjects field without an option array throws; an accepted one has the expected type (or none), and when displayed a label and a non-empty list of string options |
| EventConfig.FixedFieldErrors | routes/events.ts:811-838 | an accepted title or abstract is present with isDisplayed and isRequired both true; a present one lacking either gets the 'isDisplayed and isRequired must be true' error |
| EventConfig.ExtraFieldConfigErrors | routes/events.ts:768-803 | an accepted extra field has type text, number, wysiwyg, radio or checkbox, and a radio or checkbox field has a non-empty list of string options; a null field throws |
| EventConfig.Then | routes/events.ts:768 | running the next field's checks after the earlier ones: no error iff neither reports one, and it throws iff either throws |
| EventConfig.ExtraFieldsAccepted | routes/events.ts:767-804 | when the list of extra fields is accepted, every field in it is acceptable |
| EventConfig.NullishExtraFieldThrows | routes/events.ts:768-770 | a null entry anywhere in the list makes the check throw |
| EventConfig.CheckExtraFieldConfigs | routes/events.ts:768-803 | the forEach over the fields reports exactly what the specification function does |
| EventConfig.ExtraFieldsThrowPersists | routes/events.ts:768-803 | once a field throws, the later fields change nothing: the result is that throw |
| EventConfig.ExtraFieldsSection | routes/events.ts:767 | an accepted array of extra fields holds only acceptable fields; a non-empty string in its place throws |
| EventConfig.PresenterFieldsErrors | routes/events.ts:694-804 | accepted presenter fields have a maxAddlPresenters from 0 through 7 and only acceptable extra fields; missing presenterFields throws |
| EventConfig.PresentationFieldsErrors | routes/events.ts:806-940 | accepted presentation fields have a valid title and abstract and only acceptable extra fields; missing presentationFields throws |
| EventConfig.GeneralErrors | routes/events.ts:685-692 | reading `general` throws iff the configuration is null or undefined; otherwise at most one error, and none iff general.instructions is a non-empty string |
| EventConfig.MediaErrors | routes/events.ts:950-1007 | a missing media block gives exactly its one missing error; no error iff the block is present, its descriptions and label are strings where given, and a shown block has a label |
| EventConfig.MediaFieldsErrors | routes/events.ts:944-1007 | reading `mediaFields` throws iff the configuration is null or undefined; otherwise no error iff mediaFields is present and the poster, oral and exhibition blocks are each accepted |
| EventConfig.ExtraFieldsConfigErrors | routes/events.ts:767-804 | the checks of every extra field one after the other, stopping at the first throw (its properties are stated in ExtraFieldsAccepted, NullishExtraFieldThrows and ExtraFieldsThrowPersists) |
| EventConfig.ConfigErrors | routes/events.ts:682-1009 | a configuration missing presenterFields or presentationFields throws |
| EventConfig.ConfigAccepted | routes/events.ts:682-1009 | an accepted configuration has maxAddlPresenters from 0 through 7, a displayed and required title and abstract, and only acceptable extra fields in both sections |
| EventConfig.HashesOf | routes/events.ts:1013-1031 | the recorded hashes are every non-empty hash present, and never '' |
| EventConfig.NextFresh | routes/events.ts:1039-1042 | the redraw loop returns a draw not yet recorded, consuming draws from the front |
| EventConfig.AssignList | routes/events.ts:1037-1046 | every newly assigned hash is one of the draws |
| EventConfig.AssignListFails | routes/events.ts:1037-1046 | once the draws run out for a prefix, the whole list fails |
| EventConfig.AssignMissingHashes | routes/events.ts:1037-1046 | in place, the array gets exactly the hashes of the specification function, and the method succeeds iff it does |
| EventConfig.CollectHashes | routes/events.ts:1013-1031 | the loop records exactly the non-empty hashes of the fields, added to those already recorded |
| EventConfig.AssignExtraFieldHashes | routes/events.ts:1011-1062 | in place, both arrays get the hashes the specification function assigns, and the method succeeds iff it does |
| EventConfig.AssignListFresh | routes/events.ts:1037-1046 | existing hashes are kept, and each hashless field gets a hash that is new and distinct from every hash recorded so far |
| EventConfig.AssignAll | routes/events.ts:1011-1062 | the presenter hashes are assigned first, then the presentation hashes with the hashes now in use and the draws left; it fails iff either list runs out of draws (AssignExtraFieldHashes and AssignedHashesUnique state the result) |
| EventConfig.AssignedHashesUnique | routes/events.ts:1011-1062 | after assignment every field has a non-empty hash, existing hashes are unchanged, and every assigned hash differs from every other field's hash |
| EventConfig.OptionTags | routes/events.ts:1069-1071 | one tag per option, each named by the option and carrying the field's label |
| EventConfig.ExtraFieldTags | routes/events.ts:1075-1085 | a tag comes from a displayed, filterable radio or checkbox field's option, and every such option gives one |
| EventConfig.NewFilterTags | routes/events.ts:1064-1108 | the option tags of the filterable level field, the presenter extra fields, the subjects field and the presentation extra fields, in that order, with missing lists read as empty (NewFilterTagsIff states which tags are derived) |
| EventConfig.NewFilterTagsIff | routes/events.ts:1064-1108 | a tag is derived iff the configuration defines it through the level, an extra field or the subjects |
| EventConfig.TagsToAdd | routes/events.ts:1121-1125 | the tags saved are the derived tags without those already stored with the same type and name |
| EventConfig.EveryDefinedTagStored | routes/events.ts:1111-1130 | after saving, every tag the configuration defines is saved now or was already stored |
| FilterTagReads.FilterTagListsAsWritten | routes/events.ts:1075-1095 | the two `extraFields.filter` calls succeed iff both lists are arrays, and then read what FilterTagLists reads |
| FilterTagReads.FilterTagLists | routes/events.ts:1016-1030 | a list is read when it is an array and counts as empty otherwise, as the hash assignment's `extraFields && extraFields.length` guard treats it |
| FilterTagReads.AcceptedConfigGivesAcceptableFields | routes/events.ts:767-940 | every field those lists hand to the tag derivation of an accepted configuration is an acceptable extra field |
| FilterTagReads.EmptyChoiceAccepted | routes/events.ts:716-749 | a level or subjects block that is present and hidden raises no error |
| FilterTagReads.ShownRequiredAccepted | routes/events.ts:811-838 | a title or abstract block that is shown, required and labelled raises no error |
| FilterTagReads.SectionsAccepted | routes/events.ts:682-1009 | a configuration whose four sections raise nothing is accepted as a whole |
| FilterTagReads.GeneralAndMediaAccepted | routes/events.ts:685-1007 | in a configuration without extraFields lists, a non-empty instructions text and three present media blocks raise nothing |
| FilterTagReads.PresenterBlockAccepted | routes/events.ts:694-804 | in a configuration without extraFields lists, the presenter block raises nothing |
| FilterTagReads.PresenterSectionAccepted | routes/events.ts:694-804 | a presenter block with a text title, a count from 0 to 7, an accepted level, a hidden major and no extraFields list raises nothing |
| FilterTagReads.PresentationBlockAccepted | routes/events.ts:806-940 | in a configuration without extraFields lists, the presentation block raises nothing |
| FilterTagReads.PresentationSectionAccepted | routes/events.ts:806-940 | a presentation block with accepted title, abstract and subjects and no extraFields list raises nothing |
| FilterTagReads.WithoutExtraFieldsAccepted | routes/events.ts:682-1009 | getPresentationFormConfigErrors finds no error in a configuration without extraFields lists |
| FilterTagReads.WithoutExtraFieldsHasNoLists | routes/events.ts:1075-1095 | on that configuration the `filter` call throws and the guarded reading finds no fields |
| FilterTagReads.MissingExtraFieldsAcceptedThenThrow | routes/events.ts:548-563 | any configuration built with non-empty texts and no extraFields lists is an object the PUT validator accepts, and the tag derivation as written throws on it, which the PUT answers with 500 |
| EventRoutes.LiveEvents | routes/events.ts:71-72 | the listed events are rows of the input whose uptime has not expired |
| EventRoutes.LiveEventsIff | routes/events.ts:72 | an event is listed iff it is in the input and not expired by uptime |
| EventRoutes.LiveEventsKeepOrder | routes/events.ts:72 | the filter keeps the input order: filtering a concatenation concatenates the filtered parts |
| EventRoutes.LiveEventsShrinkOverTime | routes/events.ts:72 | an event listed at some time was listed at every earlier time |
| EventRoutes.ShownFormConfig | routes/events.ts:240-251 | the shown presentationFormConfig always has JSON type 'object' (null included), and is the parsed value whenever that has it |
| EventRoutes.SingleEventView | routes/events.ts:231-272 | the reply holds the added keys plus exactly the event fields not hidden from the caller, each unchanged, with the parsed form configuration |
| EventRoutes.WhoSeesWhat | routes/events.ts:253-263 | validEmails is shown iff the caller is signed in, subscriptionId iff the caller is an event admin; a signed-in admin sees every field |
| EventRoutes.Status | routes/events.ts:280-425 | the form-configuration permission refusal is the only 403, moving the start of an event that already started the only 409, and every other refusal is a 400 |
| EventRoutes.NextSeparator | routes/events.ts:330 | the next comma or whitespace at or after the position, or the end, with none before it |
| EventRoutes.RunEnd | routes/events.ts:330 | the end of a run of commas and whitespace |
| EventRoutes.SplitEmails | routes/events.ts:330 | splitting on runs of commas and whitespace always yields at least one piece |
| EventRoutes.EmptyEmailIff | routes/events.ts:329-332 | the split has an empty piece iff the text is empty or starts or ends with a separator; a non-empty validEmails is therefore refused iff it starts or ends with a comma or white space |
| EventRoutes.NothingEditedIff | routes/events.ts:312-413 | the edited-field count is 0 iff no field is edited, and never more than 9 |
| EventRoutes.CheckFormConfig | routes/events.ts:369-387 | a new form configuration is accepted iff it parses to an object with no configuration errors |
| EventRoutes.AllowedPrivacyLevel | routes/events.ts:315-323 | a privacyLevel is accepted iff it is 'public' or 'private' in any letter case |
| EventRoutes.CheckBodyFields | routes/events.ts:314-358 | no refusal iff the privacy level, the valid emails, the splash video link and the single splash medium all pass, and then the count is that of the body's edited fields |
| EventRoutes.CheckUpdateFields | routes/events.ts:310-413 | the request proceeds iff every field is valid and at least one is edited, with that many edited fields, and launches now iff the date is 'LAUNCH_NOW' |
| EventRoutes.CheckEventUpdate | routes/events.ts:275-425 | no content type crashes; a form configuration without editor access is 403; a request that passes the field checks and moves the start date of an event whose stored start is already past is 409; otherwise it proceeds iff the form type is multipart, the upload parsed, every field is valid and some field is edited |
| AuthRoutes.DomainMatch | routes/authentication.ts:452 | a match iff the lowered email ends with '@' + domain, or subdomains are allowed and the part after '@' ends with '.' + domain; it throws only when subdomains are allowed and the email has no '@' |
| AuthRoutes.FirstDomainMatch | routes/authentication.ts:451-457 | the loop over one institution's domains matches only if some domain matches, and does not match when none does |
| AuthRoutes.InstitutionMatch | routes/authentication.ts:448 | an institution without ssoEnabled and validEmails is never matched |
| AuthRoutes.SsoLookup | routes/authentication.ts:443-459 | hasSSOEmail holds iff an institution id was recorded |
| AuthRoutes.SsoEmail | routes/authentication.ts:438-462 | the reply is continueNormalAuthenticationFlow = not hasSSOEmail with the recorded institutionId, and it throws iff the lookup throws |
| AuthRoutes.SsoThrowsAt | routes/authentication.ts:447-459 | an institution whose match throws makes the whole lookup throw |
| AuthRoutes.SsoFinishes | routes/authentication.ts:447-459 | when no institution throws the lookup finishes |
| AuthRoutes.SsoNoMatch | routes/authentication.ts:443-461 | with no match the flow continues normally and no institution is reported |
| AuthRoutes.SsoReportsLastMatch | routes/authentication.ts:453-454 | the reported institution is the last matching one |
| AuthRoutes.SubdomainNeedsFlag | routes/authentication.ts:452 | an address on a subdomain of a listed domain matches iff allowSSOSubdomains holds |
| AuthRoutes.AnyDomainSuffix | routes/authentication.ts:768-772 | the domain loop succeeds iff the lowered email ends with '@' + some listed domain |
| AuthRoutes.IsValidInstitutionEmail | routes/authentication.ts:752-774 | true iff all domains are allowed, or the lowered email is specified, or validEmails is non-empty and the lowered email ends with '@' + one of its ', '-separated domains |
| AuthRoutes.InstitutionEmailIgnoresCase | routes/authentication.ts:760-769 | two emails equal up to case are judged alike |
| AuthRoutes.IsEmailPreApprovedForEvent | routes/authentication.ts:777-783 | false without an email or a truthy eventId; otherwise exact membership in the pre-approved list |
| AuthRoutes.PreApprovalIsCaseSensitive | routes/authentication.ts:782 | an email differing from a pre-approved one only in case is not pre-approved |
| AuthRoutes.UserReply | routes/authentication.ts:633-641 | adminEventIds, blockedEventIds and subscriptionIds are added with their values when non-empty and absent otherwise (unless the profile had them); every other profile field is kept |
| AuthRoutes.Profile | routes/authentication.ts:623-632 | the base reply has exactly the eight profile keys |
| AuthRoutes.UserReplyOptionalLists | routes/authentication.ts:623-642 | each optional list appears in the reply iff it is non-empty, next to the profile fields |
| UserEmails.Item | routes/users.ts:168-173 | an item keeps the email and id; isPrimary iff it is the primary email; isVerified iff verifiedAt is set |
| UserEmails.MyEmails | routes/users.ts:165-178 | one item per stored email |
| UserEmails.BuildMyEmails | routes/users.ts:165-178 | the loop doing unshift and push builds exactly that list |
| UserEmails.ItemsWhere | routes/users.ts:171 | the selected items all have the requested isPrimary |
| UserEmails.MyEmailsPrimaryFirst | routes/users.ts:175-176 | the list is the primary items (latest first) followed by the others in their original order |
| UserEmails.PrimaryListedFirst | routes/users.ts:175-176 | with one primary email, it comes first and the rest keep their order |
| UserEmails.DeleteEmailGuard | routes/users.ts:366-375 | 404 when the email is not found, then 403 when it belongs to someone else, then 400 when it is the primary; otherwise it proceeds |
| UserEmails.SetPrimaryGuard | routes/users.ts:249-256 | 404 when not found, then 403 when not owned, then 400 when unverified; otherwise it proceeds |
| UserEmails.SendCodeGuard | routes/users.ts:302-317 | 404, then 403; an owned email gets a verification code iff it is unverified |
| UserEmails.GuardsShareOwnershipChecks | routes/users.ts:249-253 | delete, set-primary and send-code refuse with 404 or 403 on the same requests |
| UserEmails.AddEmail | routes/users.ts:204-221 | 403 iff a Firebase user or a verified record has the email; otherwise it inserts iff there is no record and reassigns iff the record is another consumer's |
| UserEmails.AddEmailClaimsAddress | routes/users.ts:214-221 | after adding, the email belongs to the caller unverified and no other record changes |
| LiveSessions.Status | routes/liveSessions.ts:130-218 | only an unknown session is a 404; every other refusal of the PUT route is a 400 |
| LiveSessions.PutAcceptsPostLinks | routes/liveSessions.ts:171-183 | every link the POST route accepts is accepted by the PUT route |
| LiveSessions.DigitHostOnlyInPut | routes/liveSessions.ts:178 | a link whose host starts with a digit is accepted by PUT and refused by POST |
| LiveSessions.PostLiveSession | routes/liveSessions.ts:22-96 | a missing title is refused first; the row is inserted iff every check passes, with a missing sessionEnd stored as null, the trimmed link, link type 'link' and the body's eventId or else the query's |
| LiveSessions.PostCheckOrder | routes/liveSessions.ts:29-74 | a link is judged invalid only after title, start and presence of the link pass, and the description only after the link is accepted |
| LiveSessions.PutFieldFailure | routes/liveSessions.ts:143-198 | a field failure is one of the five field refusals |
| LiveSessions.EditedFields | routes/liveSessions.ts:141-197 | at most five fields are counted |
| LiveSessions.NoEditedFieldsIff | routes/liveSessions.ts:141-197 | the counter is 0 iff no field is edited |
| LiveSessions.QueryObject | routes/liveSessions.ts:223-246 | the fixed keys are always present; link, title, sessionStart and description iff truthy; sessionEnd iff not undefined, with its value; the link trimmed |
| LiveSessions.CheckPutFields | routes/liveSessions.ts:141-198 | the loop of checks reports the first failing field, and with none counts exactly the edited fields |
| LiveSessions.BuildQueryObject | routes/liveSessions.ts:223-246 | the object filled key by key is the update object |
| LiveSessions.PutLiveSession | routes/liveSessions.ts:128-251 | a non-numeric id is refused first, then the first field failure, then an unknown session (404), then "no fields"; otherwise the update runs with the update object |
| LiveSessions.NotFoundBeforeNoFields | routes/liveSessions.ts:206-218 | a body editing nothing passes the field checks, so an unknown session is reported as 404 before "no fields" |
| LiveSessions.NullEndAloneIsNoEdit | routes/liveSessions.ts:161-169 | a body holding only sessionEnd null counts no edit although its update object would clear the end |
| LiveSessions.ReorderCheck | routes/liveSessions.ts:312-317 | a non-array crashes; the request is refused iff some id is not a number; otherwise the ids are passed on unchanged |
| AltPresentations.VideoIdPiece | routes/alternative-presentations.ts:225-238 | the piece is a suffix of the link without the separator ('be/' for youtu.be links, 'v=' otherwise), and is the whole link or follows the last separator |
| AltPresentations.FirstAmpersand | routes/alternative-presentations.ts:235-240 | the index of the first '&', or none when there is no '&' |
| AltPresentations.ParseYouTubeLink | routes/alternative-presentations.ts:225-242 | the id has no '&', is a prefix of the piece, and is the whole piece or stops just before an '&' |
| AltPresentations.PieceWithoutAmpersandIsId | routes/alternative-presentations.ts:235-240 | a piece without '&' is returned whole |
| AltPresentations.ParseIsIdempotent | routes/alternative-presentations.ts:225-242 | parsing an id that holds no separator again leaves it unchanged |
| AltPresentations.YouTubeId | routes/alternative-presentations.ts:225-228 | a string link is parsed; any other value throws |
| AltPresentations.NullStrings | routes/alternative-presentations.ts:76 | same keys; every 'null' string becomes null and every other value is kept |
| AltPresentations.NullStringsIdempotent | routes/alternative-presentations.ts:76 | mapping 'null' strings twice is mapping them once |
| AltPresentations.DebugType | routes/alternative-presentations.ts:79-82 | the lowered type, with the long exhibit name shortened to 'exhibit' |
| AltPresentations.StoredType | routes/alternative-presentations.ts:83-94 | poster is stored as pdf, exhibit as video, oral as pdf iff a file was uploaded and video otherwise; other types are kept |
| AltPresentations.TypeMappingIgnoresCase | routes/alternative-presentations.ts:79-94 | types equal up to case get the same debug type and, when known, the same stored type |
| AltPresentations.LongExhibitNameIsVideo | routes/alternative-presentations.ts:80-90 | the long exhibit name in any case is an exhibit stored as video |
| AltPresentations.OralWithFileIsPdf | routes/alternative-presentations.ts:88-94 | an oral talk with a file is always stored as pdf |
| AltPresentations.MediaFields | routes/alternative-presentations.ts:95-112 | a pdf gets exactly posterId and slidesId set to the hash and a null originalPosterLink; otherwise it succeeds iff the link (exhibit link 1 for an exhibit, the oral link else) is a string, and then exactly posterId and presentationVideoId get its parsed id and both originals the link |
| AltPresentations.MediaFieldsKeep | routes/alternative-presentations.ts:95-112 | every key other than the five media keys keeps its value and its presence |
| AltPresentations.VoiceOverFields | routes/alternative-presentations.ts:113-123 | each of the three branches (poster with a link, oral with a file, exhibit with a second link) throws iff its link is not a string and otherwise writes exactly the parsed id and the link; no branch taken leaves the presentation unchanged |
| AltPresentations.VoiceOverFieldsKeep | routes/alternative-presentations.ts:113-123 | keys other than the voice-over keys, and the video keys unless an oral talk has a file, keep their values and presence |
| AltPresentations.TypedSteps | routes/alternative-presentations.ts:79-125 | the two types, media, voice-over and hash steps succeed iff the needed links are strings, and leave both types and the hash in place |
| AltPresentations.StepsInOrder | routes/alternative-presentations.ts:95-125 | the steps are the media step, then the voice-over step, then the hash, each succeeding |
| AltPresentations.TypesKeepLinks | routes/alternative-presentations.ts:79-94 | writing the two types leaves every link the later steps read unchanged |
| AltPresentations.MediaKeepsLinks | routes/alternative-presentations.ts:95-112 | the media step leaves the voice-over links and both types unchanged |
| AltPresentations.StepsMediaFields | routes/alternative-presentations.ts:95-125 | after the steps a pdf holds the hash as poster and slides and a null original poster link; a video holds the parsed link as poster and video id and the link as both originals |
| AltPresentations.StepsVoiceOverFields | routes/alternative-presentations.ts:113-125 | after the steps each voice-over branch taken leaves its parsed id and link in place |
| AltPresentations.TypedPresentation | routes/alternative-presentations.ts:76-125 | a presentationType that is not a string throws; otherwise it succeeds iff the media link (unless pdf) and the voice-over link are strings, and holds the debug type, the stored type and the hash |
| AltPresentations.TypedMediaFields | routes/alternative-presentations.ts:76-125 | the typed presentation carries the hash (pdf) or the parsed media link (video) in the media keys |
| AltPresentations.TypedVoiceOverFields | routes/alternative-presentations.ts:76-125 | the typed presentation carries the parsed voice-over link of the branch taken |
| AltPresentations.PresenterEntry | routes/alternative-presentations.ts:137-142 | succeeds iff the presenter is not nullish, and then adds exactly the five presenter(i+2) keys with the presenter's first name, last name, email, year(i+2) and major |
| AltPresentations.PresenterFieldsInSlot | routes/alternative-presentations.ts:138-142 | every key an entry writes belongs to its own slot |
| AltPresentations.LaterSlotKeeps | routes/alternative-presentations.ts:137-142 | writing a later presenter's keys leaves an earlier presenter's keys as they were |
| AltPresentations.NotifyEmails | routes/alternative-presentations.ts:133-148 | the list starts with the submitter's email and every added email is truthy |
| AltPresentations.WithPresenters | routes/alternative-presentations.ts:137-148 | the presenter loop succeeds iff no presenter is nullish |
| AltPresentations.WithPresentersFillsSlots | routes/alternative-presentations.ts:137-148 | after the loop every presenter k's five keys hold entry k's values |
| AltPresentations.WithPresentersKeepsOthers | routes/alternative-presentations.ts:137-142 | keys not starting with 'presenter' are neither added nor changed by the presenter loop |
| AltPresentations.AddPresenters | routes/alternative-presentations.ts:133-148 | the loop succeeds iff the presenter map does, with the same presentation and the notify list |
| AltPresentations.SkippedPresenterFails | routes/alternative-presentations.ts:138 | one nullish presenter makes the whole insert throw |
| AltPresentations.NotifyEmailsExact | routes/alternative-presentations.ts:145-147 | every truthy presenter email is notified, and every notified email after the first is a presenter's |
| AltPresentations.FinalDebugType | routes/alternative-presentations.ts:128-130 | the final debug type is never 'exhibit', and other types are kept |
| AltPresentations.ConsentFlag | routes/alternative-presentations.ts:152-154 | a truthy consent text becomes 1 iff it is 'true' and 0 otherwise; a falsy one is untouched |
| AltPresentations.SubmissionFormExtraValues | routes/alternative-presentations.ts:156-168 | succeeds iff each truthy SWACSM field parses; the result has an empty presenters list and, under the two fixed hashes, exactly the parsed truthy fields |
| AltPresentations.ExtraValuesReadSwacsmFields | routes/alternative-presentations.ts:156-166 | the extra values depend on the two SWACSM fields alone |
| AltPresentations.SwacsmFieldsAreTyped | routes/alternative-presentations.ts:156-166 | the SWACSM fields are not written after typing and are not presenter keys |
| AltPresentations.AfterTyping | routes/alternative-presentations.ts:126-168 | the saved presentation has no additionalPresenters key, and the notify list is the submitter's email and the truthy presenter emails |
| AltPresentations.AfterTypingSucceedsIff | routes/alternative-presentations.ts:126-168 | succeeds iff the subject and presenter JSON parse, the presenters are an array of non-nullish entries and the extra values parse |
| AltPresentations.AfterTypingExtraValues | routes/alternative-presentations.ts:156-168 | the stored submissionFormExtraValues are those of the typed SWACSM fields |
| AltPresentations.AfterTypingKeeps | routes/alternative-presentations.ts:126-168 | a typed key no later step writes is stored unchanged, present iff it was |
| AltPresentations.AfterTypingPresenters | routes/alternative-presentations.ts:137-149 | every additional presenter k is stored in slot k + 2 |
| AltPresentations.AfterTypingRenamesExhibit | routes/alternative-presentations.ts:128-130 | the stored debug type is the typed one with 'exhibit' renamed 'exhibition' |
| AltPresentations.PreparePresentation | routes/alternative-presentations.ts:73-168 | throws when typing throws; a prepared presentation has no additionalPresenters key and notifies the submitter and the truthy presenter emails |
| AltPresentations.PrepareSucceedsIff | routes/alternative-presentations.ts:73-168 | the insert succeeds iff typing succeeds, both JSON fields parse, the presenters are non-nullish entries of an array and the extra values parse |
| AltPresentations.PreparedExtraValues | routes/alternative-presentations.ts:156-168 | the stored extra values are those of the typed SWACSM fields |
| AltPresentations.PreparedKeepsTypedFields | routes/alternative-presentations.ts:73-168 | a typed key no later step writes is stored as typed |
| AltPresentations.PreparedPresenters | routes/alternative-presentations.ts:137-149 | every additional presenter k is stored in slot k + 2 |
| AltPresentations.PdfUsesHash | routes/alternative-presentations.ts:84-99 | a pdf presentation is stored as type pdf with the hash as hash, posterId and slidesId and a null originalPosterLink |
| AltPresentations.VideoUsesParsedLink | routes/alternative-presentations.ts:100-112 | a video presentation stores the parsed link as poster and video id and the link as both originals |
| AltPresentations.ExhibitIsRenamed | routes/alternative-presentations.ts:79-130 | a prepared presentation stores the final debug type of its lowered type, never 'exhibit' |
| AltPresentations.UnparsableSwacsmFieldThrows | routes/alternative-presentations.ts:160-161 | a truthy SWACSM type that does not parse makes the insert throw before saving |
| SqlClauses.DropLastTwo | shared-queries.ts:1064 | `slice(0, -2)` drops the last two characters, and gives the empty string for shorter text |
| SqlClauses.AppendedIsJoin | shared-queries.ts:1060-1064 | appending ', ' after each fragment is joining them with ', ' plus one trailing ', ' |
| SqlClauses.EventFragmentCases | shared-queries.ts:1018-1058 | a key gives a fragment iff it is one of the twelve event columns; a splash column whose value is 'NULL' gives the literal NULL, every other column `col = :col` |
| SqlClauses.EventFragments | shared-queries.ts:1017-1061 | at most one fragment per key |
| SqlClauses.AppendEventFragments | shared-queries.ts:1015-1061 | the forEach loop appends exactly the fragments of the recognised keys, in key order, each followed by ', ' |
| SqlClauses.UpdateEvent | shared-queries.ts:1014-1066 | the built statement is the head, the appended fragments less the final two characters, and the WHERE clause |
| SqlClauses.UpdateEventSql | shared-queries.ts:1014-1066 | the statement updateEvent sends (UpdateEvent, UpdateEventJoins and UpdateEventWithoutColumns state its shape) |
| SqlClauses.UpdateEventJoins | shared-queries.ts:1014-1066 | with some recognised key the statement sets exactly the fragments joined by ', ' |
| SqlClauses.UpdateEventWithoutColumns | shared-queries.ts:1064-1066 | with no recognised key the slice cuts into the head, leaving 'UPDATE event SE' before the WHERE clause |
| SqlClauses.NoEventFragments | shared-queries.ts:1055-1057 | there is no fragment iff no key is an event column |
| SqlClauses.SplashNullIsLiteral | shared-queries.ts:1043-1051 | a splash column holding 'NULL' is written as the literal NULL |
| SqlClauses.PrivacyFragments | shared-queries.ts:1090-1101 | every fragment of the deprecated-event builder sets privacyLevel |
| SqlClauses.UpdateDeprecatedEvent | shared-queries.ts:1086-1110 | a statement is built iff privacyLevel is truthy |
| SqlClauses.SinglePrivacyFragment | shared-queries.ts:1090-1101 | with distinct keys one of which is privacyLevel, there is exactly one fragment |
| SqlClauses.NoPrivacyFragment | shared-queries.ts:1095-1097 | without a privacyLevel key there is no fragment |
| SqlClauses.DeprecatedEventStatement | shared-queries.ts:1086-1108 | with distinct keys and a truthy privacyLevel the statement sets privacyLevel alone |
| SqlClauses.AppendSetList | shared-queries.ts:1319-1347 | the forEach loop builds exactly the recognised fragments, each followed by ', ' unless its key is the last key |
| SqlClauses.UpdateLiveSession | shared-queries.ts:1316-1349 | the statement is the head, that list of column fragments and the WHERE clause |
| SqlClauses.Fragments | shared-queries.ts:1320-1342 | at most one fragment per key |
| SqlClauses.SetListBeforeLast | shared-queries.ts:1344-1346 | before the last key every recognised fragment is followed by ', ' |
| SqlClauses.SetListLastRecognised | shared-queries.ts:1344-1346 | when the last key is recognised the fragments are joined by ', ' with nothing trailing |
| SqlClauses.SetListLastSkipped | shared-queries.ts:1339-1346 | when the last key is not recognised, a ', ' is left dangling after the joined fragments |
| SqlClauses.Padded | shared-queries.ts:148-159 | the presenters are kept, then blank presenters fill the list to eight; a longer list is unchanged |
| SqlClauses.PresenterArray.PadToEight | shared-queries.ts:148-159 | the push loop leaves the array padded to eight |
| SqlClauses.ColumnValue | shared-queries.ts:164-168 | Year and Major are the presenter's level and major when truthy and the string 'NULL' otherwise |
| SqlClauses.AdditionalPresenterValues | shared-queries.ts:161-169 | the loop fills exactly the map of presenter values |
| SqlClauses.AddlValuesExact | shared-queries.ts:162-169 | the values are bound for presenters 2 to n and no other, each from the presenter at n - 1 |
| SqlClauses.InsertClauseNumbers | shared-queries.ts:70-77 | insertPresentation writes one clause per additional presenter, numbered from 2 |
| SqlClauses.PaddingBindsEveryClause | shared-queries.ts:139-169 | after padding, every one of the seven fixed clauses of updatePresentation has all its values bound, the padded ones blank |
| SqlClauses.BlankColumns | shared-queries.ts:151-157 | a blank presenter binds null names and email and the string 'NULL' for year and major |
| SqlClauses.InsertEventDefaults | shared-queries.ts:1775-1785 | a falsy endDate is stored as null and a falsy privacyLevel as 'private'; truthy values are kept |
| SqlClauses.DefaultPrivacyIsTruthy | shared-queries.ts:1784 | the stored privacyLevel is always truthy |
| SqlClauses.EventIdsFromRows | shared-queries.ts:897-903 | an empty row array gives [], a non-empty one goes through rowsToArray, anything else gives null |
| SqlClauses.EventIdsOfArrayAreArray | shared-queries.ts:897-903 | for an array of rows the ids are always an array |
| SqlClauses.LookupByEventIds | shared-queries.ts:946-950 | no query is made iff the id list is empty, and otherwise the ids are passed on |
| RowHelpers.FirstOrDefault | backend/functions.ts:4-10 | the first element of a non-empty array, and null for anything else |
| RowHelpers.Column | backend/functions.ts:15 | mapping the rows succeeds iff no row is nullish, giving each row's value under the key, in order |
| RowHelpers.RowsToArray | backend/functions.ts:12-18 | anything but a non-empty array gives null; a non-empty array throws iff its key column cannot be read, and otherwise gives that column, in row order, as an array |
| RowHelpers.RowsToArrayIsKeyColumn | backend/functions.ts:12-18 | a non-empty array throws iff some row is null or undefined, and otherwise gives each row's value under the key, in row order |
| RowHelpers.WithoutNulls | backend/functions.ts:23-27 | exactly the keys whose value is not null, undefined or NaN are kept, with their values |
| RowHelpers.DiscardNulls | backend/functions.ts:20-30 | an object keeps its non-empty values; anything else gives an empty object |
| RowHelpers.WithoutNullsIdempotent | backend/functions.ts:24 | discarding twice is discarding once, and 0, '' and false are kept |
| RowHelpers.AggregateRowValuesAsObject | backend/functions.ts:42-58 | every row of the array is replaced in place by its aggregated form |
| RowHelpers.NestMovesColumns | backend/functions.ts:47-57 | the nested object holds each mapped column's value, those columns are left undefined in the row, and every other column is untouched |
| RowHelpers.MimeTypeLookupAsWritten | backend/functions.ts:154-162 | the lookup reaches an inherited member exactly when the lowered type names one |
| RowHelpers.InheritedMemberLeaks | backend/functions.ts:161 | 'Constructor' and '__proto__' reach inherited members instead of an extension |
| RowHelpers.GetMimeTypeExtension | backend/functions.ts:154-162 | the lowered type image/jpeg gives '.jpg', image/png '.png', image/gif '.gif' and image/tiff '.tiff'; every other type gives '' |
| RowHelpers.MimeTypeIgnoresCase | backend/functions.ts:161 | types equal up to case get the same extension, and off the inherited names the lookup as written agrees with it |
| QueryFormat.WordEnd | backend/database.ts:38 | the end of the run of word characters starting at the position |
| QueryFormat.ReplaceIds | backend/database.ts:37-45 | the `::name` pass: a known name becomes its escaped identifier and an unknown one is kept (KnownIdentifier and UnknownIdentifierKept state it) |
| QueryFormat.ReplaceValues | backend/database.ts:48-58 | the `:name` pass: a known name becomes its escaped value and an unknown one NULL (ValuePlaceholder and NoPlaceholderUnchanged state it) |
| QueryFormat.QueryFormat | backend/database.ts:33-34 | without values the query is returned unchanged |
| QueryFormat.NoPlaceholderUnchanged | backend/database.ts:36-58 | text without ':' passes both replacement passes unchanged |
| QueryFormat.WordEndOfPlaceholder | backend/database.ts:38 | the placeholder name is matched whole |
| QueryFormat.ValuePlaceholder | backend/database.ts:48-58 | a `:name` becomes the escaped value when the key is present and NULL otherwise, and the rest is processed on |
| QueryFormat.UnknownIdentifierKept | backend/database.ts:37-45 | the `::name` pass keeps an unknown name as it is and carries on after it |
| QueryFormat.UnknownIdentifierBecomesNull | backend/database.ts:37-58 | for any text after it that still leaves the name a whole placeholder once the first pass has run over it, an unknown `::name` is kept by the first pass and then reads as ':' followed by the `:name` placeholder, which becomes NULL in the second |
| QueryFormat.KnownIdentifier | backend/database.ts:37-45 | a known `::name` becomes the escaped identifier |
| EventImages.ThumbnailName | services/eventImages.service.ts:146-157 | a name with more than one '.' throws 'Invalid file name', and a name without '.' throws |
| EventImages.ThumbnailOfSimpleName | services/eventImages.service.ts:153-156 | 'name.ext' becomes 'name_thumb.ext' |
| EventImages.NameWithoutDotThrows | services/eventImages.service.ts:154-156 | a name without '.' throws, its extension being undefined |
| EventImages.FilesToUnlink | services/eventImages.service.ts:31-36 | no empty path is unlinked |
| EventImages.NonEmptyPaths | services/eventImages.service.ts:36 | exactly the non-empty paths are kept |
| EventImages.UnlinkAttempts | services/eventImages.service.ts:36-41 | the files unlinked are a prefix of the list, and all of them when no unlink fails |
| EventImages.CleanTempFolderUnlinks | services/eventImages.service.ts:27-43 | only non-empty paths are unlinked, and all of them when no unlink fails |
| EventImages.ThumbnailOptions | services/eventImages.service.ts:69-78 | the caller's options override the defaults key by key, and no other key appears |
| EventImages.BaseStart | services/eventImages.service.ts:66 | the basename starts just after the last '/' |
| EventImages.DefaultOutputBesideInput | services/eventImages.service.ts:66-67 | without an output (or with an empty one) the thumbnail is 'thumb_' + basename in the input's directory |
| EventImages.ThumbnailOutput | services/eventImages.service.ts:65-67 | the caller's output when it is non-empty, else `thumb_` plus the file name in the input's directory (stated in DefaultOutputBesideInput) |
| EventImages.Basename | services/eventImages.service.ts:66 | the base name is a suffix of the path holding no '/' |
| EventImages.Dirname | services/eventImages.service.ts:67 | a path without '/' has directory '.'; otherwise, away from the root, the path is the directory, '/', and the base name |
| EventImages.BaseStartOfName | services/eventImages.service.ts:66 | the basename of a directory plus a name is that name |
| EventImages.SplashImagesToDelete | services/eventImages.service.ts:130-134 | every listed file except fileToKeep is deleted, and nothing else |
| RandomStr.Pick | backend/helpers/random-str.utils.ts:2 | `Math.floor(r * n)` of a draw lies in 0 to n - 1 |
| RandomStr.CharFor | backend/helpers/random-str.utils.ts:17-28 | kind 0 gives an uppercase letter, kind 1 a lowercase letter, kinds 2 and 3 a digit |
| RandomStr.RandomChars | backend/helpers/random-str.utils.ts:16-29 | n characters, the i-th from draws 2i and 2i+1 |
| RandomStr.GenerateRandomString | backend/helpers/random-str.utils.ts:13-32 | the loop builds exactly the six characters of the twelve draws, in draw order |
| RandomStr.RandomStringShape | backend/helpers/random-str.utils.ts:14-29 | the result has six characters, each an ASCII letter or digit |
| ServerPort.DigitPrefix | www.ts:53 | the longest prefix made of decimal digits |
| ServerPort.ParseInt | www.ts:53 | `parseInt(val, 10)`: NaN when no digit follows the white space and sign, otherwise the signed value of the leading digits (NormalizePort and DecimalPortReadBack state its use) |
| ServerPort.NormalizePort | www.ts:52-66 | a NaN parse returns the input, a non-negative port the number, a negative one false; it never throws |
| ServerPort.DecimalPortReadBack | www.ts:53-63 | a decimal port string is returned as its number |
| ServerPort.DigitsAreTheirOwnPrefix | www.ts:53 | a string of digits is its own digit prefix |
| ServerPort.PipeNamesKept | www.ts:55-58 | a path starting with '/' is returned as a named pipe |
| ConsumerNames.GetConsumerNames | models/consumer.ts:19-21 | one name per consumer, in order, each first name, a space and last name |
| ConsumerNames.ConsumerNamesKeepOrder | models/consumer.ts:20 | the names of a concatenation are the concatenation of the names |

## Left out

- Database, Firebase, Google Cloud Storage, SendGrid, Stripe and SAML calls are not modelled. Their results are parameters: a row that may be missing is an `Option`, and a read that may fail is a `Lookup`.
- `Date.parse`, `new URL`, `JSON.parse`, `isValidEmail`, `isValidYouTubeLink`, `escape`/`escapeId` and the `uniqueString` draws are parameters, because they are library code.
- The `Math.random()` draws of `generateRandomString` and the formidable upload paths are inputs.
- Floating-point numbers are not modelled: numbers are integers plus NaN. Time is integer milliseconds in UTC, so time zones are left out.
- Case mapping is ASCII-only. Unicode case folding is not modelled.
- Concurrency and the order in which awaited calls interleave are not modelled.
- Js.ToNumber: `Number(...)` reads strings as plain decimal digit strings only. Signs, exponents, hexadecimal and surrounding white space give NaN in the model. A one-element array is read through its element, as JavaScript does.
- Js.Length: only strings and arrays have a length. A plain object with a numeric `length` key, such as `{"0": 1, "length": 1}`, is read as having none.
- PresentationForms.Elements: an array-like object such as `{"0": {...}, "length": 1}` has no elements in the model, and `At` reads `undefined` from it. The source's `for (i < v.length)` loops and `v[0]` reads visit its numbered keys.
- EventConfig.ExtraFieldsSection: an `extraFields` of `{"length": 1}` counts as having no length and is accepted. The source passes its guard, throws at `.forEach`, and answers 400 through the catch at routes/events.ts:382-384.
- ServerPort.NormalizePort: `parseInt` is read as white space, a sign and decimal digits. Other radix prefixes are not modelled.
- RowHelpers.DiscardNulls: a non-object input gives `{}`. The index keys JavaScript would copy from an array or a string are not modelled.
- EventImages.DefaultOutputBesideInput: `path.basename` and `path.dirname` are modelled for POSIX paths that do not end in '/'. Repeated leading slashes are not kept: the model's directory of "//a" is "/", where Node gives "//".
- EventImages.CleanTempFolderUnlinks: the unlink itself is a parameter that may fail.
- LiveSessions.PutLiveSession: the handler repeats the id check after the field checks. The model checks the id once, because the repeat can never fire.
- LiveSessions.QueryObject: a JavaScript object is modelled as a map. Key order matters only to `updateLiveSession`, which takes the ordered key list as its own input.
- PresentationData.SaveNewTags: the tag lookup is a parameter, and each insert is recorded as the tag id it saves rather than performed.
- SqlClauses.AddlValuesExact: the bound values are keyed by presenter number and column rather than by the concatenated parameter name.
- AuthRoutes.SsoEmail: the SQL lookup of the e-mail's institutions is a parameter. The address is a plain string.
- EventRoutes.SingleEventView: modelled as a function of the event row. Its reads are parameters.
- RowHelpers.AggregateRowValuesAsObject: rows are values in an array. Aliasing between a row and other references to it is not modelled.
- The enum file that lists the privacy levels is not part of this model. The two accepted levels are written out in `EventRoutes.AllowedPrivacyLevel`.
- `sendConfirmationEmail` is e-mail I/O and is not modelled. This includes its loop, which sends one message to `presenterEmails[x + 1]` past the end of the list.
- The GET and DELETE live-session routes only read and delete rows, so they are left out.
- Express wiring, server start-up, file compression and thumbnail rendering are not modelled, because they are I/O.
- Subscription purchase and payment flows are not modelled, because they are Stripe I/O.

## Findings

| source | as written | input that shows it | evidently intended | confidence | as-written member | corrected member |
|---|---|---|---|---|---|---|
| middlewares/subscription.middleware.ts:37 | the quota guard passes the caller's `consumerId` to `isSubscriptionLimitExceeded`, which takes a subscription id | subscription 7 has used its one event; the caller's consumerId is 3, and subscription 3's quota shows no events used; the request is let through | the guard reads the quota of the subscription it just loaded (`subscriptionId`), as `createEventGuard` does at line 69 | not executed | SubscriptionGuards.SubscriptionLimitMiddleware (QuotaOfConsumerLetsExhaustedSubscriptionThrough) | SubscriptionGuards.SubscriptionLimitMiddlewareBySubscription (ExhaustedSubscriptionRefused) |
| backend/functions.ts:161 | `knownTypes[mimeType.toLowerCase()]` indexes a plain object, so inherited members such as `constructor` are found too | `getMimeTypeExtension('Constructor')` returns the Object constructor function instead of '' | only the four image MIME types give an extension; every other type gives '' | not executed | RowHelpers.MimeTypeLookupAsWritten (InheritedMemberLeaks) | RowHelpers.GetMimeTypeExtension (MimeTypeIgnoresCase) |
| routes/events.ts:1075 | `config.presenterFields.extraFields.filter(...)`, and the same call on `presentationFields` at line 1095, run without the `extraFields && extraFields.length` guard that the validator (lines 767 and 905) and the hash assignment (line 1016) put around the optional lists | a configuration with every required block and no `extraFields` list passes validation; the tag derivation then throws on `undefined.filter`, and the PUT answers 500 through the catch at lines 558-563 | a missing list contributes no tags, as it contributes no errors and no hashes | not executed | FilterTagReads.FilterTagListsAsWritten (MissingExtraFieldsAcceptedThenThrow) | FilterTagReads.FilterTagLists (AcceptedConfigGivesAcceptableFields) |

=== FILE: alt_presentations.dfy ===
// The field mapping of POST / in routes/alternative-presentations.ts: the
// 'null' strings, the presentation-type mapping, the YouTube-id parsing, the
// media fields, and the additional presenters. `JSON.parse` is a parameter;
// storage, the tag rows and the confirmation e-mails are not modelled.

module AltPresentations {
  import opened Js

  // ------------------------------------------------------------ parseYouTubeLink

  /** The text after the last separator: `'be/'` for youtu.be links, `'v='` otherwise. */
  function VideoIdPiece(link: string): (piece: string)
    ensures var sep := if Includes(link, "https://youtu.be") then "be/" else "v=";
      EndsWith(link, piece) && !Includes(piece, sep)
      && (piece == link || EndsWith(link, sep + piece))
  {
    var sep := if Includes(link, "https://youtu.be") then "be/" else "v=";
    SplitLastIsSuffix(link, sep);
    SplitPiecesFree(link, sep);
    LastPiece(link, sep)
  }

  /** The index of the first '&', if any. */
  function FirstAmpersand(s: string): (r: Option<nat>)
    ensures r.Some? ==> r.value < |s| && s[r.value] == '&' && Lacks(s[..r.value], '&')
    ensures r.None? ==> Lacks(s, '&')
  {
    if |s| == 0 then None
    else if s[0] == '&' then Some(0)
    else
      match FirstAmpersand(s[1..])
      case None => None
      case Some(i) =>
        assert s[..i + 1] == [s[0]] + s[1..][..i];
        Some(i + 1)
  }

  /** parseYouTubeLink: the piece after the last separator, cut at its first '&'. */
  function ParseYouTubeLink(link: string): (videoId: string)
    ensures Lacks(videoId, '&')
    ensures StartsWith(VideoIdPiece(link), videoId)
    ensures videoId == VideoIdPiece(link) || VideoIdPiece(link)[|videoId|] == '&'
  {
    var piece := VideoIdPiece(link);
    if piece == "" then piece
    else
      match FirstAmpersand(piece)
      case None => piece
      case Some(i) => piece[..i]
  }

  /** A piece without '&' is the id itself. */
  lemma PieceWithoutAmpersandIsId(link: string)
    requires Lacks(VideoIdPiece(link), '&')
    ensures ParseYouTubeLink(link) == VideoIdPiece(link)
  {
    if VideoIdPiece(link) != "" {
      assert FirstAmpersand(VideoIdPiece(link)).None?;
    }
  }

  /** Parsing an id again gives the id back when it has no separator of its own. */
  lemma ParseIsIdempotent(link: string)
    requires !Includes(ParseYouTubeLink(link), "https://youtu.be")
    requires !Includes(ParseYouTubeLink(link), "v=")
    ensures ParseYouTubeLink(ParseYouTubeLink(link)) == ParseYouTubeLink(link)
  {
    var id := ParseYouTubeLink(link);
    assert IndexOfFrom(id, "v=", 0).None?;
    assert Split(id, "v=") == [id];
    assert VideoIdPiece(id) == id;
    PieceWithoutAmpersandIsId(id);
  }

  /** `presentation.x.includes(...)` on a body value: only strings have it; otherwise a TypeError. */
  function YouTubeId(link: Val): (r: Result<string>)
    ensures r.Ok? <==> link.Str?
    ensures link.Str? ==> r.value == ParseYouTubeLink(link.s)
  {
    if link.Str? then Ok(ParseYouTubeLink(link.s)) else Thrown("TypeError")
  }

  // ------------------------------------------------------------ 'null' strings

  /** `_.mapValues(presentation, value => value === 'null' ? null : value)` */
  function NullStrings(body: map<string, Val>): (r: map<string, Val>)
    ensures r.Keys == body.Keys
    ensures forall k | k in r :: r[k] != Str("null")
    ensures forall k | k in body && body[k] != Str("null") :: r[k] == body[k]
    ensures forall k | k in body && body[k] == Str("null") :: r[k] == Null
  {
    map k | k in body :: if body[k] == Str("null") then Null else body[k]
  }

  lemma NullStringsIdempotent(body: map<string, Val>)
    ensures NullStrings(NullStrings(body)) == NullStrings(body)
  {
  }

  // ------------------------------------------------------------ type mapping

  const ExhibitLongName := "exhibit, performance, or demonstration"

  /** The debug type: the lower-cased type, with the long exhibit name shortened. */
  function DebugType(presentationType: string): (debug: string)
    ensures Lower(presentationType) == ExhibitLongName ==> debug == "exhibit"
    ensures Lower(presentationType) != ExhibitLongName ==> debug == Lower(presentationType)
  {
    var lower := Lower(presentationType);
    if lower == ExhibitLongName then "exhibit" else lower
  }

  /** The stored type: poster is pdf, exhibit is video, oral is pdf iff a file came with it; any other type is kept as sent. */
  function StoredType(presentationType: string, hasFile: bool): (t: string)
    ensures DebugType(presentationType) == "poster" ==> t == "pdf"
    ensures DebugType(presentationType) == "exhibit" ==> t == "video"
    ensures DebugType(presentationType) == "oral" ==> (t == "pdf" <==> hasFile) && (t == "video" <==> !hasFile)
    ensures DebugType(presentationType) !in {"poster", "exhibit", "oral"} ==> t == presentationType
  {
    var debug := DebugType(presentationType);
    if debug == "poster" then "pdf"
    else if debug == "exhibit" then "video"
    else if debug == "oral" then (if hasFile then "pdf" else "video")
    else presentationType
  }

  /** The mapping ignores case: only the stored type of an unknown type depends on how it was written. */
  lemma TypeMappingIgnoresCase(a: string, b: string, hasFile: bool)
    requires EqualsIgnoreCase(a, b)
    ensures DebugType(a) == DebugType(b)
    ensures DebugType(a) in {"poster", "exhibit", "oral"} ==> StoredType(a, hasFile) == StoredType(b, hasFile)
  {
  }

  /** The long exhibit name in any case is stored as a video with debug type 'exhibit'. */
  lemma LongExhibitNameIsVideo(presentationType: string, hasFile: bool)
    requires Lower(presentationType) == ExhibitLongName
    ensures DebugType(presentationType) == "exhibit" && StoredType(presentationType, hasFile) == "video"
  {
  }

  // ------------------------------------------------------------ media fields

  function Field(p: map<string, Val>, key: string): Val
  {
    if key in p then p[key] else Undefined
  }

  /** The presentation holds `key` with value `v`. */
  predicate Holds(q: map<string, Val>, key: string, v: Val)
  {
    key in q && q[key] == v
  }

  /** Writing fields one after another is merging them over the presentation, the later write winning. */
  lemma Merge2<K, V>(p: map<K, V>, a: K, x: V, b: K, y: V)
    ensures p[a := x][b := y] == p + map[a := x, b := y]
  {
  }

  lemma Merge3<K, V>(p: map<K, V>, a: K, x: V, b: K, y: V, c: K, z: V)
    ensures p[a := x][b := y][c := z] == p + map[a := x, b := y, c := z]
  {
  }

  lemma Merge4<K, V>(p: map<K, V>, a: K, x: V, b: K, y: V, c: K, z: V, d: K, w: V)
    ensures p[a := x][b := y][c := z][d := w] == p + map[a := x, b := y, c := z, d := w]
  {
  }

  lemma Merge5<K, V>(p: map<K, V>, a: K, x: V, b: K, y: V, c: K, z: V, d: K, w: V, e: K, v: V)
    ensures p[a := x][b := y][c := z][d := w][e := v] == p + map[a := x, b := y, c := z, d := w, e := v]
  {
  }

  /** The link a video is read from: an exhibit's first link, any other type's oral link. */
  function MediaLink(p: map<string, Val>, debug: string): Val
  {
    Field(p, if debug == "exhibit" then "exhibitYouTubeLink1" else "oralYouTubeLink")
  }

  /**
   * The poster/slides/video fields: a pdf gets the hash and no original
   * poster link; anything else gets the parsed YouTube link as poster and
   * video, and the link itself as both originals. No other field changes.
   */
  function MediaFields(p: map<string, Val>, hash: string, debug: string, storedType: string): (r: Result<map<string, Val>>)
    ensures storedType == "pdf" ==>
      r == Ok(p + map["posterId" := Str(hash), "slidesId" := Str(hash), "originalPosterLink" := Null])
    ensures storedType != "pdf" ==> (r.Ok? <==> MediaLink(p, debug).Str?)
    ensures storedType != "pdf" && r.Ok? ==>
      var link := MediaLink(p, debug);
      link.Str?
      && r.value == p + map["posterId" := Str(ParseYouTubeLink(link.s)), "originalPosterLink" := link,
                            "presentationVideoId" := Str(ParseYouTubeLink(link.s)), "originalPresentationVideoLink" := link]
  {
    if storedType == "pdf" then
      Merge3(p, "posterId", Str(hash), "slidesId", Str(hash), "originalPosterLink", Null);
      Ok(p["posterId" := Str(hash)]["slidesId" := Str(hash)]["originalPosterLink" := Null])
    else
      var link := MediaLink(p, debug);
      var id :- YouTubeId(link);
      Merge4(p, "posterId", Str(id), "originalPosterLink", link, "presentationVideoId", Str(id), "originalPresentationVideoLink", link);
      Ok(p["posterId" := Str(id)]["originalPosterLink" := link]["presentationVideoId" := Str(id)]["originalPresentationVideoLink" := link])
  }

  /** The link the voice-over step parses, if it parses one, is a string (so `includes` does not throw). */
  predicate VoiceOverLinkIsString(p: map<string, Val>, debug: string, hasFile: bool)
  {
    if debug == "poster" && Truthy(Field(p, "posterYouTubeLink")) then Field(p, "posterYouTubeLink").Str?
    else if debug == "oral" && hasFile then Field(p, "oralYouTubeLink").Str?
    else if debug == "exhibit" && Truthy(Field(p, "exhibitYouTubeLink2")) then Field(p, "exhibitYouTubeLink2").Str?
    else true
  }

  /**
   * The voice-over fields: a poster's link or an exhibit's second link
   * becomes the voice-over; an oral talk with a file takes its video from
   * the oral link. Each branch throws iff its link is not a string.
   */
  function VoiceOverFields(p: map<string, Val>, debug: string, hasFile: bool): (r: Result<map<string, Val>>)
    ensures r.Ok? <==> VoiceOverLinkIsString(p, debug, hasFile)
    ensures debug == "poster" && Truthy(Field(p, "posterYouTubeLink")) ==>
      var link := Field(p, "posterYouTubeLink");
      (r.Ok? <==> link.Str?)
      && (r.Ok? ==> link.Str? && r.value == p + map["voiceOverId" := Str(ParseYouTubeLink(link.s)), "originalVoiceOverLink" := link])
    ensures debug == "oral" && hasFile ==>
      var link := Field(p, "oralYouTubeLink");
      (r.Ok? <==> link.Str?)
      && (r.Ok? ==> link.Str? && r.value == p + map["presentationVideoId" := Str(ParseYouTubeLink(link.s)), "originalPresentationVideoLink" := link])
    ensures debug == "exhibit" && Truthy(Field(p, "exhibitYouTubeLink2")) ==>
      var link := Field(p, "exhibitYouTubeLink2");
      (r.Ok? <==> link.Str?)
      && (r.Ok? ==> link.Str? && r.value == p + map["voiceOverId" := Str(ParseYouTubeLink(link.s)), "originalVoiceOverLink" := link])
    ensures (!(debug == "poster" && Truthy(Field(p, "posterYouTubeLink"))) && !(debug == "oral" && hasFile)
             && !(debug == "exhibit" && Truthy(Field(p, "exhibitYouTubeLink2")))) ==> r == Ok(p)
  {
    if debug == "poster" && Truthy(Field(p, "posterYouTubeLink")) then
      var id :- YouTubeId(Field(p, "posterYouTubeLink"));
      Merge2(p, "voiceOverId", Str(id), "originalVoiceOverLink", Field(p, "posterYouTubeLink"));
      Ok(p["voiceOverId" := Str(id)]["originalVoiceOverLink" := Field(p, "posterYouTubeLink")])
    else if debug == "oral" && hasFile then
      var id :- YouTubeId(Field(p, "oralYouTubeLink"));
      Merge2(p, "presentationVideoId", Str(id), "originalPresentationVideoLink", Field(p, "oralYouTubeLink"));
      Ok(p["presentationVideoId" := Str(id)]["originalPresentationVideoLink" := Field(p, "oralYouTubeLink")])
    else if debug == "exhibit" && Truthy(Field(p, "exhibitYouTubeLink2")) then
      var id :- YouTubeId(Field(p, "exhibitYouTubeLink2"));
      Merge2(p, "voiceOverId", Str(id), "originalVoiceOverLink", Field(p, "exhibitYouTubeLink2"));
      Ok(p["voiceOverId" := Str(id)]["originalVoiceOverLink" := Field(p, "exhibitYouTubeLink2")])
    else Ok(p)
  }

  /** The media step writes the poster, slides and video fields and nothing else. */
  lemma MediaFieldsKeep(p: map<string, Val>, hash: string, debug: string, storedType: string, key: string)
    requires MediaFields(p, hash, debug, storedType).Ok?
    requires key !in {"posterId", "slidesId", "originalPosterLink", "presentationVideoId", "originalPresentationVideoLink"}
    ensures Field(MediaFields(p, hash, debug, storedType).value, key) == Field(p, key)
    ensures key in MediaFields(p, hash, debug, storedType).value <==> key in p
  {
    if storedType == "pdf" {
      PdfMediaKeeps(p, hash, debug, key);
    } else {
      VideoMediaKeeps(p, hash, debug, storedType, key);
    }
  }

  lemma PdfMediaKeeps(p: map<string, Val>, hash: string, debug: string, key: string)
    requires key !in {"posterId", "slidesId", "originalPosterLink"}
    ensures var q := MediaFields(p, hash, debug, "pdf").value;
      Field(q, key) == Field(p, key) && (key in q <==> key in p)
  {
  }

  lemma VideoMediaKeeps(p: map<string, Val>, hash: string, debug: string, storedType: string, key: string)
    requires storedType != "pdf" && MediaFields(p, hash, debug, storedType).Ok?
    requires key !in {"posterId", "originalPosterLink", "presentationVideoId", "originalPresentationVideoLink"}
    ensures var q := MediaFields(p, hash, debug, storedType).value;
      Field(q, key) == Field(p, key) && (key in q <==> key in p)
  {
    var link := MediaLink(p, debug);
    VideoKeysKeep(p, Str(ParseYouTubeLink(link.s)), link, key);
  }

  lemma VideoKeysKeep(p: map<string, Val>, id: Val, link: Val, key: string)
    requires key !in {"posterId", "originalPosterLink", "presentationVideoId", "originalPresentationVideoLink"}
    ensures var q := p + map["posterId" := id, "originalPosterLink" := link, "presentationVideoId" := id, "originalPresentationVideoLink" := link];
      Field(q, key) == Field(p, key) && (key in q <==> key in p)
  {
  }

  /** The voice-over step writes the voice-over fields, and the video fields of an oral talk with a file, and nothing else. */
  lemma VoiceOverFieldsKeep(p: map<string, Val>, debug: string, hasFile: bool, key: string)
    requires VoiceOverFields(p, debug, hasFile).Ok?
    requires key !in {"voiceOverId", "originalVoiceOverLink"}
    requires key in {"presentationVideoId", "originalPresentationVideoLink"} ==> !(debug == "oral" && hasFile)
    ensures Field(VoiceOverFields(p, debug, hasFile).value, key) == Field(p, key)
    ensures key in VoiceOverFields(p, debug, hasFile).value <==> key in p
  {
  }

  // ------------------------------------------------------------ additional presenters

  /** `'presenter' + (index + 2) + suffix` */
  function PresenterKey(index: nat, suffix: string): string
  {
    "presenter" + NatToString(index + 2) + suffix
  }

  /** `key` names a field of presenter `index`: 'presenter', the digits of index + 2, then a non-digit. */
  predicate InSlot(key: string, index: nat)
  {
    var digits := NatToString(index + 2);
    9 + |digits| < |key| && key[..9] == "presenter" && key[9..9 + |digits|] == digits && !IsDigit(key[9 + |digits|])
  }

  /** A key names a field of one presenter at most. */
  lemma SlotsDisjoint(key: string, i: nat, j: nat)
    ensures InSlot(key, i) && InSlot(key, j) ==> i == j
  {
    if InSlot(key, i) && InSlot(key, j) {
      var a, b := NatToString(i + 2), NatToString(j + 2);
      var u := key[9..];
      assert forall k | 0 <= k < |a| :: u[k] == a[k];
      assert forall k | 0 <= k < |b| :: u[k] == b[k];
      assert !IsDigit(u[|a|]) && !IsDigit(u[|b|]);
      assert |a| == |b|;
      assert a == u[..|a|] == b;
      NatToStringRoundTrip(i + 2);
      NatToStringRoundTrip(j + 2);
    }
  }

  /** `'presenter' + (index + 2) + suffix` names a field of presenter `index` when the suffix starts with a letter. */
  lemma PresenterKeyInSlot(index: nat, suffix: string)
    requires |suffix| > 0 && !IsDigit(suffix[0])
    ensures InSlot(PresenterKey(index, suffix), index)
  {
    var digits := NatToString(index + 2);
    var key := PresenterKey(index, suffix);
    assert key == "presenter" + digits + suffix;
    assert key[9..9 + |digits|] == digits;
    assert key[9 + |digits|] == suffix[0];
  }

  /** Two fields of the same presenter have the same key only when they have the same suffix. */
  lemma SameSlotKeys(index: nat, s: string, t: string)
    ensures PresenterKey(index, s) == PresenterKey(index, t) ==> s == t
  {
    var prefix := "presenter" + NatToString(index + 2);
    assert PresenterKey(index, s) == prefix + s && PresenterKey(index, t) == prefix + t;
    assert (prefix + s)[|prefix|..] == s && (prefix + t)[|prefix|..] == t;
  }

  /** The five fields presenter `index` fills, numbered index + 2; the year is read from `'year' + (index + 2)`. */
  function PresenterFields(presenter: Val, index: nat): map<string, Val>
  {
    map[PresenterKey(index, "FirstName") := OptGet(presenter, "firstName"),
        PresenterKey(index, "LastName") := OptGet(presenter, "lastName"),
        PresenterKey(index, "Email") := OptGet(presenter, "email"),
        PresenterKey(index, "Year") := OptGet(presenter, "year" + NatToString(index + 2)),
        PresenterKey(index, "Major") := OptGet(presenter, "majorOrDepartment")]
  }

  /** The five keys are distinct, so each field gets its own value. */
  lemma PresenterFieldValues(presenter: Val, index: nat)
    ensures var fields := PresenterFields(presenter, index);
      Holds(fields, PresenterKey(index, "FirstName"), OptGet(presenter, "firstName"))
      && Holds(fields, PresenterKey(index, "LastName"), OptGet(presenter, "lastName"))
      && Holds(fields, PresenterKey(index, "Email"), OptGet(presenter, "email"))
      && Holds(fields, PresenterKey(index, "Year"), OptGet(presenter, "year" + NatToString(index + 2)))
      && Holds(fields, PresenterKey(index, "Major"), OptGet(presenter, "majorOrDepartment"))
  {
    SameSlotKeys(index, "FirstName", "LastName");
    SameSlotKeys(index, "FirstName", "Email");
    SameSlotKeys(index, "FirstName", "Year");
    SameSlotKeys(index, "FirstName", "Major");
    SameSlotKeys(index, "LastName", "Email");
    SameSlotKeys(index, "LastName", "Year");
    SameSlotKeys(index, "LastName", "Major");
    SameSlotKeys(index, "Email", "Year");
    SameSlotKeys(index, "Email", "Major");
    SameSlotKeys(index, "Year", "Major");
  }

  /** Every key presenter `index` fills names a field of that presenter. */
  lemma PresenterFieldsInSlot(presenter: Val, index: nat)
    ensures forall key | key in PresenterFields(presenter, index) :: InSlot(key, index)
  {
    PresenterKeyInSlot(index, "FirstName");
    PresenterKeyInSlot(index, "LastName");
    PresenterKeyInSlot(index, "Email");
    PresenterKeyInSlot(index, "Year");
    PresenterKeyInSlot(index, "Major");
  }

  /** `q` holds every field of `w`. */
  predicate Agrees(q: map<string, Val>, w: map<string, Val>)
  {
    forall key | key in w :: key in q && q[key] == w[key]
  }

  /** The presentation holds presenter `index`'s five fields. */
  predicate HoldsPresenter(q: map<string, Val>, presenter: Val, index: nat)
  {
    Agrees(q, PresenterFields(presenter, index))
  }

  /** The five fields of one additional presenter; a nullish entry throws on `.firstName`. */
  function PresenterEntry(p: map<string, Val>, presenter: Val, index: nat): (r: Result<map<string, Val>>)
    ensures r.Ok? <==> !Nullish(presenter)
    ensures r.Ok? ==> r.value == p + PresenterFields(presenter, index)
    ensures r.Ok? ==> HoldsPresenter(r.value, presenter, index)
  {
    if Nullish(presenter) then Thrown("TypeError")
    else
      Merge5(p, PresenterKey(index, "FirstName"), OptGet(presenter, "firstName"),
                PresenterKey(index, "LastName"), OptGet(presenter, "lastName"),
                PresenterKey(index, "Email"), OptGet(presenter, "email"),
                PresenterKey(index, "Year"), OptGet(presenter, "year" + NatToString(index + 2)),
                PresenterKey(index, "Major"), OptGet(presenter, "majorOrDepartment"));
      var withFirst := p[PresenterKey(index, "FirstName") := OptGet(presenter, "firstName")];
      var withLast := withFirst[PresenterKey(index, "LastName") := OptGet(presenter, "lastName")];
      var withEmail := withLast[PresenterKey(index, "Email") := OptGet(presenter, "email")];
      var withYear := withEmail[PresenterKey(index, "Year") := OptGet(presenter, "year" + NatToString(index + 2))];
      Ok(withYear[PresenterKey(index, "Major") := OptGet(presenter, "majorOrDepartment")])
  }

  /** The notification list after the first `count` presenters: the submitter, then each truthy additional e-mail in order. */
  function NotifyEmails(email: Val, presenters: seq<Val>): (r: seq<Val>)
    ensures |r| >= 1 && r[0] == email
    ensures forall k | 1 <= k < |r| :: Truthy(r[k])
  {
    if |presenters| == 0 then [email]
    else
      var n := |presenters| - 1;
      var e := OptGet(presenters[n], "email");
      NotifyEmails(email, presenters[..n]) + (if Truthy(e) then [e] else [])
  }

  /** The presentation after the `forEach` over the first entries. */
  function WithPresenters(p: map<string, Val>, presenters: seq<Val>): (r: Result<map<string, Val>>)
    ensures r.Ok? <==> forall k | 0 <= k < |presenters| :: !Nullish(presenters[k])
  {
    if |presenters| == 0 then Ok(p)
    else
      var n := |presenters| - 1;
      assert forall k | 0 <= k < n :: presenters[..n][k] == presenters[k];
      var before :- WithPresenters(p, presenters[..n]);
      PresenterEntry(before, presenters[n], n)
  }

  /** After the loop, presenter k's five fields hold the values of entry k, for every k: a later entry never overwrites an earlier one. */
  lemma {:induction false} WithPresentersFillsSlots(p: map<string, Val>, presenters: seq<Val>)
    requires WithPresenters(p, presenters).Ok?
    ensures forall k | 0 <= k < |presenters| :: HoldsPresenter(WithPresenters(p, presenters).value, presenters[k], k)
  {
    if |presenters| > 0 {
      var n := |presenters| - 1;
      var prefix := presenters[..n];
      assert forall k | 0 <= k < n :: prefix[k] == presenters[k];
      WithPresentersFillsSlots(p, prefix);
      var before := WithPresenters(p, prefix).value;
      var fields := PresenterFields(presenters[n], n);
      assert WithPresenters(p, presenters).value == before + fields;
      forall k | 0 <= k < n
        ensures Agrees(before + fields, PresenterFields(presenters[k], k))
      {
        assert HoldsPresenter(before, prefix[k], k);
        LaterSlotKeeps(before, presenters[k], k, presenters[n], n);
      }
    }
  }

  /** Writing a later presenter's fields leaves an earlier presenter's fields as they were. */
  lemma LaterSlotKeeps(before: map<string, Val>, earlier: Val, k: nat, later: Val, n: nat)
    requires k != n
    requires Agrees(before, PresenterFields(earlier, k))
    ensures Agrees(before + PresenterFields(later, n), PresenterFields(earlier, k))
  {
    PresenterFieldsInSlot(earlier, k);
    PresenterFieldsInSlot(later, n);
    forall key | key in PresenterFields(earlier, k)
      ensures key !in PresenterFields(later, n)
    {
      SlotsDisjoint(key, k, n);
    }
  }

  /** The `forEach` over the parsed additional presenters, filling presenter i+2 and the notification list. */
  method AddPresenters(p: map<string, Val>, email: Val, presenters: seq<Val>) returns (r: Result<map<string, Val>>, presenterEmails: seq<Val>)
    ensures r.Ok? <==> WithPresenters(p, presenters).Ok?
    ensures r.Ok? ==> r == WithPresenters(p, presenters)
    ensures r.Ok? ==> presenterEmails == NotifyEmails(email, presenters)
  {
    var presentation := p;
    presenterEmails := [email];
    for index := 0 to |presenters|
      invariant WithPresenters(p, presenters[..index]) == Ok(presentation)
      invariant presenterEmails == NotifyEmails(email, presenters[..index])
    {
      assert presenters[..index + 1][..index] == presenters[..index];
      var additional := presenters[index];
      if Nullish(additional) {
        SkippedPresenterFails(p, presenters, index);
        return Thrown("TypeError"), presenterEmails;
      }
      var entry := PresenterEntry(presentation, additional, index);
      assert WithPresenters(p, presenters[..index + 1]) == entry;
      presentation := entry.value;
      ghost var e := OptGet(additional, "email");
      assert NotifyEmails(email, presenters[..index + 1]) == presenterEmails + (if Truthy(e) then [e] else []);
      if Truthy(OptGet(additional, "email")) {
        presenterEmails := presenterEmails + [OptGet(additional, "email")];
      }
    }
    assert presenters[..|presenters|] == presenters;
    r := Ok(presentation);
  }

  lemma SkippedPresenterFails(p: map<string, Val>, presenters: seq<Val>, index: nat)
    requires index < |presenters| && Nullish(presenters[index])
    ensures WithPresenters(p, presenters).Thrown?
  {
  }

  /** Each truthy additional e-mail is notified, and nothing but the submitter and those e-mails is. */
  lemma {:induction false} NotifyEmailsExact(email: Val, presenters: seq<Val>)
    ensures forall k | 0 <= k < |presenters| && Truthy(OptGet(presenters[k], "email")) :: OptGet(presenters[k], "email") in NotifyEmails(email, presenters)
    ensures forall e | e in NotifyEmails(email, presenters)[1..] :: exists k | 0 <= k < |presenters| :: e == OptGet(presenters[k], "email")
  {
    if |presenters| > 0 {
      var n := |presenters| - 1;
      var prefix := presenters[..n];
      NotifyEmailsExact(email, prefix);
      var before := NotifyEmails(email, prefix);
      var e := OptGet(presenters[n], "email");
      var r := NotifyEmails(email, presenters);
      assert r == before + (if Truthy(e) then [e] else []);
      forall k | 0 <= k < |presenters| && Truthy(OptGet(presenters[k], "email"))
        ensures OptGet(presenters[k], "email") in r
      {
        if k < n {
          assert presenters[k] == prefix[k];
        }
      }
      forall x | x in r[1..]
        ensures exists k | 0 <= k < |presenters| :: x == OptGet(presenters[k], "email")
      {
        if x in before[1..] {
          var k :| 0 <= k < |prefix| && x == OptGet(prefix[k], "email");
          assert prefix[k] == presenters[k];
        } else {
          assert r[1..] == before[1..] + (if Truthy(e) then [e] else []);
          assert x == e;
        }
      }
    }
  }

  /** The presenter loop writes only `presenterN...` keys. */
  lemma {:induction false} WithPresentersKeepsOthers(p: map<string, Val>, presenters: seq<Val>, key: string)
    requires !StartsWith(key, "presenter")
    requires WithPresenters(p, presenters).Ok?
    ensures Field(WithPresenters(p, presenters).value, key) == Field(p, key)
    ensures key in WithPresenters(p, presenters).value <==> key in p
  {
    if |presenters| > 0 {
      var n := |presenters| - 1;
      WithPresentersKeepsOthers(p, presenters[..n], key);
      PresenterEntryKeeps(WithPresenters(p, presenters[..n]).value, presenters[n], n, key);
    }
  }


  /** One presenter entry writes only that presenter's keys. */
  lemma PresenterEntryKeeps(p: map<string, Val>, presenter: Val, index: nat, key: string)
    requires !StartsWith(key, "presenter")
    requires PresenterEntry(p, presenter, index).Ok?
    ensures Field(PresenterEntry(p, presenter, index).value, key) == Field(p, key)
    ensures key in PresenterEntry(p, presenter, index).value <==> key in p
  {
    PresenterFieldsInSlot(presenter, index);
    assert key !in PresenterFields(presenter, index);
  }

  // ------------------------------------------------------------ handleDatabaseInsert

  /** The debug type saved in the end: 'exhibit' is renamed 'exhibition'. */
  function FinalDebugType(debug: string): (r: string)
    ensures r != "exhibit"
    ensures debug != "exhibit" ==> r == debug
  {
    if debug == "exhibit" then "exhibition" else debug
  }

  /** `supervisorConsentText`: a truthy value becomes 1 when it is the string "true" and 0 otherwise. */
  function ConsentFlag(p: map<string, Val>): (r: map<string, Val>)
    ensures Truthy(Field(p, "supervisorConsentText")) ==> r == p["supervisorConsentText" := Num(if Field(p, "supervisorConsentText") == Str("true") then 1 else 0)]
    ensures !Truthy(Field(p, "supervisorConsentText")) ==> r == p
  {
    var consent := Field(p, "supervisorConsentText");
    if Truthy(consent) then p["supervisorConsentText" := Num(if consent == Str("true") then 1 else 0)] else p
  }

  /** Writing the two types leaves every link the later steps read as it was. */
  lemma TypesKeepLinks(p0: map<string, Val>, debug: string, stored: string, hasFile: bool)
    ensures var p1 := p0["debugPresentationType" := Str(debug)]["presentationType" := Str(stored)];
      MediaLink(p1, debug) == MediaLink(p0, debug)
      && VoiceOverLinkIsString(p1, debug, hasFile) == VoiceOverLinkIsString(p0, debug, hasFile)
      && Field(p1, "debugPresentationType") == Str(debug)
      && Field(p1, "presentationType") == Str(stored)
  {
  }

  /** The media step leaves the voice-over links and the two types as they were. */
  lemma MediaKeepsLinks(p1: map<string, Val>, hash: string, debug: string, stored: string, hasFile: bool)
    requires MediaFields(p1, hash, debug, stored).Ok?
    ensures var p2 := MediaFields(p1, hash, debug, stored).value;
      VoiceOverLinkIsString(p2, debug, hasFile) == VoiceOverLinkIsString(p1, debug, hasFile)
      && Field(p2, "debugPresentationType") == Field(p1, "debugPresentationType")
      && Field(p2, "presentationType") == Field(p1, "presentationType")
  {
    MediaFieldsKeep(p1, hash, debug, stored, "posterYouTubeLink");
    MediaFieldsKeep(p1, hash, debug, stored, "oralYouTubeLink");
    MediaFieldsKeep(p1, hash, debug, stored, "exhibitYouTubeLink2");
    MediaFieldsKeep(p1, hash, debug, stored, "debugPresentationType");
    MediaFieldsKeep(p1, hash, debug, stored, "presentationType");
  }

  /**
   * The steps after the type check, for a given debug and stored type:
   * both types, the media fields, the voice-over fields and the hash. It
   * throws iff a link it parses is not a string.
   */
  function TypedSteps(p0: map<string, Val>, debug: string, stored: string, hash: string, hasFile: bool): (r: Result<map<string, Val>>)
    ensures r.Ok? <==> (stored == "pdf" || MediaLink(p0, debug).Str?) && VoiceOverLinkIsString(p0, debug, hasFile)
    ensures r.Ok? ==> Holds(r.value, "debugPresentationType", Str(debug))
                      && Holds(r.value, "presentationType", Str(stored))
                      && Holds(r.value, "hash", Str(hash))
  {
    var p1 := p0["debugPresentationType" := Str(debug)]["presentationType" := Str(stored)];
    TypesKeepLinks(p0, debug, stored, hasFile);
    var p2 :- MediaFields(p1, hash, debug, stored);
    MediaKeepsLinks(p1, hash, debug, stored, hasFile);
    var p3 :- VoiceOverFields(p2, debug, hasFile);
    VoiceOverFieldsKeep(p2, debug, hasFile, "debugPresentationType");
    VoiceOverFieldsKeep(p2, debug, hasFile, "presentationType");
    Ok(p3["hash" := Str(hash)])
  }

  /**
   * The typed presentation: 'null' strings mapped, debug and stored types,
   * media and voice-over fields, and the hash. It throws when the type is not
   * a string, or when a link it parses is not one.
   */
  function TypedPresentation(body: map<string, Val>, hash: string, hasFile: bool): (r: Result<map<string, Val>>)
    ensures !Field(NullStrings(body), "presentationType").Str? ==> r.Thrown?
    ensures var p0 := NullStrings(body);
      var raw := Field(p0, "presentationType");
      raw.Str? ==>
        var debug := DebugType(raw.s);
        var stored := StoredType(raw.s, hasFile);
        (r.Ok? <==> (stored == "pdf" || MediaLink(p0, debug).Str?) && VoiceOverLinkIsString(p0, debug, hasFile))
        && (r.Ok? ==> Holds(r.value, "debugPresentationType", Str(debug))
                      && Holds(r.value, "presentationType", Str(stored))
                      && Holds(r.value, "hash", Str(hash)))
  {
    var p0 := NullStrings(body);
    var rawType := Field(p0, "presentationType");
    if !rawType.Str? then Thrown("TypeError")
    else TypedSteps(p0, DebugType(rawType.s), StoredType(rawType.s, hasFile), hash, hasFile)
  }

  /** The three steps of `TypedSteps` one after the other, each of them succeeding. */
  lemma StepsInOrder(p0: map<string, Val>, debug: string, stored: string, hash: string, hasFile: bool)
    requires TypedSteps(p0, debug, stored, hash, hasFile).Ok?
    ensures var p1 := p0["debugPresentationType" := Str(debug)]["presentationType" := Str(stored)];
      MediaFields(p1, hash, debug, stored).Ok?
      && var p2 := MediaFields(p1, hash, debug, stored).value;
         VoiceOverFields(p2, debug, hasFile).Ok?
         && TypedSteps(p0, debug, stored, hash, hasFile).value == VoiceOverFields(p2, debug, hasFile).value["hash" := Str(hash)]
  {
  }

  lemma MediaWritesPdf(p: map<string, Val>, hash: string, debug: string, stored: string)
    requires stored == "pdf"
    ensures var q := MediaFields(p, hash, debug, stored).value;
         Holds(q, "posterId", Str(hash)) && Holds(q, "slidesId", Str(hash)) && Holds(q, "originalPosterLink", Null)
  {
  }

  lemma MediaWritesVideo(p: map<string, Val>, hash: string, debug: string, stored: string)
    requires MediaFields(p, hash, debug, stored).Ok?
    requires stored != "pdf"
    ensures var q := MediaFields(p, hash, debug, stored).value;
      var link := MediaLink(p, debug);
            link.Str?
            && Holds(q, "posterId", Str(ParseYouTubeLink(link.s))) && Holds(q, "originalPosterLink", link)
            && Holds(q, "presentationVideoId", Str(ParseYouTubeLink(link.s))) && Holds(q, "originalPresentationVideoLink", link)
  {
  }

  /** The fields the voice-over step writes, as `Holds` facts. */
  lemma VoiceOverWrites(p: map<string, Val>, debug: string, hasFile: bool)
    requires VoiceOverFields(p, debug, hasFile).Ok?
    ensures var q := VoiceOverFields(p, debug, hasFile).value;
      var posterLink := Field(p, "posterYouTubeLink");
      var oralLink := Field(p, "oralYouTubeLink");
      var exhibitLink := Field(p, "exhibitYouTubeLink2");
      (debug == "poster" && Truthy(posterLink) ==>
         posterLink.Str? && Holds(q, "voiceOverId", Str(ParseYouTubeLink(posterLink.s))) && Holds(q, "originalVoiceOverLink", posterLink))
      && (debug == "oral" && hasFile ==>
            oralLink.Str? && Holds(q, "presentationVideoId", Str(ParseYouTubeLink(oralLink.s))) && Holds(q, "originalPresentationVideoLink", oralLink))
      && (debug == "exhibit" && Truthy(exhibitLink) ==>
            exhibitLink.Str? && Holds(q, "voiceOverId", Str(ParseYouTubeLink(exhibitLink.s))) && Holds(q, "originalVoiceOverLink", exhibitLink))
  {
  }

  /** A field other than the hash holds after the last step iff it held after the voice-over step. */
  lemma HashKeeps(q: map<string, Val>, hash: string, key: string, v: Val)
    requires key != "hash"
    ensures Holds(q["hash" := Str(hash)], key, v) <==> Holds(q, key, v)
  {
  }

  /** What the steps leave from the media step: the hash for a pdf, the parsed link otherwise. */
  lemma StepsMediaFields(p0: map<string, Val>, debug: string, stored: string, hash: string, hasFile: bool)
    requires TypedSteps(p0, debug, stored, hash, hasFile).Ok?
    requires debug == "oral" && hasFile ==> stored == "pdf"
    ensures var q := TypedSteps(p0, debug, stored, hash, hasFile).value;
      var link := MediaLink(p0, debug);
      (stored == "pdf" ==>
         Holds(q, "posterId", Str(hash)) && Holds(q, "slidesId", Str(hash)) && Holds(q, "originalPosterLink", Null))
      && (stored != "pdf" ==>
            link.Str?
            && Holds(q, "posterId", Str(ParseYouTubeLink(link.s))) && Holds(q, "originalPosterLink", link)
            && Holds(q, "presentationVideoId", Str(ParseYouTubeLink(link.s))) && Holds(q, "originalPresentationVideoLink", link))
  {
    var p1 := p0["debugPresentationType" := Str(debug)]["presentationType" := Str(stored)];
    TypesKeepLinks(p0, debug, stored, hasFile);
    StepsInOrder(p0, debug, stored, hash, hasFile);
    if stored == "pdf" { MediaWritesPdf(p1, hash, debug, stored); } else { MediaWritesVideo(p1, hash, debug, stored); }
    var p2 := MediaFields(p1, hash, debug, stored).value;
    var p3 := VoiceOverFields(p2, debug, hasFile).value;
    var link := MediaLink(p0, debug);
    if stored == "pdf" {
      VoiceOverFieldsKeep(p2, debug, hasFile, "posterId");
      VoiceOverFieldsKeep(p2, debug, hasFile, "slidesId");
      VoiceOverFieldsKeep(p2, debug, hasFile, "originalPosterLink");
      HashKeeps(p3, hash, "posterId", Str(hash));
      HashKeeps(p3, hash, "slidesId", Str(hash));
      HashKeeps(p3, hash, "originalPosterLink", Null);
    } else {
      var id := Str(ParseYouTubeLink(link.s));
      VoiceOverFieldsKeep(p2, debug, hasFile, "posterId");
      VoiceOverFieldsKeep(p2, debug, hasFile, "originalPosterLink");
      VoiceOverFieldsKeep(p2, debug, hasFile, "presentationVideoId");
      VoiceOverFieldsKeep(p2, debug, hasFile, "originalPresentationVideoLink");
      HashKeeps(p3, hash, "posterId", id);
      HashKeeps(p3, hash, "originalPosterLink", link);
      HashKeeps(p3, hash, "presentationVideoId", id);
      HashKeeps(p3, hash, "originalPresentationVideoLink", link);
    }
  }

  /** What the steps leave from the voice-over step, branch by branch. */
  lemma StepsVoiceOverFields(p0: map<string, Val>, debug: string, stored: string, hash: string, hasFile: bool)
    requires TypedSteps(p0, debug, stored, hash, hasFile).Ok?
    ensures var q := TypedSteps(p0, debug, stored, hash, hasFile).value;
      var posterLink := Field(p0, "posterYouTubeLink");
      var oralLink := Field(p0, "oralYouTubeLink");
      var exhibitLink := Field(p0, "exhibitYouTubeLink2");
      (debug == "poster" && Truthy(posterLink) ==>
         posterLink.Str? && Holds(q, "voiceOverId", Str(ParseYouTubeLink(posterLink.s))) && Holds(q, "originalVoiceOverLink", posterLink))
      && (debug == "oral" && hasFile ==>
            oralLink.Str? && Holds(q, "presentationVideoId", Str(ParseYouTubeLink(oralLink.s))) && Holds(q, "originalPresentationVideoLink", oralLink))
      && (debug == "exhibit" && Truthy(exhibitLink) ==>
            exhibitLink.Str? && Holds(q, "voiceOverId", Str(ParseYouTubeLink(exhibitLink.s))) && Holds(q, "originalVoiceOverLink", exhibitLink))
  {
    var p1 := p0["debugPresentationType" := Str(debug)]["presentationType" := Str(stored)];
    StepsInOrder(p0, debug, stored, hash, hasFile);
    var p2 := MediaFields(p1, hash, debug, stored).value;
    var p3 := VoiceOverFields(p2, debug, hasFile).value;
    LinksThroughMedia(p0, debug, stored, hash);
    VoiceOverWrites(p2, debug, hasFile);
    var posterLink := Field(p0, "posterYouTubeLink");
    var oralLink := Field(p0, "oralYouTubeLink");
    var exhibitLink := Field(p0, "exhibitYouTubeLink2");
    if debug == "poster" && Truthy(posterLink) {
      HashKeeps(p3, hash, "voiceOverId", Str(ParseYouTubeLink(posterLink.s)));
      HashKeeps(p3, hash, "originalVoiceOverLink", posterLink);
    } else if debug == "oral" && hasFile {
      HashKeeps(p3, hash, "presentationVideoId", Str(ParseYouTubeLink(oralLink.s)));
      HashKeeps(p3, hash, "originalPresentationVideoLink", oralLink);
    } else if debug == "exhibit" && Truthy(exhibitLink) {
      HashKeeps(p3, hash, "voiceOverId", Str(ParseYouTubeLink(exhibitLink.s)));
      HashKeeps(p3, hash, "originalVoiceOverLink", exhibitLink);
    }
  }

  /** The three voice-over links reach the voice-over step as they were sent. */
  lemma LinksThroughMedia(p0: map<string, Val>, debug: string, stored: string, hash: string)
    requires MediaFields(p0["debugPresentationType" := Str(debug)]["presentationType" := Str(stored)], hash, debug, stored).Ok?
    ensures var p2 := MediaFields(p0["debugPresentationType" := Str(debug)]["presentationType" := Str(stored)], hash, debug, stored).value;
      Field(p2, "posterYouTubeLink") == Field(p0, "posterYouTubeLink")
      && Field(p2, "oralYouTubeLink") == Field(p0, "oralYouTubeLink")
      && Field(p2, "exhibitYouTubeLink2") == Field(p0, "exhibitYouTubeLink2")
  {
    var p1 := p0["debugPresentationType" := Str(debug)]["presentationType" := Str(stored)];
    MediaFieldsKeep(p1, hash, debug, stored, "posterYouTubeLink");
    MediaFieldsKeep(p1, hash, debug, stored, "oralYouTubeLink");
    MediaFieldsKeep(p1, hash, debug, stored, "exhibitYouTubeLink2");
  }

  /** Only an oral talk with a file has the debug type 'oral' and a pdf stored, so the media step never meets it as a video. */
  lemma OralWithFileIsPdf(presentationType: string, hasFile: bool)
    ensures DebugType(presentationType) == "oral" && hasFile ==> StoredType(presentationType, hasFile) == "pdf"
  {
  }

  /** What the typed presentation carries from the media step: the hash for a pdf, the parsed link otherwise. */
  lemma TypedMediaFields(body: map<string, Val>, hash: string, hasFile: bool)
    requires TypedPresentation(body, hash, hasFile).Ok?
    ensures var p0 := NullStrings(body);
      var q := TypedPresentation(body, hash, hasFile).value;
      var raw := Field(p0, "presentationType");
      raw.Str?
      && var debug := DebugType(raw.s);
         var link := MediaLink(p0, debug);
         (StoredType(raw.s, hasFile) == "pdf" ==>
            Holds(q, "posterId", Str(hash)) && Holds(q, "slidesId", Str(hash)) && Holds(q, "originalPosterLink", Null))
         && (StoredType(raw.s, hasFile) != "pdf" ==>
               link.Str?
               && Holds(q, "posterId", Str(ParseYouTubeLink(link.s))) && Holds(q, "originalPosterLink", link)
               && Holds(q, "presentationVideoId", Str(ParseYouTubeLink(link.s))) && Holds(q, "originalPresentationVideoLink", link))
  {
    var raw := Field(NullStrings(body), "presentationType");
    OralWithFileIsPdf(raw.s, hasFile);
    StepsMediaFields(NullStrings(body), DebugType(raw.s), StoredType(raw.s, hasFile), hash, hasFile);
  }

  /** What the typed presentation carries from the voice-over step, branch by branch. */
  lemma TypedVoiceOverFields(body: map<string, Val>, hash: string, hasFile: bool)
    requires TypedPresentation(body, hash, hasFile).Ok?
    ensures var p0 := NullStrings(body);
      var q := TypedPresentation(body, hash, hasFile).value;
      var raw := Field(p0, "presentationType");
      var posterLink := Field(p0, "posterYouTubeLink");
      var oralLink := Field(p0, "oralYouTubeLink");
      var exhibitLink := Field(p0, "exhibitYouTubeLink2");
      raw.Str?
      && var debug := DebugType(raw.s);
         (debug == "poster" && Truthy(posterLink) ==>
            posterLink.Str? && Holds(q, "voiceOverId", Str(ParseYouTubeLink(posterLink.s))) && Holds(q, "originalVoiceOverLink", posterLink))
         && (debug == "oral" && hasFile ==>
            oralLink.Str? && Holds(q, "presentationVideoId", Str(ParseYouTubeLink(oralLink.s))) && Holds(q, "originalPresentationVideoLink", oralLink))
         && (debug == "exhibit" && Truthy(exhibitLink) ==>
            exhibitLink.Str? && Holds(q, "voiceOverId", Str(ParseYouTubeLink(exhibitLink.s))) && Holds(q, "originalVoiceOverLink", exhibitLink))
  {
    var raw := Field(NullStrings(body), "presentationType");
    StepsVoiceOverFields(NullStrings(body), DebugType(raw.s), StoredType(raw.s, hasFile), hash, hasFile);
  }

  // ------------------------------------------------------------ submissionFormExtraValues

  /** The field hashes of the SWACSM presentation type and symposium topic. */
  const SwacsmTypeHash := "1b95386fabd7c11a97e08cbe07cdbc48"
  const SwacsmTopicHash := "5cfa18c29164509f680e32fbbb6a853f"

  /** `JSON.parse(value)` stored under `fieldHash` when the value is truthy. */
  function ParseIfGiven(values: map<string, Val>, fieldHash: string, value: Val, parseJson: Val -> Result<Val>): Result<map<string, Val>>
  {
    if !Truthy(value) then Ok(values)
    else
      var parsed :- parseJson(value);
      Ok(values[fieldHash := parsed])
  }

  /**
   * `submissionFormExtraValues`: no presenter values, and the parsed SWACSM
   * presentation type and symposium topic under their field hashes, each
   * only when given. A given value that does not parse throws.
   */
  function SubmissionFormExtraValues(p: map<string, Val>, parseJson: Val -> Result<Val>): (r: Result<Val>)
    ensures var swacsmType := Field(p, "swacsmPresentationType");
      var topic := Field(p, "presentationSwacsmSymposiumTopic");
      (r.Ok? <==> (Truthy(swacsmType) ==> parseJson(swacsmType).Ok?) && (Truthy(topic) ==> parseJson(topic).Ok?))
      && (r.Ok? ==>
            r.value.Obj? && r.value.fields.Keys == {"presenters", "presentation"}
            && r.value.fields["presenters"] == Arr([])
            && r.value.fields["presentation"].Obj?
            && var values := r.value.fields["presentation"].fields;
               values.Keys <= {SwacsmTypeHash, SwacsmTopicHash}
               && (SwacsmTypeHash in values <==> Truthy(swacsmType))
               && (Truthy(swacsmType) ==> values[SwacsmTypeHash] == parseJson(swacsmType).value)
               && (SwacsmTopicHash in values <==> Truthy(topic))
               && (Truthy(topic) ==> values[SwacsmTopicHash] == parseJson(topic).value))
  {
    var withType :- ParseIfGiven(map[], SwacsmTypeHash, Field(p, "swacsmPresentationType"), parseJson);
    var values :- ParseIfGiven(withType, SwacsmTopicHash, Field(p, "presentationSwacsmSymposiumTopic"), parseJson);
    Ok(Obj(map["presenters" := Arr([]), "presentation" := Obj(values)]))
  }

  /** The extra values depend on the two SWACSM fields alone. */
  lemma ExtraValuesReadSwacsmFields(p: map<string, Val>, q: map<string, Val>, parseJson: Val -> Result<Val>)
    requires Field(p, "swacsmPresentationType") == Field(q, "swacsmPresentationType")
    requires Field(p, "presentationSwacsmSymposiumTopic") == Field(q, "presentationSwacsmSymposiumTopic")
    ensures SubmissionFormExtraValues(p, parseJson) == SubmissionFormExtraValues(q, parseJson)
  {
  }

  // ------------------------------------------------------------ handleDatabaseInsert

  /** What is stored and whom to notify. */
  datatype Prepared = Prepared(presentation: map<string, Val>, presenterEmails: seq<Val>)

  /** The parsed `additionalPresenters` of the typed presentation. */
  function AdditionalPresenters(typed: map<string, Val>, parseJson: Val -> Result<Val>): Result<Val>
  {
    parseJson(Field(typed, "additionalPresenters"))
  }

  /** The typed presentation after the JSON fields are parsed and 'exhibit' is renamed. */
  function Renamed(typed: map<string, Val>, subjects: Val, additional: Val): map<string, Val>
  {
    var debug := Field(typed, "debugPresentationType");
    typed["presentationSubject" := subjects]["additionalPresenters" := additional]
      ["debugPresentationType" := (if debug == Str("exhibit") then Str(FinalDebugType("exhibit")) else debug)]
  }

  /** The fields the steps after typing write; everything else is stored as typed. */
  const WrittenAfterTyping: set<string> :=
    {"presentationSubject", "additionalPresenters", "debugPresentationType", "supervisorConsentText", "submissionFormExtraValues"}

  /** The SWACSM fields are neither written after typing nor presenter fields. */
  lemma SwacsmFieldsAreTyped()
    ensures "swacsmPresentationType" !in WrittenAfterTyping && !StartsWith("swacsmPresentationType", "presenter")
    ensures "presentationSwacsmSymposiumTopic" !in WrittenAfterTyping && !StartsWith("presentationSwacsmSymposiumTopic", "presenter")
  {
    assert "swacsmPresentationType"[0] != "presenter"[0];
    assert "presentationSwacsmSymposiumTopic"[..9] != "presenter" by {
      assert "presentationSwacsmSymposiumTopic"[7] != "presenter"[7];
    }
  }

  /**
   * handleDatabaseInsert after typing, up to `savePresentation`: the parsed
   * subjects and additional presenters, the renamed debug type, the
   * presenter fields, `additionalPresenters` deleted, the consent flag and
   * the submission-form extra values. `parseJson` is `JSON.parse`.
   */
  function AfterTyping(typed: map<string, Val>, email: Val, parseJson: Val -> Result<Val>): (r: Result<Prepared>)
    ensures r.Ok? ==> "additionalPresenters" !in r.value.presentation
    ensures r.Ok? ==>
      AdditionalPresenters(typed, parseJson).Ok? && AdditionalPresenters(typed, parseJson).value.Arr?
      && r.value.presenterEmails == NotifyEmails(email, AdditionalPresenters(typed, parseJson).value.items)
  {
    var subjects :- parseJson(Field(typed, "presentationSubject"));
    var additional :- AdditionalPresenters(typed, parseJson);
    if !additional.Arr? then Thrown("TypeError")
    else
      var withPresenters :- WithPresenters(Renamed(typed, subjects, additional), additional.items);
      var consented := ConsentFlag(withPresenters - {"additionalPresenters"});
      var extraValues :- SubmissionFormExtraValues(consented, parseJson);
      Ok(Prepared(consented["submissionFormExtraValues" := extraValues], NotifyEmails(email, additional.items)))
  }

  /** The steps of `AfterTyping` one after the other, each of them succeeding. */
  lemma AfterTypingSteps(typed: map<string, Val>, email: Val, parseJson: Val -> Result<Val>)
    requires AfterTyping(typed, email, parseJson).Ok?
    ensures parseJson(Field(typed, "presentationSubject")).Ok?
    ensures AdditionalPresenters(typed, parseJson).Ok? && AdditionalPresenters(typed, parseJson).value.Arr?
    ensures var subjects := parseJson(Field(typed, "presentationSubject")).value;
      var additional := AdditionalPresenters(typed, parseJson).value;
      var withPresenters := WithPresenters(Renamed(typed, subjects, additional), additional.items);
      withPresenters.Ok?
      && var consented := ConsentFlag(withPresenters.value - {"additionalPresenters"});
         SubmissionFormExtraValues(consented, parseJson).Ok?
         && AfterTyping(typed, email, parseJson).value.presentation
            == consented["submissionFormExtraValues" := SubmissionFormExtraValues(consented, parseJson).value]
  {
  }

  /** A field the last three steps do not write keeps the value the presenter loop left. */
  lemma LastStepsKeep(withPresenters: map<string, Val>, extraValues: Val, key: string)
    requires key in withPresenters && key !in {"additionalPresenters", "supervisorConsentText", "submissionFormExtraValues"}
    ensures var q := ConsentFlag(withPresenters - {"additionalPresenters"})["submissionFormExtraValues" := extraValues];
      key in q && q[key] == withPresenters[key]
  {
  }

  /** A presenter field is none of the fields written after typing. */
  lemma PresenterKeyNotWritten(key: string, index: nat)
    requires InSlot(key, index)
    ensures key !in WrittenAfterTyping
  {
    assert key[0] == 'p' && key[2] == 'e';
  }

  /** A typed field that no step after typing writes, and that is no presenter field, comes through the presenter loop and the consent flag unchanged. */
  lemma ConsentedKeeps(typed: map<string, Val>, subjects: Val, additional: seq<Val>, key: string)
    requires WithPresenters(Renamed(typed, subjects, Arr(additional)), additional).Ok?
    requires key !in WrittenAfterTyping && !StartsWith(key, "presenter")
    ensures var q := ConsentFlag(WithPresenters(Renamed(typed, subjects, Arr(additional)), additional).value - {"additionalPresenters"});
      Field(q, key) == Field(typed, key) && (key in q <==> key in typed)
  {
    WithPresentersKeepsOthers(Renamed(typed, subjects, Arr(additional)), additional, key);
  }

  /** The steps after typing succeed iff both JSON fields parse, the presenters are an array of non-nullish entries and the extra values parse. */
  lemma AfterTypingSucceedsIff(typed: map<string, Val>, email: Val, parseJson: Val -> Result<Val>)
    ensures AfterTyping(typed, email, parseJson).Ok? <==>
      parseJson(Field(typed, "presentationSubject")).Ok?
      && AdditionalPresenters(typed, parseJson).Ok?
      && AdditionalPresenters(typed, parseJson).value.Arr?
      && (forall k | 0 <= k < |AdditionalPresenters(typed, parseJson).value.items| ::
            !Nullish(AdditionalPresenters(typed, parseJson).value.items[k]))
      && SubmissionFormExtraValues(typed, parseJson).Ok?
  {
    var subjects := parseJson(Field(typed, "presentationSubject"));
    var additional := AdditionalPresenters(typed, parseJson);
    if subjects.Ok? && additional.Ok? && additional.value.Arr? {
      var items := additional.value.items;
      var withPresenters := WithPresenters(Renamed(typed, subjects.value, additional.value), items);
      if withPresenters.Ok? {
        SwacsmFieldsAreTyped();
        ConsentedKeeps(typed, subjects.value, items, "swacsmPresentationType");
        ConsentedKeeps(typed, subjects.value, items, "presentationSwacsmSymposiumTopic");
        ExtraValuesReadSwacsmFields(ConsentFlag(withPresenters.value - {"additionalPresenters"}), typed, parseJson);
      }
    }
  }

  /** The stored extra values are those of the typed presentation's SWACSM fields. */
  lemma AfterTypingExtraValues(typed: map<string, Val>, email: Val, parseJson: Val -> Result<Val>)
    requires AfterTyping(typed, email, parseJson).Ok?
    ensures SubmissionFormExtraValues(typed, parseJson).Ok?
    ensures Holds(AfterTyping(typed, email, parseJson).value.presentation, "submissionFormExtraValues", SubmissionFormExtraValues(typed, parseJson).value)
  {
    var subjects := parseJson(Field(typed, "presentationSubject")).value;
    var additional := AdditionalPresenters(typed, parseJson).value;
    var withPresenters := WithPresenters(Renamed(typed, subjects, additional), additional.items).value;
    SwacsmFieldsAreTyped();
    ConsentedKeeps(typed, subjects, additional.items, "swacsmPresentationType");
    ConsentedKeeps(typed, subjects, additional.items, "presentationSwacsmSymposiumTopic");
    ExtraValuesReadSwacsmFields(ConsentFlag(withPresenters - {"additionalPresenters"}), typed, parseJson);
  }

  /** A typed field that no later step writes is stored as it was typed. */
  lemma AfterTypingKeeps(typed: map<string, Val>, email: Val, parseJson: Val -> Result<Val>, key: string)
    requires AfterTyping(typed, email, parseJson).Ok?
    requires key !in WrittenAfterTyping && !StartsWith(key, "presenter")
    ensures var q := AfterTyping(typed, email, parseJson).value.presentation;
      (key in q <==> key in typed) && Field(q, key) == Field(typed, key)
  {
    var subjects := parseJson(Field(typed, "presentationSubject")).value;
    var additional := AdditionalPresenters(typed, parseJson).value;
    ConsentedKeeps(typed, subjects, additional.items, key);
  }

  /** Every additional presenter's five fields are stored as presenter k + 2. */
  lemma AfterTypingPresenters(typed: map<string, Val>, email: Val, parseJson: Val -> Result<Val>)
    requires AfterTyping(typed, email, parseJson).Ok?
    ensures var q := AfterTyping(typed, email, parseJson).value.presentation;
      var presenters := AdditionalPresenters(typed, parseJson).value.items;
      forall k | 0 <= k < |presenters| :: HoldsPresenter(q, presenters[k], k)
  {
    AfterTypingSteps(typed, email, parseJson);
    var subjects := parseJson(Field(typed, "presentationSubject")).value;
    var additional := AdditionalPresenters(typed, parseJson).value;
    var renamed := Renamed(typed, subjects, additional);
    WithPresentersFillsSlots(renamed, additional.items);
    var withPresenters := WithPresenters(renamed, additional.items).value;
    var consented := ConsentFlag(withPresenters - {"additionalPresenters"});
    var extraValues := SubmissionFormExtraValues(consented, parseJson).value;
    var q := AfterTyping(typed, email, parseJson).value.presentation;
    forall k | 0 <= k < |additional.items|
      ensures HoldsPresenter(q, additional.items[k], k)
    {
      var fields := PresenterFields(additional.items[k], k);
      assert Agrees(withPresenters, fields);
      PresenterFieldsInSlot(additional.items[k], k);
      forall key | key in fields
        ensures key in q && q[key] == fields[key]
      {
        PresenterKeyNotWritten(key, k);
        LastStepsKeep(withPresenters, extraValues, key);
      }
    }
  }

  /** The stored debug type is never 'exhibit': it is saved as 'exhibition'. */
  lemma AfterTypingRenamesExhibit(typed: map<string, Val>, email: Val, parseJson: Val -> Result<Val>)
    requires AfterTyping(typed, email, parseJson).Ok?
    ensures var q := AfterTyping(typed, email, parseJson).value.presentation;
      "debugPresentationType" in q
      && q["debugPresentationType"] == (if Field(typed, "debugPresentationType") == Str("exhibit") then Str("exhibition") else Field(typed, "debugPresentationType"))
  {
    AfterTypingSteps(typed, email, parseJson);
    var subjects := parseJson(Field(typed, "presentationSubject")).value;
    var additional := AdditionalPresenters(typed, parseJson).value;
    var renamed := Renamed(typed, subjects, additional);
    assert !StartsWith("debugPresentationType", "presenter") by { assert "debugPresentationType"[0] != "presenter"[0]; }
    WithPresentersKeepsOthers(renamed, additional.items, "debugPresentationType");
    var withPresenters := WithPresenters(renamed, additional.items).value;
    var consented := ConsentFlag(withPresenters - {"additionalPresenters"});
    LastStepsKeep(withPresenters, SubmissionFormExtraValues(consented, parseJson).value, "debugPresentationType");
  }

  /** handleDatabaseInsert up to `savePresentation`: the typed presentation, then the steps after typing. */
  function PreparePresentation(body: map<string, Val>, hash: string, hasFile: bool, parseJson: Val -> Result<Val>): (r: Result<Prepared>)
    ensures !TypedPresentation(body, hash, hasFile).Ok? ==> r.Thrown?
    ensures r.Ok? ==> "additionalPresenters" !in r.value.presentation
    ensures r.Ok? ==>
      TypedPresentation(body, hash, hasFile).Ok?
      && var typed := TypedPresentation(body, hash, hasFile).value;
         AdditionalPresenters(typed, parseJson).Ok? && AdditionalPresenters(typed, parseJson).value.Arr?
         && r.value.presenterEmails == NotifyEmails(Field(NullStrings(body), "email"), AdditionalPresenters(typed, parseJson).value.items)
  {
    var typed :- TypedPresentation(body, hash, hasFile);
    AfterTyping(typed, Field(NullStrings(body), "email"), parseJson)
  }

  /** The whole insert succeeds iff typing succeeds and the steps after it do. */
  lemma PrepareSucceedsIff(body: map<string, Val>, hash: string, hasFile: bool, parseJson: Val -> Result<Val>)
    ensures var typed := TypedPresentation(body, hash, hasFile);
      PreparePresentation(body, hash, hasFile, parseJson).Ok? <==>
        typed.Ok?
        && parseJson(Field(typed.value, "presentationSubject")).Ok?
        && AdditionalPresenters(typed.value, parseJson).Ok?
        && AdditionalPresenters(typed.value, parseJson).value.Arr?
        && (forall k | 0 <= k < |AdditionalPresenters(typed.value, parseJson).value.items| ::
              !Nullish(AdditionalPresenters(typed.value, parseJson).value.items[k]))
        && SubmissionFormExtraValues(typed.value, parseJson).Ok?
  {
    var typed := TypedPresentation(body, hash, hasFile);
    if typed.Ok? {
      AfterTypingSucceedsIff(typed.value, Field(NullStrings(body), "email"), parseJson);
    }
  }

  /** The stored extra values are those of the typed SWACSM fields. */
  lemma PreparedExtraValues(body: map<string, Val>, hash: string, hasFile: bool, parseJson: Val -> Result<Val>)
    requires PreparePresentation(body, hash, hasFile, parseJson).Ok?
    ensures var typed := TypedPresentation(body, hash, hasFile).value;
      SubmissionFormExtraValues(typed, parseJson).Ok?
      && Holds(PreparePresentation(body, hash, hasFile, parseJson).value.presentation, "submissionFormExtraValues",
               SubmissionFormExtraValues(typed, parseJson).value)
  {
    AfterTypingExtraValues(TypedPresentation(body, hash, hasFile).value, Field(NullStrings(body), "email"), parseJson);
  }

  /** A typed field that no later step writes is stored as it was typed. */
  lemma PreparedKeepsTypedFields(body: map<string, Val>, hash: string, hasFile: bool, parseJson: Val -> Result<Val>, key: string)
    requires PreparePresentation(body, hash, hasFile, parseJson).Ok?
    requires key !in WrittenAfterTyping && !StartsWith(key, "presenter")
    ensures var q := PreparePresentation(body, hash, hasFile, parseJson).value.presentation;
      var typed := TypedPresentation(body, hash, hasFile).value;
      (key in q <==> key in typed) && Field(q, key) == Field(typed, key)
  {
    AfterTypingKeeps(TypedPresentation(body, hash, hasFile).value, Field(NullStrings(body), "email"), parseJson, key);
  }

  /** Every additional presenter's five fields are stored as presenter k + 2. */
  lemma PreparedPresenters(body: map<string, Val>, hash: string, hasFile: bool, parseJson: Val -> Result<Val>)
    requires PreparePresentation(body, hash, hasFile, parseJson).Ok?
    ensures var q := PreparePresentation(body, hash, hasFile, parseJson).value.presentation;
      var presenters := AdditionalPresenters(TypedPresentation(body, hash, hasFile).value, parseJson).value.items;
      forall k | 0 <= k < |presenters| :: HoldsPresenter(q, presenters[k], k)
  {
    AfterTypingPresenters(TypedPresentation(body, hash, hasFile).value, Field(NullStrings(body), "email"), parseJson);
  }

  /** Key names the media lemmas below pass on. */
  lemma MediaKeysAreTyped()
    ensures forall key | key in {"presentationType", "hash", "posterId", "slidesId", "originalPosterLink", "presentationVideoId", "originalPresentationVideoLink"} ::
      key !in WrittenAfterTyping && !StartsWith(key, "presenter")
  {
    assert !StartsWith("presentationType", "presenter") by { assert "presentationType"[7] != "presenter"[7]; }
    assert !StartsWith("presentationVideoId", "presenter") by { assert "presentationVideoId"[7] != "presenter"[7]; }
    assert !StartsWith("hash", "presenter");
    assert !StartsWith("posterId", "presenter") by { assert "posterId"[1] != "presenter"[1]; }
    assert !StartsWith("slidesId", "presenter") by { assert "slidesId"[0] != "presenter"[0]; }
    assert !StartsWith("originalPosterLink", "presenter") by { assert "originalPosterLink"[0] != "presenter"[0]; }
    assert !StartsWith("originalPresentationVideoLink", "presenter") by { assert "originalPresentationVideoLink"[0] != "presenter"[0]; }
  }

  /** A pdf (a poster, or an oral talk with a file) is stored with the hash as poster and slides and no original poster link. */
  lemma PdfUsesHash(body: map<string, Val>, hash: string, hasFile: bool, parseJson: Val -> Result<Val>)
    requires PreparePresentation(body, hash, hasFile, parseJson).Ok?
    requires Field(NullStrings(body), "presentationType").Str?
    requires StoredType(Field(NullStrings(body), "presentationType").s, hasFile) == "pdf"
    ensures var q := PreparePresentation(body, hash, hasFile, parseJson).value.presentation;
      Holds(q, "presentationType", Str("pdf")) && Holds(q, "hash", Str(hash))
      && Holds(q, "posterId", Str(hash)) && Holds(q, "slidesId", Str(hash)) && Holds(q, "originalPosterLink", Null)
  {
    TypedMediaFields(body, hash, hasFile);
    MediaKeysAreTyped();
    PreparedKeepsTypedFields(body, hash, hasFile, parseJson, "presentationType");
    PreparedKeepsTypedFields(body, hash, hasFile, parseJson, "hash");
    PreparedKeepsTypedFields(body, hash, hasFile, parseJson, "posterId");
    PreparedKeepsTypedFields(body, hash, hasFile, parseJson, "slidesId");
    PreparedKeepsTypedFields(body, hash, hasFile, parseJson, "originalPosterLink");
  }

  /** A video is stored with the parsed link as poster and video id, and the link itself as both originals. */
  lemma VideoUsesParsedLink(body: map<string, Val>, hash: string, hasFile: bool, parseJson: Val -> Result<Val>)
    requires PreparePresentation(body, hash, hasFile, parseJson).Ok?
    requires Field(NullStrings(body), "presentationType").Str?
    requires StoredType(Field(NullStrings(body), "presentationType").s, hasFile) != "pdf"
    ensures var q := PreparePresentation(body, hash, hasFile, parseJson).value.presentation;
      var link := MediaLink(NullStrings(body), DebugType(Field(NullStrings(body), "presentationType").s));
      link.Str?
      && Holds(q, "posterId", Str(ParseYouTubeLink(link.s))) && Holds(q, "originalPosterLink", link)
      && Holds(q, "presentationVideoId", Str(ParseYouTubeLink(link.s))) && Holds(q, "originalPresentationVideoLink", link)
  {
    TypedMediaFields(body, hash, hasFile);
    MediaKeysAreTyped();
    PreparedKeepsTypedFields(body, hash, hasFile, parseJson, "posterId");
    PreparedKeepsTypedFields(body, hash, hasFile, parseJson, "originalPosterLink");
    PreparedKeepsTypedFields(body, hash, hasFile, parseJson, "presentationVideoId");
    PreparedKeepsTypedFields(body, hash, hasFile, parseJson, "originalPresentationVideoLink");
  }

  /** A stored presentation never keeps the debug type 'exhibit': the typed debug type is saved, with 'exhibit' renamed 'exhibition'. */
  lemma ExhibitIsRenamed(body: map<string, Val>, hash: string, hasFile: bool, parseJson: Val -> Result<Val>)
    requires PreparePresentation(body, hash, hasFile, parseJson).Ok?
    ensures var q := PreparePresentation(body, hash, hasFile, parseJson).value.presentation;
      var raw := Field(NullStrings(body), "presentationType");
      raw.Str?
      && Holds(q, "debugPresentationType", Str(FinalDebugType(DebugType(raw.s))))
      && q["debugPresentationType"] != Str("exhibit")
  {
    var typed := TypedPresentation(body, hash, hasFile).value;
    AfterTypingRenamesExhibit(typed, Field(NullStrings(body), "email"), parseJson);
  }

  /** A SWACSM type that does not parse stops the insert before anything is saved. */
  lemma UnparsableSwacsmFieldThrows(body: map<string, Val>, hash: string, hasFile: bool, parseJson: Val -> Result<Val>)
    requires TypedPresentation(body, hash, hasFile).Ok?
    requires var v := Field(TypedPresentation(body, hash, hasFile).value, "swacsmPresentationType");
      Truthy(v) && parseJson(v).Thrown?
    ensures PreparePresentation(body, hash, hasFile, parseJson).Thrown?
  {
    PrepareSucceedsIff(body, hash, hasFile, parseJson);
  }
}

=== FILE: auth_guards.dfy ===
// Identity, ownership and privacy-level guards
// (backend/authentication-middleware.ts). Every denial is a 401.
// Firebase token verification and the consumer table are the `Identity`
// parameter; the other reads are parameters of each guard.

module AuthGuards {
  import opened Js
  import opened Http
  import opened Entities
  import opened EventUtils
  import opened EventGuards
  import opened ResponseLocals

  // ------------------------------------------------------------ bearer header

  /** The regular expression /^bearer\s.+$/i: the scheme word in any case, one white-space character, then at least one character up to the end with no line terminator. */
  predicate MatchesBearerPattern(h: string)
  {
    |h| >= 8 && Lower(h[..6]) == "bearer" && IsJsWhitespace(h[6])
    && forall i | 7 <= i < |h| :: !IsLineTerminator(h[i])
  }

  /** getBearerAuthTokenFromHeader */
  function GetBearerAuthTokenFromHeader(authHeader: Option<string>): (token: string)
    ensures token != "" ==>
      authHeader.Some? && MatchesBearerPattern(authHeader.value)
      && |Split(authHeader.value, " ")| == 2 && token == Split(authHeader.value, " ")[1]
    ensures authHeader.Some? && MatchesBearerPattern(authHeader.value) && |Split(authHeader.value, " ")| == 2
      ==> token == Split(authHeader.value, " ")[1]
    ensures !Includes(token, " ")
  {
    if authHeader.None? || authHeader.value == "" || !MatchesBearerPattern(authHeader.value)
       || |Split(authHeader.value, " ")| != 2
    then ""
    else
      SplitPiecesFree(authHeader.value, " ");
      Split(authHeader.value, " ")[1]
  }

  /** A header "<Bearer in any case> <token>" yields the token back, for a non-empty token without spaces or line breaks. */
  lemma {:induction false} BearerRoundTrip(scheme: string, token: string)
    requires |scheme| == 6 && Lower(scheme) == "bearer"
    requires |token| > 0 && Lacks(token, ' ')
    requires forall i | 0 <= i < |token| :: !IsLineTerminator(token[i])
    ensures GetBearerAuthTokenFromHeader(Some(scheme + " " + token)) == token
  {
    var h := scheme + " " + token;
    assert Lacks(scheme, ' ') by {
      forall i | 0 <= i < |scheme|
        ensures scheme[i] != ' '
      {
        assert Lower(scheme)[i] == LowerChar(scheme[i]);
      }
    }
    SplitOnce(scheme, token, ' ');
    assert h[..6] == scheme;
    assert forall i | 7 <= i < |h| :: h[i] == token[i - 7];
    assert MatchesBearerPattern(h);
  }

  /** A header that is absent, empty, or not of the bearer form yields the empty token. */
  lemma NonBearerHeadersGiveNothing(h: Option<string>)
    requires h.None? || h.value == "" || !MatchesBearerPattern(h.value)
    ensures GetBearerAuthTokenFromHeader(h) == ""
  {
  }

  // ------------------------------------------------------------ signing in

  /** What Firebase and the consumer table know: the claims behind each valid ID token, and each consumer's institution. */
  datatype Identity = Identity(tokens: map<string, Claims>, consumers: map<int, Consumer>)

  /** verifyIdToken succeeds: Firebase rejects the empty string and unknown tokens. */
  predicate Verifies(token: string, id: Identity)
  {
    token != "" && token in id.tokens
  }

  /** The claims with the consumer's institution copied in; None when the consumer row is missing. */
  function JoinConsumer(claims: Claims, consumers: map<int, Consumer>): (r: Option<Claims>)
    ensures r.Some? <==> claims.consumerId.Some? && claims.consumerId.value in consumers
    ensures r.Some? ==>
      var c := consumers[claims.consumerId.value];
      r.value.institutionId == Some(c.institutionId) && r.value.institutionCode == Some(c.institutionCode)
    ensures r.Some? ==> r.value.(institutionId := claims.institutionId, institutionCode := claims.institutionCode) == claims
  {
    if claims.consumerId.Some? && claims.consumerId.value in consumers then
      var c := consumers[claims.consumerId.value];
      Some(claims.(institutionId := Some(c.institutionId), institutionCode := Some(c.institutionCode)))
    else None
  }

  /** Every identity step of a sign-in succeeds. */
  predicate SignsIn(token: string, id: Identity)
  {
    Verifies(token, id) && JoinConsumer(id.tokens[token], id.consumers).Some?
  }

  /** The two fields of res.locals that the identity checks write. */
  datatype Written = Written(token: Option<string>, userClaims: Option<Claims>)

  /** What a sign-in leaves in res.locals: nothing for a token that does not verify; the token and its claims otherwise (joined when the consumer exists). */
  function SignInWrites(token: string, id: Identity, before: Written): (w: Written)
    ensures !Verifies(token, id) ==> w == before
    ensures Verifies(token, id) ==> w.token == Some(token) && w.userClaims.Some?
    ensures Verifies(token, id) ==> w.userClaims.value.eventIds == id.tokens[token].eventIds
    ensures Verifies(token, id) ==>
      w.userClaims == (if SignsIn(token, id) then JoinConsumer(id.tokens[token], id.consumers) else Some(id.tokens[token]))
  {
    if !Verifies(token, id) then before
    else
      match JoinConsumer(id.tokens[token], id.consumers)
      case Some(c) => Written(Some(token), Some(c))
      case None => Written(Some(token), Some(id.tokens[token]))
  }

  /**
   * The identity steps the checks share, in their order: verify the token,
   * store it and its claims, look the consumer up and copy its institution
   * into the stored claims. `ok` is false where the source lands in `catch`.
   */
  method SignIn(locals: Locals, token: string, id: Identity) returns (ok: bool)
    modifies locals
    ensures ok <==> SignsIn(token, id)
    ensures Written(locals.token, locals.userClaims) == SignInWrites(token, id, Written(old(locals.token), old(locals.userClaims)))
    ensures locals.isEventAdmin == old(locals.isEventAdmin) && locals.subscriptions == old(locals.subscriptions)
  {
    if token == "" || token !in id.tokens {
      return false;
    }
    var userInfo := id.tokens[token];
    locals.token := Some(token);
    locals.userClaims := Some(userInfo);
    if userInfo.consumerId.None? || userInfo.consumerId.value !in id.consumers {
      return false;
    }
    var consumer := id.consumers[userInfo.consumerId.value];
    locals.userClaims := Some(userInfo.(institutionId := Some(consumer.institutionId)));
    locals.userClaims := Some(locals.userClaims.value.(institutionCode := Some(consumer.institutionCode)));
    return true;
  }

  // ------------------------------------------------------------ checkIsAuthenticated

  /** checkIsAuthenticated: 401 unless the header carries a token that signs in completely. */
  function AuthenticatedOutcome(authHeader: Option<string>, id: Identity): (r: Outcome)
    ensures r == Next <==> SignsIn(GetBearerAuthTokenFromHeader(authHeader), id)
    ensures r in {Next, Respond(401)}
  {
    if SignsIn(GetBearerAuthTokenFromHeader(authHeader), id) then Next else Respond(401)
  }

  method CheckIsAuthenticated(locals: Locals, authHeader: Option<string>, id: Identity) returns (o: Outcome)
    modifies locals
    ensures o == AuthenticatedOutcome(authHeader, id)
    ensures Written(locals.token, locals.userClaims)
         == SignInWrites(GetBearerAuthTokenFromHeader(authHeader), id, Written(old(locals.token), old(locals.userClaims)))
    ensures locals.isEventAdmin == old(locals.isEventAdmin) && locals.subscriptions == old(locals.subscriptions)
  {
    var authToken := GetBearerAuthTokenFromHeader(authHeader);
    if authToken == "" {
      return Respond(401);
    }
    var ok := SignIn(locals, authToken, id);
    if !ok {
      return Respond(401);
    }
    return Next;
  }

  /** softCheckIsAuthenticated: the same writes, but the request always continues. */
  method SoftCheckIsAuthenticated(locals: Locals, authHeader: Option<string>, id: Identity) returns (o: Outcome)
    modifies locals
    ensures o == Next
    ensures Written(locals.token, locals.userClaims)
         == SignInWrites(GetBearerAuthTokenFromHeader(authHeader), id, Written(old(locals.token), old(locals.userClaims)))
    ensures locals.isEventAdmin == old(locals.isEventAdmin) && locals.subscriptions == old(locals.subscriptions)
  {
    if authHeader.None? || authHeader.value == "" {
      return Next;
    }
    var authToken := GetBearerAuthTokenFromHeader(authHeader);
    if authToken == "" {
      return Next;
    }
    var _ := SignIn(locals, authToken, id);
    return Next;
  }

  // ------------------------------------------------------------ event admin

  /** `req.body.eventId || req.query.eventId` */
  function EventIdParam(bodyEventId: Val, queryEventId: Val): Val
  {
    if Truthy(bodyEventId) then bodyEventId else queryEventId
  }

  /** The consumerEvent row the admin check reads: by event id when there is one, else by event code. */
  function AdminRow(eventId: Val, byEventId: Fetch<Val>, byEventCode: Fetch<Val>): Fetch<Val>
  {
    if Truthy(eventId) then byEventId else byEventCode
  }

  /**
   * checkIsEventAdmin. `byEventId` and `byEventCode` are the isAdmin column
   * the two queries would read. Building the query reads
   * res.locals.userClaims.consumerId outside the try.
   */
  function CheckIsEventAdmin(
    userClaims: Option<Claims>, bodyEventId: Val, queryEventId: Val, eventCode: Val,
    byEventId: Fetch<Val>, byEventCode: Fetch<Val>): (r: Outcome)
    ensures var eventId := EventIdParam(bodyEventId, queryEventId);
      (!Truthy(eventId) && !Truthy(eventCode) ==> r == Respond(401))
      && (r == Next <==> (Truthy(eventId) || Truthy(eventCode)) && userClaims.Some?
                         && AdminRow(eventId, byEventId, byEventCode) == Found(Num(1)))
    ensures r in {Next, Respond(401), Unhandled}
  {
    var eventId := EventIdParam(bodyEventId, queryEventId);
    if !Truthy(eventId) && !Truthy(eventCode) then Respond(401)
    else if userClaims.None? then Unhandled
    else if AdminRow(eventId, byEventId, byEventCode) == Found(Num(1)) then Next
    else Respond(401)
  }

  /** The isEventAdmin flag after softCheckIsEventAdmin: set only with a consumer id and an event id or code, and left alone when the query fails. */
  function SoftAdminFlag(
    userClaims: Option<Claims>, bodyEventId: Val, queryEventId: Val, eventCode: Val,
    byEventId: Fetch<Val>, byEventCode: Fetch<Val>, before: Option<bool>): Option<bool>
  {
    var eventId := EventIdParam(bodyEventId, queryEventId);
    if userClaims.None? || !PresentId(userClaims.value.consumerId) then before
    else if !Truthy(eventId) && !Truthy(eventCode) then before
    else
      match AdminRow(eventId, byEventId, byEventCode)
      case QueryFailed => before
      case Missing => Some(false)
      case Found(v) => Some(v == Num(1))
  }

  method SoftCheckIsEventAdmin(
    locals: Locals, bodyEventId: Val, queryEventId: Val, eventCode: Val,
    byEventId: Fetch<Val>, byEventCode: Fetch<Val>) returns (o: Outcome)
    modifies locals
    ensures o == Next
    ensures locals.isEventAdmin
         == SoftAdminFlag(old(locals.userClaims), bodyEventId, queryEventId, eventCode, byEventId, byEventCode, old(locals.isEventAdmin))
    ensures locals.token == old(locals.token) && locals.userClaims == old(locals.userClaims)
    ensures locals.subscriptions == old(locals.subscriptions)
  {
    o := Next;
    var eventId := EventIdParam(bodyEventId, queryEventId);
    if locals.userClaims.Some? && PresentId(locals.userClaims.value.consumerId) && (Truthy(eventId) || Truthy(eventCode)) {
      var row := if Truthy(eventId) then byEventId else byEventCode;
      if !row.QueryFailed? {
        locals.isEventAdmin := Some(row == Found(Num(1)));
      }
    }
  }

  // ------------------------------------------------------------ presentations

  /** checkIsAuthenticatedPresentations: `event` is the read by eventCodeOrHash; a failed read lands in the catch. */
  function CheckIsAuthenticatedPresentations(event: Fetch<Event>, claims: Option<Claims>): (r: Outcome)
    ensures r in {Next, Respond(401)}
  {
    match event
    case QueryFailed => Respond(401)
    case Missing => Next
    case Found(e) =>
      if IsEventPrivate(Some(e)) && !IsUserAuthorizedForEvent(claims, Some(e)) then Respond(401) else Next
  }

  /** The event row read by a presentation's eventId. */
  function EventById(events: map<int, Event>, eventId: int): Option<Event>
  {
    if eventId in events then Some(events[eventId]) else None
  }

  /** The private-event part of checkIsAuthenticatedSinglePresentation. */
  function PrivateEventOutcome(authHeader: Option<string>, event: Option<Event>, id: Identity): Outcome
  {
    var token := GetBearerAuthTokenFromHeader(authHeader);
    if !IsEventPrivate(event) then Next
    else if !SignsIn(token, id) then Respond(401)
    else if IsUserAuthorizedForEvent(JoinConsumer(id.tokens[token], id.consumers), event) then Next
    else Respond(401)
  }

  /**
   * checkIsAuthenticatedSinglePresentation. `byId` and `byHash` are the two
   * reads of presentationIdOrHash, `events` the event table by id.
   */
  function SinglePresentationOutcome(
    authHeader: Option<string>, byId: Fetch<Presentation>, byHash: Fetch<Presentation>,
    events: map<int, Event>, id: Identity): (r: Outcome)
    ensures r in {Next, Respond(401)}
  {
    match byId
    case QueryFailed => Respond(401)
    case Found(p) => PrivateEventOutcome(authHeader, EventById(events, p.eventId), id)
    case Missing =>
      match byHash
      case QueryFailed => Respond(401)
      case Missing => Respond(401)
      case Found(p) =>
        if p.eventId !in events then Respond(401)
        else if events[p.eventId].privacyLevel == PresentationHash then Next
        else PrivateEventOutcome(authHeader, Some(events[p.eventId]), id)
  }

  /** The presentation checkIsAuthenticatedSinglePresentation goes on with, if any. */
  function SinglePresentationEvent(byId: Fetch<Presentation>, byHash: Fetch<Presentation>, events: map<int, Event>): Option<Event>
  {
    match byId
    case QueryFailed => None
    case Found(p) => EventById(events, p.eventId)
    case Missing =>
      if byHash.Found? && byHash.row.eventId in events && events[byHash.row.eventId].privacyLevel != PresentationHash
      then Some(events[byHash.row.eventId])
      else None
  }

  /** Sign-in happens only on a private event reached by either route. */
  function SinglePresentationWrites(
    authHeader: Option<string>, byId: Fetch<Presentation>, byHash: Fetch<Presentation>,
    events: map<int, Event>, id: Identity, before: Written): Written
  {
    if IsEventPrivate(SinglePresentationEvent(byId, byHash, events))
    then SignInWrites(GetBearerAuthTokenFromHeader(authHeader), id, before)
    else before
  }

  method CheckIsAuthenticatedSinglePresentation(
    locals: Locals, authHeader: Option<string>, byId: Fetch<Presentation>, byHash: Fetch<Presentation>,
    events: map<int, Event>, id: Identity) returns (o: Outcome)
    modifies locals
    ensures o == SinglePresentationOutcome(authHeader, byId, byHash, events, id)
    ensures Written(locals.token, locals.userClaims)
         == SinglePresentationWrites(authHeader, byId, byHash, events, id, Written(old(locals.token), old(locals.userClaims)))
    ensures locals.isEventAdmin == old(locals.isEventAdmin) && locals.subscriptions == old(locals.subscriptions)
  {
    var presentation: Presentation;
    match byId {
      case QueryFailed => return Respond(401);
      case Found(p) => presentation := p;
      case Missing =>
        match byHash {
          case QueryFailed => return Respond(401);
          case Missing => return Respond(401);
          case Found(p) =>
            presentation := p;
            if presentation.eventId !in events {
              return Respond(401);
            }
            if events[presentation.eventId].privacyLevel == PresentationHash {
              return Next;
            }
        }
    }
    var event := EventById(events, presentation.eventId);
    if IsEventPrivate(event) {
      var authToken := GetBearerAuthTokenFromHeader(authHeader);
      if authToken == "" {
        return Respond(401);
      }
      var ok := SignIn(locals, authToken, id);
      if !ok {
        return Respond(401);
      }
      if !IsUserAuthorizedForEvent(locals.userClaims, event) {
        return Respond(401);
      }
    }
    return Next;
  }

  // ------------------------------------------------------------ posters

  /** The claims object checkPosterAuthorized stores for hash-based access: only an institution id. */
  function InstitutionClaims(institutionId: int): Claims
  {
    Claims(None, None, Some(institutionId), None)
  }

  /** getEventIdsByConsumerId: the registered event ids of a consumer ([] when none). */
  function RegisteredEventIds(registered: map<int, seq<int>>, consumerId: Option<int>): seq<int>
  {
    if consumerId.Some? && consumerId.value in registered then registered[consumerId.value] else []
  }

  /**
   * checkPosterAuthorized. `event` is the read by eventCodeOrHash,
   * `posterById` the read of query.posterId, `posterByHash` that of
   * query.hash; `registered` holds each consumer's registered event ids.
   */
  function PosterOutcome(
    authHeader: Option<string>, hash: Option<string>, posterId: Option<string>,
    event: Fetch<Event>, posterById: Fetch<Presentation>, posterByHash: Fetch<Presentation>,
    registered: map<int, seq<int>>, id: Identity): (r: Outcome)
    ensures r in {Next, Respond(401)}
  {
    if event.QueryFailed? then Respond(401)
    else if event.Found? && event.row.privacyLevel == InstitutionHash then
      if posterById.Found? && posterById.row.eventId == event.row.eventId then Next else Respond(401)
    else if hash == posterId then
      if event.Missing? then Respond(401)
      else if event.row.privacyLevel != Private then Next
      else
        var token := GetBearerAuthTokenFromHeader(authHeader);
        if !SignsIn(token, id) then Respond(401)
        else if event.row.eventId in RegisteredEventIds(registered, id.tokens[token].consumerId) then Next
        else Respond(401)
    else if posterByHash.Found? && posterById.Found? && posterByHash.row.eventId == posterById.row.eventId then Next
    else Respond(401)
  }

  /** What checkPosterAuthorized leaves in res.locals.token and res.locals.userClaims. */
  function PosterWrites(
    authHeader: Option<string>, hash: Option<string>, posterId: Option<string>,
    event: Fetch<Event>, posterById: Fetch<Presentation>, posterByHash: Fetch<Presentation>,
    id: Identity, before: Written): Written
  {
    if event.QueryFailed? then before
    else if event.Found? && event.row.privacyLevel == InstitutionHash then
      if posterById.Found? && posterById.row.eventId == event.row.eventId
      then before.(userClaims := Some(InstitutionClaims(event.row.institutionId)))
      else before
    else if hash == posterId then
      if event.Found? && event.row.privacyLevel == Private
      then SignInWrites(GetBearerAuthTokenFromHeader(authHeader), id, before)
      else before
    else if !posterByHash.QueryFailed? && posterById.Found?
    then before.(userClaims := Some(InstitutionClaims(posterById.row.institutionId)))
    else before
  }

  method CheckPosterAuthorized(
    locals: Locals, authHeader: Option<string>, hash: Option<string>, posterId: Option<string>,
    event: Fetch<Event>, posterById: Fetch<Presentation>, posterByHash: Fetch<Presentation>,
    registered: map<int, seq<int>>, id: Identity) returns (o: Outcome)
    modifies locals
    ensures o == PosterOutcome(authHeader, hash, posterId, event, posterById, posterByHash, registered, id)
    ensures Written(locals.token, locals.userClaims)
         == PosterWrites(authHeader, hash, posterId, event, posterById, posterByHash, id,
                         Written(old(locals.token), old(locals.userClaims)))
    ensures locals.isEventAdmin == old(locals.isEventAdmin) && locals.subscriptions == old(locals.subscriptions)
  {
    if event.QueryFailed? {
      return Respond(401);
    }
    if event.Found? && event.row.privacyLevel == InstitutionHash {
      if !posterById.Found? || posterById.row.eventId != event.row.eventId {
        return Respond(401);
      }
      locals.userClaims := Some(InstitutionClaims(event.row.institutionId));
      return Next;
    }
    if hash == posterId {
      if event.Missing? {
        return Respond(401);
      }
      if event.row.privacyLevel == Private {
        var authToken := GetBearerAuthTokenFromHeader(authHeader);
        var ok := SignIn(locals, authToken, id);
        if !ok {
          return Respond(401);
        }
        var eventIds := RegisteredEventIds(registered, locals.userClaims.value.consumerId);
        if event.row.eventId !in eventIds {
          return Respond(401);
        }
      }
    } else {
      if posterByHash.QueryFailed? || !posterById.Found? {
        return Respond(401);
      }
      locals.userClaims := Some(InstitutionClaims(posterById.row.institutionId));
      if !posterByHash.Found? || posterByHash.row.eventId != posterById.row.eventId {
        return Respond(401);
      }
    }
    return Next;
  }

  // ------------------------------------------------------------ comments

  /**
   * checkCommentPosterAuthorized. `poster` is the read of body.posterId,
   * `events` the event table by id, `blocked` the caller's blocked event ids.
   */
  function CheckCommentPosterAuthorized(
    userClaims: Option<Claims>, poster: Fetch<Presentation>, events: map<int, Event>,
    blocked: Fetch<seq<int>>, eventCodeOrHash: Option<string>): (r: Outcome)
    ensures r in {Next, Respond(401)}
    ensures r == Next <==>
      poster.Found? && poster.row.eventId in events && userClaims.Some?
      && var e := events[poster.row.eventId];
         IsConsumerBlockedFromEvent(userClaims.value.consumerId, Some(e.eventId), blocked) == Ok(false)
         && !(e.privacyLevel == Private && !IsUserAuthorizedForEvent(userClaims, Some(e)))
         && !(e.privacyLevel == InstitutionHash && Some(e.hash) != eventCodeOrHash)
  {
    if !poster.Found? || poster.row.eventId !in events || userClaims.None? then Respond(401)
    else
      var e := events[poster.row.eventId];
      match IsConsumerBlockedFromEvent(userClaims.value.consumerId, Some(e.eventId), blocked)
      case Thrown(_) => Respond(401)
      case Ok(isBlocked) =>
        if isBlocked
           || (e.privacyLevel == Private && !IsUserAuthorizedForEvent(userClaims, Some(e)))
           || (e.privacyLevel == InstitutionHash && Some(e.hash) != eventCodeOrHash)
        then Respond(401)
        else Next
  }

  /** `Number(res.locals.userClaims.consumerId)` */
  function ClaimedConsumerNumber(claims: Claims): Val
  {
    if claims.consumerId.Some? then Num(claims.consumerId.value) else NaN
  }

  /** checkIsUserOwner: the body's consumerId and the token's must be the same number. */
  function CheckIsUserOwner(bodyConsumerId: Val, userClaims: Option<Claims>): (r: Outcome)
    ensures r in {Next, Respond(401)}
    ensures r == Next <==> userClaims.Some? && NumberEquals(ToNumber(bodyConsumerId), ClaimedConsumerNumber(userClaims.value))
  {
    if userClaims.None? then Respond(401)
    else if !NumberEquals(ToNumber(bodyConsumerId), ClaimedConsumerNumber(userClaims.value)) then Respond(401)
    else Next
  }

  /** checkParentCommentNotDeleted: `parent` is the read of body.parentCommentId. */
  function CheckParentCommentNotDeleted(parent: Fetch<Comment>): (r: Outcome)
    ensures r in {Next, Respond(401)}
    ensures r == Next <==> parent.Found? && parent.row.deleteDate.None?
  {
    if !parent.Found? || parent.row.deleteDate.Some? then Respond(401) else Next
  }

  // ------------------------------------------------------------ properties

  /** An unresolved event passes checkIsAuthenticatedPresentations; otherwise 401 exactly for a private event the caller is not registered for. */
  lemma PresentationsGuardIff(event: Fetch<Event>, claims: Option<Claims>)
    ensures event.Missing? ==> CheckIsAuthenticatedPresentations(event, claims) == Next
    ensures event.Found? ==>
      (CheckIsAuthenticatedPresentations(event, claims) == Respond(401)
       <==> IsEventPrivate(Some(event.row)) && !IsUserAuthorizedForEvent(claims, Some(event.row)))
  {
  }

  /** A presentation found only by its hash, on a 'presentationHash' event, needs no identity at all. */
  lemma HashLinkBypass(
    h1: Option<string>, h2: Option<string>, p: Presentation, events: map<int, Event>, id1: Identity, id2: Identity)
    requires p.eventId in events && events[p.eventId].privacyLevel == PresentationHash
    ensures SinglePresentationOutcome(h1, Missing, Found(p), events, id1) == Next
    ensures SinglePresentationWrites(h1, Missing, Found(p), events, id1, Written(None, None)) == Written(None, None)
  {
  }

  /** Found by id, a presentation on a non-public event gets no bypass: it needs a signed-in, registered caller. */
  lemma {:induction false} NoBypassById(authHeader: Option<string>, p: Presentation, events: map<int, Event>, id: Identity)
    requires p.eventId in events && events[p.eventId].privacyLevel != Public
    ensures SinglePresentationOutcome(authHeader, Found(p), Missing, events, id) == Next ==>
      var token := GetBearerAuthTokenFromHeader(authHeader);
      token != "" && SignsIn(token, id)
      && IsUserAuthorizedForEvent(Some(id.tokens[token]), Some(events[p.eventId]))
  {
    var token := GetBearerAuthTokenFromHeader(authHeader);
    if SignsIn(token, id) {
      var joined := JoinConsumer(id.tokens[token], id.consumers);
      assert joined.value.eventIds == id.tokens[token].eventIds;
    }
  }

  /** A presentation that neither read finds is a 401, not a 404. */
  lemma MissingPresentationIsUnauthorized(authHeader: Option<string>, events: map<int, Event>, id: Identity)
    ensures SinglePresentationOutcome(authHeader, Missing, Missing, events, id) == Respond(401)
  {
  }

  /** On an 'institutionHash' event the poster is allowed exactly when it belongs to that event. */
  lemma PosterInstitutionHashRule(
    authHeader: Option<string>, hash: Option<string>, posterId: Option<string>, e: Event,
    posterById: Fetch<Presentation>, posterByHash: Fetch<Presentation>,
    registered: map<int, seq<int>>, id: Identity)
    requires e.privacyLevel == InstitutionHash
    ensures PosterOutcome(authHeader, hash, posterId, Found(e), posterById, posterByHash, registered, id) == Next
        <==> posterById.Found? && posterById.row.eventId == e.eventId
  {
  }

  /** With hash == posterId, only a 'private' event asks for a registered, signed-in caller. */
  lemma PosterSameHashRule(
    authHeader: Option<string>, key: Option<string>, e: Event,
    posterById: Fetch<Presentation>, posterByHash: Fetch<Presentation>,
    registered: map<int, seq<int>>, id: Identity)
    requires e.privacyLevel != InstitutionHash
    ensures e.privacyLevel != Private ==>
      PosterOutcome(authHeader, key, key, Found(e), posterById, posterByHash, registered, id) == Next
    ensures e.privacyLevel == Private ==>
      (PosterOutcome(authHeader, key, key, Found(e), posterById, posterByHash, registered, id) == Next
       <==> var token := GetBearerAuthTokenFromHeader(authHeader);
            SignsIn(token, id) && e.eventId in RegisteredEventIds(registered, id.tokens[token].consumerId))
  {
  }

  /** With a different hash, the hash's presentation and the poster must belong to the same event. */
  lemma PosterOtherHashRule(
    authHeader: Option<string>, hash: Option<string>, posterId: Option<string>, event: Fetch<Event>,
    posterById: Fetch<Presentation>, posterByHash: Fetch<Presentation>,
    registered: map<int, seq<int>>, id: Identity)
    requires hash != posterId && !event.QueryFailed?
    requires event.Missing? || event.row.privacyLevel != InstitutionHash
    ensures PosterOutcome(authHeader, hash, posterId, event, posterById, posterByHash, registered, id) == Next
        <==> posterByHash.Found? && posterById.Found? && posterByHash.row.eventId == posterById.row.eventId
  {
  }

  /** checkIsUserOwner compares numerically: the string "7" in the body matches consumer 7; a missing body id never matches. */
  lemma OwnerComparesNumbers(claims: Claims)
    requires claims.consumerId == Some(7)
    ensures CheckIsUserOwner(Str("7"), Some(claims)) == Next
    ensures CheckIsUserOwner(Num(7), Some(claims)) == Next
    ensures CheckIsUserOwner(Undefined, Some(claims)) == Respond(401)
  {
    assert DecimalValue("7") == 7 by {
      assert "7"[..0] == "";
    }
  }

  /** When an event id is given, the admin check reads only the by-id row. */
  lemma EventIdPreferred(
    userClaims: Option<Claims>, bodyEventId: Val, queryEventId: Val, eventCode: Val,
    byEventId: Fetch<Val>, c1: Fetch<Val>, c2: Fetch<Val>)
    requires Truthy(EventIdParam(bodyEventId, queryEventId))
    ensures CheckIsEventAdmin(userClaims, bodyEventId, queryEventId, eventCode, byEventId, c1)
         == CheckIsEventAdmin(userClaims, bodyEventId, queryEventId, eventCode, byEventId, c2)
  {
  }

  /** softCheckIsEventAdmin sets the flag only for a caller with a consumer id and a request naming an event, and then records what checkIsEventAdmin would decide. */
  lemma {:induction false} SoftAdminAgreesWithCheck(
    userClaims: Option<Claims>, bodyEventId: Val, queryEventId: Val, eventCode: Val,
    byEventId: Fetch<Val>, byEventCode: Fetch<Val>, before: Option<bool>)
    ensures var after := SoftAdminFlag(userClaims, bodyEventId, queryEventId, eventCode, byEventId, byEventCode, before);
      after != before ==>
        userClaims.Some? && PresentId(userClaims.value.consumerId)
        && (Truthy(EventIdParam(bodyEventId, queryEventId)) || Truthy(eventCode))
        && (after == Some(true) <==> CheckIsEventAdmin(userClaims, bodyEventId, queryEventId, eventCode, byEventId, byEventCode) == Next)
  {
  }
}

=== FILE: auth_routes.dfy ===
// E-mail domain matching of routes/authentication.ts: the SSO lookup of
// GET /sso-email, isValidInstitutionEmail, isEmailPreApprovedForEvent, and
// the optional id lists of GET /user.

module AuthRoutes {
  import opened Js

  // ------------------------------------------------------------ GET /sso-email

  /** The institution columns the SSO lookup reads; a null `validEmails` is the empty string. */
  datatype SsoInstitution = SsoInstitution(
    institutionId: int,
    ssoEnabled: bool,
    validEmails: string,
    allowSSOSubdomains: bool)

  /** Only SSO-enabled institutions with a (truthy) domain list take part. */
  predicate Considered(inst: SsoInstitution)
  {
    inst.ssoEnabled && inst.validEmails != ""
  }

  /** `validEmails.split(', ')` */
  function Domains(inst: SsoInstitution): seq<string>
  {
    Split(inst.validEmails, ", ")
  }

  /**
   * One domain test. The subdomain test reads `email.split('@')[1]`, which is
   * undefined (and `.endsWith` throws) when the address has no '@'.
   */
  function DomainMatch(email: string, domain: string, allowSubdomains: bool): (r: Result<bool>)
    ensures EndsWith(Lower(email), "@" + domain) ==> r == Ok(true)
    ensures !allowSubdomains ==> r == Ok(EndsWith(Lower(email), "@" + domain))
    ensures r == Ok(true) <==>
      EndsWith(Lower(email), "@" + domain)
      || (allowSubdomains && |Split(Lower(email), "@")| >= 2 && EndsWith(Split(Lower(email), "@")[1], "." + domain))
    ensures r.Thrown? ==> allowSubdomains && |Split(Lower(email), "@")| == 1
  {
    var lower := Lower(email);
    if EndsWith(lower, "@" + domain) then Ok(true)
    else if !allowSubdomains then Ok(false)
    else
      var parts := Split(lower, "@");
      if |parts| < 2 then Thrown("TypeError")
      else Ok(EndsWith(parts[1], "." + domain))
  }

  /** The inner `for ... break`: the first domain that matches, stopping at a throw. */
  function FirstDomainMatch(email: string, domains: seq<string>, allowSubdomains: bool): (r: Result<bool>)
    ensures r == Ok(true) ==> exists k | 0 <= k < |domains| :: DomainMatch(email, domains[k], allowSubdomains) == Ok(true)
    ensures (forall k | 0 <= k < |domains| :: DomainMatch(email, domains[k], allowSubdomains) == Ok(false)) ==> r == Ok(false)
  {
    if |domains| == 0 then Ok(false)
    else
      var m :- DomainMatch(email, domains[0], allowSubdomains);
      if m then Ok(true)
      else
        var rest := FirstDomainMatch(email, domains[1..], allowSubdomains);
        assert rest == Ok(true) ==> exists k | 1 <= k < |domains| :: DomainMatch(email, domains[k], allowSubdomains) == Ok(true) by {
          if rest == Ok(true) {
            var k :| 0 <= k < |domains[1..]| && DomainMatch(email, domains[1..][k], allowSubdomains) == Ok(true);
            assert domains[1..][k] == domains[k + 1];
          }
        }
        rest
  }

  /** Whether one institution matches: it must be considered, and then one of its domains must match. */
  function InstitutionMatch(email: string, inst: SsoInstitution): (r: Result<bool>)
    ensures !Considered(inst) ==> r == Ok(false)
  {
    if !Considered(inst) then Ok(false)
    else FirstDomainMatch(email, Domains(inst), inst.allowSSOSubdomains)
  }

  /** What the `forEach` leaves behind: `hasSSOEmail` and `instId`. */
  datatype SsoState = SsoState(hasSSOEmail: bool, instId: Option<int>)

  /** The `forEach` over all institutions, read from the last one back; a throw ends the handler. */
  function SsoLookup(email: string, institutions: seq<SsoInstitution>): (r: Result<SsoState>)
    ensures r.Ok? ==> (r.value.hasSSOEmail <==> r.value.instId.Some?)
  {
    if |institutions| == 0 then Ok(SsoState(false, None))
    else
      var n := |institutions| - 1;
      var before :- SsoLookup(email, institutions[..n]);
      var m :- InstitutionMatch(email, institutions[n]);
      Ok(if m then SsoState(true, Some(institutions[n].institutionId)) else before)
  }

  /** The JSON body of GET /sso-email. */
  datatype SsoReply = SsoReply(continueNormalAuthenticationFlow: bool, institutionId: Option<int>)

  /** The SSO lookup as the handler runs it: a `forEach` with an inner `for` that breaks at the first matching domain. */
  method SsoEmail(email: string, institutions: seq<SsoInstitution>) returns (r: Result<SsoReply>)
    ensures r.Thrown? <==> SsoLookup(email, institutions).Thrown?
    ensures r.Ok? ==> r.value == SsoReply(!SsoLookup(email, institutions).value.hasSSOEmail, SsoLookup(email, institutions).value.instId)
  {
    var hasSSOEmail := false;
    var instId: Option<int> := None;
    for i := 0 to |institutions|
      invariant SsoLookup(email, institutions[..i]) == Ok(SsoState(hasSSOEmail, instId))
    {
      assert institutions[..i + 1][..i] == institutions[..i];
      var inst := institutions[i];
      if inst.ssoEnabled && inst.validEmails != "" {
        var domains := Split(inst.validEmails, ", ");
        var j := 0;
        var found := false;
        ghost var before := SsoState(hasSSOEmail, instId);
        while j < |domains| && !found
          invariant 0 <= j <= |domains|
          invariant found ==> hasSSOEmail && instId == Some(inst.institutionId)
          invariant !found ==> SsoState(hasSSOEmail, instId) == before
          invariant found ==> InstitutionMatch(email, inst) == Ok(true)
          invariant !found ==> InstitutionMatch(email, inst) == FirstDomainMatch(email, domains[j..], inst.allowSSOSubdomains)
        {
          assert domains[j..][1..] == domains[j + 1..];
          var m := DomainMatch(email, domains[j], inst.allowSSOSubdomains);
          if m.Thrown? {
            assert InstitutionMatch(email, institutions[i]).Thrown?;
            SsoThrowsAt(email, institutions, i);
            return Thrown(m.message);
          }
          if m.value {
            hasSSOEmail := true;
            instId := Some(inst.institutionId);
            found := true;
          }
          j := j + 1;
        }
        assert !found ==> domains[j..] == [];
      }
      assert SsoLookup(email, institutions[..i + 1]) == Ok(SsoState(hasSSOEmail, instId));
    }
    assert institutions[..|institutions|] == institutions;
    r := Ok(SsoReply(!hasSSOEmail, instId));
  }

  /** A throw in any institution's test makes the whole lookup throw. */
  lemma {:induction false} SsoThrowsAt(email: string, institutions: seq<SsoInstitution>, i: nat)
    requires i < |institutions| && InstitutionMatch(email, institutions[i]).Thrown?
    ensures SsoLookup(email, institutions).Thrown?
  {
    var n := |institutions| - 1;
    if i < n {
      assert institutions[..n][i] == institutions[i];
      SsoThrowsAt(email, institutions[..n], i);
    }
  }

  /** Without a throwing test the lookup finishes. */
  lemma {:induction false} SsoFinishes(email: string, institutions: seq<SsoInstitution>)
    requires forall i | 0 <= i < |institutions| :: InstitutionMatch(email, institutions[i]).Ok?
    ensures SsoLookup(email, institutions).Ok?
  {
    if |institutions| > 0 {
      var n := |institutions| - 1;
      assert forall i | 0 <= i < n :: institutions[..n][i] == institutions[i];
      SsoFinishes(email, institutions[..n]);
    }
  }

  /** With no matching institution, SSO is not reported and no id is sent. */
  lemma {:induction false} SsoNoMatch(email: string, institutions: seq<SsoInstitution>)
    requires forall i | 0 <= i < |institutions| :: InstitutionMatch(email, institutions[i]) == Ok(false)
    ensures SsoLookup(email, institutions) == Ok(SsoState(false, None))
  {
    if |institutions| > 0 {
      var n := |institutions| - 1;
      assert forall i | 0 <= i < n :: institutions[..n][i] == institutions[i];
      SsoNoMatch(email, institutions[..n]);
    }
  }

  /** When institution i matches and no later one does, SSO is reported with the id of institution i: the last match wins. */
  lemma {:induction false} SsoReportsLastMatch(email: string, institutions: seq<SsoInstitution>, i: nat)
    requires SsoLookup(email, institutions).Ok?
    requires i < |institutions| && InstitutionMatch(email, institutions[i]) == Ok(true)
    requires forall j | i < j < |institutions| :: InstitutionMatch(email, institutions[j]) == Ok(false)
    ensures SsoLookup(email, institutions) == Ok(SsoState(true, Some(institutions[i].institutionId)))
  {
    var n := |institutions| - 1;
    if i < n {
      var prefix := institutions[..n];
      assert prefix[i] == institutions[i];
      assert forall j | i < j < n :: prefix[j] == institutions[j];
      SsoReportsLastMatch(email, prefix, i);
    }
  }

  /** An address with one '@' whose host is a subdomain of a listed domain matches exactly when subdomains are allowed. */
  lemma SubdomainNeedsFlag(local: string, sub: string, domain: string, allowSubdomains: bool)
    requires Lacks(local, '@') && Lacks(sub, '@') && Lacks(domain, '@')
    requires local == Lower(local) && sub == Lower(sub) && domain == Lower(domain)
    ensures DomainMatch(local + "@" + sub + "." + domain, domain, allowSubdomains) == Ok(allowSubdomains)
  {
    var email := local + "@" + sub + "." + domain;
    var host := sub + "." + domain;
    assert email == local + ['@'] + host;
    assert Lacks(host, '@');
    LowerConcat(local, "@", host);
    SplitOnce(local, host, '@');
    assert EndsWith(host, "." + domain) by {
      assert host[|host| - |"." + domain|..] == "." + domain;
    }
    assert Lower(email) == email;
    assert Split(email, "@") == [local, host];
    assert !EndsWith(email, "@" + domain) by {
      assert email[|email| - 1 - |domain|] == '.';
    }
  }

  lemma LowerConcat(a: string, b: string, c: string)
    requires a == Lower(a) && b == Lower(b) && c == Lower(c)
    ensures Lower(a + b + c) == a + b + c
  {
    var s := a + b + c;
    forall i | 0 <= i < |s| ensures LowerChar(s[i]) == s[i] {
      if i < |a| {
        assert s[i] == a[i];
      } else if i < |a| + |b| {
        assert s[i] == b[i - |a|];
      } else {
        assert s[i] == c[i - |a| - |b|];
      }
    }
  }

  // ------------------------------------------------------------ isValidInstitutionEmail

  /** The domain loop of isValidInstitutionEmail: true at the first domain the address ends with. */
  function AnyDomainSuffix(lowerEmail: string, domains: seq<string>): (r: bool)
    ensures r <==> exists k | 0 <= k < |domains| :: EndsWith(lowerEmail, "@" + domains[k])
  {
    if |domains| == 0 then false
    else if EndsWith(lowerEmail, "@" + domains[0]) then true
    else
      assert forall k | 1 <= k < |domains| :: domains[k] == domains[1..][k - 1];
      AnyDomainSuffix(lowerEmail, domains[1..])
  }

  /**
   * isValidInstitutionEmail over the event's `allowAllDomains`, its specified
   * addresses (null when none) and its domain list (null or empty when none).
   */
  function IsValidInstitutionEmail(email: string, allowAllDomains: bool, specifiedEmails: Option<seq<string>>, validEmails: string): (r: bool)
    ensures allowAllDomains ==> r
    ensures specifiedEmails.Some? && Lower(email) in specifiedEmails.value ==> r
    ensures r <==>
      allowAllDomains
      || (specifiedEmails.Some? && Lower(email) in specifiedEmails.value)
      || (validEmails != "" && exists d | d in Split(validEmails, ", ") :: EndsWith(Lower(email), "@" + d))
  {
    if allowAllDomains then true
    else if specifiedEmails.Some? && Lower(email) in specifiedEmails.value then true
    else
      var domains := if validEmails != "" then Split(validEmails, ", ") else [];
      AnyDomainSuffix(Lower(email), domains)
  }

  /** The check ignores the case of the address but not that of the listed domains. */
  lemma InstitutionEmailIgnoresCase(a: string, b: string, allowAllDomains: bool, specifiedEmails: Option<seq<string>>, validEmails: string)
    requires EqualsIgnoreCase(a, b)
    ensures IsValidInstitutionEmail(a, allowAllDomains, specifiedEmails, validEmails)
        == IsValidInstitutionEmail(b, allowAllDomains, specifiedEmails, validEmails)
  {
  }

  // ------------------------------------------------------------ isEmailPreApprovedForEvent

  /** isEmailPreApprovedForEvent: a falsy address or event id is never pre-approved; otherwise exact membership. */
  function IsEmailPreApprovedForEvent(email: string, eventId: Val, preApprovedEmails: seq<string>): (r: bool)
    ensures r ==> email != "" && Truthy(eventId)
    ensures email != "" && Truthy(eventId) ==> (r <==> email in preApprovedEmails)
  {
    if email == "" || !Truthy(eventId) then false
    else email in preApprovedEmails
  }

  /** Pre-approval compares case-sensitively: an address listed only in another case is not pre-approved. */
  lemma PreApprovalIsCaseSensitive(email: string, eventId: Val)
    requires Truthy(eventId)
    ensures !IsEmailPreApprovedForEvent("Ab" + email, eventId, ["ab" + email])
  {
    assert ("Ab" + email)[0] == 'A';
    assert ("ab" + email)[0] == 'a';
  }

  // ------------------------------------------------------------ GET /user

  /** An id list is added to the reply only when it is an array with at least one element. */
  predicate NonEmptyList(ids: Option<seq<int>>)
  {
    ids.Some? && |ids.value| > 0
  }

  function IdList(ids: seq<int>): Val
  {
    Arr(seq(|ids|, i requires 0 <= i < |ids| => Num(ids[i])))
  }

  /** The reply of GET /user: the fixed profile fields plus each non-empty optional id list. */
  function UserReply(profile: map<string, Val>, adminEventIds: Option<seq<int>>, blockedEventIds: Option<seq<int>>, subscriptionIds: Option<seq<int>>): (r: map<string, Val>)
    ensures ("adminEventIds" in r) <==> NonEmptyList(adminEventIds) || "adminEventIds" in profile
    ensures ("blockedEventIds" in r) <==> NonEmptyList(blockedEventIds) || "blockedEventIds" in profile
    ensures ("subscriptionIds" in r) <==> NonEmptyList(subscriptionIds) || "subscriptionIds" in profile
    ensures NonEmptyList(adminEventIds) ==> r["adminEventIds"] == IdList(adminEventIds.value)
    ensures NonEmptyList(blockedEventIds) ==> r["blockedEventIds"] == IdList(blockedEventIds.value)
    ensures NonEmptyList(subscriptionIds) ==> r["subscriptionIds"] == IdList(subscriptionIds.value)
    ensures forall key | key in profile && key !in {"adminEventIds", "blockedEventIds", "subscriptionIds"} :: key in r && r[key] == profile[key]
  {
    var withAdmin := if NonEmptyList(adminEventIds) then profile["adminEventIds" := IdList(adminEventIds.value)] else profile;
    var withBlocked := if NonEmptyList(blockedEventIds) then withAdmin["blockedEventIds" := IdList(blockedEventIds.value)] else withAdmin;
    if NonEmptyList(subscriptionIds) then withBlocked["subscriptionIds" := IdList(subscriptionIds.value)] else withBlocked
  }

  /** The profile fields GET /user always sends. */
  function Profile(email: string, firstName: string, lastName: string, userId: int, profileImgName: Val, eventIds: Val, institutionId: Val, institutionCode: Val): (r: map<string, Val>)
    ensures r.Keys == {"email", "firstName", "lastName", "userId", "profileImgName", "eventIds", "institutionId", "institutionCode"}
  {
    map["email" := Str(email), "firstName" := Str(firstName), "lastName" := Str(lastName), "userId" := Num(userId),
        "profileImgName" := profileImgName, "eventIds" := eventIds, "institutionId" := institutionId, "institutionCode" := institutionCode]
  }

  /** For the fixed profile, an optional list is present in the reply exactly when it is non-empty. */
  lemma UserReplyOptionalLists(email: string, firstName: string, lastName: string, userId: int, profileImgName: Val, eventIds: Val, institutionId: Val, institutionCode: Val,
                               adminEventIds: Option<seq<int>>, blockedEventIds: Option<seq<int>>, subscriptionIds: Option<seq<int>>)
    ensures var r := UserReply(Profile(email, firstName, lastName, userId, profileImgName, eventIds, institutionId, institutionCode), adminEventIds, blockedEventIds, subscriptionIds);
      ("adminEventIds" in r <==> NonEmptyList(adminEventIds))
      && ("blockedEventIds" in r <==> NonEmptyList(blockedEventIds))
      && ("subscriptionIds" in r <==> NonEmptyList(subscriptionIds))
      && r["email"] == Str(email)
  {
  }
}

=== FILE: comments.dfy ===
// The comment routes (routes/index.ts): reply nesting and redaction in
// GET /comments, the guard chains of POST /postComment and /postReply, and
// who is notified of a new comment.

module Comments {
  import opened Js
  import opened Http
  import opened Entities
  import opened EventGuards
  import opened AuthGuards
  import opened ResponseLocals

  /** A deleted or hidden comment is redacted. */
  predicate IsHidden(c: Comment)
  {
    c.deleteDate.Some? || c.hiddenByAdminDate.Some?
  }

  /** The redaction step: a hidden comment loses its text and its author. */
  function Redact(c: Comment): (r: Comment)
    ensures IsHidden(c) ==> r.comment == "" && r.consumerId == -1 && r.firstName == "" && r.lastName == ""
    ensures !IsHidden(c) ==> r == c
    ensures r.commentId == c.commentId && r.parentCommentId == c.parentCommentId && r.comments == c.comments
    ensures r.deleteDate == c.deleteDate && r.hiddenByAdminDate == c.hiddenByAdminDate
  {
    if IsHidden(c) then c.(comment := "", consumerId := -1, firstName := "", lastName := "") else c
  }

  /** `comments.map(redact)` */
  function RedactAll(cs: seq<Comment>): (r: seq<Comment>)
    ensures |r| == |cs|
    ensures forall k | 0 <= k < |cs| :: r[k] == Redact(cs[k])
  {
    if |cs| == 0 then [] else [Redact(cs[0])] + RedactAll(cs[1..])
  }

  /** getComments({ parentCommentId }): the rows of the comment table that answer the given comment, in table order. */
  function RepliesTo(table: seq<Comment>, parentId: int): (r: seq<Comment>)
    ensures |r| <= |table|
    ensures forall k | 0 <= k < |r| :: r[k].parentCommentId == Some(parentId) && r[k] in table
  {
    if |table| == 0 then []
    else
      var rest := RepliesTo(table[..|table| - 1], parentId);
      var last := table[|table| - 1];
      if last.parentCommentId == Some(parentId) then rest + [last] else rest
  }

  /** What GET /comments returns for one top-level comment. */
  function Thread(top: Comment, table: seq<Comment>): (r: Comment)
    ensures r.commentId == top.commentId
    ensures IsHidden(top) ==> r.comment == "" && r.consumerId == -1 && r.firstName == "" && r.lastName == ""
    ensures |r.comments| == |RepliesTo(table, top.commentId)|
    ensures forall k | 0 <= k < |r.comments| :: r.comments[k] == Redact(RepliesTo(table, top.commentId)[k])
  {
    Redact(top.(comments := RedactAll(RepliesTo(table, top.commentId))))
  }

  /**
   * GET /comments after checkPosterAuthorized: `topLevel` holds the poster's
   * top-level comments; `table` is the comment table that getComments reads.
   * The replies are attached to each comment object, then every reply and
   * every comment is redacted in place.
   */
  method GetComments(topLevel: array<Comment>, table: seq<Comment>)
    modifies topLevel
    ensures forall i | 0 <= i < topLevel.Length :: topLevel[i] == Thread(old(topLevel[i]), table)
  {
    AttachReplies(topLevel, table);
    ghost var attached := topLevel[..];
    RedactThreads(topLevel);
    forall i | 0 <= i < topLevel.Length
      ensures topLevel[i] == Thread(old(topLevel[i]), table)
    {
      assert attached[i] == old(topLevel[i]).(comments := RepliesTo(table, old(topLevel[i]).commentId));
    }
  }

  /** The loop that sets `comments` of every top-level comment to its replies. */
  method AttachReplies(topLevel: array<Comment>, table: seq<Comment>)
    modifies topLevel
    ensures forall j | 0 <= j < topLevel.Length :: topLevel[j] == old(topLevel[j]).(comments := RepliesTo(table, old(topLevel[j]).commentId))
  {
    for i := 0 to topLevel.Length
      invariant forall j | 0 <= j < i :: topLevel[j] == old(topLevel[j]).(comments := RepliesTo(table, old(topLevel[j]).commentId))
      invariant forall j | i <= j < topLevel.Length :: topLevel[j] == old(topLevel[j])
    {
      topLevel[i] := topLevel[i].(comments := RepliesTo(table, topLevel[i].commentId));
    }
  }

  /** The map that redacts the replies of every comment, then the comment itself. */
  method RedactThreads(topLevel: array<Comment>)
    modifies topLevel
    ensures forall j | 0 <= j < topLevel.Length :: topLevel[j] == Redact(old(topLevel[j]).(comments := RedactAll(old(topLevel[j]).comments)))
  {
    for i := 0 to topLevel.Length
      invariant forall j | 0 <= j < i :: topLevel[j] == Redact(old(topLevel[j]).(comments := RedactAll(old(topLevel[j]).comments)))
      invariant forall j | i <= j < topLevel.Length :: topLevel[j] == old(topLevel[j])
    {
      var c := topLevel[i];
      c := c.(comments := RedactAll(c.comments));
      if c.deleteDate.Some? || c.hiddenByAdminDate.Some? {
        c := c.(comment := "", consumerId := -1, firstName := "", lastName := "");
      }
      topLevel[i] := c;
    }
  }

  /** Redacting twice changes nothing more. */
  lemma RedactIdempotent(c: Comment)
    ensures Redact(Redact(c)) == Redact(c)
  {
  }

  /** A reply is attached under a top-level comment exactly when its parentCommentId names it, in table order. */
  lemma {:induction false} RepliesAreThoseOfTheParent(table: seq<Comment>, parentId: int, c: Comment)
    ensures c in RepliesTo(table, parentId) <==> c in table && c.parentCommentId == Some(parentId)
  {
    if |table| > 0 {
      RepliesAreThoseOfTheParent(table[..|table| - 1], parentId, c);
      assert table == table[..|table| - 1] + [table[|table| - 1]];
    }
  }

  /** Visible comments and replies come back exactly as stored, with the replies nested; the order of both is kept. */
  lemma ThreadKeepsVisibleComments(top: Comment, table: seq<Comment>)
    requires !IsHidden(top)
    ensures Thread(top, table).comment == top.comment && Thread(top, table).consumerId == top.consumerId
    ensures |Thread(top, table).comments| == |RepliesTo(table, top.commentId)|
    ensures forall k | 0 <= k < |RepliesTo(table, top.commentId)| && !IsHidden(RepliesTo(table, top.commentId)[k]) ::
      Thread(top, table).comments[k] == RepliesTo(table, top.commentId)[k]
  {
  }

  // ------------------------------------------------------------ guard chains

  /** The caller's claims once checkIsAuthenticated has passed. */
  function SignedInClaims(authHeader: Option<string>, id: Identity): Option<Claims>
  {
    var token := GetBearerAuthTokenFromHeader(authHeader);
    if SignsIn(token, id) then JoinConsumer(id.tokens[token], id.consumers) else None
  }

  /** POST /postComment runs checkIsAuthenticated, checkIsUserOwner, then checkCommentPosterAuthorized. */
  function PostCommentOutcome(
    authHeader: Option<string>, id: Identity, bodyConsumerId: Val,
    poster: Fetch<Presentation>, events: map<int, Event>, blocked: Fetch<seq<int>>, eventCodeOrHash: Option<string>): Outcome
  {
    var claims := SignedInClaims(authHeader, id);
    Then(AuthenticatedOutcome(authHeader, id),
      Then(CheckIsUserOwner(bodyConsumerId, claims),
        CheckCommentPosterAuthorized(claims, poster, events, blocked, eventCodeOrHash)))
  }

  /** POST /postReply adds checkParentCommentNotDeleted at the end of the same chain. */
  function PostReplyOutcome(
    authHeader: Option<string>, id: Identity, bodyConsumerId: Val,
    poster: Fetch<Presentation>, events: map<int, Event>, blocked: Fetch<seq<int>>, eventCodeOrHash: Option<string>,
    parent: Fetch<Comment>): Outcome
  {
    Then(PostCommentOutcome(authHeader, id, bodyConsumerId, poster, events, blocked, eventCodeOrHash),
      CheckParentCommentNotDeleted(parent))
  }

  /** After checkIsAuthenticated passes, res.locals.userClaims holds the joined claims of the token. */
  lemma SignedInAfterAuthentication(authHeader: Option<string>, id: Identity, before: Written)
    requires AuthenticatedOutcome(authHeader, id) == Next
    ensures SignInWrites(GetBearerAuthTokenFromHeader(authHeader), id, before).userClaims == SignedInClaims(authHeader, id)
    ensures SignedInClaims(authHeader, id).Some?
  {
  }

  lemma PostCommentAfterAuthentication(
    authHeader: Option<string>, id: Identity, bodyConsumerId: Val,
    poster: Fetch<Presentation>, events: map<int, Event>, blocked: Fetch<seq<int>>, eventCodeOrHash: Option<string>)
    requires AuthenticatedOutcome(authHeader, id) == Next
    ensures PostCommentOutcome(authHeader, id, bodyConsumerId, poster, events, blocked, eventCodeOrHash)
         == Then(CheckIsUserOwner(bodyConsumerId, SignedInClaims(authHeader, id)),
                 CheckCommentPosterAuthorized(SignedInClaims(authHeader, id), poster, events, blocked, eventCodeOrHash))
  {
  }

  /** The postComment middleware chain run against res.locals. */
  method PostCommentGuards(
    locals: Locals, authHeader: Option<string>, id: Identity, bodyConsumerId: Val,
    poster: Fetch<Presentation>, events: map<int, Event>, blocked: Fetch<seq<int>>, eventCodeOrHash: Option<string>)
    returns (o: Outcome)
    modifies locals
    ensures o == PostCommentOutcome(authHeader, id, bodyConsumerId, poster, events, blocked, eventCodeOrHash)
  {
    ghost var before := Written(locals.token, locals.userClaims);
    o := CheckIsAuthenticated(locals, authHeader, id);
    if o != Next {
      return;
    }
    SignedInAfterAuthentication(authHeader, id, before);
    PostCommentAfterAuthentication(authHeader, id, bodyConsumerId, poster, events, blocked, eventCodeOrHash);
    var claims := locals.userClaims;
    var owner := CheckIsUserOwner(bodyConsumerId, claims);
    if owner != Next {
      return owner;
    }
    o := CheckCommentPosterAuthorized(claims, poster, events, blocked, eventCodeOrHash);
  }

  /** A comment is accepted only from a signed-in caller posting under their own consumer id, not blocked from the event. */
  lemma {:induction false} PostCommentRequirements(
    authHeader: Option<string>, id: Identity, bodyConsumerId: Val,
    poster: Fetch<Presentation>, events: map<int, Event>, blocked: Fetch<seq<int>>, eventCodeOrHash: Option<string>)
    requires PostCommentOutcome(authHeader, id, bodyConsumerId, poster, events, blocked, eventCodeOrHash) == Next
    ensures var token := GetBearerAuthTokenFromHeader(authHeader);
      SignsIn(token, id)
      && NumberEquals(ToNumber(bodyConsumerId), ClaimedConsumerNumber(id.tokens[token]))
      && poster.Found? && poster.row.eventId in events
      && IsConsumerBlockedFromEvent(id.tokens[token].consumerId, Some(events[poster.row.eventId].eventId), blocked) == Ok(false)
  {
    var token := GetBearerAuthTokenFromHeader(authHeader);
    assert AuthenticatedOutcome(authHeader, id) == Next;
    var claims := JoinConsumer(id.tokens[token], id.consumers);
    assert CheckIsUserOwner(bodyConsumerId, claims) == Next;
    assert claims.value.consumerId == id.tokens[token].consumerId;
  }

  /** A reply is accepted only when the comment would be, and the parent comment exists and is not deleted. */
  lemma PostReplyRequirements(
    authHeader: Option<string>, id: Identity, bodyConsumerId: Val,
    poster: Fetch<Presentation>, events: map<int, Event>, blocked: Fetch<seq<int>>, eventCodeOrHash: Option<string>,
    parent: Fetch<Comment>)
    ensures PostReplyOutcome(authHeader, id, bodyConsumerId, poster, events, blocked, eventCodeOrHash, parent) == Next
        <==> PostCommentOutcome(authHeader, id, bodyConsumerId, poster, events, blocked, eventCodeOrHash) == Next
             && parent.Found? && parent.row.deleteDate.None?
  {
  }

  // ------------------------------------------------------------ notifications

  /** The presenter2Email .. presenter8Email values of those that are not empty (lodash isEmpty), in order. */
  function NonEmptyEmails(emails: seq<Val>): (r: seq<Val>)
    ensures |r| <= |emails|
    ensures forall k | 0 <= k < |r| :: !LodashIsEmpty(r[k]) && r[k] in emails
  {
    if |emails| == 0 then []
    else
      var rest := NonEmptyEmails(emails[..|emails| - 1]);
      if LodashIsEmpty(emails[|emails| - 1]) then rest else rest + [emails[|emails| - 1]]
  }

  /**
   * The addresses a new comment is mailed to: presenterEmail first, then
   * each non-empty presenterXEmail for X from 2 to 8. `alternates` holds
   * presenter2Email .. presenter8Email.
   */
  method CommentRecipients(presenterEmail: Val, alternates: seq<Val>) returns (to: seq<Val>)
    requires |alternates| == 7
    ensures to == [presenterEmail] + NonEmptyEmails(alternates)
  {
    to := [presenterEmail];
    for x := 2 to 9
      invariant to == [presenterEmail] + NonEmptyEmails(alternates[..x - 2])
    {
      assert alternates[..x - 1][..x - 2] == alternates[..x - 2];
      var altPresenterEmail := alternates[x - 2];
      if !LodashIsEmpty(altPresenterEmail) {
        to := to + [altPresenterEmail];
      }
    }
    assert alternates[..7] == alternates;
  }

  /** Every non-empty alternate address is notified, and nothing else besides the main presenter. */
  lemma {:induction false} EveryNonEmptyAlternateNotified(emails: seq<Val>, e: Val)
    ensures e in NonEmptyEmails(emails) <==> e in emails && !LodashIsEmpty(e)
  {
    if |emails| > 0 {
      EveryNonEmptyAlternateNotified(emails[..|emails| - 1], e);
      assert emails == emails[..|emails| - 1] + [emails[|emails| - 1]];
    }
  }
}

=== FILE: consumer_names.dfy ===
// getConsumerNames (models/consumer.ts): the display names of a list of consumers.

module ConsumerNames {

  /** The two consumer columns the names are built from. */
  datatype ConsumerName = ConsumerName(firstName: string, lastName: string)

  /** `${firstName} ${lastName}` */
  function FullName(c: ConsumerName): string
  {
    c.firstName + " " + c.lastName
  }

  /** The map over the consumers. */
  function GetConsumerNames(consumers: seq<ConsumerName>): (names: seq<string>)
    ensures |names| == |consumers|
    ensures forall i | 0 <= i < |consumers| :: names[i] == FullName(consumers[i])
  {
    if |consumers| == 0 then [] else [FullName(consumers[0])] + GetConsumerNames(consumers[1..])
  }

  /** The names keep the consumers' order: the map distributes over concatenation. */
  lemma {:induction false} ConsumerNamesKeepOrder(a: seq<ConsumerName>, b: seq<ConsumerName>)
    ensures GetConsumerNames(a + b) == GetConsumerNames(a) + GetConsumerNames(b)
  {
    var l, r := GetConsumerNames(a + b), GetConsumerNames(a) + GetConsumerNames(b);
    assert |l| == |r|;
    forall i | 0 <= i < |l|
      ensures l[i] == r[i]
    {
      if i < |a| {
        assert (a + b)[i] == a[i];
      } else {
        assert (a + b)[i] == b[i - |a|];
      }
    }
  }
}

=== FILE: entities.dfy ===
// The records the access decisions read: events, claims decoded from a
// Firebase ID token, presentations and subscriptions joined with their tier.

module Entities {
  import opened Js

  /** The event privacy levels (PrivacyLevel enum in the event model). */
  datatype PrivacyLevel = Public | Private | InstitutionHash | EventHash | PresentationHash

  /** Timestamps are integers (milliseconds); a missing date is None. */
  datatype Event = Event(
    eventId: int,
    eventCode: string,
    hash: string,
    name: string,
    privacyLevel: PrivacyLevel,
    institutionId: int,
    subscriptionId: int,
    startDate: int,
    deleteDate: Option<int>)

  /** The claims kept in res.locals.userClaims: a decoded Firebase ID token, later joined with the consumer row. */
  datatype Claims = Claims(
    consumerId: Option<int>,
    eventIds: Option<seq<int>>,
    institutionId: Option<int>,
    institutionCode: Option<string>)

  /** The consumer columns the identity checks copy into the claims. */
  datatype Consumer = Consumer(institutionId: int, institutionCode: string)

  /** A comment row; `comments` holds the replies attached to a top-level comment. */
  datatype Comment = Comment(
    commentId: int,
    parentCommentId: Option<int>,
    comment: string,
    consumerId: int,
    firstName: string,
    lastName: string,
    deleteDate: Option<int>,
    hiddenByAdminDate: Option<int>,
    comments: seq<Comment>)

  datatype Presentation = Presentation(
    presentationId: int,
    eventId: int,
    hash: string,
    institutionId: int)

  datatype BillingType = Recurring | Single

  /** A subscription joined with its tier (SubscriptionWithTier); a null limit is None. */
  datatype Subscription = Subscription(
    subscriptionId: int,
    endDate: Option<int>,
    billingType: BillingType,
    eventsNumberLimit: Option<int>,
    liveSessionsLimit: Option<int>,
    eventUptimeInDays: Option<int>,
    numAdminAccounts: Option<int>,
    presentationsLimit: Option<int>)
}

=== FILE: event_config.dfy ===
// The submission-form configuration of an event (routes/events.ts): the
// error list of getPresentationFormConfigErrors, the hashes that
// assignPresConfigExtraFieldHashes gives to new extra fields, and the filter
// tags that a configuration defines.

module EventConfig {
  import opened Js
  import opened PresentationForms
  import PresentationData

  /** One message of getPresentationFormConfigErrors: the dotted field it names and the rule it states, if any. */
  datatype ConfigError = ConfigMissing(path: string, rule: string) | ConfigInvalid(path: string, rule: string)

  function Dot(path: string, key: string): string
  {
    path + "." + key
  }

  /** `path[idx]` */
  function Indexed(path: string, idx: nat): string
  {
    path + "[" + NatToString(idx) + "]"
  }

  /** `v && typeof v !== 'string'`: an optional text that is present but not text. */
  predicate BadOptionalText(v: Val)
  {
    Truthy(v) && !v.Str?
  }

  function OptionalText(obj: Val, key: string, path: string): (r: seq<ConfigError>)
    ensures r == [] <==> !BadOptionalText(OptGet(obj, key))
  {
    if BadOptionalText(OptGet(obj, key)) then [ConfigInvalid(path, "")] else []
  }

  /** The option-label forEach: one error per label that is not a string. */
  function OptionLabelErrors(labels: seq<Val>, path: string): (r: seq<ConfigError>)
    ensures r == [] <==> forall i | 0 <= i < |labels| :: labels[i].Str?
    ensures |r| <= |labels|
  {
    if |labels| == 0 then []
    else
      var n := |labels| - 1;
      var prefix := OptionLabelErrors(labels[..n], path);
      assert forall i | 0 <= i < n :: labels[..n][i] == labels[i];
      prefix + (if !labels[n].Str? then [ConfigInvalid(Indexed(path, n), "")] else [])
  }

  // ------------------------------------------------------------ field checks

  /** `maxAddlPresenters`: not null or undefined, and Number() of it a number from 0 through 7. */
  predicate MaxAddlValid(v: Val)
  {
    !Nullish(v) && ToNumber(v).Num? && 0 <= ToNumber(v).n <= 7
  }

  /** The level and subjects fields: a select field with a fixed type and, when shown, a list of text options. */
  function ChoiceConfigErrors(field: Val, path: string, expectedType: string): (r: Result<seq<ConfigError>>)
    ensures Truthy(OptGet(field, "isDisplayed")) && !OptGet(field, "optionLabels").Arr? ==> r.Thrown?
    ensures r == Ok([]) ==>
      !(Truthy(OptGet(field, "type")) && OptGet(field, "type") != Str(expectedType))
      && (Truthy(OptGet(field, "isDisplayed")) ==>
            Truthy(OptGet(field, "label")) && OptGet(field, "optionLabels").Arr? && |OptGet(field, "optionLabels").items| > 0
            && forall i | 0 <= i < |OptGet(field, "optionLabels").items| :: OptGet(field, "optionLabels").items[i].Str?)
  {
    var fieldType := OptGet(field, "type");
    var caption := OptGet(field, "label");
    var options := OptGet(field, "optionLabels");
    var plain :=
      OptionalText(field, "hash", Dot(path, "hash"))
      + OptionalText(field, "label", Dot(path, "label"))
      + OptionalText(field, "description", Dot(path, "description"))
      + (if Truthy(fieldType) && fieldType != Str(expectedType) then [ConfigInvalid(Dot(path, "type"), "must be '" + expectedType + "'")] else []);
    if !Truthy(OptGet(field, "isDisplayed")) then Ok(plain)
    else
      match options
      case Arr(items) =>
        Ok(plain
           + (if !Truthy(caption) then [ConfigInvalid(Dot(path, "label"), "required when field isDisplayed")] else [])
           + (if |items| == 0 then [ConfigInvalid(Dot(path, "optionLabels"), "")] else [])
           + OptionLabelErrors(items, Dot(path, "optionLabels")))
      case _ => Thrown("TypeError")
  }

  /** The title and abstract fields: always shown and required, rich text. */
  function FixedFieldErrors(field: Val, path: string): (r: seq<ConfigError>)
    ensures r == [] ==> Truthy(field) && Truthy(OptGet(field, "isDisplayed")) && Truthy(OptGet(field, "isRequired"))
    ensures Truthy(field) && !(Truthy(OptGet(field, "isDisplayed")) && Truthy(OptGet(field, "isRequired"))) ==>
      ConfigInvalid(path, "isDisplayed and isRequired must be true") in r
  {
    var caption := OptGet(field, "label");
    var fieldType := OptGet(field, "type");
    if !Truthy(field) then [ConfigMissing(path, "")]
    else
      (if !Truthy(OptGet(field, "isDisplayed")) || !Truthy(OptGet(field, "isRequired"))
       then [ConfigInvalid(path, "isDisplayed and isRequired must be true")] else [])
      + (if !Truthy(caption) then [ConfigMissing(Dot(path, "label"), "")]
         else if !caption.Str? then [ConfigInvalid(Dot(path, "label"), "")] else [])
      + OptionalText(field, "hash", Dot(path, "hash"))
      + OptionalText(field, "description", Dot(path, "description"))
      + (if !Truthy(fieldType) then []
         else if !fieldType.Str? then [ConfigInvalid(Dot(path, "type"), "")]
         else if fieldType.s != "wysiwyg" then [ConfigInvalid(Dot(path, "type"), "must be 'wysiwyg'")]
         else [])
  }

  const ExtraFieldTypes: set<Val> := {Str("text"), Str("number"), Str("wysiwyg"), Str("radio"), Str("checkbox")}

  predicate IsMultiSelect(fieldType: Val)
  {
    fieldType == Str("radio") || fieldType == Str("checkbox")
  }

  /** What an accepted extra field is: one of the five types, and a multi-select one lists text options. */
  predicate AcceptableExtraField(field: Val)
  {
    var options := OptGet(field, "optionLabels");
    OptGet(field, "type") in ExtraFieldTypes
    && (IsMultiSelect(OptGet(field, "type")) ==>
          options.Arr? && |options.items| > 0 && forall i | 0 <= i < |options.items| :: options.items[i].Str?)
  }

  /** The checks of one extra field, `path` being `<section>.extraFields[idx]`. */
  function ExtraFieldConfigErrors(field: Val, path: string): (r: Result<seq<ConfigError>>)
    ensures r == Ok([]) ==> AcceptableExtraField(field)
    ensures Nullish(field) ==> r.Thrown?
  {
    var fieldType :- Get(field, "type");
    var options := OptGet(field, "optionLabels");
    if !Truthy(fieldType) then Ok([ConfigMissing(Dot(path, "type"), "")])
    else if fieldType !in ExtraFieldTypes then Ok([ConfigInvalid(Dot(path, "type"), "")])
    else
      var plain :=
        OptionalText(field, "hash", Dot(path, "hash"))
        + OptionalText(field, "label", Dot(path, "label"))
        + OptionalText(field, "description", Dot(path, "description"));
      var multi :-
        if !IsMultiSelect(fieldType) then Ok([])
        else if !Truthy(options) then Ok([ConfigMissing(Dot(path, "optionLabels"), "required when field is multi-select")])
        else if !HasLength(options) then Ok([ConfigInvalid(Dot(path, "optionLabels"), "")])
        else
          match options
          case Arr(items) => Ok(OptionLabelErrors(items, Dot(path, "optionLabels")))
          case _ => Thrown("TypeError");
      Ok(plain + multi
         + (if Truthy(OptGet(field, "isDisplayed")) && !Truthy(OptGet(field, "label"))
            then [ConfigInvalid(Dot(path, "label"), "required when field isDisplayed")] else []))
  }

  /** The forEach over one section's extra fields. */
  function ExtraFieldsConfigErrors(fields: seq<Val>, section: string): Result<seq<ConfigError>>
  {
    if |fields| == 0 then Ok([])
    else
      var n := |fields| - 1;
      Then(ExtraFieldsConfigErrors(fields[..n], section), ExtraFieldConfigErrors(fields[n], Indexed(Dot(section, "extraFields"), n)))
  }

  /** One more iteration of a forEach that collects errors: a throw stops it, otherwise the errors add up. */
  function Then(before: Result<seq<ConfigError>>, step: Result<seq<ConfigError>>): (r: Result<seq<ConfigError>>)
    ensures r == Ok([]) <==> before == Ok([]) && step == Ok([])
    ensures r.Thrown? <==> before.Thrown? || step.Thrown?
  {
    match before
    case Thrown(m) => Thrown(m)
    case Ok(prefix) =>
      match step
      case Thrown(m) => Thrown(m)
      case Ok(last) =>
        assert |prefix + last| == |prefix| + |last|;
        Ok(prefix + last)
  }

  /** A section whose extra fields raise no error has only acceptable fields. */
  lemma {:induction false} ExtraFieldsAccepted(fields: seq<Val>, section: string)
    requires ExtraFieldsConfigErrors(fields, section) == Ok([])
    ensures forall i | 0 <= i < |fields| :: AcceptableExtraField(fields[i])
  {
    if |fields| > 0 {
      var n := |fields| - 1;
      ExtraFieldsAccepted(fields[..n], section);
      assert forall i | 0 <= i < n :: fields[..n][i] == fields[i];
    }
  }

  /** A null or undefined entry among the extra fields makes the forEach throw. */
  lemma {:induction false} NullishExtraFieldThrows(fields: seq<Val>, section: string, k: nat)
    requires k < |fields| && Nullish(fields[k])
    ensures ExtraFieldsConfigErrors(fields, section).Thrown?
  {
    var n := |fields| - 1;
    if k < n {
      assert fields[..n][k] == fields[k];
      NullishExtraFieldThrows(fields[..n], section, k);
    } else {
      assert ExtraFieldConfigErrors(fields[n], Indexed(Dot(section, "extraFields"), n)).Thrown?;
    }
  }

  /** The loop of that forEach. */
  method CheckExtraFieldConfigs(fields: seq<Val>, section: string) returns (r: Result<seq<ConfigError>>)
    ensures r == ExtraFieldsConfigErrors(fields, section)
  {
    var errs: seq<ConfigError> := [];
    for i := 0 to |fields|
      invariant ExtraFieldsConfigErrors(fields[..i], section) == Ok(errs)
    {
      assert fields[..i + 1][..i] == fields[..i];
      var one := ExtraFieldConfigErrors(fields[i], Indexed(Dot(section, "extraFields"), i));
      if one.Thrown? {
        ExtraFieldsThrowPersists(fields, section, i + 1);
        return one;
      }
      errs := errs + one.value;
    }
    assert fields[..|fields|] == fields;
    return Ok(errs);
  }

  /** Once the forEach has thrown, the rest of the fields do not matter. */
  lemma {:induction false} ExtraFieldsThrowPersists(fields: seq<Val>, section: string, k: nat)
    requires k <= |fields|
    requires ExtraFieldsConfigErrors(fields[..k], section).Thrown?
    ensures ExtraFieldsConfigErrors(fields, section) == ExtraFieldsConfigErrors(fields[..k], section)
    decreases |fields| - k
  {
    if k < |fields| {
      assert fields[..k + 1][..k] == fields[..k];
      ExtraFieldsThrowPersists(fields, section, k + 1);
    } else {
      assert fields[..k] == fields;
    }
  }

  /** The extra fields are checked when `extraFields && extraFields.length`; a string there breaks the forEach. */
  function ExtraFieldsSection(extraFields: Val, section: string): (r: Result<seq<ConfigError>>)
    ensures r == Ok([]) && extraFields.Arr? ==> forall i | 0 <= i < |extraFields.items| :: AcceptableExtraField(extraFields.items[i])
    ensures Truthy(extraFields) && HasLength(extraFields) && extraFields.Str? ==> r.Thrown?
  {
    if !(Truthy(extraFields) && HasLength(extraFields)) then Ok([])
    else
      match extraFields
      case Arr(items) =>
        var r := ExtraFieldsConfigErrors(items, section);
        if r == Ok([]) then ExtraFieldsAccepted(items, section); r else r
      case _ => Thrown("TypeError")
  }

  /** A media block that is present, with string descriptions and label where given, and a label when shown. */
  predicate MediaAccepted(media: Val, firstKey: string, secondKey: string)
  {
    Truthy(media)
    && !BadOptionalText(OptGet(media, firstKey)) && !BadOptionalText(OptGet(media, secondKey))
    && !BadOptionalText(OptGet(media, "label"))
    && (Truthy(OptGet(media, "isDisplayed")) ==> Truthy(OptGet(media, "label")))
  }

  /** The media blocks poster, oral and exhibition: two optional descriptions and a label required when shown. */
  function MediaErrors(media: Val, name: string, firstKey: string, firstPath: string, secondKey: string, secondPath: string):
    (r: seq<ConfigError>)
    ensures !Truthy(media) ==> r == [ConfigMissing(Dot("mediaFields", name), "")]
    ensures r == [] <==> MediaAccepted(media, firstKey, secondKey)
    ensures |r| <= 4
  {
    var path := Dot("mediaFields", name);
    if !Truthy(media) then [ConfigMissing(path, "")]
    else
      OptionalText(media, firstKey, firstPath)
      + OptionalText(media, secondKey, secondPath)
      + OptionalText(media, "label", Dot(path, "label"))
      + (if Truthy(OptGet(media, "isDisplayed")) && !Truthy(OptGet(media, "label"))
         then [ConfigInvalid(Dot(path, "label"), "required when " + name + " isDisplayed")] else [])
  }

  // ------------------------------------------------------------ sections

  /** The `general` block: its instructions must be a non-empty string; reading it from a missing config throws. */
  function GeneralErrors(config: Val): (r: Result<seq<ConfigError>>)
    ensures r.Thrown? <==> Nullish(config)
    ensures r.Ok? ==> |r.value| <= 1
    ensures r.Ok? ==> (r.value == [] <==> var instructions := OptGet(OptGet(config, "general"), "instructions");
                                          Truthy(instructions) && instructions.Str?)
  {
    var general :- Get(config, "general");
    var instructions := OptGet(general, "instructions");
    Ok(if !Truthy(general) then [ConfigMissing("general", "")]
       else if !Truthy(instructions) then [ConfigMissing("general.instructions", "")]
       else if !instructions.Str? then [ConfigInvalid("general.instructions", "")]
       else [])
  }

  function PresenterFieldsErrors(config: Val): (r: Result<seq<ConfigError>>)
    ensures r == Ok([]) ==> MaxAddlValid(OptGet(OptGet(config, "presenterFields"), "maxAddlPresenters"))
    ensures Nullish(OptGet(config, "presenterFields")) ==> r.Thrown?
    ensures r == Ok([]) ==> var extra := OptGet(OptGet(config, "presenterFields"), "extraFields");
      extra.Arr? ==> forall i | 0 <= i < |extra.items| :: AcceptableExtraField(extra.items[i])
  {
    var pf :- Get(config, "presenterFields");
    var title := OptGet(pf, "presenterTitle");
    var maxAddl :- Get(pf, "maxAddlPresenters");
    var level := OptGet(pf, "level");
    var levelErrs :- if !Truthy(level) then Ok([ConfigMissing("presenterFields.level", "")])
                     else ChoiceConfigErrors(level, "presenterFields.level", "radio");
    var major :- Get(pf, "major");
    var majorType := OptGet(major, "type");
    var majorLabel := OptGet(major, "label");
    var extraErrs :- ExtraFieldsSection(OptGet(pf, "extraFields"), "presenterFields");
    Ok((if !Truthy(pf) then [ConfigMissing("presenterFields", "")] else [])
       + (if !Truthy(title) then [ConfigMissing("presenterFields.presenterTitle", "")]
          else if !title.Str? then [ConfigInvalid("presenterFields.presenterTitle", "")] else [])
       + (if !MaxAddlValid(maxAddl) then [ConfigInvalid("presenterFields.maxAddlPresenters", "must be a number from 0 through 7")] else [])
       + levelErrs
       + (if !Truthy(major) then [ConfigMissing("presenterFields.major", "")]
          else if Truthy(majorType) && majorType != Str("text") then [ConfigInvalid("presenterFields.major.type", "must be 'text'")]
          else if Truthy(OptGet(major, "isDisplayed")) then
            (if !Truthy(majorLabel) then [ConfigMissing("presenterFields.major.label", "")]
             else if !majorLabel.Str? then [ConfigInvalid("presenterFields.major.label", "")] else [])
          else [])
       + extraErrs)
  }

  function PresentationFieldsErrors(config: Val): (r: Result<seq<ConfigError>>)
    ensures r == Ok([]) ==>
      var pf := OptGet(config, "presentationFields");
      FixedFieldErrors(OptGet(pf, "title"), "presentationFields.title") == []
      && FixedFieldErrors(OptGet(pf, "abstract"), "presentationFields.abstract") == []
    ensures Nullish(OptGet(config, "presentationFields")) ==> r.Thrown?
    ensures r == Ok([]) ==> var extra := OptGet(OptGet(config, "presentationFields"), "extraFields");
      extra.Arr? ==> forall i | 0 <= i < |extra.items| :: AcceptableExtraField(extra.items[i])
  {
    var pf :- Get(config, "presentationFields");
    var subjects := OptGet(pf, "subjects");
    var subjectErrs :- if !Truthy(subjects) then Ok([ConfigMissing("presentationFields.subjects", "")])
                       else ChoiceConfigErrors(subjects, "presentationFields.subjects", "checkbox");
    var extraFields :- Get(pf, "extraFields");
    var extraErrs :- ExtraFieldsSection(extraFields, "presentationFields");
    Ok((if !Truthy(pf) then [ConfigMissing("presentationFields", "")] else [])
       + FixedFieldErrors(OptGet(pf, "title"), "presentationFields.title")
       + FixedFieldErrors(OptGet(pf, "abstract"), "presentationFields.abstract")
       + subjectErrs
       + extraErrs)
  }

  /** The `mediaFields` block and its poster, oral and exhibition entries; reading it from a missing config throws. */
  function MediaFieldsErrors(config: Val): (r: Result<seq<ConfigError>>)
    ensures r.Thrown? <==> Nullish(config)
    ensures r.Ok? ==>
      var mf := OptGet(config, "mediaFields");
      (r.value == [] <==>
         Truthy(mf)
         && MediaAccepted(OptGet(mf, "poster"), "posterUploadDescription", "voiceoverVideoLinkDescription")
         && MediaAccepted(OptGet(mf, "oral"), "presentationVideoLinkDescription", "slidesUploadDescription")
         && MediaAccepted(OptGet(mf, "exhibition"), "presentationVideoLinkDescription", "voiceoverVideoLinkDescription"))
  {
    var mf :- Get(config, "mediaFields");
    var poster := MediaErrors(OptGet(mf, "poster"), "poster",
                              "posterUploadDescription", "mediaFields.poster.uploadDescription",
                              "voiceoverVideoLinkDescription", "mediaFields.poster.videoDescription");
    var oral := MediaErrors(OptGet(mf, "oral"), "oral",
                            "presentationVideoLinkDescription", "mediaFields.oral.presentationVideoLinkDescription",
                            "slidesUploadDescription", "mediaFields.oral.slidesUploadDescription");
    var exhibition := MediaErrors(OptGet(mf, "exhibition"), "exhibition",
                                  "presentationVideoLinkDescription", "mediaFields.exhibition.videoDescription",
                                  "voiceoverVideoLinkDescription", "mediaFields.exhibition.videoCommentaryDescription");
    Ok((if !Truthy(mf) then [ConfigMissing("mediaFields", "")] else []) + poster + oral + exhibition)
  }

  /** getPresentationFormConfigErrors; `Thrown` where the code reads a property of a missing object. */
  function ConfigErrors(config: Val): (r: Result<seq<ConfigError>>)
    ensures Nullish(OptGet(config, "presenterFields")) || Nullish(OptGet(config, "presentationFields")) ==> r.Thrown?
  {
    var general :- GeneralErrors(config);
    var presenter :- PresenterFieldsErrors(config);
    var presentation :- PresentationFieldsErrors(config);
    // reading `general` did not throw, so neither does reading `mediaFields`
    var media := MediaFieldsErrors(config).value;
    Ok(general + presenter + presentation + media)
  }

  /** A configuration accepted without errors has a valid co-presenter count, always-shown title and abstract, and well-typed extra fields. */
  lemma ConfigAccepted(config: Val)
    requires ConfigErrors(config) == Ok([])
    ensures MaxAddlValid(OptGet(OptGet(config, "presenterFields"), "maxAddlPresenters"))
    ensures var title := OptGet(OptGet(config, "presentationFields"), "title");
      Truthy(title) && Truthy(OptGet(title, "isDisplayed")) && Truthy(OptGet(title, "isRequired"))
    ensures var summary := OptGet(OptGet(config, "presentationFields"), "abstract");
      Truthy(summary) && Truthy(OptGet(summary, "isDisplayed")) && Truthy(OptGet(summary, "isRequired"))
    ensures var extra := OptGet(OptGet(config, "presenterFields"), "extraFields");
      extra.Arr? ==> forall i | 0 <= i < |extra.items| :: AcceptableExtraField(extra.items[i])
    ensures var extra := OptGet(OptGet(config, "presentationFields"), "extraFields");
      extra.Arr? ==> forall i | 0 <= i < |extra.items| :: AcceptableExtraField(extra.items[i])
  {
    var general := GeneralErrors(config);
    var presenter := PresenterFieldsErrors(config);
    var presentation := PresentationFieldsErrors(config);
    var media := MediaFieldsErrors(config);
    assert general.Ok? && presenter.Ok? && presentation.Ok? && media.Ok?;
    assert |general.value + presenter.value + presentation.value + media.value| == 0;
    assert presenter == Ok([]) && presentation == Ok([]);
  }

  // ------------------------------------------------------------ extra-field hashes

  /** The hashes a list of extra fields already has; the empty string stands for a field without one. */
  function HashesOf(hashes: seq<string>): (r: set<string>)
    ensures forall i | 0 <= i < |hashes| && hashes[i] != "" :: hashes[i] in r
    ensures "" !in r
  {
    set h | h in hashes && h != ""
  }

  /** The loop that draws a hash for one field: the first draw not in use, with the draws left after it. */
  function NextFresh(current: set<string>, draws: seq<string>): (r: Option<(string, seq<string>)>)
    ensures r.Some? ==> r.value.0 !in current && r.value.0 in draws && |r.value.1| < |draws|
    ensures r.Some? ==> r.value.1 == draws[|draws| - |r.value.1|..]
  {
    if |draws| == 0 then None
    else if draws[0] !in current then Some((draws[0], draws[1..]))
    else NextFresh(current, draws[1..])
  }

  /** One list's forEach: fields with a hash keep it, the others get a fresh one that joins the hashes in use. */
  function AssignList(hashes: seq<string>, current: set<string>, draws: seq<string>): (r: Option<(seq<string>, set<string>, seq<string>)>)
    ensures r.Some? ==> forall x | x in r.value.2 :: x in draws
  {
    if |hashes| == 0 then Some(([], current, draws))
    else
      var n := |hashes| - 1;
      match AssignList(hashes[..n], current, draws)
      case None => None
      case Some((done, inUse, left)) =>
        if hashes[n] != "" then Some((done + [hashes[n]], inUse, left))
        else
          match NextFresh(inUse, left)
          case None => None
          case Some((h, rest)) => Some((done + [h], inUse + {h}, rest))
  }

  /** assignPresConfigExtraFieldHashes on the hashes of the presenter and presentation extra fields. */
  function AssignAll(presenter: seq<string>, presentation: seq<string>, draws: seq<string>): Option<(seq<string>, seq<string>)>
  {
    var current := HashesOf(presenter) + HashesOf(presentation);
    match AssignList(presenter, current, draws)
    case None => None
    case Some((first, inUse, left)) =>
      match AssignList(presentation, inUse, left)
      case None => None
      case Some((second, _, _)) => Some((first, second))
  }

  lemma {:induction false} AssignListFails(hashes: seq<string>, current: set<string>, draws: seq<string>, k: nat)
    requires k <= |hashes| && AssignList(hashes[..k], current, draws).None?
    ensures AssignList(hashes, current, draws).None?
    decreases |hashes| - k
  {
    if k < |hashes| {
      assert hashes[..k + 1][..k] == hashes[..k];
      AssignListFails(hashes, current, draws, k + 1);
    } else {
      assert hashes[..k] == hashes;
    }
  }

  /** The forEach over one list of fields, on the array of their hashes. */
  method AssignMissingHashes(hashes: array<string>, current: set<string>, draws: seq<string>)
    returns (ok: bool, inUse: set<string>, left: seq<string>)
    modifies hashes
    ensures ok <==> AssignList(old(hashes[..]), current, draws).Some?
    ensures ok ==> AssignList(old(hashes[..]), current, draws) == Some((hashes[..], inUse, left))
  {
    ghost var before := hashes[..];
    inUse, left := current, draws;
    for i := 0 to hashes.Length
      invariant hashes[i..] == before[i..]
      invariant AssignList(before[..i], current, draws) == Some((hashes[..i], inUse, left))
    {
      assert before[..i + 1][..i] == before[..i];
      assert before[i] == hashes[i];
      if hashes[i] == "" {
        if |left| == 0 {
          AssignListFails(before, current, draws, i + 1);
          return false, inUse, left;
        }
        ghost var start := left;
        var h := left[0];
        left := left[1..];
        while h in inUse
          invariant NextFresh(inUse, start) == (if h in inUse then NextFresh(inUse, left) else Some((h, left)))
          decreases |left|
        {
          if |left| == 0 {
            AssignListFails(before, current, draws, i + 1);
            return false, inUse, left;
          }
          h := left[0];
          left := left[1..];
        }
        hashes[i] := h;
        inUse := inUse + {h};
      }
      assert hashes[..i + 1] == hashes[..i] + [hashes[i]];
    }
    assert before[..hashes.Length] == before && hashes[..hashes.Length] == hashes[..];
    ok := true;
  }

  /** The hashes already in use in one list. */
  method CollectHashes(hashes: array<string>, into: set<string>) returns (current: set<string>)
    ensures current == into + HashesOf(hashes[..])
  {
    current := into;
    for i := 0 to hashes.Length
      invariant current == into + HashesOf(hashes[..i])
    {
      assert hashes[..i + 1] == hashes[..i] + [hashes[i]];
      if hashes[i] != "" {
        current := current + {hashes[i]};
      }
    }
    assert hashes[..hashes.Length] == hashes[..];
  }

  /**
   * assignPresConfigExtraFieldHashes. `draws` are the successive results of
   * uniqueString; `ok` is false when they run out before every field has a hash.
   */
  method AssignExtraFieldHashes(presenter: array<string>, presentation: array<string>, draws: seq<string>) returns (ok: bool)
    requires presenter != presentation
    modifies presenter, presentation
    ensures ok <==> AssignAll(old(presenter[..]), old(presentation[..]), draws).Some?
    ensures ok ==> AssignAll(old(presenter[..]), old(presentation[..]), draws) == Some((presenter[..], presentation[..]))
  {
    ghost var (first, second) := (presenter[..], presentation[..]);
    var current := CollectHashes(presenter, {});
    current := CollectHashes(presentation, current);
    assert current == HashesOf(first) + HashesOf(second);
    var inUse, left;
    ok, inUse, left := AssignMissingHashes(presenter, current, draws);
    assert presentation[..] == second;
    if ok {
      var unused;
      ghost var done := presenter[..];
      ok, unused, left := AssignMissingHashes(presentation, inUse, left);
      assert presenter[..] == done;
    }
  }

  /** What one list's assignment promises: existing hashes kept, no empty hash, and every new hash unused before and unique. */
  predicate FreshAssignment(hashes: seq<string>, current: set<string>, out: seq<string>, inUse: set<string>)
  {
    |out| == |hashes| && current <= inUse
    && (forall i | 0 <= i < |out| :: out[i] != "" && out[i] in inUse)
    && (forall i | 0 <= i < |out| && hashes[i] != "" :: out[i] == hashes[i])
    && (forall i | 0 <= i < |out| && hashes[i] == "" :: out[i] !in current)
    && (forall i, j | 0 <= i < |out| && 0 <= j < |out| && i != j && hashes[i] == "" :: out[i] != out[j])
  }

  /** A field that already has a hash (one in use) keeps it. */
  lemma KeepStep(hashes: seq<string>, current: set<string>, out: seq<string>, inUse: set<string>)
    requires |hashes| > 0 && hashes[|hashes| - 1] != "" && hashes[|hashes| - 1] in current
    requires FreshAssignment(hashes[..|hashes| - 1], current, out, inUse)
    ensures FreshAssignment(hashes, current, out + [hashes[|hashes| - 1]], inUse)
  {
    var n := |hashes| - 1;
    forall i | 0 <= i < n ensures hashes[..n][i] == hashes[i] { }
  }

  /** A field without a hash gets a non-empty one not yet in use. */
  lemma FreshStep(hashes: seq<string>, current: set<string>, out: seq<string>, inUse: set<string>, h: string)
    requires |hashes| > 0 && hashes[|hashes| - 1] == "" && h != "" && h !in inUse
    requires FreshAssignment(hashes[..|hashes| - 1], current, out, inUse)
    ensures FreshAssignment(hashes, current, out + [h], inUse + {h})
  {
    var n := |hashes| - 1;
    forall i | 0 <= i < n ensures hashes[..n][i] == hashes[i] { }
  }

  lemma {:induction false} AssignListFresh(hashes: seq<string>, current: set<string>, draws: seq<string>)
    requires HashesOf(hashes) <= current
    requires "" !in draws
    requires AssignList(hashes, current, draws).Some?
    ensures FreshAssignment(hashes, current, AssignList(hashes, current, draws).value.0, AssignList(hashes, current, draws).value.1)
  {
    if |hashes| > 0 {
      var n := |hashes| - 1;
      assert HashesOf(hashes[..n]) <= HashesOf(hashes) by {
        forall h | h in HashesOf(hashes[..n]) ensures h in HashesOf(hashes) {
          var k :| 0 <= k < n && hashes[..n][k] == h;
          assert hashes[k] == h;
        }
      }
      AssignListFresh(hashes[..n], current, draws);
      var (done, inUse, left) := AssignList(hashes[..n], current, draws).value;
      if hashes[n] != "" {
        KeepStep(hashes, current, done, inUse);
      } else {
        var (h, rest) := NextFresh(inUse, left).value;
        FreshStep(hashes, current, done, inUse, h);
      }
    }
  }

  /** The promise of the whole assignment: no new hash collides with any other hash of either list. */
  lemma AssignedHashesUnique(presenter: seq<string>, presentation: seq<string>, draws: seq<string>)
    requires "" !in draws
    requires AssignAll(presenter, presentation, draws).Some?
    ensures var (first, second) := AssignAll(presenter, presentation, draws).value;
      var before, after := presenter + presentation, first + second;
      |after| == |before|
      && (forall i | 0 <= i < |after| :: after[i] != "")
      && (forall i | 0 <= i < |after| && before[i] != "" :: after[i] == before[i])
      && (forall i, j | 0 <= i < |after| && 0 <= j < |after| && i != j && before[i] == "" :: after[i] != after[j])
  {
    var current := HashesOf(presenter) + HashesOf(presentation);
    AssignListFresh(presenter, current, draws);
    var (first, inUse, left) := AssignList(presenter, current, draws).value;
    AssignListFresh(presentation, inUse, left);
    var (second, _, _) := AssignList(presentation, inUse, left).value;
    var before, after := presenter + presentation, first + second;
    forall i, j | 0 <= i < |after| && 0 <= j < |after| && i != j && before[i] == ""
      ensures after[i] != after[j]
    {
      if i < |first| && j >= |first| {
        assert after[j] == second[j - |first|];
        if presentation[j - |first|] != "" {
          assert after[j] in current;
        }
      } else if i >= |first| && j < |first| {
        assert after[j] == first[j];
      }
    }
  }

  // ------------------------------------------------------------ filter tags of a configuration

  /** A tag a configuration defines: an option of a filterable select field, typed by the field's label. */
  datatype FilterTag = FilterTag(tagName: string, fieldName: string)

  function OptionTags(options: seq<string>, fieldName: string): (r: seq<FilterTag>)
    ensures |r| == |options|
    ensures forall t :: t in r <==> t.fieldName == fieldName && t.tagName in options
  {
    if |options| == 0 then []
    else
      var n := |options| - 1;
      assert options == options[..n] + [options[n]];
      OptionTags(options[..n], fieldName) + [FilterTag(options[n], fieldName)]
  }

  /** The filter of the extra-field pipelines: shown, multi-select and filterable. */
  predicate FiltersBy(f: ExtraField)
  {
    f.isDisplayed && (f.fieldType == "radio" || f.fieldType == "checkbox") && f.canFilter
  }

  predicate ChoiceFilters(c: ChoiceField)
  {
    c.isDisplayed && c.canFilter
  }

  /** The filter, map and reduce over one list of extra fields. */
  function ExtraFieldTags(fields: seq<ExtraField>): (r: seq<FilterTag>)
    ensures forall t :: t in r <==>
      exists f | f in fields :: FiltersBy(f) && t.fieldName == f.fieldLabel && t.tagName in f.optionLabels
  {
    if |fields| == 0 then []
    else
      var n := |fields| - 1;
      assert fields == fields[..n] + [fields[n]];
      ExtraFieldTags(fields[..n]) + (if FiltersBy(fields[n]) then OptionTags(fields[n].optionLabels, fields[n].fieldLabel) else [])
  }

  /**
   * getNewPresentationConfigFilterTags over a typed configuration. Its two extra-field
   * lists are those FilterTagReads.FilterTagLists reads: a missing list has no fields.
   */
  function NewFilterTags(cfg: FormConfig): seq<FilterTag>
  {
    var level := cfg.presenterFields.level;
    var subjects := cfg.presentationFields.subjects;
    (if ChoiceFilters(level) then OptionTags(level.optionLabels, level.fieldLabel) else [])
    + ExtraFieldTags(cfg.presenterFields.extraFields)
    + (if ChoiceFilters(subjects) then OptionTags(subjects.optionLabels, subjects.fieldLabel) else [])
    + ExtraFieldTags(cfg.presentationFields.extraFields)
  }

  /** The field of a configuration that a tag comes from. */
  predicate DefinesTag(cfg: FormConfig, t: FilterTag)
  {
    var level := cfg.presenterFields.level;
    var subjects := cfg.presentationFields.subjects;
    (ChoiceFilters(level) && t.fieldName == level.fieldLabel && t.tagName in level.optionLabels)
    || (ChoiceFilters(subjects) && t.fieldName == subjects.fieldLabel && t.tagName in subjects.optionLabels)
    || (exists f | f in cfg.presenterFields.extraFields + cfg.presentationFields.extraFields ::
          FiltersBy(f) && t.fieldName == f.fieldLabel && t.tagName in f.optionLabels)
  }

  lemma NewFilterTagsIff(cfg: FormConfig, t: FilterTag)
    ensures t in NewFilterTags(cfg) <==> DefinesTag(cfg, t)
  {
    var all := cfg.presenterFields.extraFields + cfg.presentationFields.extraFields;
    if exists f | f in all :: FiltersBy(f) && t.fieldName == f.fieldLabel && t.tagName in f.optionLabels {
      var f :| f in all && FiltersBy(f) && t.fieldName == f.fieldLabel && t.tagName in f.optionLabels;
      assert f in cfg.presenterFields.extraFields || f in cfg.presentationFields.extraFields;
    }
  }

  /** The filter of updatePresFormConfigTagsAndExtraFieldHashes: a tag is saved unless one with its type and name exists. */
  function TagsToAdd(tags: seq<FilterTag>, existing: seq<PresentationData.ExistingTag>): (r: seq<FilterTag>)
    ensures |r| <= |tags|
    ensures forall t :: t in r <==> t in tags && !exists e | e in existing :: e.tagType == t.fieldName && e.name == t.tagName
  {
    if |tags| == 0 then []
    else
      var n := |tags| - 1;
      assert tags == tags[..n] + [tags[n]];
      var last := tags[n];
      TagsToAdd(tags[..n], existing)
      + (if exists e | e in existing :: e.tagType == last.fieldName && e.name == last.tagName then [] else [last])
  }

  /** After the update every tag the configuration defines exists, or is among the tags added. */
  lemma {:induction false} EveryDefinedTagStored(cfg: FormConfig, existing: seq<PresentationData.ExistingTag>, t: FilterTag)
    requires DefinesTag(cfg, t)
    ensures t in TagsToAdd(NewFilterTags(cfg), existing)
      || exists e | e in existing :: e.tagType == t.fieldName && e.name == t.tagName
  {
    NewFilterTagsIff(cfg, t);
  }
}

=== FILE: event_guards.dfy ===
// Block-list and event guards (backend/middlewares/event.middleware.ts).

module EventGuards {
  import opened Js
  import opened Http
  import opened Entities
  import opened EventUtils
  import opened SubscriptionUtils

  /** `!!id` for a numeric id: missing and 0 are falsy. */
  predicate PresentId(id: Option<int>)
  {
    id.Some? && id.value != 0
  }

  /**
   * isConsumerBlockedFromEvent. `blocked` is the read of the consumer's
   * blocked event ids; an empty read (null) becomes [].
   */
  function IsConsumerBlockedFromEvent(consumerId: Option<int>, eventId: Option<int>, blocked: Fetch<seq<int>>): (r: Result<bool>)
    ensures !PresentId(consumerId) || !PresentId(eventId) ==> r == Ok(true)
    ensures PresentId(consumerId) && PresentId(eventId) ==>
      (r.Thrown? <==> blocked.QueryFailed?)
      && (r == Ok(true) <==> blocked.Found? && eventId.value in blocked.row)
  {
    if !PresentId(consumerId) || !PresentId(eventId) then Ok(true)
    else
      match blocked
      case QueryFailed => Thrown("query failed")
      case Missing => Ok(false)
      case Found(ids) => Ok(eventId.value in ids)
  }

  /** isUserBlockedFromEvent: the event is read by the route's eventCode. */
  function IsUserBlockedFromEvent(claims: Option<Claims>, event: Fetch<Event>, blocked: Fetch<seq<int>>): (r: Outcome)
    ensures claims.None? ==> r == Next
    ensures claims.Some? ==>
      (event.QueryFailed? ==> r == Respond(500))
      && (event.Missing? ==> r == Respond(404))
      && (event.Found? && event.row.eventId == 0 ==> r == Respond(404))
    ensures claims.Some? && event.Found? && event.row.eventId != 0 ==>
      var b := IsConsumerBlockedFromEvent(claims.value.consumerId, Some(event.row.eventId), blocked);
      (b.Thrown? ==> r == Respond(500)) && (b == Ok(true) ==> r == Respond(401)) && (b == Ok(false) ==> r == Next)
  {
    if claims.None? then Next
    else
      match event
      case QueryFailed => Respond(500)
      case Missing => Respond(404)
      case Found(e) =>
        if e.eventId == 0 then Respond(404)
        else
          match IsConsumerBlockedFromEvent(claims.value.consumerId, Some(e.eventId), blocked)
          case Thrown(_) => Respond(500)
          case Ok(isBlocked) => if isBlocked then Respond(401) else Next
  }

  /**
   * The presentation named by presentationIdOrHash: read by id, and by hash
   * only when the id read finds nothing. These reads are outside the try,
   * so a failing query is never answered.
   */
  function ResolvePresentation(byId: Fetch<Presentation>, byHash: Fetch<Presentation>): (r: Fetch<Presentation>)
    ensures byId.Found? ==> r == byId
    ensures byId.QueryFailed? ==> r.QueryFailed?
    ensures byId.Missing? ==> r == byHash
  {
    match byId
    case Found(_) => byId
    case QueryFailed => QueryFailed
    case Missing => byHash
  }

  /** isUserBlockedFromPresentation: `event` is the read of the resolved presentation's event. */
  function IsUserBlockedFromPresentation(
    claims: Option<Claims>, byId: Fetch<Presentation>, byHash: Fetch<Presentation>,
    event: Fetch<Event>, blocked: Fetch<seq<int>>): (r: Outcome)
    ensures claims.None? ==> r == Next
    ensures claims.Some? && ResolvePresentation(byId, byHash).QueryFailed? ==> r == Unhandled
    ensures claims.Some? && ResolvePresentation(byId, byHash).Missing? ==> r == Respond(500)
    ensures claims.Some? && ResolvePresentation(byId, byHash).Found? ==> r == IsUserBlockedFromEvent(claims, event, blocked)
  {
    if claims.None? then Next
    else
      match ResolvePresentation(byId, byHash)
      case QueryFailed => Unhandled
      case Missing => Respond(500)  // presentation.eventId on undefined, inside the try
      case Found(_) => IsUserBlockedFromEvent(claims, event, blocked)
  }

  /** isUserBlockedFromSession: no try, so a failed read or a missing event leaves the request unanswered. */
  function IsUserBlockedFromSession(claims: Option<Claims>, event: Fetch<Event>, blocked: Fetch<seq<int>>): (r: Outcome)
    ensures claims.None? ==> r == Next
    ensures r == Respond(401) <==>
      claims.Some? && event.Found?
      && IsConsumerBlockedFromEvent(claims.value.consumerId, Some(event.row.eventId), blocked) == Ok(true)
    ensures r in {Next, Respond(401), Unhandled}
  {
    if claims.None? then Next
    else
      match event
      case QueryFailed => Unhandled
      case Missing => Unhandled
      case Found(e) =>
        match IsConsumerBlockedFromEvent(claims.value.consumerId, Some(e.eventId), blocked)
        case Thrown(_) => Unhandled
        case Ok(isBlocked) => if isBlocked then Respond(401) else Next
  }

  /**
   * getSingleEventGuard: `subscription` is the read of the event's
   * subscription. Every failure, including a failed read, goes to next(err).
   */
  function GetSingleEventGuard(event: Fetch<Event>, subscription: Fetch<Subscription>, now: int): (r: Outcome)
    ensures r in {Next, Raise(NotFound), Raise(Forbidden), Raise(Internal)}
  {
    match event
    case QueryFailed => Raise(Internal)
    case Missing => Raise(NotFound)
    case Found(e) =>
      if e.deleteDate.Some? then Raise(NotFound)
      else
        match subscription
        case QueryFailed => Raise(Internal)
        case Missing => Raise(Forbidden)
        case Found(s) =>
          if IsSubscriptionExpired(s, now) then Raise(Forbidden)
          else if s.eventUptimeInDays.Some? && IsEventExpiredByUptime(e.startDate, s.eventUptimeInDays, now) then Raise(Forbidden)
          else Next
  }

  // ------------------------------------------------------------ properties

  /** A missing or soft-deleted event is NotFound whatever the subscription is. */
  lemma SingleEventNotFoundFirst(event: Fetch<Event>, s1: Fetch<Subscription>, s2: Fetch<Subscription>, now: int)
    requires event.Missing? || (event.Found? && event.row.deleteDate.Some?)
    ensures GetSingleEventGuard(event, s1, now) == GetSingleEventGuard(event, s2, now) == Raise(NotFound)
  {
  }

  /** For a live event: Forbidden for a missing subscription, an expired one, or an expired uptime; otherwise it passes. */
  lemma SingleEventSubscriptionChecks(e: Event, subscription: Fetch<Subscription>, now: int)
    requires e.deleteDate.None?
    ensures GetSingleEventGuard(Found(e), subscription, now) == Next <==>
      subscription.Found? && !IsSubscriptionExpired(subscription.row, now)
      && !IsEventExpiredByUptime(e.startDate, subscription.row.eventUptimeInDays, now)
    ensures subscription.Missing? ==> GetSingleEventGuard(Found(e), subscription, now) == Raise(Forbidden)
  {
  }

  /** A tier with a null uptime never makes getSingleEventGuard refuse on uptime. */
  lemma SingleEventNullUptime(e: Event, s: Subscription, now: int)
    requires e.deleteDate.None? && s.eventUptimeInDays.None? && !IsSubscriptionExpired(s, now)
    ensures GetSingleEventGuard(Found(e), Found(s), now) == Next
  {
  }

  /** Without claims, all three block-list guards let the request through. */
  lemma AnonymousCallersPass(
    event: Fetch<Event>, byId: Fetch<Presentation>, byHash: Fetch<Presentation>, blocked: Fetch<seq<int>>)
    ensures IsUserBlockedFromEvent(None, event, blocked) == Next
    ensures IsUserBlockedFromPresentation(None, byId, byHash, event, blocked) == Next
    ensures IsUserBlockedFromSession(None, event, blocked) == Next
  {
  }

  /** A caller whose consumerId is missing or 0 is treated as blocked on every existing event. */
  lemma MissingConsumerIsBlocked(claims: Claims, e: Event, blocked: Fetch<seq<int>>)
    requires !PresentId(claims.consumerId) && e.eventId != 0
    ensures IsUserBlockedFromEvent(Some(claims), Found(e), blocked) == Respond(401)
    ensures IsUserBlockedFromSession(Some(claims), Found(e), blocked) == Respond(401)
  {
  }

  /** When the id read finds the presentation, the hash read does not matter. */
  lemma IdLookupTakesPrecedence(
    claims: Option<Claims>, p: Presentation, h1: Fetch<Presentation>, h2: Fetch<Presentation>,
    event: Fetch<Event>, blocked: Fetch<seq<int>>)
    ensures IsUserBlockedFromPresentation(claims, Found(p), h1, event, blocked)
         == IsUserBlockedFromPresentation(claims, Found(p), h2, event, blocked)
  {
  }
}

=== FILE: event_images.dfy ===
// The file-name rules of services/eventImages.service.ts: the thumbnail name
// of a cover image, which temporary files are unlinked, the thumbnail
// options and output path, and which old splash images are deleted.

module EventImages {
  import opened Js

  // ------------------------------------------------------------ thumbnailName

  /** thumbnailName; the two throws are `Invalid file name` and the TypeError of `undefined.toString()`. */
  function ThumbnailName(fileName: string): (r: Result<string>)
    ensures |Split(fileName, ".")| > 2 ==> r == Thrown("Invalid file name")
    ensures |Split(fileName, ".")| == 1 ==> r.Thrown?
  {
    var parts := Split(fileName, ".");
    if |parts| > 2 then Thrown("Invalid file name")
    else if |parts| < 2 then Thrown("TypeError")
    else Ok(parts[0] + "_thumb." + parts[1])
  }

  /** A name with exactly one dot gets `_thumb` before its extension. */
  lemma ThumbnailOfSimpleName(name: string, ext: string)
    requires Lacks(name, '.') && Lacks(ext, '.')
    ensures ThumbnailName(name + "." + ext) == Ok(name + "_thumb." + ext)
  {
    SplitOnce(name, ext, '.');
  }

  /** A name without a dot throws (its extension is undefined). */
  lemma NameWithoutDotThrows(name: string)
    requires Lacks(name, '.')
    ensures ThumbnailName(name).Thrown?
  {
    SplitWithout(name, '.');
  }

  // ------------------------------------------------------------ cleanTempFolder

  /** The argument of cleanTempFolder: one path, a list of paths, or a falsy value. */
  datatype PathArg = NoPath | OnePath(path: string) | PathList(paths: seq<string>)

  /** `[].concat(pathToFile).filter(f => !!f && f.length > 0)` */
  function FilesToUnlink(arg: PathArg): (r: seq<string>)
    ensures forall i | 0 <= i < |r| :: r[i] != ""
  {
    match arg
    case NoPath => []
    case OnePath(path) => if path == "" then [] else [path]
    case PathList(paths) => NonEmptyPaths(paths)
  }

  function NonEmptyPaths(paths: seq<string>): (r: seq<string>)
    ensures forall i | 0 <= i < |r| :: r[i] != ""
    ensures forall p :: p in r <==> p in paths && p != ""
  {
    if |paths| == 0 then []
    else
      var n := |paths| - 1;
      assert paths == paths[..n] + [paths[n]];
      NonEmptyPaths(paths[..n]) + (if paths[n] == "" then [] else [paths[n]])
  }

  /**
   * The unlinks cleanTempFolder attempts: in order, up to and including the
   * first that fails (`unlinkFails`), after which the catch ends the call.
   */
  function UnlinkAttempts(files: seq<string>, unlinkFails: string -> bool): (r: seq<string>)
    ensures |r| <= |files| && r == files[..|r|]
    ensures (forall i | 0 <= i < |files| :: !unlinkFails(files[i])) ==> r == files
  {
    if |files| == 0 then []
    else if unlinkFails(files[0]) then [files[0]]
    else [files[0]] + UnlinkAttempts(files[1..], unlinkFails)
  }

  /** Only non-empty paths are unlinked, and all of them when no unlink fails. */
  lemma CleanTempFolderUnlinks(arg: PathArg, unlinkFails: string -> bool)
    ensures var attempts := UnlinkAttempts(FilesToUnlink(arg), unlinkFails);
      (forall i | 0 <= i < |attempts| :: attempts[i] != "")
      && ((forall p | p in FilesToUnlink(arg) :: !unlinkFails(p)) ==> attempts == FilesToUnlink(arg))
  {
    var files := FilesToUnlink(arg);
    var attempts := UnlinkAttempts(files, unlinkFails);
    forall i | 0 <= i < |attempts| ensures attempts[i] != "" {
      assert attempts[i] == files[i];
    }
  }

  // ------------------------------------------------------------ createThumbnail

  const DefaultThumbnailOptions: map<string, Val> := map["fit" := Str("cover"), "width" := Num(345), "height" := Num(153)]

  /** `{...defaultOptions, ...(options && options)}`: every key the caller passes wins. */
  function ThumbnailOptions(options: Option<map<string, Val>>): (r: map<string, Val>)
    ensures options.None? ==> r == DefaultThumbnailOptions
    ensures options.Some? ==> forall key | key in options.value :: key in r && r[key] == options.value[key]
    ensures options.Some? ==> forall key | key in DefaultThumbnailOptions && key !in options.value :: key in r && r[key] == DefaultThumbnailOptions[key]
    ensures r.Keys == DefaultThumbnailOptions.Keys + (if options.Some? then options.value.Keys else {})
  {
    if options.None? then DefaultThumbnailOptions else DefaultThumbnailOptions + options.value
  }

  /** The index just after the last '/', or 0. */
  function BaseStart(p: string): (i: nat)
    ensures i <= |p|
    ensures i > 0 ==> p[i - 1] == '/'
    ensures forall k | i <= k < |p| :: p[k] != '/'
  {
    if |p| == 0 then 0
    else if p[|p| - 1] == '/' then |p|
    else BaseStart(p[..|p| - 1])
  }

  /** `path.basename` and `path.dirname` of a POSIX path that does not end in '/'. */
  function Basename(p: string): (r: string)
    ensures |r| <= |p| && r == p[|p| - |r|..]
    ensures forall k | 0 <= k < |r| :: r[k] != '/'
  {
    p[BaseStart(p)..]
  }

  /** The directory part: "." without a '/', "/" for a name at the root, otherwise what precedes the last '/'. */
  function Dirname(p: string): (r: string)
    ensures (forall k | 0 <= k < |p| :: p[k] != '/') ==> r == "."
    ensures r != "." && r != "/" ==> p == r + "/" + Basename(p)
  {
    var i := BaseStart(p);
    if i == 0 then "." else if i == 1 then "/" else p[..i - 1]
  }

  /** The output path of createThumbnail: the caller's, or `thumb_<name>` next to the input. */
  function ThumbnailOutput(pathToFile: string, output: Option<string>): string
  {
    if output.Some? && output.value != "" then output.value
    else Dirname(pathToFile) + "/thumb_" + Basename(pathToFile)
  }

  /** The default output sits in the input's directory, named `thumb_` plus the input's name. */
  lemma {:induction false} DefaultOutputBesideInput(dir: string, name: string)
    requires dir != ""
    requires forall k | 0 <= k < |name| :: name[k] != '/'
    ensures ThumbnailOutput(dir + "/" + name, None) == dir + "/thumb_" + name
    ensures ThumbnailOutput(dir + "/" + name, Some("")) == dir + "/thumb_" + name
  {
    var p := dir + "/" + name;
    assert p[..|dir| + 1] == dir + "/";
    BaseStartOfName(dir + "/", name);
    assert Basename(p) == name;
    assert p[..|dir|] == dir;
  }

  lemma {:induction false} BaseStartOfName(prefix: string, name: string)
    requires |prefix| > 0 && prefix[|prefix| - 1] == '/'
    requires forall k | 0 <= k < |name| :: name[k] != '/'
    ensures BaseStart(prefix + name) == |prefix|
    decreases |name|
  {
    var p := prefix + name;
    if |name| == 0 {
      assert p == prefix;
    } else {
      var n := |name| - 1;
      assert p[..|p| - 1] == prefix + name[..n];
      BaseStartOfName(prefix, name[..n]);
    }
  }

  // ------------------------------------------------------------ removeOldEventSplashImgs

  /** The files removeOldEventSplashImgs deletes: every listed splash image but the one to keep. */
  function SplashImagesToDelete(files: seq<string>, fileToKeep: string): (r: seq<string>)
    ensures forall f :: f in r <==> f in files && f != fileToKeep
    ensures |r| <= |files|
  {
    if |files| == 0 then []
    else
      var n := |files| - 1;
      assert files == files[..n] + [files[n]];
      SplashImagesToDelete(files[..n], fileToKeep) + (if files[n] == fileToKeep then [] else [files[n]])
  }
}

=== FILE: event_routes.dfy ===
// The event routes of routes/events.ts: the live-event list of GET /, what
// GET /:eventCode shows to whom, and the request validation of
// PUT /:eventCode.

module EventRoutes {
  import opened Js
  import opened Entities
  import opened EventUtils
  import EventConfig

  // ------------------------------------------------------------ GET /

  /** A row of the event list with its tier's `eventUptimeInDays`. */
  datatype ListedEvent = ListedEvent(event: Event, eventUptimeInDays: Option<int>)

  predicate IsLive(row: ListedEvent, now: int)
  {
    !IsEventExpiredByUptime(row.event.startDate, row.eventUptimeInDays, now)
  }

  /** The filter of GET /: the events whose uptime window has not ended. */
  function LiveEvents(rows: seq<ListedEvent>, now: int): (r: seq<ListedEvent>)
    ensures |r| <= |rows|
    ensures forall row | row in r :: row in rows && IsLive(row, now)
  {
    if |rows| == 0 then []
    else
      var n := |rows| - 1;
      LiveEvents(rows[..n], now) + (if IsLive(rows[n], now) then [rows[n]] else [])
  }

  lemma {:induction false} LiveEventsIff(rows: seq<ListedEvent>, now: int, row: ListedEvent)
    ensures row in LiveEvents(rows, now) <==> row in rows && IsLive(row, now)
  {
    if |rows| > 0 {
      var n := |rows| - 1;
      assert rows == rows[..n] + [rows[n]];
      LiveEventsIff(rows[..n], now, row);
    }
  }

  /** The filter keeps the order of the rows: it distributes over concatenation. */
  lemma {:induction false} LiveEventsKeepOrder(a: seq<ListedEvent>, b: seq<ListedEvent>, now: int)
    ensures LiveEvents(a + b, now) == LiveEvents(a, now) + LiveEvents(b, now)
  {
    if |b| > 0 {
      var n := |b| - 1;
      assert (a + b)[..|a + b| - 1] == a + b[..n];
      LiveEventsKeepOrder(a, b[..n], now);
    } else {
      assert a + b == a;
    }
  }

  /** An event that drops out of the list does not come back later. */
  lemma {:induction false} LiveEventsShrinkOverTime(rows: seq<ListedEvent>, t1: int, t2: int, row: ListedEvent)
    requires t1 <= t2
    requires row in LiveEvents(rows, t2)
    ensures row in LiveEvents(rows, t1)
  {
    LiveEventsIff(rows, t2, row);
    LiveEventsIff(rows, t1, row);
    if !IsLive(row, t1) {
      ExpiryMonotoneInNow(row.event.startDate, row.eventUptimeInDays, t1, t2);
    }
  }

  // ------------------------------------------------------------ GET /:eventCode

  /** `presentationFormConfig` as shown: the parsed JSON when it is an object (or null), otherwise null. */
  function ShownFormConfig(parsed: Option<Val>): (r: Val)
    ensures IsObjectType(r)
    ensures parsed.Some? && IsObjectType(parsed.value) ==> r == parsed.value
  {
    if parsed.Some? && IsObjectType(parsed.value) then parsed.value else Null
  }

  /** The columns that are deleted before the event is returned. */
  predicate Hidden(key: string, signedIn: bool, isEventAdmin: bool)
  {
    (key == "validEmails" && !signedIn)
    || ((key == "subscriptionId" || key == "createDate" || key == "lastUpdated") && !isEventAdmin)
  }

  const AddedKeys: set<string> := {"presentationFormConfig", "validSpecifiedEmails", "preApprovedEmails"}

  /**
   * The event GET /:eventCode returns. `parsedConfig` is JSON.parse of the
   * stored configuration (None when it throws); the two email lists are the
   * rows the handler reads after the deletions.
   */
  function SingleEventView(event: map<string, Val>, parsedConfig: Option<Val>, signedIn: bool, isEventAdmin: bool,
                           validSpecifiedEmails: Val, preApprovedEmails: Val): (r: map<string, Val>)
    ensures forall key :: key in r <==> key in AddedKeys || (key in event && !Hidden(key, signedIn, isEventAdmin))
    ensures forall key | key in r && key !in AddedKeys :: r[key] == event[key]
    ensures r["presentationFormConfig"] == ShownFormConfig(parsedConfig)
  {
    var shown := event["presentationFormConfig" := ShownFormConfig(parsedConfig)];
    var public := if signedIn then shown else shown - {"validEmails"};
    var visible := if isEventAdmin then public else public - {"subscriptionId", "createDate", "lastUpdated"};
    visible["validSpecifiedEmails" := validSpecifiedEmails]["preApprovedEmails" := preApprovedEmails]
  }

  /** Only an event admin sees the tier and the audit dates; only a signed-in caller sees the allowed emails. */
  lemma WhoSeesWhat(event: map<string, Val>, parsedConfig: Option<Val>, signedIn: bool, isEventAdmin: bool,
                    validSpecifiedEmails: Val, preApprovedEmails: Val)
    ensures var r := SingleEventView(event, parsedConfig, signedIn, isEventAdmin, validSpecifiedEmails, preApprovedEmails);
      ("validEmails" in r <==> signedIn && "validEmails" in event)
      && ("subscriptionId" in r <==> isEventAdmin && "subscriptionId" in event)
      && (signedIn && isEventAdmin ==> event.Keys <= r.Keys)
  {
  }

  // ------------------------------------------------------------ PUT /:eventCode

  /** The form fields of the multipart body (None: not sent). */
  datatype EventUpdate = EventUpdate(
    privacyLevel: Option<string>,
    validEmails: Option<string>,
    splashCoverImg: Option<string>,
    splashVideoLink: Option<string>,
    splashContent: Option<string>,
    presentationFormConfig: Option<string>,
    eventLaunchDate: Option<string>)

  /** Which files were uploaded. */
  datatype EventUploads = EventUploads(eventLogo: bool, eventCoverPhoto: bool, splashCoverImg: bool)

  /** Why an update is refused. */
  datatype Rejection =
    | InvalidFormType | FileTooLarge | FormConfigNotAllowed | InvalidPrivacyLevel | InvalidValidEmails
    | InvalidSplashVideoLink | TwoSplashMedia | InvalidFormConfig | InvalidLaunchDate | LaunchDateInPast | NoFieldsProvided
    | EventAlreadyStarted

  /** The status of the response. */
  function Status(reason: Rejection): (status: int)
    ensures status == 403 <==> reason == FormConfigNotAllowed
    ensures status == 409 <==> reason == EventAlreadyStarted
    ensures status == 400 || status == 403 || status == 409
  {
    if reason == FormConfigNotAllowed then 403
    else if reason == EventAlreadyStarted then 409
    else 400
  }

  /** The message of the response. */
  function Message(reason: Rejection): string
  {
    match reason
    case InvalidFormType => "invalid form type"
    case FileTooLarge => "file exceeds limit of 10MB"
    case FormConfigNotAllowed => "not authorized to update 'presentationFormConfig' field"
    case InvalidPrivacyLevel => "invalid field 'privacyLevel'"
    case InvalidValidEmails => "invalid field 'validEmails'"
    case InvalidSplashVideoLink => "invalid field 'splashVideoLink'"
    case TwoSplashMedia => "must only have 1 splash media field 'splashCoverImg' or 'splashVideoLink'"
    case InvalidFormConfig => "invalid field 'presentationFormConfig'"
    case InvalidLaunchDate => "invalid field 'eventLaunchDate'"
    case LaunchDateInPast => "invalid field 'eventLaunchDate', launch date/time cannot be in the past"
    case NoFieldsProvided => "no fields provided"
    case EventAlreadyStarted => "cannot change event start date as event already started"
  }

  /** How the validation ends: a refusal, the handler going on, or a TypeError nobody catches. */
  datatype UpdateCheck = Rejected(reason: Rejection) | Proceeds(editedFields: nat, isLaunchNow: bool) | Crashed

  /** A truthy form field. */
  predicate Given(field: Option<string>)
  {
    field.Some? && field.value != ""
  }

  // -- validEmails

  /** A character of the `[,\s]` class. */
  predicate IsEmailSeparator(c: char)
  {
    c == ',' || IsJsWhitespace(c)
  }

  /** The first separator at or after `from`, or the end of `s`. */
  function NextSeparator(s: string, from: nat): (r: nat)
    requires from <= |s|
    ensures from <= r <= |s| && (r < |s| ==> IsEmailSeparator(s[r]))
    ensures forall k | from <= k < r :: !IsEmailSeparator(s[k])
    decreases |s| - from
  {
    if from == |s| || IsEmailSeparator(s[from]) then from else NextSeparator(s, from + 1)
  }

  /** The end of the run of separators that starts at `from`. */
  function RunEnd(s: string, from: nat): (r: nat)
    requires from <= |s|
    ensures from <= r <= |s| && (r < |s| ==> !IsEmailSeparator(s[r]))
    ensures forall k | from <= k < r :: IsEmailSeparator(s[k])
    decreases |s| - from
  {
    if from == |s| || !IsEmailSeparator(s[from]) then from else RunEnd(s, from + 1)
  }

  /** `s.split(/[,\s]+/)` */
  function SplitEmails(s: string): (r: seq<string>)
    ensures |r| >= 1
    decreases |s|
  {
    var i := NextSeparator(s, 0);
    if i == |s| then [s]
    else [s[..i]] + SplitEmails(s[RunEnd(s, i)..])
  }

  predicate HasEmptyPiece(pieces: seq<string>)
  {
    exists k | 0 <= k < |pieces| :: pieces[k] == ""
  }

  /** The list has an empty entry exactly when it is empty or starts or ends with a comma or white space. */
  lemma {:induction false} EmptyEmailIff(s: string)
    ensures HasEmptyPiece(SplitEmails(s)) <==> s == "" || IsEmailSeparator(s[0]) || IsEmailSeparator(s[|s| - 1])
    decreases |s|
  {
    var i := NextSeparator(s, 0);
    if i < |s| {
      var j := RunEnd(s, i);
      var t := s[j..];
      var rest := SplitEmails(t);
      var pieces := SplitEmails(s);
      assert pieces == [s[..i]] + rest;
      EmptyEmailIff(t);
      if HasEmptyPiece(rest) {
        var k :| 0 <= k < |rest| && rest[k] == "";
        assert pieces[k + 1] == rest[k];
      }
      if HasEmptyPiece(pieces) && i > 0 {
        var k :| 0 <= k < |pieces| && pieces[k] == "";
        assert k != 0 && rest[k - 1] == pieces[k];
      }
      if i == 0 {
        assert pieces[0] == "";
      }
      assert HasEmptyPiece(pieces) <==> i == 0 || HasEmptyPiece(rest);
      assert i == 0 <==> IsEmailSeparator(s[0]);
      if t != "" {
        assert t[|t| - 1] == s[|s| - 1];
        assert t[0] == s[j];
      } else {
        assert IsEmailSeparator(s[|s| - 1]);
      }
    } else if s != "" {
      assert SplitEmails(s) == [s];
      assert !IsEmailSeparator(s[0]) && !IsEmailSeparator(s[|s| - 1]);
    } else {
      assert SplitEmails(s)[0] == "";
    }
  }

  // -- the rules of the handler, one predicate each

  predicate FormTypeOk(contentType: string)
  {
    StartsWith(contentType, "multipart/form-data")
  }

  /** The privacy levels an update may set, in any letter case. */
  predicate IsPublicOrPrivate(level: string)
  {
    Lower(level) == "public" || Lower(level) == "private"
  }

  predicate PrivacyLevelOk(u: EventUpdate)
  {
    Given(u.privacyLevel) ==> IsPublicOrPrivate(u.privacyLevel.value)
  }

  /** No entry of the comma- or space-separated list is empty. */
  predicate IsEmailList(s: string)
  {
    !HasEmptyPiece(SplitEmails(s))
  }

  predicate ValidEmailsOk(u: EventUpdate)
  {
    Given(u.validEmails) ==> IsEmailList(u.validEmails.value)
  }

  /** A splash image is uploaded, or the body asks to remove it. */
  predicate SplashImageGiven(u: EventUpdate, files: EventUploads)
  {
    files.splashCoverImg || u.splashCoverImg == Some("REMOVE")
  }

  predicate SplashVideoLinkOk(u: EventUpdate, isValidYouTubeLink: string -> bool)
  {
    Given(u.splashVideoLink) ==> isValidYouTubeLink(u.splashVideoLink.value)
  }

  /** At most one of the two splash media. */
  predicate OneSplashMedium(u: EventUpdate, files: EventUploads)
  {
    u.splashVideoLink.Some? ==> !SplashImageGiven(u, files)
  }

  /** The configuration parses to an object that getPresentationFormConfigErrors accepts. */
  predicate FormConfigOk(u: EventUpdate, parsedConfig: Option<Val>)
  {
    Given(u.presentationFormConfig) ==>
      parsedConfig.Some? && IsObjectType(parsedConfig.value) && EventConfig.ConfigErrors(parsedConfig.value) == Ok([])
  }

  /** LAUNCH_NOW, or a date that parses and is not in the past. */
  predicate LaunchDateOk(u: EventUpdate, parsedLaunch: Option<int>, now: int)
  {
    Given(u.eventLaunchDate) && u.eventLaunchDate.value != "LAUNCH_NOW" ==> parsedLaunch.Some? && parsedLaunch.value >= now
  }

  predicate FieldsValid(u: EventUpdate, files: EventUploads, parsedConfig: Option<Val>, parsedLaunch: Option<int>, now: int,
                        isValidYouTubeLink: string -> bool)
  {
    PrivacyLevelOk(u) && ValidEmailsOk(u) && SplashVideoLinkOk(u, isValidYouTubeLink) && OneSplashMedium(u, files)
    && FormConfigOk(u, parsedConfig) && LaunchDateOk(u, parsedLaunch, now)
  }

  // -- what counts as an edit

  datatype EditableField =
    | PrivacyLevelField | ValidEmailsField | EventLogoField | EventCoverPhotoField | SplashCoverImgField
    | SplashVideoLinkField | SplashContentField | PresentationFormConfigField | EventLaunchDateField

  /** The field is part of the update. */
  predicate Edits(u: EventUpdate, files: EventUploads, f: EditableField)
  {
    match f
    case PrivacyLevelField => Given(u.privacyLevel)
    case ValidEmailsField => Given(u.validEmails)
    case EventLogoField => files.eventLogo
    case EventCoverPhotoField => files.eventCoverPhoto
    case SplashCoverImgField => SplashImageGiven(u, files)
    case SplashVideoLinkField => u.splashVideoLink.Some?
    case SplashContentField => u.splashContent.Some?
    case PresentationFormConfigField => Given(u.presentationFormConfig)
    case EventLaunchDateField => Given(u.eventLaunchDate)
  }

  function Indicator(b: bool): nat
  {
    if b then 1 else 0
  }

  /** How many of the first seven fields (the plain fields and the files) the update edits. */
  function BodyEditCount(u: EventUpdate, files: EventUploads): nat
  {
    Indicator(Given(u.privacyLevel)) + Indicator(Given(u.validEmails)) + Indicator(files.eventLogo)
    + Indicator(files.eventCoverPhoto) + Indicator(SplashImageGiven(u, files))
    + Indicator(u.splashVideoLink.Some?) + Indicator(u.splashContent.Some?)
  }

  /** How many of the nine fields the update edits. */
  function EditCount(u: EventUpdate, files: EventUploads): nat
  {
    BodyEditCount(u, files) + Indicator(Given(u.presentationFormConfig)) + Indicator(Given(u.eventLaunchDate))
  }

  /** The count is zero exactly when no field is edited, and at most the number of fields. */
  lemma NothingEditedIff(u: EventUpdate, files: EventUploads)
    ensures EditCount(u, files) == 0 <==> forall f :: !Edits(u, files, f)
    ensures EditCount(u, files) <= 9
  {
    if EditCount(u, files) > 0 {
      var f: EditableField :|
        f in {PrivacyLevelField, ValidEmailsField, EventLogoField, EventCoverPhotoField, SplashCoverImgField,
              SplashVideoLinkField, SplashContentField, PresentationFormConfigField, EventLaunchDateField}
        && Edits(u, files, f);
    }
  }

  /** The presentationFormConfig step: JSON that parses to an object with no configuration error. */
  method CheckFormConfig(parsedConfig: Option<Val>) returns (accepted: bool)
    ensures accepted <==> parsedConfig.Some? && IsObjectType(parsedConfig.value) && EventConfig.ConfigErrors(parsedConfig.value) == Ok([])
  {
    if parsedConfig.None? || !IsObjectType(parsedConfig.value) {
      return false;
    }
    var formErrs := EventConfig.ConfigErrors(parsedConfig.value);
    accepted := !(formErrs.Thrown? || |formErrs.value| > 0);
  }

  /** The privacyLevel step: only public and private are accepted. */
  method AllowedPrivacyLevel(level: string) returns (allowed: bool)
    ensures allowed <==> IsPublicOrPrivate(level)
  {
    var lower := Lower(level);
    allowed := lower == "public" || lower == "private";
  }

  /** The checks of the plain fields and the files, with the number of them edited. */
  method CheckBodyFields(u: EventUpdate, files: EventUploads, isValidYouTubeLink: string -> bool)
    returns (failure: Option<Rejection>, editedFields: nat)
    ensures failure.None?
        <==> PrivacyLevelOk(u) && ValidEmailsOk(u) && SplashVideoLinkOk(u, isValidYouTubeLink) && OneSplashMedium(u, files)
    ensures failure.None? ==> editedFields == BodyEditCount(u, files)
    ensures failure.Some? ==> failure.value in {InvalidPrivacyLevel, InvalidValidEmails, InvalidSplashVideoLink, TwoSplashMedia}
  {
    editedFields := 0;
    if Given(u.privacyLevel) {
      var allowed := AllowedPrivacyLevel(u.privacyLevel.value);
      if !allowed {
        return Some(InvalidPrivacyLevel), editedFields;
      }
      editedFields := editedFields + 1;
    }
    if Given(u.validEmails) {
      if !IsEmailList(u.validEmails.value) {
        return Some(InvalidValidEmails), editedFields;
      }
      editedFields := editedFields + 1;
    }
    if files.eventLogo {
      editedFields := editedFields + 1;
    }
    if files.eventCoverPhoto {
      editedFields := editedFields + 1;
    }
    if SplashImageGiven(u, files) {
      editedFields := editedFields + 1;
    }
    if u.splashVideoLink.Some? {
      if u.splashVideoLink.value != "" && !isValidYouTubeLink(u.splashVideoLink.value) {
        return Some(InvalidSplashVideoLink), editedFields;
      }
      if SplashImageGiven(u, files) {
        return Some(TwoSplashMedia), editedFields;
      }
      editedFields := editedFields + 1;
    }
    if u.splashContent.Some? {
      editedFields := editedFields + 1;
    }
    failure := None;
  }

  /** The field checks of PUT /:eventCode, after the request has been parsed. */
  method CheckUpdateFields(u: EventUpdate, files: EventUploads, parsedConfig: Option<Val>, parsedLaunch: Option<int>,
                           now: int, isValidYouTubeLink: string -> bool) returns (r: UpdateCheck)
    ensures r.Proceeds? || r.Rejected?
    ensures r.Proceeds? <==> FieldsValid(u, files, parsedConfig, parsedLaunch, now, isValidYouTubeLink) && EditCount(u, files) > 0
    ensures r.Proceeds? ==> r.editedFields == EditCount(u, files)
    ensures r.Proceeds? ==> (r.isLaunchNow <==> u.eventLaunchDate == Some("LAUNCH_NOW"))
    ensures r.Rejected? ==> r.reason != FormConfigNotAllowed && r.reason != EventAlreadyStarted
  {
    var failure, editedFields := CheckBodyFields(u, files, isValidYouTubeLink);
    if failure.Some? {
      return Rejected(failure.value);
    }
    if Given(u.presentationFormConfig) {
      var accepted := CheckFormConfig(parsedConfig);
      if !accepted {
        return Rejected(InvalidFormConfig);
      }
      editedFields := editedFields + 1;
    }
    var isLaunchNow := false;
    if Given(u.eventLaunchDate) {
      if u.eventLaunchDate.value == "LAUNCH_NOW" {
        isLaunchNow := true;
      } else if parsedLaunch.None? {
        return Rejected(InvalidLaunchDate);
      } else if parsedLaunch.value < now {
        return Rejected(LaunchDateInPast);
      }
      editedFields := editedFields + 1;
    }

    if editedFields == 0 {
      return Rejected(NoFieldsProvided);
    }
    return Proceeds(editedFields, isLaunchNow);
  }

  /** Every check of PUT /:eventCode up to "no fields provided" passes. */
  predicate UpdateFieldsPass(contentType: Option<string>, uploadFailed: bool, canEditFormConfig: bool,
                             u: EventUpdate, files: EventUploads, parsedConfig: Option<Val>, parsedLaunch: Option<int>,
                             now: int, isValidYouTubeLink: string -> bool)
  {
    contentType.Some? && FormTypeOk(contentType.value) && !uploadFailed
    && !(Given(u.presentationFormConfig) && !canEditFormConfig)
    && FieldsValid(u, files, parsedConfig, parsedLaunch, now, isValidYouTubeLink)
    && exists f :: Edits(u, files, f)
  }

  /** A launch date is sent for an event whose stored start date has passed. */
  predicate MovesStartedEvent(u: EventUpdate, dbStartDate: Option<int>, now: int)
  {
    Given(u.eventLaunchDate) && dbStartDate.Some? && dbStartDate.value < now
  }

  /**
   * The validation part of PUT /:eventCode, in the handler's order. The
   * content type is None when the header is missing; `parsedConfig` and
   * `parsedLaunch` are JSON.parse and Date.parse of the two fields (None: a
   * throw or NaN); `dbStartDate` is the stored event's startDate (None when
   * it has none); `now` is the current time.
   */
  method CheckEventUpdate(contentType: Option<string>, uploadFailed: bool, canEditFormConfig: bool,
                          u: EventUpdate, files: EventUploads, parsedConfig: Option<Val>, parsedLaunch: Option<int>,
                          dbStartDate: Option<int>, now: int, isValidYouTubeLink: string -> bool) returns (r: UpdateCheck)
    ensures r.Crashed? <==> contentType.None?
    ensures r == Rejected(FormConfigNotAllowed)
        <==> contentType.Some? && FormTypeOk(contentType.value) && !uploadFailed
             && Given(u.presentationFormConfig) && !canEditFormConfig
    ensures r == Rejected(EventAlreadyStarted)
        <==> UpdateFieldsPass(contentType, uploadFailed, canEditFormConfig, u, files, parsedConfig, parsedLaunch, now, isValidYouTubeLink)
             && MovesStartedEvent(u, dbStartDate, now)
    ensures r.Proceeds?
        <==> UpdateFieldsPass(contentType, uploadFailed, canEditFormConfig, u, files, parsedConfig, parsedLaunch, now, isValidYouTubeLink)
             && !MovesStartedEvent(u, dbStartDate, now)
    ensures r.Proceeds? ==> r.editedFields == EditCount(u, files)
    ensures r.Proceeds? ==> (r.isLaunchNow <==> u.eventLaunchDate == Some("LAUNCH_NOW"))
  {
    if contentType.None? {
      return Crashed;
    }
    if !StartsWith(contentType.value, "multipart/form-data") {
      return Rejected(InvalidFormType);
    }
    if uploadFailed {
      return Rejected(FileTooLarge);
    }
    if Given(u.presentationFormConfig) && !canEditFormConfig {
      return Rejected(FormConfigNotAllowed);
    }
    r := CheckUpdateFields(u, files, parsedConfig, parsedLaunch, now, isValidYouTubeLink);
    NothingEditedIff(u, files);
    if r.Proceeds? && Given(u.eventLaunchDate) && dbStartDate.Some? && dbStartDate.value < now {
      return Rejected(EventAlreadyStarted);
    }
  }
}

=== FILE: event_utils.dfy ===
// Event visibility and uptime predicates (helpers/event.utils.ts), with the
// date-fns operations they use written out over integer timestamps.

module EventUtils {
  import opened Js
  import opened Entities

  /** Milliseconds in a day. */
  const DAY: int := 86400000

  /** date-fns `endOfDay`: the last millisecond of the (UTC) day containing t. */
  function EndOfDay(t: int): (r: int)
    ensures t <= r < t + DAY
    ensures r % DAY == DAY - 1
  {
    t - t % DAY + DAY - 1
  }

  /** date-fns `addDays`. A null amount makes an Invalid Date, modelled as None. */
  function AddDays(t: Option<int>, days: Option<int>): Option<int>
  {
    if t.Some? && days.Some? then Some(t.value + days.value * DAY) else None
  }

  /** date-fns `isAfter`: false as soon as either date is invalid. */
  predicate IsAfter(a: Option<int>, b: Option<int>)
  {
    a.Some? && b.Some? && a.value > b.value
  }

  function EndOfDayOpt(t: Option<int>): Option<int>
  {
    if t.Some? then Some(EndOfDay(t.value)) else None
  }

  /** isEventPrivate: an event whose privacy level is not 'public'; a missing event is not private. */
  predicate IsEventPrivate(event: Option<Event>): (r: bool)
    ensures r <==> event.Some? && event.value.privacyLevel in {Private, InstitutionHash, EventHash, PresentationHash}
  {
    event.Some? && event.value.privacyLevel != Public
  }

  /** isUserAuthorizedForEvent: the event is one of the caller's registered events. */
  predicate IsUserAuthorizedForEvent(claims: Option<Claims>, event: Option<Event>): (r: bool)
    ensures r <==> claims.Some? && claims.value.eventIds.Some? && event.Some?
                   && exists i | 0 <= i < |claims.value.eventIds.value| :: claims.value.eventIds.value[i] == event.value.eventId
  {
    if claims.None? || claims.value.eventIds.None? || event.None? then false
    else event.value.eventId in claims.value.eventIds.value
  }

  /** getMaxEventDate: the start date moved forward by the tier's uptime in days. */
  function GetMaxEventDate(start: Option<int>, uptime: Option<int>): (r: Option<int>)
    ensures r.Some? <==> start.Some? && uptime.Some?
    ensures r.Some? ==> EndOfDay(r.value) == EndOfDay(start.value) + uptime.value * DAY
  {
    if start.Some? && uptime.Some? then
      EndOfDayShift(start.value, uptime.value);
      AddDays(start, uptime)
    else
      AddDays(start, uptime)
  }

  /** isEventExpiredByUptime, with `new Date()` passed in as `now`. */
  predicate IsEventExpiredByUptime(startDate: int, uptime: Option<int>, now: int): (r: bool)
    ensures r <==> uptime.Some? && EndOfDay(now) > EndOfDay(startDate) + uptime.value * DAY
  {
    var maxDate := GetMaxEventDate(Some(EndOfDay(startDate)), uptime);
    IsAfter(Some(EndOfDay(now)), maxDate)
  }

  // ------------------------------------------------------------ day arithmetic

  lemma EndOfDayMonotone(a: int, b: int)
    requires a <= b
    ensures EndOfDay(a) <= EndOfDay(b)
  {
  }

  lemma EndOfDayShift(t: int, k: int)
    ensures EndOfDay(t + k * DAY) == EndOfDay(t) + k * DAY
  {
    var q := t / DAY;
    assert t == DAY * q + t % DAY;
    assert t + k * DAY == DAY * (q + k) + t % DAY;
    assert (t + k * DAY) % DAY == t % DAY;
  }

  /** Two instants on the same day share their end of day. */
  lemma EndOfDaySameDay(t: int, u: int)
    requires EndOfDay(t) <= u <= EndOfDay(t)
    ensures EndOfDay(u) == EndOfDay(t)
  {
  }

  // ------------------------------------------------------------ properties

  /** The maximum event date is exactly `uptime` days after the start, at the same time of day. */
  lemma MaxEventDateIsUptimeDaysLater(start: int, uptime: int)
    ensures GetMaxEventDate(Some(start), Some(uptime)) == Some(start + uptime * DAY)
    ensures EndOfDay(GetMaxEventDate(Some(start), Some(uptime)).value) == EndOfDay(start) + uptime * DAY
  {
    EndOfDayShift(start, uptime);
  }

  /** On the last day of the uptime window the event is still live; on the next day it is expired. */
  lemma {:induction false} LastUptimeDayNotExpired(startDate: int, uptime: int, now: int)
    ensures EndOfDay(now) == EndOfDay(startDate + uptime * DAY)
        ==> !IsEventExpiredByUptime(startDate, Some(uptime), now)
    ensures EndOfDay(now) == EndOfDay(startDate + (uptime + 1) * DAY)
        ==> IsEventExpiredByUptime(startDate, Some(uptime), now)
  {
    EndOfDayShift(startDate, uptime);
    EndOfDayShift(startDate, uptime + 1);
  }

  /** Once expired, an event stays expired at every later time. */
  lemma {:induction false} ExpiryMonotoneInNow(startDate: int, uptime: Option<int>, t1: int, t2: int)
    requires t1 <= t2
    requires IsEventExpiredByUptime(startDate, uptime, t1)
    ensures IsEventExpiredByUptime(startDate, uptime, t2)
  {
    EndOfDayMonotone(t1, t2);
  }

  /** A tier without an uptime (null eventUptimeInDays) never expires an event. */
  lemma NullUptimeNeverExpires(startDate: int, now: int)
    ensures !IsEventExpiredByUptime(startDate, None, now)
  {
  }
}

=== FILE: feature_flags.dfy ===
// Tier-to-feature-flag derivation when an event is created
// (repositories/event-feature-flag.repository.ts).

module FeatureFlags {
  import opened Js

  /** The feature columns of a subscription tier, as stored (null, a boolean, a number, ...). */
  datatype TierFlags = TierFlags(
    editSplashScreen: Val,
    editCoverPhoto: Val,
    editEventLogo: Val,
    editPresentation: Val,
    accessCustomSubmissionFormEditor: Val)

  /** The inserted eventFeatureFlag row. */
  datatype EventFeatureFlag = EventFeatureFlag(
    eventId: int,
    editEventLogo: bool,
    editPresentation: bool,
    editCoverPhoto: bool,
    accessCustomSubmissionFormEditor: bool,
    editSplashScreen: bool,
    useLatestSubmission: bool)

  /** `isNull(x) || Boolean(x)`: a null tier column grants the feature, anything else grants it when truthy. */
  predicate FlagOf(x: Val)
  {
    x.Null? || Truthy(x)
  }

  /** The row createEventFeatureFlags inserts. */
  function CreateEventFeatureFlags(eventId: int, tier: TierFlags): (row: EventFeatureFlag)
    ensures row.eventId == eventId && row.useLatestSubmission
    ensures row.editEventLogo == FlagOf(tier.editEventLogo)
    ensures row.editPresentation == FlagOf(tier.editPresentation)
    ensures row.editCoverPhoto == FlagOf(tier.editCoverPhoto)
    ensures row.accessCustomSubmissionFormEditor == FlagOf(tier.accessCustomSubmissionFormEditor)
    ensures row.editSplashScreen == FlagOf(tier.editSplashScreen)
  {
    EventFeatureFlag(
      eventId := eventId,
      editEventLogo := FlagOf(tier.editEventLogo),
      editPresentation := FlagOf(tier.editPresentation),
      editCoverPhoto := FlagOf(tier.editCoverPhoto),
      accessCustomSubmissionFormEditor := FlagOf(tier.accessCustomSubmissionFormEditor),
      editSplashScreen := FlagOf(tier.editSplashScreen),
      useLatestSubmission := true)
  }

  /** null grants a feature, a non-null value grants it iff truthy; an undefined column (not null) denies it. */
  lemma FlagRule(x: Val)
    ensures x.Null? ==> FlagOf(x)
    ensures !x.Null? ==> (FlagOf(x) <==> Truthy(x))
    ensures !FlagOf(Undefined) && !FlagOf(Num(0)) && FlagOf(Num(1)) && !FlagOf(Bool(false))
  {
  }

  /** A tier whose five columns are all null grants every feature. */
  lemma AllNullTierGrantsEverything(eventId: int)
    ensures var row := CreateEventFeatureFlags(eventId, TierFlags(Null, Null, Null, Null, Null));
      row.editEventLogo && row.editPresentation && row.editCoverPhoto
      && row.accessCustomSubmissionFormEditor && row.editSplashScreen
  {
  }

  /** Each feature column follows its own tier column and no other: changing one tier column changes one row column. */
  lemma ColumnsAreIndependent(eventId: int, tier: TierFlags, x: Val)
    ensures CreateEventFeatureFlags(eventId, tier.(editEventLogo := x))
         == CreateEventFeatureFlags(eventId, tier).(editEventLogo := FlagOf(x))
    ensures CreateEventFeatureFlags(eventId, tier.(editPresentation := x))
         == CreateEventFeatureFlags(eventId, tier).(editPresentation := FlagOf(x))
    ensures CreateEventFeatureFlags(eventId, tier.(editCoverPhoto := x))
         == CreateEventFeatureFlags(eventId, tier).(editCoverPhoto := FlagOf(x))
    ensures CreateEventFeatureFlags(eventId, tier.(accessCustomSubmissionFormEditor := x))
         == CreateEventFeatureFlags(eventId, tier).(accessCustomSubmissionFormEditor := FlagOf(x))
    ensures CreateEventFeatureFlags(eventId, tier.(editSplashScreen := x))
         == CreateEventFeatureFlags(eventId, tier).(editSplashScreen := FlagOf(x))
  {
  }

  /** A feature is withheld exactly when its tier column is a non-null falsy value (false, 0, '', undefined, NaN). */
  lemma WithheldIffFalsyNonNull(eventId: int, tier: TierFlags)
    ensures var row := CreateEventFeatureFlags(eventId, tier);
      (!row.editEventLogo <==> !tier.editEventLogo.Null? && !Truthy(tier.editEventLogo))
      && (!row.editPresentation <==> !tier.editPresentation.Null? && !Truthy(tier.editPresentation))
      && (!row.editCoverPhoto <==> !tier.editCoverPhoto.Null? && !Truthy(tier.editCoverPhoto))
      && (!row.accessCustomSubmissionFormEditor <==> !tier.accessCustomSubmissionFormEditor.Null? && !Truthy(tier.accessCustomSubmissionFormEditor))
      && (!row.editSplashScreen <==> !tier.editSplashScreen.Null? && !Truthy(tier.editSplashScreen))
  {
  }
}

=== FILE: filter_tag_reads.dfy ===
// How getNewPresentationConfigFilterTags (routes/events.ts) reads the two
// optional extra-field lists of a submission-form configuration, next to the
// guarded reading that the validator and the hash assignment use, and a
// configuration the validator accepts on which the two readings differ.

module FilterTagReads {
  import opened Js
  import opened EventConfig

  /** `config.<section>.extraFields`; the type of the configuration marks both lists optional. */
  function ExtraFieldList(config: Val, section: string): Val
  {
    OptGet(OptGet(config, section), "extraFields")
  }

  /**
   * The two `extraFields.filter(...)` calls of getNewPresentationConfigFilterTags, as written:
   * a list that is not an array has no `filter`, so the derivation throws.
   */
  function FilterTagListsAsWritten(config: Val): (r: Result<(seq<Val>, seq<Val>)>)
    ensures r.Ok? <==> ExtraFieldList(config, "presenterFields").Arr? && ExtraFieldList(config, "presentationFields").Arr?
    ensures r.Ok? ==> r.value == FilterTagLists(config)
  {
    match (ExtraFieldList(config, "presenterFields"), ExtraFieldList(config, "presentationFields"))
    case (Arr(presenter), Arr(presentation)) => Ok((presenter, presentation))
    case _ => Thrown("TypeError")
  }

  /**
   * The lists read as the rest of the handler reads them: the validator and
   * assignPresConfigExtraFieldHashes skip a list that is missing, so it contributes no fields.
   */
  function FilterTagLists(config: Val): (r: (seq<Val>, seq<Val>))
    ensures ExtraFieldList(config, "presenterFields").Arr? ==> r.0 == ExtraFieldList(config, "presenterFields").items
    ensures ExtraFieldList(config, "presentationFields").Arr? ==> r.1 == ExtraFieldList(config, "presentationFields").items
    ensures !ExtraFieldList(config, "presenterFields").Arr? ==> r.0 == []
    ensures !ExtraFieldList(config, "presentationFields").Arr? ==> r.1 == []
  {
    var presenter := ExtraFieldList(config, "presenterFields");
    var presentation := ExtraFieldList(config, "presentationFields");
    (if presenter.Arr? then presenter.items else [], if presentation.Arr? then presentation.items else [])
  }

  /** Every field the guarded reading hands to the tag derivation of an accepted configuration is acceptable. */
  lemma AcceptedConfigGivesAcceptableFields(config: Val)
    requires ConfigErrors(config) == Ok([])
    ensures var lists := FilterTagLists(config);
      (forall i | 0 <= i < |lists.0| :: AcceptableExtraField(lists.0[i]))
      && (forall i | 0 <= i < |lists.1| :: AcceptableExtraField(lists.1[i]))
  {
    ConfigAccepted(config);
  }

  // ------------------------------------------------------------ a configuration without the lists

  /** A text field shown and required, as the title and abstract must be. */
  function ShownRequired(caption: string): Val
  {
    Obj(map["isDisplayed" := Bool(true), "isRequired" := Bool(true), "label" := Str(caption)])
  }

  /** A configuration with every required block, hidden level and subjects fields, and neither extra-field list. */
  function WithoutExtraFields(instructions: string, presenterTitle: string, title: string, summary: string): Val
  {
    Obj(map[
      "general" := Obj(map["instructions" := Str(instructions)]),
      "presenterFields" := Obj(map[
        "presenterTitle" := Str(presenterTitle), "maxAddlPresenters" := Num(0),
        "level" := Obj(map[]), "major" := Obj(map[])]),
      "presentationFields" := Obj(map[
        "title" := ShownRequired(title), "abstract" := ShownRequired(summary),
        "subjects" := Obj(map[])]),
      "mediaFields" := Obj(map["poster" := Obj(map[]), "oral" := Obj(map[]), "exhibition" := Obj(map[])])])
  }

  /** A level or subjects block that is present and hidden raises nothing. */
  lemma EmptyChoiceAccepted(path: string, expectedType: string)
    ensures ChoiceConfigErrors(Obj(map[]), path, expectedType) == Ok([])
  {
    var field: Val := Obj(map[]);
    assert OptGet(field, "type") == Undefined && OptGet(field, "isDisplayed") == Undefined;
    var plain := OptionalText(field, "hash", Dot(path, "hash"))
      + OptionalText(field, "label", Dot(path, "label"))
      + OptionalText(field, "description", Dot(path, "description"));
    assert plain == [];
    assert ChoiceConfigErrors(field, path, expectedType) == Ok(plain + []);
  }

  /** A shown, required field with a text label raises nothing. */
  lemma ShownRequiredAccepted(caption: string, path: string)
    requires caption != ""
    ensures FixedFieldErrors(ShownRequired(caption), path) == []
  {
    var field := ShownRequired(caption);
    assert OptGet(field, "isDisplayed") == Bool(true) && OptGet(field, "isRequired") == Bool(true);
    assert OptGet(field, "label") == Str(caption) && OptGet(field, "type") == Undefined;
    assert OptGet(field, "hash") == Undefined && OptGet(field, "description") == Undefined;
  }

  /** Its general and media blocks raise nothing. */
  lemma GeneralAndMediaAccepted(instructions: string, presenterTitle: string, title: string, summary: string)
    requires instructions != ""
    ensures var config := WithoutExtraFields(instructions, presenterTitle, title, summary);
      GeneralErrors(config) == Ok([]) && MediaFieldsErrors(config) == Ok([])
  {
    var config := WithoutExtraFields(instructions, presenterTitle, title, summary);
    var media := OptGet(config, "mediaFields");
    assert media == Obj(map["poster" := Obj(map[]), "oral" := Obj(map[]), "exhibition" := Obj(map[])]);
    assert OptGet(OptGet(config, "general"), "instructions") == Str(instructions);
    assert MediaAccepted(OptGet(media, "poster"), "posterUploadDescription", "voiceoverVideoLinkDescription");
    assert MediaAccepted(OptGet(media, "oral"), "presentationVideoLinkDescription", "slidesUploadDescription");
    assert MediaAccepted(OptGet(media, "exhibition"), "presentationVideoLinkDescription", "voiceoverVideoLinkDescription");
  }

  /** Its presenter block raises nothing. */
  lemma PresenterBlockAccepted(instructions: string, presenterTitle: string, title: string, summary: string)
    requires presenterTitle != ""
    ensures PresenterFieldsErrors(WithoutExtraFields(instructions, presenterTitle, title, summary)) == Ok([])
  {
    var pf := OptGet(WithoutExtraFields(instructions, presenterTitle, title, summary), "presenterFields");
    assert OptGet(pf, "level") == Obj(map[]) && OptGet(pf, "major") == Obj(map[]);
    assert OptGet(pf, "presenterTitle") == Str(presenterTitle) && OptGet(pf, "extraFields") == Undefined;
    assert OptGet(pf, "maxAddlPresenters") == Num(0);
    assert MaxAddlValid(Num(0));
    EmptyChoiceAccepted("presenterFields.level", "radio");
    PresenterSectionAccepted(WithoutExtraFields(instructions, presenterTitle, title, summary));
  }

  /** A presenter block with a title, a valid count, an accepted level, a hidden major and no extra-field list raises nothing. */
  lemma PresenterSectionAccepted(config: Val)
    requires var pf := OptGet(config, "presenterFields");
      config.Obj? && pf.Obj? && OptGet(pf, "extraFields") == Undefined
      && Truthy(OptGet(pf, "presenterTitle")) && OptGet(pf, "presenterTitle").Str?
      && MaxAddlValid(OptGet(pf, "maxAddlPresenters"))
      && Truthy(OptGet(pf, "level"))
      && ChoiceConfigErrors(OptGet(pf, "level"), "presenterFields.level", "radio") == Ok([])
      && OptGet(pf, "major") == Obj(map[])
    ensures PresenterFieldsErrors(config) == Ok([])
  {
  }

  /** Its presentation block raises nothing. */
  lemma PresentationBlockAccepted(instructions: string, presenterTitle: string, title: string, summary: string)
    requires title != "" && summary != ""
    ensures PresentationFieldsErrors(WithoutExtraFields(instructions, presenterTitle, title, summary)) == Ok([])
  {
    var pf := OptGet(WithoutExtraFields(instructions, presenterTitle, title, summary), "presentationFields");
    assert OptGet(pf, "subjects") == Obj(map[]) && OptGet(pf, "extraFields") == Undefined;
    assert OptGet(pf, "title") == ShownRequired(title) && OptGet(pf, "abstract") == ShownRequired(summary);
    ShownRequiredAccepted(title, "presentationFields.title");
    ShownRequiredAccepted(summary, "presentationFields.abstract");
    EmptyChoiceAccepted("presentationFields.subjects", "checkbox");
    PresentationSectionAccepted(WithoutExtraFields(instructions, presenterTitle, title, summary));
  }

  /** A presentation block with an accepted title, abstract and subjects and no extra-field list raises nothing. */
  lemma PresentationSectionAccepted(config: Val)
    requires var pf := OptGet(config, "presentationFields");
      config.Obj? && pf.Obj? && OptGet(pf, "extraFields") == Undefined
      && Truthy(OptGet(pf, "subjects"))
      && ChoiceConfigErrors(OptGet(pf, "subjects"), "presentationFields.subjects", "checkbox") == Ok([])
      && FixedFieldErrors(OptGet(pf, "title"), "presentationFields.title") == []
      && FixedFieldErrors(OptGet(pf, "abstract"), "presentationFields.abstract") == []
    ensures PresentationFieldsErrors(config) == Ok([])
  {
  }

  /** A configuration whose four sections raise nothing is accepted. */
  lemma SectionsAccepted(config: Val)
    requires GeneralErrors(config) == Ok([]) && MediaFieldsErrors(config) == Ok([])
    requires PresenterFieldsErrors(config) == Ok([]) && PresentationFieldsErrors(config) == Ok([])
    ensures ConfigErrors(config) == Ok([])
  {
  }

  /** getPresentationFormConfigErrors finds nothing wrong with such a configuration. */
  lemma WithoutExtraFieldsAccepted(instructions: string, presenterTitle: string, title: string, summary: string)
    requires instructions != "" && presenterTitle != "" && title != "" && summary != ""
    ensures ConfigErrors(WithoutExtraFields(instructions, presenterTitle, title, summary)) == Ok([])
  {
    GeneralAndMediaAccepted(instructions, presenterTitle, title, summary);
    PresenterBlockAccepted(instructions, presenterTitle, title, summary);
    PresentationBlockAccepted(instructions, presenterTitle, title, summary);
    SectionsAccepted(WithoutExtraFields(instructions, presenterTitle, title, summary));
  }

  /** Neither list is there: the `filter` call throws, and the guarded reading finds no fields. */
  lemma WithoutExtraFieldsHasNoLists(instructions: string, presenterTitle: string, title: string, summary: string)
    ensures FilterTagListsAsWritten(WithoutExtraFields(instructions, presenterTitle, title, summary)).Thrown?
    ensures FilterTagLists(WithoutExtraFields(instructions, presenterTitle, title, summary)) == ([], [])
  {
    var config := WithoutExtraFields(instructions, presenterTitle, title, summary);
    assert ExtraFieldList(config, "presenterFields") == Undefined;
    assert ExtraFieldList(config, "presentationFields") == Undefined;
  }

  /** The validator accepts such a configuration, and the tag derivation as written throws on it. */
  lemma MissingExtraFieldsAcceptedThenThrow(instructions: string, presenterTitle: string, title: string, summary: string)
    requires instructions != "" && presenterTitle != "" && title != "" && summary != ""
    ensures var config := WithoutExtraFields(instructions, presenterTitle, title, summary);
      IsObjectType(config) && ConfigErrors(config) == Ok([])
      && FilterTagListsAsWritten(config).Thrown? && FilterTagLists(config) == ([], [])
  {
    WithoutExtraFieldsAccepted(instructions, presenterTitle, title, summary);
    WithoutExtraFieldsHasNoLists(instructions, presenterTitle, title, summary);
  }
}

=== FILE: js.dfy ===
// JavaScript value semantics that the backend's TypeScript relies on:
// truthiness, `typeof`, property access that may throw, lodash's isEmpty,
// `Number(...)`, and the string methods the handlers call (toLowerCase,
// endsWith, includes, split, trim).

module Js {

  datatype Option<T> = None | Some(value: T)

  /** The value of an expression that may throw (a TypeError on `undefined.x`, an explicit `throw`). */
  datatype Result<T> = Ok(value: T) | Thrown(message: string)
  {
    predicate IsFailure() { Thrown? }

    function PropagateFailure<U>(): Result<U>
      requires Thrown?
    {
      Thrown(message)
    }

    function Extract(): T
      requires Ok?
    {
      value
    }
  }

  /**
   * A JSON/JavaScript value. Numbers are integers plus NaN: no handler in
   * the model depends on fractional values.
   */
  datatype Val =
    | Undefined
    | Null
    | Bool(b: bool)
    | Num(n: int)
    | NaN
    | Str(s: string)
    | Arr(items: seq<Val>)
    | Obj(fields: map<string, Val>)

  /** `!!v` */
  predicate Truthy(v: Val)
  {
    match v
    case Undefined => false
    case Null => false
    case NaN => false
    case Bool(b) => b
    case Num(n) => n != 0
    case Str(s) => s != ""
    case Arr(_) => true
    case Obj(_) => true
  }

  /** `v === null || v === undefined` */
  predicate Nullish(v: Val)
  {
    v.Undefined? || v.Null?
  }

  /** `typeof v === 'number'` (NaN included) */
  predicate IsNumber(v: Val)
  {
    v.Num? || v.NaN?
  }

  /** `typeof v === 'string'` */
  predicate IsString(v: Val)
  {
    v.Str?
  }

  /** `typeof v === 'boolean'` */
  predicate IsBoolean(v: Val)
  {
    v.Bool?
  }

  /** `typeof v === 'object'` (null included, as in JavaScript) */
  predicate IsObjectType(v: Val)
  {
    v.Null? || v.Arr? || v.Obj?
  }

  /** `obj.key`: throws on null and undefined, reads a missing key as undefined. */
  function Get(v: Val, key: string): Result<Val>
  {
    match v
    case Undefined => Thrown("TypeError")
    case Null => Thrown("TypeError")
    case Obj(m) => Ok(if key in m then m[key] else Undefined)
    case _ => Ok(Undefined)
  }

  /** `obj?.key` */
  function OptGet(v: Val, key: string): Val
  {
    match v
    case Obj(m) => if key in m then m[key] else Undefined
    case _ => Undefined
  }

  /** lodash `isEmpty`: true for nullish values, numbers, booleans, empty strings, arrays and objects. */
  predicate LodashIsEmpty(v: Val)
  {
    match v
    case Str(s) => s == ""
    case Arr(items) => |items| == 0
    case Obj(m) => |m| == 0
    case _ => true
  }

  /** `x.length` on a value: only strings and arrays have one. */
  function Length(v: Val): Option<nat>
  {
    match v
    case Str(s) => Some(|s|)
    case Arr(items) => Some(|items|)
    case _ => None
  }

  // ---------------------------------------------------------------- numbers

  predicate IsDigit(c: char)
  {
    '0' <= c <= '9'
  }

  /** Value of a non-empty string of decimal digits. */
  function DecimalValue(s: string): nat
    requires forall i | 0 <= i < |s| :: IsDigit(s[i])
  {
    if |s| == 0 then 0
    else
      assert IsDigit(s[|s| - 1]);
      DecimalValue(s[..|s| - 1]) * 10 + (s[|s| - 1] as int - '0' as int)
  }

  /**
   * `Number(v)`. Strings are read as plain decimal digit strings (the empty
   * string is 0); every other string is NaN. An array goes through its
   * string: `[]` is "", `[x]` is the string of `x` (null and undefined give
   * ""), and two or more elements give a comma, hence NaN.
   */
  function ToNumber(v: Val): Val
  {
    match v
    case Undefined => NaN
    case Null => Num(0)
    case Bool(b) => Num(if b then 1 else 0)
    case Num(n) => Num(n)
    case NaN => NaN
    case Str(s) =>
      if forall i | 0 <= i < |s| :: IsDigit(s[i]) then Num(DecimalValue(s)) else NaN
    case Arr(items) =>
      if |items| == 0 then Num(0)
      else if |items| > 1 then NaN
      else (match items[0]
        case Undefined => Num(0)
        case Null => Num(0)
        case Bool(_) => NaN
        case Obj(_) => NaN
        case _ => ToNumber(items[0]))
    case Obj(_) => NaN
  }

  /** `a === b` on numbers: NaN equals nothing. */
  predicate NumberEquals(a: Val, b: Val)
  {
    a.Num? && b.Num? && a.n == b.n
  }

  /** The decimal digits of a natural number, most significant first, without leading zeros. */
  function NatToString(n: nat): (r: string)
    ensures |r| >= 1 && forall i | 0 <= i < |r| :: IsDigit(r[i])
    ensures n >= 10 ==> r[0] != '0'
  {
    var d := [(48 + n % 10) as char];
    if n < 10 then d else NatToString(n / 10) + d
  }

  /** `String(n)` for an integral number. */
  function NumberToString(n: int): string
  {
    if n < 0 then "-" + NatToString(-n) else NatToString(n)
  }

  /** Reading back the digits of `String(n)` gives `n`. */
  lemma {:induction false} NatToStringRoundTrip(n: nat)
    ensures DecimalValue(NatToString(n)) == n
  {
    var r := NatToString(n);
    if n >= 10 {
      NatToStringRoundTrip(n / 10);
      assert r[..|r| - 1] == NatToString(n / 10);
    }
  }

  // ---------------------------------------------------------------- strings

  /** Lower-casing of one character (ASCII letters only). */
  function LowerChar(c: char): char
  {
    if 'A' <= c <= 'Z' then (c as int + 32) as char else c
  }

  /** `s.toLowerCase()` */
  function Lower(s: string): (r: string)
    ensures |r| == |s|
    ensures forall i | 0 <= i < |s| :: r[i] == LowerChar(s[i])
  {
    seq(|s|, i requires 0 <= i < |s| => LowerChar(s[i]))
  }

  predicate EqualsIgnoreCase(a: string, b: string)
  {
    Lower(a) == Lower(b)
  }

  /** `s.startsWith(p)` */
  predicate StartsWith(s: string, p: string)
  {
    |p| <= |s| && s[..|p|] == p
  }

  /** `s.endsWith(x)` */
  predicate EndsWith(s: string, x: string)
  {
    |x| <= |s| && s[|s| - |x|..] == x
  }

  /** Whether `sep` occurs in `s` at index `i`. */
  predicate OccursAt(s: string, sep: string, i: int)
  {
    0 <= i && i + |sep| <= |s| && s[i..i + |sep|] == sep
  }

  /** `s.indexOf(sep)` as an option: the first index at or after `from` where `sep` occurs. */
  function IndexOfFrom(s: string, sep: string, from: nat): (r: Option<nat>)
    ensures r.Some? ==> from <= r.value && OccursAt(s, sep, r.value)
    ensures r.Some? ==> forall j | from <= j < r.value :: !OccursAt(s, sep, j)
    ensures r.None? ==> forall j | from <= j :: !OccursAt(s, sep, j)
    decreases |s| - from
  {
    if from + |sep| > |s| then None
    else if s[from..from + |sep|] == sep then Some(from)
    else IndexOfFrom(s, sep, from + 1)
  }

  /** `s.includes(sub)` */
  predicate Includes(s: string, sub: string)
  {
    IndexOfFrom(s, sub, 0).Some?
  }

  /** `s.split(sep)` for a non-empty separator string. */
  function Split(s: string, sep: string): (parts: seq<string>)
    requires |sep| > 0
    ensures |parts| >= 1
  {
    SplitFrom(s, sep, 0)
  }

  /** The pieces of `s[from..]` split on `sep`, each cut out of `s` itself. */
  function SplitFrom(s: string, sep: string, from: nat): (parts: seq<string>)
    requires |sep| > 0 && from <= |s|
    ensures |parts| >= 1
    decreases |s| - from
  {
    match IndexOfFrom(s, sep, from)
    case None => [s[from..]]
    case Some(i) => [s[from..i]] + SplitFrom(s, sep, i + |sep|)
  }

  lemma SplitFromUnfold(s: string, sep: string, from: nat, i: nat)
    requires |sep| > 0 && from <= |s| && IndexOfFrom(s, sep, from) == Some(i)
    ensures from <= i && i + |sep| <= |s|
    ensures SplitFrom(s, sep, from) == [s[from..i]] + SplitFrom(s, sep, i + |sep|)
  {
  }

  /** `parts.join(sep)` */
  function Join(parts: seq<string>, sep: string): string
  {
    if |parts| == 0 then ""
    else if |parts| == 1 then parts[0]
    else parts[0] + sep + Join(parts[1..], sep)
  }

  /** The text around an occurrence of `sep` at `i`. */
  lemma AroundOccurrence(s: string, sep: string, from: nat, i: nat)
    requires from <= i && OccursAt(s, sep, i)
    ensures s[from..] == s[from..i] + sep + s[i + |sep|..]
    ensures s[i..] == sep + s[i + |sep|..]
  {
    assert s[i..i + |sep|] == sep;
    assert s[from..] == s[from..i] + s[i..i + |sep|] + s[i + |sep|..];
  }

  lemma JoinCons(head: string, tail: seq<string>, sep: string)
    requires |tail| >= 1
    ensures Join([head] + tail, sep) == head + sep + Join(tail, sep)
  {
    assert ([head] + tail)[1..] == tail;
  }

  lemma {:induction false} SplitFromJoin(s: string, sep: string, from: nat)
    requires |sep| > 0 && from <= |s|
    ensures Join(SplitFrom(s, sep, from), sep) == s[from..]
    decreases |s| - from
  {
    match IndexOfFrom(s, sep, from)
    case None =>
    case Some(i) =>
      SplitFromUnfold(s, sep, from, i);
      SplitFromJoin(s, sep, i + |sep|);
      JoinCons(s[from..i], SplitFrom(s, sep, i + |sep|), sep);
      AroundOccurrence(s, sep, from, i);
  }

  /** Splitting and re-joining on the same separator gives back the string. */
  lemma SplitJoin(s: string, sep: string)
    requires |sep| > 0
    ensures Join(Split(s, sep), sep) == s
  {
    SplitFromJoin(s, sep, 0);
  }

  /** A stretch of `s` in which no occurrence of `sep` starts does not include `sep`. */
  lemma StretchFree(s: string, sep: string, from: nat, end: nat)
    requires |sep| > 0 && from <= end <= |s|
    requires forall j | from <= j < end :: !OccursAt(s, sep, j)
    ensures !Includes(s[from..end], sep)
  {
    var piece := s[from..end];
    forall j | 0 <= j
      ensures !OccursAt(piece, sep, j)
    {
      if j + |sep| <= |piece| {
        SliceOfSlice(s, from, end, j, j + |sep|);
        assert !OccursAt(s, sep, from + j);
      }
    }
  }

  lemma SliceOfSlice(s: string, a: nat, b: nat, c: nat, d: nat)
    requires a <= b <= |s| && c <= d <= b - a
    ensures s[a..b][c..d] == s[a + c..a + d]
  {
    var x := s[a..b][c..d];
    var y := s[a + c..a + d];
    forall k | 0 <= k < d - c
      ensures x[k] == y[k]
    {
    }
  }

  lemma {:induction false} SplitFromPiecesFree(s: string, sep: string, from: nat)
    requires |sep| > 0 && from <= |s|
    ensures forall k | 0 <= k < |SplitFrom(s, sep, from)| :: !Includes(SplitFrom(s, sep, from)[k], sep)
    decreases |s| - from
  {
    match IndexOfFrom(s, sep, from)
    case None =>
      StretchFree(s, sep, from, |s|);
      assert s[from..|s|] == s[from..];
    case Some(i) =>
      SplitFromUnfold(s, sep, from, i);
      StretchFree(s, sep, from, i);
      SplitFromPiecesFree(s, sep, i + |sep|);
  }

  /** No piece of a split contains the separator. */
  lemma SplitPiecesFree(s: string, sep: string)
    requires |sep| > 0
    ensures forall k | 0 <= k < |Split(s, sep)| :: !Includes(Split(s, sep)[k], sep)
  {
    SplitFromPiecesFree(s, sep, 0);
  }

  lemma EndsWithTrans(s: string, t: string, x: string)
    requires EndsWith(s, t) && EndsWith(t, x)
    ensures EndsWith(s, x)
  {
    assert s[|s| - |x|..] == t[|t| - |x|..];
  }

  function LastPiece(s: string, sep: string): string
    requires |sep| > 0
  {
    Last(Split(s, sep))
  }

  function Last(parts: seq<string>): string
    requires |parts| >= 1
  {
    parts[|parts| - 1]
  }

  lemma {:induction false} SplitFromLast(s: string, sep: string, from: nat)
    requires |sep| > 0 && from <= |s|
    ensures EndsWith(s, Last(SplitFrom(s, sep, from)))
    ensures Last(SplitFrom(s, sep, from)) == s[from..] || EndsWith(s, sep + Last(SplitFrom(s, sep, from)))
    decreases |s| - from
  {
    match IndexOfFrom(s, sep, from)
    case None =>
    case Some(i) =>
      SplitFromUnfold(s, sep, from, i);
      SplitFromLast(s, sep, i + |sep|);
      var tail := SplitFrom(s, sep, i + |sep|);
      assert Last(SplitFrom(s, sep, from)) == Last(tail);
      if Last(tail) == s[i + |sep|..] {
        AroundOccurrence(s, sep, from, i);
      }
  }

  /** The last piece of a split is a suffix of the string; it is the whole string or preceded by the separator. */
  lemma SplitLastIsSuffix(s: string, sep: string)
    requires |sep| > 0
    ensures EndsWith(s, LastPiece(s, sep))
    ensures LastPiece(s, sep) == s || EndsWith(s, sep + LastPiece(s, sep))
  {
    SplitFromLast(s, sep, 0);
  }

  /** `c` does not occur in `s`. */
  predicate Lacks(s: string, c: char)
  {
    forall i | 0 <= i < |s| :: s[i] != c
  }

  /** Where `c` does not occur from `from` on, the rest of the string is one piece. */
  lemma SplitFromWithout(s: string, c: char, from: nat)
    requires from <= |s| && forall i | from <= i < |s| :: s[i] != c
    ensures SplitFrom(s, [c], from) == [s[from..]]
  {
    forall j | from <= j
      ensures !OccursAt(s, [c], j)
    {
      if j + 1 <= |s| {
        assert s[j..j + 1] == [s[j]];
      }
    }
  }

  /** A string without the separator character splits into itself. */
  lemma SplitWithout(s: string, c: char)
    requires Lacks(s, c)
    ensures Split(s, [c]) == [s]
  {
    SplitFromWithout(s, c, 0);
    assert s[0..] == s;
  }

  /** `a + c + b` with no other `c` splits into `[a, b]`. */
  lemma SplitOnce(a: string, b: string, c: char)
    requires Lacks(a, c) && Lacks(b, c)
    ensures Split(a + [c] + b, [c]) == [a, b]
  {
    var s := a + [c] + b;
    assert OccursAt(s, [c], |a|) by {
      assert s[|a|..|a| + 1] == [c];
    }
    forall j | 0 <= j < |a|
      ensures !OccursAt(s, [c], j)
    {
      assert s[j..j + 1] == [a[j]];
    }
    assert IndexOfFrom(s, [c], 0) == Some(|a|);
    SplitFromUnfold(s, [c], 0, |a|);
    SplitFromWithout(s, c, |a| + 1);
    assert s[0..|a|] == a && s[|a| + 1..] == b;
  }

  /** JavaScript's `\s` class (WhiteSpace and LineTerminator code points). */
  predicate IsJsWhitespace(c: char)
  {
    c == ' ' || c == '\t' || c == '\n' || c == '\r' || c == '\U{000B}' || c == '\U{000C}'
    || c == '\U{00A0}' || c == '\U{1680}' || ('\U{2000}' <= c <= '\U{200A}')
    || c == '\U{2028}' || c == '\U{2029}' || c == '\U{202F}' || c == '\U{205F}'
    || c == '\U{3000}' || c == '\U{FEFF}'
  }

  /** Characters that the regular-expression `.` does not match. */
  predicate IsLineTerminator(c: char)
  {
    c == '\n' || c == '\r' || c == '\U{2028}' || c == '\U{2029}'
  }

  /** The index of the first character at or after `i` that is not white space, or `|s|`. */
  function SpaceEnd(s: string, i: nat): (j: nat)
    requires i <= |s|
    ensures i <= j <= |s|
    ensures forall k | i <= k < j :: IsJsWhitespace(s[k])
    ensures j < |s| ==> !IsJsWhitespace(s[j])
    decreases |s| - i
  {
    if i < |s| && IsJsWhitespace(s[i]) then SpaceEnd(s, i + 1) else i
  }

  /** The index just after the last character before `j`, and not before `lo`, that is not white space, or `lo`. */
  function SpaceStart(s: string, lo: nat, j: nat): (e: nat)
    requires lo <= j <= |s|
    ensures lo <= e <= j
    ensures forall k | e <= k < j :: IsJsWhitespace(s[k])
    ensures e > lo ==> !IsJsWhitespace(s[e - 1])
  {
    if j > lo && IsJsWhitespace(s[j - 1]) then SpaceStart(s, lo, j - 1) else j
  }

  /** The leading cut of `trim`: only white space is removed, up to the first other character. */
  function TrimStart(s: string): (r: string)
    ensures |r| <= |s| && s[|s| - |r|..] == r
    ensures forall k | 0 <= k < |s| - |r| :: IsJsWhitespace(s[k])
    ensures |r| > 0 ==> !IsJsWhitespace(r[0])
  {
    s[SpaceEnd(s, 0)..]
  }

  /**
   * `s.trim()`: a piece of the input with white space at neither end, all
   * that is cut off before and after it being white space.
   */
  function Trim(s: string): (r: string)
    ensures |r| <= |s|
    ensures |r| > 0 ==> !IsJsWhitespace(r[0]) && !IsJsWhitespace(r[|r| - 1])
    ensures exists i | 0 <= i <= |s| - |r| :: TrimmedAt(s, r, i)
  {
    var i := SpaceEnd(s, 0);
    var e := SpaceStart(s, i, |s|);
    assert TrimmedAt(s, s[i..e], i);
    s[i..e]
  }

  /** `r` sits at position `i` of `s`, with only white space before and after it. */
  predicate TrimmedAt(s: string, r: string, i: nat)
    requires i + |r| <= |s|
  {
    s[i..i + |r|] == r
    && (forall k | 0 <= k < i :: IsJsWhitespace(s[k]))
    && (forall k | i + |r| <= k < |s| :: IsJsWhitespace(s[k]))
  }

  /** Trimming twice is trimming once. */
  lemma TrimIdempotent(s: string)
    ensures Trim(Trim(s)) == Trim(s)
  {
    var r := Trim(s);
    if |r| > 0 {
      assert SpaceEnd(r, 0) == 0;
      assert SpaceStart(r, 0, |r|) == |r|;
      assert r[0..|r|] == r;
    }
  }
}

// How a middleware or handler finishes with a request.
module Http {

  /** The HttpException subclasses the middlewares throw and hand to `next(err)`. */
  datatype Failure = NotFound | Forbidden | BadRequest | Internal

  datatype Outcome =
    | Next                      // next() without an error: the chain continues
    | Respond(status: int)      // res.status(status).send(...) and the chain stops
    | Raise(failure: Failure)   // next(err): the error handler writes the response
    | Unhandled                 // a rejected promise that no one catches: no response

  /** A database read: the row, no row, or a rejected query. */
  datatype Fetch<T> = Found(row: T) | Missing | QueryFailed

  predicate Denied(o: Outcome)
  {
    !o.Next?
  }

  /** Running guards in sequence: the first one that does not call next() decides. */
  function Then(first: Outcome, second: Outcome): (r: Outcome)
    ensures first.Next? ==> r == second
    ensures !first.Next? ==> r == first
  {
    if first.Next? then second else first
  }
}

=== FILE: live_sessions.dfy ===
// Request validation of routes/liveSessions.ts: the POST guard chain, the PUT
// checks with their edited-field counter and update object, and the id check
// of the reorder route. `Date.parse` and `new URL` are parameters; a date the
// handler builds with `new Date(x)` is represented by `x`.

module LiveSessions {
  import opened Js

  /** Why a live-session request is refused. */
  datatype Rejection =
    | MissingTitle
    | MissingSessionStart
    | InvalidSessionStart
    | InvalidSessionEnd
    | MissingLink
    | InvalidLink
    | MissingDescription
    | InvalidTitle
    | InvalidDescription
    | InvalidLiveSessionId
    | SessionNotFound
    | NoFieldsProvided
    | InvalidLiveSessionIds

  /** The HTTP status of a refusal: 404 for an unknown session, 400 otherwise. */
  function Status(reason: Rejection): (status: int)
    ensures status == 404 <==> reason == SessionNotFound
    ensures status == 400 <==> reason != SessionNotFound
  {
    if reason == SessionNotFound then 404 else 400
  }

  /** The `message` of each refusal. */
  function Message(reason: Rejection): string
  {
    match reason
    case MissingTitle => "missing required field 'title'"
    case MissingSessionStart => "missing required field 'sessionStart'"
    case InvalidSessionStart => "invalid field 'sessionStart'"
    case InvalidSessionEnd => "invalid field 'sessionEnd'"
    case MissingLink => "missing required field 'presentationLink'"
    case InvalidLink => "invalid field 'presentationLink'"
    case MissingDescription => "missing required field 'description'"
    case InvalidTitle => "invalid field 'title'"
    case InvalidDescription => "invalid field 'description'"
    case InvalidLiveSessionId => "invalid liveSessionId"
    case SessionNotFound => "liveSession not found"
    case NoFieldsProvided => "no fields provided"
    case InvalidLiveSessionIds => "invalid liveSessionIds"
  }

  /** The body fields the routes read. */
  datatype SessionBody = SessionBody(
    eventId: Val,
    title: Val,
    sessionStart: Val,
    sessionEnd: Val,
    presentationLink: Val,
    description: Val)

  /** A lower-case letter, and for PUT also a digit. */
  predicate HostChar(c: char, allowDigits: bool)
  {
    'a' <= c <= 'z' || (allowDigits && IsDigit(c))
  }

  /** `/^(http|https):\/\/[a-z]+/` (or `[a-z\d]+` when digits are allowed) on an already lower-cased link. */
  predicate LinkPattern(s: string, allowDigits: bool)
  {
    (StartsWith(s, "http://") && |s| > 7 && HostChar(s[7], allowDigits))
    || (StartsWith(s, "https://") && |s| > 8 && HostChar(s[8], allowDigits))
  }

  /**
   * The link test inside the try block: `.trim()` throws on a non-string,
   * `new URL` must accept the trimmed link, and the lower-cased link must
   * match the pattern.
   */
  predicate LinkAccepted(link: Val, isUrl: string -> bool, allowDigits: bool)
  {
    link.Str? && isUrl(Trim(link.s)) && LinkPattern(Lower(Trim(link.s)), allowDigits)
  }

  /** Every link POST accepts, PUT accepts too. */
  lemma PutAcceptsPostLinks(link: Val, isUrl: string -> bool)
    requires LinkAccepted(link, isUrl, false)
    ensures LinkAccepted(link, isUrl, true)
  {
  }

  /** A digit right after the scheme is accepted by PUT only. */
  lemma DigitHostOnlyInPut(rest: string, isUrl: string -> bool)
    requires Lower(rest) == rest && isUrl("http://1" + rest)
    requires Trim("http://1" + rest) == "http://1" + rest
    ensures LinkAccepted(Str("http://1" + rest), isUrl, true)
    ensures !LinkAccepted(Str("http://1" + rest), isUrl, false)
  {
    var s := "http://1" + rest;
    assert s[..7] == "http://";
    assert s[7] == '1';
    forall i | 0 <= i < |s| ensures LowerChar(s[i]) == s[i] {
      if i >= 8 {
        assert s[i] == rest[i - 8];
        assert Lower(rest)[i - 8] == LowerChar(rest[i - 8]);
      }
    }
    assert Lower(s) == s;
  }

  // ------------------------------------------------------------ POST /

  /** The row POST inserts; a falsy `sessionEnd` is stored as null. */
  datatype NewSession = NewSession(eventId: Val, sessionLinkType: string, link: string, title: Val, sessionStart: Val, sessionEnd: Val, description: Val)

  datatype PostOutcome = PostRejected(reason: Rejection) | Insert(row: NewSession)

  /** POST /: the first failing check in handler order, or the row to insert. */
  function PostLiveSession(body: SessionBody, queryEventId: Val, parsesAsDate: Val -> bool, isUrl: string -> bool): (r: PostOutcome)
    ensures !Truthy(body.title) ==> r == PostRejected(MissingTitle)
    ensures r.Insert? <==>
      Truthy(body.title) && Truthy(body.sessionStart) && parsesAsDate(body.sessionStart)
      && (!Truthy(body.sessionEnd) || parsesAsDate(body.sessionEnd))
      && Truthy(body.presentationLink) && LinkAccepted(body.presentationLink, isUrl, false)
      && Truthy(body.description)
    ensures r.Insert? ==> r.row.sessionEnd == (if Truthy(body.sessionEnd) then body.sessionEnd else Null)
    ensures r.Insert? ==> r.row.link == Trim(body.presentationLink.s) && r.row.sessionLinkType == "link"
    ensures r.Insert? ==> r.row.eventId == (if Truthy(body.eventId) then body.eventId else queryEventId)
    ensures r.PostRejected? ==> r.reason in {MissingTitle, MissingSessionStart, InvalidSessionStart, InvalidSessionEnd, MissingLink, InvalidLink, MissingDescription}
  {
    if !Truthy(body.title) then PostRejected(MissingTitle)
    else if !Truthy(body.sessionStart) then PostRejected(MissingSessionStart)
    else if !parsesAsDate(body.sessionStart) then PostRejected(InvalidSessionStart)
    else if Truthy(body.sessionEnd) && !parsesAsDate(body.sessionEnd) then PostRejected(InvalidSessionEnd)
    else if !Truthy(body.presentationLink) then PostRejected(MissingLink)
    else if !LinkAccepted(body.presentationLink, isUrl, false) then PostRejected(InvalidLink)
    else if !Truthy(body.description) then PostRejected(MissingDescription)
    else
      Insert(NewSession(
        if Truthy(body.eventId) then body.eventId else queryEventId,
        "link",
        Trim(body.presentationLink.s),
        body.title,
        body.sessionStart,
        if Truthy(body.sessionEnd) then body.sessionEnd else Null,
        body.description))
  }

  /** A missing title is reported before anything else is looked at; a bad link only once the dates are fine. */
  lemma PostCheckOrder(body: SessionBody, queryEventId: Val, parsesAsDate: Val -> bool, isUrl: string -> bool)
    ensures PostLiveSession(body, queryEventId, parsesAsDate, isUrl) == PostRejected(InvalidLink) ==>
      Truthy(body.title) && parsesAsDate(body.sessionStart) && Truthy(body.presentationLink)
    ensures PostLiveSession(body, queryEventId, parsesAsDate, isUrl) == PostRejected(MissingDescription) ==>
      LinkAccepted(body.presentationLink, isUrl, false)
  {
  }

  // ------------------------------------------------------------ PUT /:liveSessionId

  /** `x.length === 0` on a truthy value: only an empty array gets through `if (x)` with length 0. */
  predicate EmptyLength(v: Val)
  {
    Length(v) == Some(0)
  }

  /** The first failing field check of PUT, in handler order. */
  function PutFieldFailure(body: SessionBody, parsesAsDate: Val -> bool, isUrl: string -> bool): (r: Option<Rejection>)
    ensures r.Some? ==> r.value in {InvalidTitle, InvalidSessionStart, InvalidSessionEnd, InvalidLink, InvalidDescription}
  {
    if Truthy(body.title) && EmptyLength(body.title) then Some(InvalidTitle)
    else if Truthy(body.sessionStart) && !parsesAsDate(body.sessionStart) then Some(InvalidSessionStart)
    else if !Nullish(body.sessionEnd) && !parsesAsDate(body.sessionEnd) then Some(InvalidSessionEnd)
    else if Truthy(body.presentationLink) && !LinkAccepted(body.presentationLink, isUrl, true) then Some(InvalidLink)
    else if Truthy(body.description) && EmptyLength(body.description) then Some(InvalidDescription)
    else None
  }

  /** The fields PUT counts as edited. */
  datatype SessionField = TitleField | StartField | EndField | LinkField | DescriptionField

  predicate Edits(body: SessionBody, f: SessionField)
  {
    match f
    case TitleField => Truthy(body.title)
    case StartField => Truthy(body.sessionStart)
    case EndField => !Nullish(body.sessionEnd)
    case LinkField => Truthy(body.presentationLink)
    case DescriptionField => Truthy(body.description)
  }

  function Indicator(b: bool): nat
  {
    if b then 1 else 0
  }

  /** `editedFields` after the field checks. */
  function EditedFields(body: SessionBody): (n: nat)
    ensures n <= 5
  {
    Indicator(Edits(body, TitleField)) + Indicator(Edits(body, StartField)) + Indicator(Edits(body, EndField))
    + Indicator(Edits(body, LinkField)) + Indicator(Edits(body, DescriptionField))
  }

  /** No field counts exactly when none is edited. */
  lemma NoEditedFieldsIff(body: SessionBody)
    ensures EditedFields(body) == 0 <==> forall f :: !Edits(body, f)
  {
    if EditedFields(body) == 0 {
      forall f ensures !Edits(body, f) {
      }
    } else {
      assert Edits(body, TitleField) || Edits(body, StartField) || Edits(body, EndField)
          || Edits(body, LinkField) || Edits(body, DescriptionField);
    }
  }

  /**
   * The update object: the fixed keys, then each truthy field; `sessionEnd`
   * is written whenever it is not undefined, so null clears the end time.
   */
  function QueryObject(body: SessionBody, liveSessionId: string, queryEventId: Val): (q: map<string, Val>)
    ensures q.Keys >= {"eventId", "liveSessionId", "sessionLinkType"}
    ensures ("link" in q <==> Truthy(body.presentationLink)) && ("title" in q <==> Truthy(body.title))
    ensures ("sessionStart" in q <==> Truthy(body.sessionStart)) && ("description" in q <==> Truthy(body.description))
    ensures "sessionEnd" in q <==> !body.sessionEnd.Undefined?
    ensures "sessionEnd" in q ==> q["sessionEnd"] == body.sessionEnd
    ensures Truthy(body.presentationLink) && body.presentationLink.Str? ==> q["link"] == Str(Trim(body.presentationLink.s))
  {
    var base := map["eventId" := (if Truthy(body.eventId) then body.eventId else queryEventId), "liveSessionId" := Str(liveSessionId), "sessionLinkType" := Str("link")];
    var withLink := if Truthy(body.presentationLink) then base["link" := Str(if body.presentationLink.Str? then Trim(body.presentationLink.s) else "")] else base;
    var withTitle := if Truthy(body.title) then withLink["title" := body.title] else withLink;
    var withStart := if Truthy(body.sessionStart) then withTitle["sessionStart" := body.sessionStart] else withTitle;
    var withEnd := if !body.sessionEnd.Undefined? then withStart["sessionEnd" := body.sessionEnd] else withStart;
    if Truthy(body.description) then withEnd["description" := body.description] else withEnd
  }

  datatype PutOutcome = PutRejected(reason: Rejection) | Update(queryObject: map<string, Val>)

  /** The field checks of PUT, counting each edited field as it passes. */
  method CheckPutFields(body: SessionBody, parsesAsDate: Val -> bool, isUrl: string -> bool) returns (failure: Option<Rejection>, editedFields: nat)
    ensures failure == PutFieldFailure(body, parsesAsDate, isUrl)
    ensures failure.None? ==> editedFields == EditedFields(body)
  {
    editedFields := 0;
    if Truthy(body.title) {
      if EmptyLength(body.title) {
        return Some(InvalidTitle), editedFields;
      }
      editedFields := editedFields + 1;
    }
    if Truthy(body.sessionStart) {
      if !parsesAsDate(body.sessionStart) {
        return Some(InvalidSessionStart), editedFields;
      }
      editedFields := editedFields + 1;
    }
    if !body.sessionEnd.Undefined? && !body.sessionEnd.Null? {
      if !parsesAsDate(body.sessionEnd) {
        return Some(InvalidSessionEnd), editedFields;
      }
      editedFields := editedFields + 1;
    }
    if Truthy(body.presentationLink) {
      if !LinkAccepted(body.presentationLink, isUrl, true) {
        return Some(InvalidLink), editedFields;
      }
      editedFields := editedFields + 1;
    }
    if Truthy(body.description) {
      if EmptyLength(body.description) {
        return Some(InvalidDescription), editedFields;
      }
      editedFields := editedFields + 1;
    }
    failure := None;
  }

  /** The update object, filled field by field. */
  method BuildQueryObject(body: SessionBody, liveSessionId: string, queryEventId: Val) returns (queryObject: map<string, Val>)
    ensures queryObject == QueryObject(body, liveSessionId, queryEventId)
  {
    queryObject := map["eventId" := (if Truthy(body.eventId) then body.eventId else queryEventId), "liveSessionId" := Str(liveSessionId), "sessionLinkType" := Str("link")];
    if Truthy(body.presentationLink) {
      queryObject := queryObject["link" := Str(if body.presentationLink.Str? then Trim(body.presentationLink.s) else "")];
    }
    if Truthy(body.title) {
      queryObject := queryObject["title" := body.title];
    }
    if Truthy(body.sessionStart) {
      queryObject := queryObject["sessionStart" := body.sessionStart];
    }
    ghost var beforeEnd := queryObject;
    if !body.sessionEnd.Undefined? {
      if body.sessionEnd.Null? {
        queryObject := queryObject["sessionEnd" := Null];
      } else {
        queryObject := queryObject["sessionEnd" := body.sessionEnd];
      }
    }
    assert queryObject == if !body.sessionEnd.Undefined? then beforeEnd["sessionEnd" := body.sessionEnd] else beforeEnd;
    if Truthy(body.description) {
      queryObject := queryObject["description" := body.description];
    }
  }

  /**
   * PUT /:liveSessionId: the id check, the field checks, the session lookup,
   * the "no fields" check, then the update object. (The handler repeats the
   * id check after the field checks; the repeat can never fire.)
   */
  method PutLiveSession(liveSessionId: string, body: SessionBody, queryEventId: Val, sessionFound: bool,
                        parsesAsDate: Val -> bool, isUrl: string -> bool) returns (r: PutOutcome)
    ensures ToNumber(Str(liveSessionId)).NaN? ==> r == PutRejected(InvalidLiveSessionId)
    ensures !ToNumber(Str(liveSessionId)).NaN? && PutFieldFailure(body, parsesAsDate, isUrl).Some? ==>
      r == PutRejected(PutFieldFailure(body, parsesAsDate, isUrl).value)
    ensures r == PutRejected(SessionNotFound) <==>
      !ToNumber(Str(liveSessionId)).NaN? && PutFieldFailure(body, parsesAsDate, isUrl).None? && !sessionFound
    ensures r == PutRejected(NoFieldsProvided) <==>
      !ToNumber(Str(liveSessionId)).NaN? && PutFieldFailure(body, parsesAsDate, isUrl).None? && sessionFound && EditedFields(body) == 0
    ensures r.Update? <==>
      !ToNumber(Str(liveSessionId)).NaN? && PutFieldFailure(body, parsesAsDate, isUrl).None? && sessionFound && EditedFields(body) > 0
    ensures r.Update? ==> r.queryObject == QueryObject(body, liveSessionId, queryEventId)
  {
    if ToNumber(Str(liveSessionId)).NaN? {
      return PutRejected(InvalidLiveSessionId);
    }
    var failure, editedFields := CheckPutFields(body, parsesAsDate, isUrl);
    if failure.Some? {
      return PutRejected(failure.value);
    }
    if !sessionFound {
      return PutRejected(SessionNotFound);
    }
    if editedFields == 0 {
      return PutRejected(NoFieldsProvided);
    }
    var queryObject := BuildQueryObject(body, liveSessionId, queryEventId);
    r := Update(queryObject);
  }

  /** An unknown session is reported as 404 even when no field is given. */
  lemma NotFoundBeforeNoFields(liveSessionId: string, body: SessionBody, parsesAsDate: Val -> bool, isUrl: string -> bool)
    requires !ToNumber(Str(liveSessionId)).NaN?
    requires forall f :: !Edits(body, f)
    ensures PutFieldFailure(body, parsesAsDate, isUrl).None?
    ensures EditedFields(body) == 0
  {
    NoEditedFieldsIff(body);
    assert !Edits(body, TitleField) && !Edits(body, StartField) && !Edits(body, EndField)
        && !Edits(body, LinkField) && !Edits(body, DescriptionField);
  }

  /**
   * A body whose only field is `sessionEnd: null` edits nothing by the
   * counter, so the clearing it would write is refused as "no fields".
   */
  lemma NullEndAloneIsNoEdit(body: SessionBody, liveSessionId: string, queryEventId: Val)
    requires body.sessionEnd == Null
    requires !Truthy(body.title) && !Truthy(body.sessionStart) && !Truthy(body.presentationLink) && !Truthy(body.description)
    ensures EditedFields(body) == 0
    ensures QueryObject(body, liveSessionId, queryEventId)["sessionEnd"] == Null
  {
  }

  // ------------------------------------------------------------ PUT /:eventCode/order

  datatype ReorderOutcome = ReorderRejected(reason: Rejection) | Reorder(ids: seq<Val>) | ReorderCrashed

  /** `liveSessionIds.some(id => typeof id !== 'number')`; a body without an array makes `.some` throw. */
  function ReorderCheck(liveSessionIds: Val): (r: ReorderOutcome)
    ensures r.ReorderCrashed? <==> !liveSessionIds.Arr?
    ensures r == ReorderRejected(InvalidLiveSessionIds) <==>
      liveSessionIds.Arr? && exists k | 0 <= k < |liveSessionIds.items| :: !IsNumber(liveSessionIds.items[k])
    ensures r.Reorder? ==> r.ids == liveSessionIds.items && forall k | 0 <= k < |r.ids| :: IsNumber(r.ids[k])
  {
    if !liveSessionIds.Arr? then ReorderCrashed
    else if exists k | 0 <= k < |liveSessionIds.items| :: !IsNumber(liveSessionIds.items[k]) then ReorderRejected(InvalidLiveSessionIds)
    else Reorder(liveSessionIds.items)
  }
}

=== FILE: locals.dfy ===
// res.locals: the per-request object the middlewares write and later
// handlers read.

module ResponseLocals {
  import opened Js
  import opened Entities

  class Locals {
    /** res.locals.token */
    var token: Option<string>
    /** res.locals.userClaims */
    var userClaims: Option<Claims>
    /** res.locals.isEventAdmin */
    var isEventAdmin: Option<bool>
    /** res.locals.subscriptions */
    var subscriptions: Option<seq<Subscription>>

    /** A fresh request: nothing has been written yet. */
    constructor ()
      ensures token.None? && userClaims.None? && isEventAdmin.None? && subscriptions.None?
    {
      token := None;
      userClaims := None;
      isEventAdmin := None;
      subscriptions := None;
    }
  }
}

=== FILE: presentation_data.dfy ===
// What routes/presentations.ts derives from an accepted submission and what
// it returns: the configured extra values, the filter tags with their
// de-duplication, the tag diff of PUT, and the presenter list of the GET
// handlers with its redaction for non-admins.

module PresentationData {
  import opened Js
  import opened PresentationForms

  // ------------------------------------------------------------ extra values

  /** `typeof v === 'number' ? String(v) : v` */
  function StringifyNumber(v: Val): (r: Val)
    ensures !IsNumber(v) ==> r == v
    ensures IsNumber(v) ==> r.Str?
  {
    match v
    case Num(n) => Str(NumberToString(n))
    case NaN => Str("NaN")
    case _ => v
  }

  /** A non-negative number survives the conversion: `Number(String(n)) === n`. */
  lemma StringifiedNumberReadsBack(n: nat)
    ensures ToNumber(StringifyNumber(Num(n))) == Num(n)
  {
    NatToStringRoundTrip(n);
  }

  function Hashes(fields: seq<ExtraField>): set<string>
  {
    set f | f in fields :: f.hash
  }

  /** `Object.keys(v).length` */
  function KeyCount(v: Val): nat
  {
    match v
    case Obj(m) => |m|
    case Arr(items) => |items|
    case Str(s) => |s|
    case _ => 0
  }

  /** The entries of a submitted extra-values object whose key is a configured hash, numbers turned to strings. */
  function KeepConfigured(extraValues: Val, hashes: set<string>): (r: map<string, Val>)
    ensures r.Keys <= hashes
    ensures forall k :: k in r <==> extraValues.Obj? && k in extraValues.fields && k in hashes
  {
    match extraValues
    case Obj(m) => map k | k in m && k in hashes :: StringifyNumber(m[k])
    case _ => map[]
  }

  lemma KeepConfiguredIff(extraValues: Val, hashes: set<string>, k: string)
    requires extraValues.Obj?
    ensures k in KeepConfigured(extraValues, hashes) <==> k in extraValues.fields && k in hashes
    ensures k in KeepConfigured(extraValues, hashes) ==>
      KeepConfigured(extraValues, hashes)[k] == StringifyNumber(extraValues.fields[k])
  {
  }

  /** The positions `i` with `keep(s[i])`, in increasing order: the elements `filter` keeps. */
  function Positions(s: seq<Val>, keep: Val -> bool): (r: seq<nat>)
    ensures forall i | 0 <= i < |r| :: r[i] < |s| && keep(s[r[i]])
    ensures forall i, j | 0 <= i < j < |r| :: r[i] < r[j]
    ensures forall k | 0 <= k < |s| && keep(s[k]) :: k in r
  {
    if |s| == 0 then []
    else
      var n := |s| - 1;
      var prefix := Positions(s[..n], keep);
      if keep(s[n]) then prefix + [n] else prefix
  }

  /**
   * `s.filter(keep).map(f)` over a list of presenters: testing `keep`
   * reads a property, which throws on a null or undefined presenter, and
   * `f` may throw.
   */
  function FilterMap<T>(s: seq<Val>, keep: Val -> bool, f: Val -> Result<T>): (r: Result<seq<T>>)
    ensures r.Thrown? <==> exists i | 0 <= i < |s| :: Nullish(s[i]) || (keep(s[i]) && f(s[i]).Thrown?)
  {
    if |s| == 0 then Ok([])
    else
      var n := |s| - 1;
      assert forall i | 0 <= i < n :: s[..n][i] == s[i];
      var before :- FilterMap(s[..n], keep, f);
      if Nullish(s[n]) then Thrown("TypeError")
      else if keep(s[n]) then
        var x :- f(s[n]);
        Ok(before + [x])
      else Ok(before)
  }

  /** The result has one entry per kept element, in order: `f` of that element. */
  lemma {:induction false} FilterMapInOrder<T>(s: seq<Val>, keep: Val -> bool, f: Val -> Result<T>)
    requires FilterMap(s, keep, f).Ok?
    ensures var kept := Positions(s, keep);
      var r := FilterMap(s, keep, f).value;
      |r| == |kept| && forall i | 0 <= i < |kept| :: f(s[kept[i]]).Ok? && r[i] == f(s[kept[i]]).value
  {
    if |s| > 0 {
      var n := |s| - 1;
      var prefix := s[..n];
      FilterMapInOrder(prefix, keep, f);
      var kept := Positions(prefix, keep);
      assert forall i | 0 <= i < |kept| :: prefix[kept[i]] == s[kept[i]];
    }
  }

  /** `e` is kept and `f` gives, without throwing, a list holding `x`. */
  predicate Gives<T(==)>(e: Val, keep: Val -> bool, f: Val -> Result<seq<T>>, x: T)
  {
    keep(e) && f(e).Ok? && x in f(e).value
  }

  /** The lists one after the other: what `reduce` pushing each list builds. */
  function Concat<T(==,!new)>(lists: seq<seq<T>>): (r: seq<T>)
    ensures forall x :: x in r <==> exists i | 0 <= i < |lists| :: x in lists[i]
  {
    if |lists| == 0 then []
    else
      var n := |lists| - 1;
      assert forall i | 0 <= i < n :: lists[..n][i] == lists[i];
      Concat(lists[..n]) + lists[n]
  }

  lemma ConcatFilterMapSound<T(!new)>(s: seq<Val>, keep: Val -> bool, f: Val -> Result<seq<T>>, x: T)
    requires FilterMap(s, keep, f).Ok? && x in Concat(FilterMap(s, keep, f).value)
    ensures exists i | 0 <= i < |s| :: Gives(s[i], keep, f, x)
  {
    var lists := FilterMap(s, keep, f).value;
    FilterMapInOrder(s, keep, f);
    var kept := Positions(s, keep);
    var k :| 0 <= k < |lists| && x in lists[k];
    assert Gives(s[kept[k]], keep, f, x);
  }

  lemma ConcatFilterMapComplete<T(!new)>(s: seq<Val>, keep: Val -> bool, f: Val -> Result<seq<T>>, i: int, x: T)
    requires FilterMap(s, keep, f).Ok? && 0 <= i < |s| && Gives(s[i], keep, f, x)
    ensures x in Concat(FilterMap(s, keep, f).value)
  {
    var lists := FilterMap(s, keep, f).value;
    FilterMapInOrder(s, keep, f);
    var kept := Positions(s, keep);
    var k :| 0 <= k < |kept| && kept[k] == i;
    assert x in lists[k];
  }

  /** Concatenating the lists `FilterMap` gives collects what some kept element gives. */
  lemma ConcatFilterMap<T(!new)>(s: seq<Val>, keep: Val -> bool, f: Val -> Result<seq<T>>)
    requires FilterMap(s, keep, f).Ok?
    ensures forall x :: x in Concat(FilterMap(s, keep, f).value) <==> exists i | 0 <= i < |s| :: Gives(s[i], keep, f, x)
  {
    forall x
      ensures x in Concat(FilterMap(s, keep, f).value) <==> exists i | 0 <= i < |s| :: Gives(s[i], keep, f, x)
    {
      if x in Concat(FilterMap(s, keep, f).value) {
        ConcatFilterMapSound(s, keep, f, x);
      }
      if i :| 0 <= i < |s| && Gives(s[i], keep, f, x) {
        ConcatFilterMapComplete(s, keep, f, i, x);
      }
    }
  }

  /** `presenter.extraValues && Object.keys(presenter.extraValues).length` */
  predicate HasExtraValues(presenter: Val)
  {
    var ev := OptGet(presenter, "extraValues");
    Truthy(ev) && KeyCount(ev) > 0
  }

  function KeepConfiguredOf(hashes: set<string>): Val -> Result<map<string, Val>>
  {
    presenter => Ok(KeepConfigured(OptGet(presenter, "extraValues"), hashes))
  }

  /**
   * The presenters' part: the presenters with extra values, in order, each
   * reduced to its configured entries. Reading `extraValues` of a null or
   * undefined presenter throws.
   */
  function PresenterExtraValues(presenters: seq<Val>, hashes: set<string>): (r: Result<seq<map<string, Val>>>)
    ensures r.Thrown? <==> exists i | 0 <= i < |presenters| :: Nullish(presenters[i])
    ensures r.Ok? ==>
      var kept := Positions(presenters, HasExtraValues);
      |r.value| == |kept|
      && forall i | 0 <= i < |kept| :: r.value[i] == KeepConfigured(OptGet(presenters[kept[i]], "extraValues"), hashes)
  {
    var r := FilterMap(presenters, HasExtraValues, KeepConfiguredOf(hashes));
    if r.Ok? then
      FilterMapInOrder(presenters, HasExtraValues, KeepConfiguredOf(hashes));
      r
    else r
  }

  datatype ValidExtraValues = ValidExtraValues(presenters: seq<map<string, Val>>, presentation: map<string, Val>)

  /**
   * getValidSubmissionFormExtraValues: each part is read only when its
   * configuration has extra fields. It throws when the presenter data is
   * not an array or holds a null presenter, or when the presentation data
   * is null or undefined; otherwise it keeps exactly the configured entries.
   */
  function ValidSubmissionFormExtraValues(formData: Val, cfg: FormConfig): (r: Result<ValidExtraValues>)
    ensures var presenterData := OptGet(formData, "presenterData");
      r.Thrown? <==>
        (|cfg.presenterFields.extraFields| > 0
         && (!presenterData.Arr? || exists i | 0 <= i < |presenterData.items| :: Nullish(presenterData.items[i])))
        || (|cfg.presentationFields.extraFields| > 0 && Nullish(OptGet(formData, "presentationData")))
    ensures r.Ok? && |cfg.presenterFields.extraFields| == 0 ==> r.value.presenters == []
    ensures r.Ok? && |cfg.presenterFields.extraFields| > 0 ==>
      var presenterData := OptGet(formData, "presenterData");
      presenterData.Arr?
      && var kept := Positions(presenterData.items, HasExtraValues);
         |r.value.presenters| == |kept|
         && forall i | 0 <= i < |kept| ::
              r.value.presenters[i] == KeepConfigured(OptGet(presenterData.items[kept[i]], "extraValues"), Hashes(cfg.presenterFields.extraFields))
    ensures r.Ok? ==>
      var ev := OptGet(OptGet(formData, "presentationData"), "extraValues");
      forall k :: k in r.value.presentation <==>
        |cfg.presentationFields.extraFields| > 0 && ev.Obj? && k in ev.fields && k in Hashes(cfg.presentationFields.extraFields)
    ensures r.Ok? ==>
      var ev := OptGet(OptGet(formData, "presentationData"), "extraValues");
      forall k | k in r.value.presentation :: ev.Obj? && k in ev.fields && r.value.presentation[k] == StringifyNumber(ev.fields[k])
  {
    var presenterPart :-
      if |cfg.presenterFields.extraFields| > 0 then
        match OptGet(formData, "presenterData")
        case Arr(items) => PresenterExtraValues(items, Hashes(cfg.presenterFields.extraFields))
        case _ => Thrown("TypeError")
      else Ok([]);
    var presentationPart :-
      if |cfg.presentationFields.extraFields| > 0 then
        var ev :- Get(OptGet(formData, "presentationData"), "extraValues");
        Ok(if Truthy(ev) then KeepConfigured(ev, Hashes(cfg.presentationFields.extraFields)) else map[])
      else Ok(map[]);
    Ok(ValidExtraValues(presenterPart, presentationPart))
  }

  // ------------------------------------------------------------ filter tags

  /** Tag names per field label; `None` is the `undefined` that `find` gives for an unknown option. */
  type TagMap = map<string, seq<Option<string>>>

  /** `v.toLowerCase()`: only strings have it. */
  function LowerOf(v: Val): Result<string>
  {
    if v.Str? then Ok(Lower(v.s)) else Thrown("TypeError")
  }

  /** `labels.find(label => label.toLowerCase() === v.toLowerCase())`; with no labels the callback never runs. */
  function FindLower(labels: seq<string>, v: Val): (r: Result<Option<string>>)
    ensures |labels| == 0 ==> r == Ok(None)
    ensures |labels| > 0 ==> (r.Ok? <==> v.Str?)
    ensures r.Ok? && r.value.None? ==> forall l | l in labels :: !(v.Str? && EqualsIgnoreCase(l, v.s))
    ensures r.Ok? && r.value.Some? ==>
      v.Str?
      && exists i | 0 <= i < |labels| ::
           labels[i] == r.value.value && EqualsIgnoreCase(labels[i], v.s)
           && forall j | 0 <= j < i :: !EqualsIgnoreCase(labels[j], v.s)
  {
    if |labels| == 0 then Ok(None)
    else
      var lowered :- LowerOf(v);
      Ok(FirstLower(labels, lowered))
  }

  /** The first label whose lower case is `lowered`. */
  function FirstLower(labels: seq<string>, lowered: string): (r: Option<string>)
    ensures r.None? <==> forall l | l in labels :: Lower(l) != lowered
    ensures r.Some? ==>
      exists i | 0 <= i < |labels| ::
        labels[i] == r.value && Lower(labels[i]) == lowered
        && forall j | 0 <= j < i :: Lower(labels[j]) != lowered
  {
    if |labels| == 0 then None
    else if Lower(labels[0]) == lowered then Some(labels[0])
    else
      var r := FirstLower(labels[1..], lowered);
      assert r.Some? ==>
        exists i | 0 <= i < |labels| ::
          labels[i] == r.value && Lower(labels[i]) == lowered
          && forall j | 0 <= j < i :: Lower(labels[j]) != lowered
      by {
        if r.Some? {
          var i :| 0 <= i < |labels[1..]| && labels[1..][i] == r.value && Lower(labels[1..][i]) == lowered
            && forall j | 0 <= j < i :: Lower(labels[1..][j]) != lowered;
          assert forall j | 1 <= j < i + 1 :: labels[j] == labels[1..][j - 1];
        }
      }
      r
  }

  /** `vals.map(v => labels.find(...))`: entry i is what `find` gives for value i. */
  function FindAll(labels: seq<string>, vals: seq<Val>): (r: Result<seq<Option<string>>>)
    ensures r.Ok? <==> forall i | 0 <= i < |vals| :: FindLower(labels, vals[i]).Ok?
    ensures r.Ok? ==> |r.value| == |vals| && forall i | 0 <= i < |vals| :: r.value[i] == FindLower(labels, vals[i]).value
  {
    if |vals| == 0 then Ok([])
    else
      var n := |vals| - 1;
      assert forall i | 0 <= i < n :: vals[..n][i] == vals[i];
      var before :- FindAll(labels, vals[..n]);
      var last :- FindLower(labels, vals[n]);
      Ok(before + [last])
  }

  /** `presenter.level`, which is truthy for the presenters the level tags come from. */
  predicate HasLevel(presenter: Val)
  {
    Truthy(OptGet(presenter, "level"))
  }

  /** The label `find` gives for this presenter's level. */
  function LevelTag(labels: seq<string>, presenter: Val): Result<Option<string>>
  {
    FindLower(labels, OptGet(presenter, "level"))
  }

  /** Reading this presenter's level throws: the presenter is null, or its level is no string while there are labels. */
  predicate LevelFails(labels: seq<string>, presenter: Val)
  {
    Nullish(presenter) || (HasLevel(presenter) && LevelTag(labels, presenter).Thrown?)
  }

  function LevelTagOf(labels: seq<string>): Val -> Result<Option<string>>
  {
    presenter => LevelTag(labels, presenter)
  }

  /**
   * The level tags: for each presenter with a level, in order, the label
   * `find` gives for it. Reading the level of a null presenter throws, and
   * so does a level that is not a string when there are labels.
   */
  function LevelTags(presenters: seq<Val>, labels: seq<string>): (r: Result<seq<Option<string>>>)
    ensures r.Thrown? <==> exists i | 0 <= i < |presenters| :: LevelFails(labels, presenters[i])
    ensures r.Ok? ==>
      var kept := Positions(presenters, HasLevel);
      |r.value| == |kept|
      && forall i | 0 <= i < |kept| :: LevelTag(labels, presenters[kept[i]]).Ok? && r.value[i] == LevelTag(labels, presenters[kept[i]]).value
  {
    var r := FilterMap(presenters, HasLevel, LevelTagOf(labels));
    if r.Ok? then
      FilterMapInOrder(presenters, HasLevel, LevelTagOf(labels));
      r
    else r
  }

  /** A tag is among those of `vals.map(...)` exactly when some value gives it. */
  lemma FindAllMembers(labels: seq<string>, vals: seq<Val>)
    requires FindAll(labels, vals).Ok?
    ensures forall x :: x in FindAll(labels, vals).value <==> exists j | 0 <= j < |vals| :: FindLower(labels, vals[j]) == Ok(x)
  {
    var r := FindAll(labels, vals).value;
    forall x | x in r
      ensures exists j | 0 <= j < |vals| :: FindLower(labels, vals[j]) == Ok(x)
    {
      var j :| 0 <= j < |r| && r[j] == x;
      assert FindLower(labels, vals[j]) == Ok(x);
    }
  }

  /** `ev && ev[hash]`: the answer stored under a field hash, when there are extra values. */
  function ValueAt(ev: Val, hash: string): Val
  {
    if Truthy(ev) then OptGet(ev, hash) else ev
  }

  /** `presenter.extraValues && presenter.extraValues[hash]`, on a presenter that is not null. */
  predicate Answered(presenter: Val, hash: string)
  {
    Truthy(ValueAt(OptGet(presenter, "extraValues"), hash))
  }

  function AnsweredOf(hash: string): Val -> bool
  {
    presenter => Answered(presenter, hash)
  }

  /**
   * The tags a truthy answer to a radio or checkbox field gives: the label
   * `find` gives for a radio answer, or one label per value of a checkbox
   * answer, which must be an array (`map` throws otherwise).
   */
  function AnswerTags(f: ExtraField, v: Val): (r: Result<seq<Option<string>>>)
    ensures f.fieldType == "radio" ==> (r.Ok? <==> FindLower(f.optionLabels, v).Ok?)
    ensures f.fieldType != "radio" ==>
      (r.Ok? <==> v.Arr? && forall j | 0 <= j < |v.items| :: FindLower(f.optionLabels, v.items[j]).Ok?)
    ensures r.Ok? ==> forall x :: x in r.value <==>
      if f.fieldType == "radio" then FindLower(f.optionLabels, v) == Ok(x)
      else v.Arr? && exists j | 0 <= j < |v.items| :: FindLower(f.optionLabels, v.items[j]) == Ok(x)
  {
    if f.fieldType == "radio" then
      var tag :- FindLower(f.optionLabels, v);
      Ok([tag])
    else
      match v
      case Arr(items) =>
        var tags :- FindAll(f.optionLabels, items);
        FindAllMembers(f.optionLabels, items);
        Ok(tags)
      case _ => Thrown("TypeError")
  }

  /** The tags of a presenter's answer to a field. */
  function PresenterAnswerTags(f: ExtraField, presenter: Val): Result<seq<Option<string>>>
  {
    AnswerTags(f, ValueAt(OptGet(presenter, "extraValues"), f.hash))
  }

  function AnswerTagsOf(f: ExtraField): Val -> Result<seq<Option<string>>>
  {
    presenter => PresenterAnswerTags(f, presenter)
  }

  /**
   * The tags one radio or checkbox field takes from the presenters that
   * answered it, in presenter order. A null presenter throws, and so does an
   * answer whose tags throw; otherwise a tag is there exactly when some
   * presenter's answer gives it.
   */
  function PresenterFieldValues(presenters: seq<Val>, f: ExtraField): (r: Result<seq<Option<string>>>)
    ensures r.Thrown? <==> exists i | 0 <= i < |presenters| ::
      Nullish(presenters[i]) || (AnsweredOf(f.hash)(presenters[i]) && AnswerTagsOf(f)(presenters[i]).Thrown?)
    ensures r.Ok? ==> forall x :: x in r.value <==>
      exists i | 0 <= i < |presenters| :: Gives(presenters[i], AnsweredOf(f.hash), AnswerTagsOf(f), x)
  {
    var lists :- FilterMap(presenters, AnsweredOf(f.hash), AnswerTagsOf(f));
    ConcatFilterMap(presenters, AnsweredOf(f.hash), AnswerTagsOf(f));
    Ok(Concat(lists))
  }

  /** `fieldTags[label] = fieldTags[label] || []`, then append: the label holds what it held and the new tags. */
  function Append(tags: TagMap, key: string, more: seq<Option<string>>): (r: TagMap)
    ensures r.Keys == tags.Keys + {key}
    ensures r[key] == (if key in tags then tags[key] else []) + more
    ensures forall k | k in tags && k != key :: r[k] == tags[k]
    ensures forall name, x :: TagIn(r, name, x) <==> TagIn(tags, name, x) || (name == key && x in more)
  {
    tags[key := (if key in tags then tags[key] else []) + more]
  }

  predicate IsChoiceType(f: ExtraField)
  {
    f.fieldType == "radio" || f.fieldType == "checkbox"
  }

  /** A radio or checkbox field that is displayed and can filter: the fields tags come from. */
  predicate Active(f: ExtraField)
  {
    IsChoiceType(f) && f.isDisplayed && f.canFilter
  }

  function ActiveLabels(fields: seq<ExtraField>): set<string>
  {
    set f | f in fields && Active(f) :: f.fieldLabel
  }

  /** `x` is among the tags under `label`. */
  predicate TagIn(tags: TagMap, name: string, x: Option<string>)
  {
    name in tags && x in tags[name]
  }

  /** An active field labelled `name` whose tags, computed without throwing, hold `x`. */
  predicate FieldGives(tagsOf: ExtraField -> Result<seq<Option<string>>>, f: ExtraField, name: string, x: Option<string>)
  {
    Active(f) && f.fieldLabel == name && tagsOf(f).Ok? && x in tagsOf(f).value
  }

  /** One field's step of the fold: what the field gives is added under its label. */
  function FieldStep(tags: TagMap, f: ExtraField, tagsOf: ExtraField -> Result<seq<Option<string>>>): (r: TagMap)
    requires Active(f) ==> tagsOf(f).Ok?
    ensures r.Keys == tags.Keys + (if Active(f) then {f.fieldLabel} else {})
    ensures forall name, x :: TagIn(r, name, x) <==> TagIn(tags, name, x) || FieldGives(tagsOf, f, name, x)
  {
    if Active(f) then Append(tags, f.fieldLabel, tagsOf(f).value) else tags
  }

  /**
   * The forEach over radio and checkbox fields, in configuration order, that
   * appends the tags of every active field under its label: every active
   * field gets its key, even with no tags, and the fold throws exactly when
   * the tags of an active field throw.
   */
  function FieldTags(tags: TagMap, fields: seq<ExtraField>, tagsOf: ExtraField -> Result<seq<Option<string>>>): (r: Result<TagMap>)
    ensures r.Thrown? <==> exists f | f in fields :: Active(f) && tagsOf(f).Thrown?
    ensures r.Ok? ==> r.value.Keys == tags.Keys + ActiveLabels(fields)
    decreases |fields|
  {
    if |fields| == 0 then Ok(tags)
    else
      var f := fields[0];
      assert forall g :: g in fields <==> g == f || g in fields[1..];
      assert ActiveLabels(fields) == (if Active(f) then {f.fieldLabel} else {}) + ActiveLabels(fields[1..]);
      if Active(f) && tagsOf(f).Thrown? then Thrown(tagsOf(f).message)
      else FieldTags(FieldStep(tags, f, tagsOf), fields[1..], tagsOf)
  }

  /** After the fold a label holds what it held before and the tags of every active field with that label. */
  lemma {:induction false} FieldTagsMembers(tags: TagMap, fields: seq<ExtraField>, tagsOf: ExtraField -> Result<seq<Option<string>>>)
    requires FieldTags(tags, fields, tagsOf).Ok?
    ensures forall name, x :: TagIn(FieldTags(tags, fields, tagsOf).value, name, x) <==>
      TagIn(tags, name, x) || exists f | f in fields :: FieldGives(tagsOf, f, name, x)
    decreases |fields|
  {
    if |fields| > 0 {
      var f := fields[0];
      var rest := fields[1..];
      assert Active(f) ==> tagsOf(f).Ok?;
      var next := FieldStep(tags, f, tagsOf);
      var r := FieldTags(tags, fields, tagsOf).value;
      FieldTagsMembers(next, rest, tagsOf);
      forall name, x
        ensures TagIn(r, name, x) <==> TagIn(tags, name, x) || exists g | g in fields :: FieldGives(tagsOf, g, name, x)
      {
        if g :| g in fields && FieldGives(tagsOf, g, name, x) {
          if g != f {
            assert g in rest;
          }
        }
        if g :| g in rest && FieldGives(tagsOf, g, name, x) {
          assert g in fields;
        }
      }
    }
  }

  function PresenterFieldValuesOf(presenters: seq<Val>): ExtraField -> Result<seq<Option<string>>>
  {
    f => PresenterFieldValues(presenters, f)
  }

  /** The tags one presentation field gets: those of its answer when the answer is truthy, none otherwise. */
  function PresentationTags(f: ExtraField, extraValues: Val): Result<seq<Option<string>>>
  {
    var v := ValueAt(extraValues, f.hash);
    if Truthy(v) then AnswerTags(f, v) else Ok([])
  }

  function PresentationTagsOf(extraValues: Val): ExtraField -> Result<seq<Option<string>>>
  {
    f => PresentationTags(f, extraValues)
  }

  /** The submitted presenters, when `presenterData` is an array. */
  function PresenterItems(formData: Val): seq<Val>
  {
    var data := OptGet(formData, "presenterData");
    if data.Arr? then data.items else []
  }

  /** `formData.presentationData.extraValues` */
  function PresentationExtraValues(formData: Val): Val
  {
    OptGet(OptGet(formData, "presentationData"), "extraValues")
  }

  predicate LevelActive(cfg: FormConfig)
  {
    cfg.presenterFields.level.isDisplayed && cfg.presenterFields.level.canFilter
  }

  predicate SubjectsActive(cfg: FormConfig)
  {
    cfg.presentationFields.subjects.isDisplayed && cfg.presentationFields.subjects.canFilter
  }

  /** The tag `x` is under `name` because of the presenters' levels. */
  predicate LevelGives(formData: Val, cfg: FormConfig, name: string, x: Option<string>)
  {
    var level := cfg.presenterFields.level;
    var found := LevelTags(PresenterItems(formData), level.optionLabels);
    LevelActive(cfg) && name == level.fieldLabel && found.Ok? && x in found.value
  }

  /** The tag `x` is under `name` because of the presentation's subjects. */
  predicate SubjectsGive(formData: Val, cfg: FormConfig, name: string, x: Option<string>)
  {
    var subjects := cfg.presentationFields.subjects;
    var list := OptGet(OptGet(formData, "presentationData"), "subjects");
    SubjectsActive(cfg) && name == subjects.fieldLabel && list.Arr?
    && FindAll(subjects.optionLabels, list.items).Ok? && x in FindAll(subjects.optionLabels, list.items).value
  }

  predicate PresenterFieldsGive(formData: Val, cfg: FormConfig, name: string, x: Option<string>)
  {
    exists f | f in cfg.presenterFields.extraFields :: FieldGives(PresenterFieldValuesOf(PresenterItems(formData)), f, name, x)
  }

  predicate PresentationFieldsGive(formData: Val, cfg: FormConfig, name: string, x: Option<string>)
  {
    exists f | f in cfg.presentationFields.extraFields :: FieldGives(PresentationTagsOf(PresentationExtraValues(formData)), f, name, x)
  }

  /** The labels that get a key: the level's and the subjects' when they can filter, and those of the active fields. */
  function TagLabels(cfg: FormConfig): set<string>
  {
    (if LevelActive(cfg) then {cfg.presenterFields.level.fieldLabel} else {})
    + ActiveLabels(cfg.presenterFields.extraFields)
    + (if SubjectsActive(cfg) then {cfg.presentationFields.subjects.fieldLabel} else {})
    + ActiveLabels(cfg.presentationFields.extraFields)
  }

  /** The presenter level section: a fresh map, with the level's tags when the level can filter. */
  function LevelSection(formData: Val, cfg: FormConfig): (r: Result<TagMap>)
    ensures var data := OptGet(formData, "presenterData");
      r.Thrown? <==>
        LevelActive(cfg)
        && (!data.Arr? || exists i | 0 <= i < |data.items| :: LevelFails(cfg.presenterFields.level.optionLabels, data.items[i]))
    ensures r.Ok? ==> r.value.Keys == if LevelActive(cfg) then {cfg.presenterFields.level.fieldLabel} else {}
    ensures r.Ok? ==> forall name, x :: TagIn(r.value, name, x) <==> LevelGives(formData, cfg, name, x)
  {
    var level := cfg.presenterFields.level;
    if LevelActive(cfg) then
      match OptGet(formData, "presenterData")
      case Arr(items) =>
        var found :- LevelTags(items, level.optionLabels);
        Ok(map[level.fieldLabel := found])
      case _ => Thrown("TypeError")
    else Ok(map[])
  }

  /** The presenter extra fields section: `presenterData.filter` throws when it is not an array. */
  function PresenterFieldsSection(formData: Val, cfg: FormConfig, tags: TagMap): (r: Result<TagMap>)
    ensures r.Thrown? <==> exists f | f in cfg.presenterFields.extraFields ::
      Active(f) && (!OptGet(formData, "presenterData").Arr? || PresenterFieldValues(PresenterItems(formData), f).Thrown?)
    ensures r.Ok? ==> r.value.Keys == tags.Keys + ActiveLabels(cfg.presenterFields.extraFields)
    ensures r.Ok? ==> forall name, x :: TagIn(r.value, name, x) <==>
      TagIn(tags, name, x) || PresenterFieldsGive(formData, cfg, name, x)
  {
    var fields := cfg.presenterFields.extraFields;
    match OptGet(formData, "presenterData")
    case Arr(items) =>
      var r := FieldTags(tags, fields, PresenterFieldValuesOf(items));
      if r.Ok? then
        FieldTagsMembers(tags, fields, PresenterFieldValuesOf(items));
        r
      else r
    case _ =>
      if exists f | f in fields :: Active(f) then Thrown("TypeError")
      else
        assert ActiveLabels(fields) == {};
        Ok(tags)
  }

  /** The subjects section: the subjects' tags replace whatever their label held. */
  function SubjectsSection(formData: Val, cfg: FormConfig, tags: TagMap): (r: Result<TagMap>)
    ensures var list := OptGet(OptGet(formData, "presentationData"), "subjects");
      r.Thrown? <==>
        SubjectsActive(cfg)
        && (Nullish(OptGet(formData, "presentationData")) || !list.Arr?
            || FindAll(cfg.presentationFields.subjects.optionLabels, list.items).Thrown?)
    ensures r.Ok? ==> r.value.Keys == tags.Keys + if SubjectsActive(cfg) then {cfg.presentationFields.subjects.fieldLabel} else {}
    ensures r.Ok? ==> forall name, x :: TagIn(r.value, name, x) <==>
      if SubjectsActive(cfg) && name == cfg.presentationFields.subjects.fieldLabel
      then SubjectsGive(formData, cfg, name, x)
      else TagIn(tags, name, x)
  {
    var subjects := cfg.presentationFields.subjects;
    if SubjectsActive(cfg) then
      var list :- Get(OptGet(formData, "presentationData"), "subjects");
      match list
      case Arr(items) =>
        var found :- FindAll(subjects.optionLabels, items);
        Ok(tags[subjects.fieldLabel := found])
      case _ => Thrown("TypeError")
    else Ok(tags)
  }

  /** The presentation extra fields section: reading `extraValues` of a missing presentation throws. */
  function PresentationFieldsSection(formData: Val, cfg: FormConfig, tags: TagMap): (r: Result<TagMap>)
    ensures r.Thrown? <==> exists f | f in cfg.presentationFields.extraFields ::
      Active(f) && (Nullish(OptGet(formData, "presentationData")) || PresentationTags(f, PresentationExtraValues(formData)).Thrown?)
    ensures r.Ok? ==> r.value.Keys == tags.Keys + ActiveLabels(cfg.presentationFields.extraFields)
    ensures r.Ok? ==> forall name, x :: TagIn(r.value, name, x) <==>
      TagIn(tags, name, x) || PresentationFieldsGive(formData, cfg, name, x)
  {
    var fields := cfg.presentationFields.extraFields;
    if exists f | f in fields :: Active(f) then
      var ev :- Get(OptGet(formData, "presentationData"), "extraValues");
      var r := FieldTags(tags, fields, PresentationTagsOf(ev));
      if r.Ok? then
        FieldTagsMembers(tags, fields, PresentationTagsOf(ev));
        r
      else r
    else
      assert ActiveLabels(fields) == {};
      Ok(tags)
  }

  /**
   * The tags of getSubmissionFormFilterFieldTags before duplicates are
   * removed. It throws when one of its sections throws; otherwise there is
   * a key per label in `TagLabels`, and under each label the tags
   * its sections give, where the subjects' tags replace those of the
   * presenter sections.
   */
  function FilterFieldTags(formData: Val, cfg: FormConfig): (r: Result<TagMap>)
    ensures r.Thrown? <==>
      LevelSection(formData, cfg).Thrown? || PresenterFieldsSection(formData, cfg, map[]).Thrown?
      || SubjectsSection(formData, cfg, map[]).Thrown? || PresentationFieldsSection(formData, cfg, map[]).Thrown?
    ensures r.Ok? ==> r.value.Keys == TagLabels(cfg)
    ensures r.Ok? ==> forall name, x :: TagIn(r.value, name, x) <==>
      (if SubjectsActive(cfg) && name == cfg.presentationFields.subjects.fieldLabel
       then SubjectsGive(formData, cfg, name, x)
       else LevelGives(formData, cfg, name, x) || PresenterFieldsGive(formData, cfg, name, x))
      || PresentationFieldsGive(formData, cfg, name, x)
  {
    var withLevel :- LevelSection(formData, cfg);
    var withPresenterFields :- PresenterFieldsSection(formData, cfg, withLevel);
    var withSubjects :- SubjectsSection(formData, cfg, withPresenterFields);
    PresentationFieldsSection(formData, cfg, withSubjects)
  }

  /** `t` is an option label of a field labelled `name` that can filter. */
  predicate OptionUnder(cfg: FormConfig, name: string, t: string)
  {
    var level := cfg.presenterFields.level;
    var subjects := cfg.presentationFields.subjects;
    (LevelActive(cfg) && name == level.fieldLabel && t in level.optionLabels)
    || (SubjectsActive(cfg) && name == subjects.fieldLabel && t in subjects.optionLabels)
    || (exists f | f in cfg.presenterFields.extraFields :: Active(f) && f.fieldLabel == name && t in f.optionLabels)
    || (exists f | f in cfg.presentationFields.extraFields :: Active(f) && f.fieldLabel == name && t in f.optionLabels)
  }

  /** A label `find` gives is one of the labels searched. */
  lemma FoundIsOption(labels: seq<string>, v: Val, t: string)
    requires FindLower(labels, v) == Ok(Some(t))
    ensures t in labels
  {
  }

  lemma FindAllOptions(labels: seq<string>, vals: seq<Val>)
    requires FindAll(labels, vals).Ok?
    ensures forall t | Some(t) in FindAll(labels, vals).value :: t in labels
  {
    forall t | Some(t) in FindAll(labels, vals).value
      ensures t in labels
    {
      var j :| 0 <= j < |vals| && FindAll(labels, vals).value[j] == Some(t);
      FoundIsOption(labels, vals[j], t);
    }
  }

  lemma AnswerTagsOptions(f: ExtraField, v: Val)
    requires AnswerTags(f, v).Ok?
    ensures forall t | Some(t) in AnswerTags(f, v).value :: t in f.optionLabels
  {
    forall t | Some(t) in AnswerTags(f, v).value
      ensures t in f.optionLabels
    {
      if f.fieldType == "radio" {
        FoundIsOption(f.optionLabels, v, t);
      } else {
        var j :| 0 <= j < |v.items| && FindLower(f.optionLabels, v.items[j]) == Ok(Some(t));
        FoundIsOption(f.optionLabels, v.items[j], t);
      }
    }
  }

  lemma PresenterFieldValuesOptions(presenters: seq<Val>, f: ExtraField)
    requires PresenterFieldValues(presenters, f).Ok?
    ensures forall t | Some(t) in PresenterFieldValues(presenters, f).value :: t in f.optionLabels
  {
    forall t | Some(t) in PresenterFieldValues(presenters, f).value
      ensures t in f.optionLabels
    {
      var i :| 0 <= i < |presenters| && Gives(presenters[i], AnsweredOf(f.hash), AnswerTagsOf(f), Some(t));
      AnswerTagsOptions(f, ValueAt(OptGet(presenters[i], "extraValues"), f.hash));
    }
  }

  lemma LevelTagsOptions(presenters: seq<Val>, labels: seq<string>)
    requires LevelTags(presenters, labels).Ok?
    ensures forall t | Some(t) in LevelTags(presenters, labels).value :: t in labels
  {
    var kept := Positions(presenters, HasLevel);
    forall t | Some(t) in LevelTags(presenters, labels).value
      ensures t in labels
    {
      var i :| 0 <= i < |kept| && LevelTags(presenters, labels).value[i] == Some(t);
      FoundIsOption(labels, OptGet(presenters[kept[i]], "level"), t);
    }
  }

  lemma SectionTagIsOption(formData: Val, cfg: FormConfig, name: string, t: string)
    requires SubjectsGive(formData, cfg, name, Some(t)) || LevelGives(formData, cfg, name, Some(t))
      || PresenterFieldsGive(formData, cfg, name, Some(t)) || PresentationFieldsGive(formData, cfg, name, Some(t))
    ensures OptionUnder(cfg, name, t)
  {
    if SubjectsGive(formData, cfg, name, Some(t)) {
      var list := OptGet(OptGet(formData, "presentationData"), "subjects");
      FindAllOptions(cfg.presentationFields.subjects.optionLabels, list.items);
    } else if LevelGives(formData, cfg, name, Some(t)) {
      LevelTagsOptions(PresenterItems(formData), cfg.presenterFields.level.optionLabels);
    } else if PresenterFieldsGive(formData, cfg, name, Some(t)) {
      var f :| f in cfg.presenterFields.extraFields
        && FieldGives(PresenterFieldValuesOf(PresenterItems(formData)), f, name, Some(t));
      PresenterFieldValuesOptions(PresenterItems(formData), f);
    } else {
      var f :| f in cfg.presentationFields.extraFields
        && FieldGives(PresentationTagsOf(PresentationExtraValues(formData)), f, name, Some(t));
      AnswerTagsOptions(f, ValueAt(PresentationExtraValues(formData), f.hash));
    }
  }

  /**
   * Every tag name derived from a submission is an option label of a field
   * that can filter, and it sits under that field's label: nothing else
   * reaches the tags.
   */
  lemma DerivedTagsAreOptions(formData: Val, cfg: FormConfig)
    requires FilterFieldTags(formData, cfg).Ok?
    ensures forall name, t | TagIn(FilterFieldTags(formData, cfg).value, name, Some(t)) :: OptionUnder(cfg, name, t)
  {
    forall name, t | TagIn(FilterFieldTags(formData, cfg).value, name, Some(t))
      ensures OptionUnder(cfg, name, t)
    {
      SectionTagIsOption(formData, cfg, name, t);
    }
  }

  /** Tags that filter on subjects break the request when the optional subjects were left out: `undefined.map` throws. */
  lemma OmittedFilterSubjectsThrow(formData: Val, cfg: FormConfig)
    requires cfg.presentationFields.subjects.isDisplayed && cfg.presentationFields.subjects.canFilter
    requires OptGet(OptGet(formData, "presentationData"), "subjects") == Undefined
    ensures FilterFieldTags(formData, cfg).Thrown?
  {
  }

  // ------------------------------------------------------------ de-duplication

  /** The list with every value after its first occurrence removed. */
  function Unique(s: seq<Option<string>>): (r: seq<Option<string>>)
    ensures |r| <= |s|
    ensures forall x :: x in r <==> x in s
  {
    if |s| == 0 then []
    else
      var prefix := Unique(s[..|s| - 1]);
      assert forall x :: x in s <==> x in s[..|s| - 1] || x == s[|s| - 1] by {
        assert s == s[..|s| - 1] + [s[|s| - 1]];
      }
      if s[|s| - 1] in prefix then prefix else prefix + [s[|s| - 1]]
  }

  predicate NoDuplicates(s: seq<Option<string>>)
  {
    forall i, j | 0 <= i < j < |s| :: s[i] != s[j]
  }

  lemma {:induction false} UniqueHasNoDuplicates(s: seq<Option<string>>)
    ensures NoDuplicates(Unique(s))
  {
    if |s| > 0 {
      UniqueHasNoDuplicates(s[..|s| - 1]);
    }
  }

  /** A list without duplicates is left as it is. */
  lemma {:induction false} UniqueKeepsDistinctLists(s: seq<Option<string>>)
    requires NoDuplicates(s)
    ensures Unique(s) == s
  {
    if |s| > 0 {
      var init := s[..|s| - 1];
      assert NoDuplicates(init) by {
        forall i, j | 0 <= i < j < |init| ensures init[i] != init[j] {
          assert init[i] == s[i] && init[j] == s[j];
        }
      }
      UniqueKeepsDistinctLists(init);
      forall i | 0 <= i < |init|
        ensures init[i] != s[|s| - 1]
      {
        assert init[i] == s[i];
      }
      assert s == init + [s[|s| - 1]];
    }
  }

  /** First-occurrence order: de-duplicating a prefix gives a prefix of the de-duplicated list. */
  lemma {:induction false} UniquePrefix(s: seq<Option<string>>, k: nat)
    requires k <= |s|
    ensures Unique(s[..k]) <= Unique(s)
    decreases |s| - k
  {
    if k < |s| {
      UniquePrefix(s, k + 1);
      assert s[..k + 1][..k] == s[..k];
    } else {
      assert s[..k] == s;
    }
  }

  /** The inner forEach: push each tag not yet included. */
  method Dedupe(tags: seq<Option<string>>) returns (unique: seq<Option<string>>)
    ensures unique == Unique(tags)
  {
    unique := [];
    for i := 0 to |tags|
      invariant unique == Unique(tags[..i])
    {
      assert tags[..i + 1][..i] == tags[..i];
      if tags[i] !in unique {
        unique := unique + [tags[i]];
      }
    }
    assert tags[..|tags|] == tags;
  }

  /** The outer forEach over the field labels. */
  method DedupeAll(fieldTags: TagMap) returns (uniqueFieldTags: TagMap)
    ensures uniqueFieldTags == map k | k in fieldTags :: Unique(fieldTags[k])
  {
    uniqueFieldTags := map[];
    var keys := fieldTags.Keys;
    while keys != {}
      invariant keys <= fieldTags.Keys
      invariant uniqueFieldTags == map k | k in fieldTags.Keys - keys :: Unique(fieldTags[k])
      decreases keys
    {
      var key :| key in keys;
      var unique := Dedupe(fieldTags[key]);
      uniqueFieldTags := uniqueFieldTags[key := unique];
      keys := keys - {key};
    }
  }

  /** getSubmissionFormFilterFieldTags: the derived tags, each list without duplicates. */
  method GetSubmissionFormFilterFieldTags(formData: Val, cfg: FormConfig) returns (r: Result<TagMap>)
    ensures FilterFieldTags(formData, cfg).Thrown? <==> r.Thrown?
    ensures r.Ok? ==> r.value == map k | k in FilterFieldTags(formData, cfg).value :: Unique(FilterFieldTags(formData, cfg).value[k])
    ensures r.Ok? ==> forall k | k in r.value :: NoDuplicates(r.value[k])
  {
    var fieldTags := FilterFieldTags(formData, cfg);
    if fieldTags.Thrown? {
      return Thrown(fieldTags.message);
    }
    var unique := DedupeAll(fieldTags.value);
    forall k | k in unique
      ensures NoDuplicates(unique[k])
    {
      UniqueHasNoDuplicates(fieldTags.value[k]);
    }
    r := Ok(unique);
  }

  // ------------------------------------------------------------ tag diff of PUT

  /** A tag the presentation already carries. */
  datatype ExistingTag = ExistingTag(tagId: int, tagType: string, name: string)

  /** The existing tag is still among the derived ones. */
  predicate StillWanted(tags: TagMap, t: ExistingTag)
  {
    t.tagType in tags && Some(t.name) in tags[t.tagType]
  }

  /** The ids of the existing tags that are no longer derived. */
  function TagIdsToDelete(existing: seq<ExistingTag>, tags: TagMap): (r: seq<int>)
    ensures forall t | t in existing && !StillWanted(tags, t) :: t.tagId in r
    ensures forall id | id in r :: exists t | t in existing :: t.tagId == id && !StillWanted(tags, t)
  {
    if |existing| == 0 then []
    else
      var rest := TagIdsToDelete(existing[1..], tags);
      assert forall t | t in existing[1..] :: t in existing;
      if StillWanted(tags, existing[0]) then rest else [existing[0].tagId] + rest
  }

  /** The presentation does not carry a tag with this name under this label yet. */
  predicate IsNew(existing: seq<ExistingTag>, key: string, name: Option<string>)
  {
    !exists t | t in existing :: t.tagType == key && Some(t.name) == name
  }

  /** The (field label, tag name) pairs to save: derived but not yet carried under that label. */
  function TagsToSave(existing: seq<ExistingTag>, tags: TagMap): (r: set<(string, Option<string>)>)
    ensures forall key, name :: (key, name) in r <==> key in tags && name in tags[key] && IsNew(existing, key, name)
  {
    set key, name | key in tags && name in tags[key] && IsNew(existing, key, name) :: (key, name)
  }

  /** After the diff the presentation carries exactly the derived tags: the kept existing ones and the saved ones. */
  lemma DiffReachesDerivedTags(existing: seq<ExistingTag>, tags: TagMap, key: string, name: Option<string>)
    ensures (key in tags && name in tags[key])
        <==> (key, name) in TagsToSave(existing, tags)
             || exists t | t in existing :: StillWanted(tags, t) && (t.tagType, Some(t.name)) == (key, name)
  {
  }

  /** How the save loop of the PUT handler ends: every tag found, or a 500 at the first tag the event lacks. */
  datatype SaveOutcome =
    | TagsSaved(tagIds: seq<int>)
    | TagNotFound(saved: seq<int>, fieldLabel: string, tagName: Option<string>)

  /**
   * The save loop of the PUT handler, over the labels in `Object.keys` order
   * and the tags of each. Every derived tag is looked up among the event's
   * tags (`lookup` stands for getEventFieldTagId); one that is missing ends
   * the request with a 500, and one the presentation does not carry yet is
   * saved with the id found.
   */
  method SaveNewTags(existing: seq<ExistingTag>, tags: TagMap, labels: seq<string>,
                     lookup: (string, Option<string>) -> Option<int>) returns (outcome: SaveOutcome)
    requires forall key :: key in labels <==> key in tags
    ensures outcome.TagsSaved? <==> forall key, name | key in tags && name in tags[key] :: lookup(key, name).Some?
    ensures outcome.TagsSaved? ==> forall id :: id in outcome.tagIds <==>
      exists key, name | (key, name) in TagsToSave(existing, tags) :: lookup(key, name) == Some(id)
    ensures outcome.TagNotFound? ==>
      outcome.fieldLabel in tags && outcome.tagName in tags[outcome.fieldLabel]
      && lookup(outcome.fieldLabel, outcome.tagName).None?
    ensures outcome.TagNotFound? ==> forall id | id in outcome.saved ::
      exists key, name | (key, name) in TagsToSave(existing, tags) :: lookup(key, name) == Some(id)
  {
    var saved: seq<int> := [];
    for k := 0 to |labels|
      invariant forall j, name | 0 <= j < k && name in tags[labels[j]] :: lookup(labels[j], name).Some?
      invariant forall id :: id in saved <==>
        exists j, name | 0 <= j < k && name in tags[labels[j]] ::
          IsNew(existing, labels[j], name) && lookup(labels[j], name) == Some(id)
    {
      var fieldLabel := labels[k];
      var names := tags[fieldLabel];
      for t := 0 to |names|
        invariant forall j, name | 0 <= j < k && name in tags[labels[j]] :: lookup(labels[j], name).Some?
        invariant forall i | 0 <= i < t :: lookup(fieldLabel, names[i]).Some?
        invariant forall id :: id in saved <==>
          (exists j, name | 0 <= j < k && name in tags[labels[j]] ::
             IsNew(existing, labels[j], name) && lookup(labels[j], name) == Some(id))
          || (exists i | 0 <= i < t :: IsNew(existing, fieldLabel, names[i]) && lookup(fieldLabel, names[i]) == Some(id))
      {
        var tagName := names[t];
        var tag := lookup(fieldLabel, tagName);
        if tag.None? {
          return TagNotFound(saved, fieldLabel, tagName);
        }
        if IsNew(existing, fieldLabel, tagName) {
          saved := saved + [tag.value];
        }
      }
    }
    return TagsSaved(saved);
  }

  // ------------------------------------------------------------ presenter list

  /** Columns presenter{p}FirstName, LastName, Email, Year and Major of one presentation row. */
  datatype PresenterSlot = PresenterSlot(firstName: Val, lastName: Val, email: Val, year: Val, major: Val)

  /** What a caller sees of a presenter; the contact details only for an event admin. */
  datatype PresenterView = PresenterView(firstName: Val, lastName: Val, details: Option<PresenterDetails>)

  datatype PresenterDetails = PresenterDetails(email: Val, level: Val, major: Val)

  function ViewOf(slot: PresenterSlot, isEventAdmin: bool): PresenterView
  {
    PresenterView(slot.firstName, slot.lastName,
      if isEventAdmin then Some(PresenterDetails(slot.email, slot.year, slot.major)) else None)
  }

  /** The presenters of slots 1 .. 8 that have a first name, in slot order. */
  function Presenters(slots: seq<PresenterSlot>, isEventAdmin: bool): (r: seq<PresenterView>)
    ensures |r| <= |slots|
    ensures forall v | v in r :: Truthy(v.firstName) && (v.details.Some? <==> isEventAdmin)
  {
    if |slots| == 0 then []
    else
      var prefix := Presenters(slots[..|slots| - 1], isEventAdmin);
      var last := slots[|slots| - 1];
      if Truthy(last.firstName) then prefix + [ViewOf(last, isEventAdmin)] else prefix
  }

  function FirstNames(slots: seq<PresenterSlot>): (r: seq<Val>)
    ensures |r| == |slots| && forall i | 0 <= i < |slots| :: r[i] == slots[i].firstName
  {
    seq(|slots|, i requires 0 <= i < |slots| => slots[i].firstName)
  }

  /** Adding a slot appends its view, and its position, exactly when its first name is truthy. */
  lemma PresentersStep(slots: seq<PresenterSlot>, isEventAdmin: bool)
    requires |slots| > 0
    ensures var n := |slots| - 1;
      var named := Truthy(slots[n].firstName);
      Positions(FirstNames(slots), Truthy) == Positions(FirstNames(slots[..n]), Truthy) + (if named then [n] else [])
      && Presenters(slots, isEventAdmin) == Presenters(slots[..n], isEventAdmin) + (if named then [ViewOf(slots[n], isEventAdmin)] else [])
  {
    var n := |slots| - 1;
    assert FirstNames(slots)[..n] == FirstNames(slots[..n]);
  }

  /**
   * The list holds one view per slot with a truthy first name, in slot
   * order: entry i is the view of the i-th such slot.
   */
  lemma {:induction false} PresentersInSlotOrder(slots: seq<PresenterSlot>, isEventAdmin: bool)
    ensures var named := Positions(FirstNames(slots), Truthy);
      |Presenters(slots, isEventAdmin)| == |named|
      && forall i | 0 <= i < |named| :: Presenters(slots, isEventAdmin)[i] == ViewOf(slots[named[i]], isEventAdmin)
  {
    if |slots| > 0 {
      var n := |slots| - 1;
      var prefix := slots[..n];
      PresentersInSlotOrder(prefix, isEventAdmin);
      PresentersStep(slots, isEventAdmin);
      var named := Positions(FirstNames(slots), Truthy);
      var views := Presenters(slots, isEventAdmin);
      var before := Positions(FirstNames(prefix), Truthy);
      var prior := Presenters(prefix, isEventAdmin);
      forall i | 0 <= i < |named|
        ensures views[i] == ViewOf(slots[named[i]], isEventAdmin)
      {
        if i < |before| {
          assert named[i] == before[i] && views[i] == prior[i];
          assert prefix[before[i]] == slots[before[i]];
        }
      }
    }
  }

  /** The build-presenters loop of the GET handlers. */
  method BuildPresenters(slots: seq<PresenterSlot>, isEventAdmin: bool) returns (presenters: seq<PresenterView>)
    ensures presenters == Presenters(slots, isEventAdmin)
  {
    presenters := [];
    for p := 0 to |slots|
      invariant presenters == Presenters(slots[..p], isEventAdmin)
    {
      assert slots[..p + 1][..p] == slots[..p];
      var slot := slots[p];
      if !Truthy(slot.firstName) {
        continue;
      }
      if !isEventAdmin {
        presenters := presenters + [PresenterView(slot.firstName, slot.lastName, None)];
        continue;
      }
      presenters := presenters + [PresenterView(slot.firstName, slot.lastName, Some(PresenterDetails(slot.email, slot.year, slot.major)))];
    }
    assert slots[..|slots|] == slots;
  }

  /** Admins and other callers see the same presenters; only the contact details differ. */
  lemma {:induction false} RedactionKeepsNames(slots: seq<PresenterSlot>)
    ensures |Presenters(slots, true)| == |Presenters(slots, false)|
    ensures forall i | 0 <= i < |Presenters(slots, true)| ::
      Presenters(slots, true)[i].firstName == Presenters(slots, false)[i].firstName
      && Presenters(slots, true)[i].lastName == Presenters(slots, false)[i].lastName
  {
    if |slots| > 0 {
      RedactionKeepsNames(slots[..|slots| - 1]);
    }
  }
}

=== FILE: presentation_forms.dfy ===
// The submission validators of routes/presentations.ts: the error list of
// getPresentationFormErrors, the extra-value filter, the filter-tag
// derivation with its de-duplication, the presenter list of the GET
// handlers and the tag diff of PUT.

module PresentationForms {
  import opened Js

  // ------------------------------------------------------------ configuration

  /** A select-like field of the event's submission form (presenter level, subjects). */
  datatype ChoiceField = ChoiceField(fieldLabel: string, isDisplayed: bool, isRequired: bool, canFilter: bool, optionLabels: seq<string>)

  datatype ToggleField = ToggleField(isDisplayed: bool, isRequired: bool)

  /** A custom field; `fieldType` is one of text, number, wysiwyg, radio, checkbox. */
  datatype ExtraField = ExtraField(
    hash: string, fieldLabel: string, fieldType: string,
    isDisplayed: bool, isRequired: bool, canFilter: bool, optionLabels: seq<string>)

  datatype PresenterFields = PresenterFields(maxAddlPresenters: int, level: ChoiceField, major: ToggleField, extraFields: seq<ExtraField>)

  datatype PresentationFields = PresentationFields(subjects: ChoiceField, extraFields: seq<ExtraField>)

  datatype FormConfig = FormConfig(presenterFields: PresenterFields, presentationFields: PresentationFields)

  // ------------------------------------------------------------ error messages

  datatype Owner = OfPresenter(index: nat) | OfPresentation

  /**
   * The field an error message names: `presenterData`, `presentationType`
   * (Top); `presenterData[p].firstName`, `presentationData.title` (Field);
   * `presenterData[p].extraValues.<hash>` (Extra);
   * `presentationMediaData.<name>` (Media).
   */
  datatype Path = Top(name: string) | Field(owner: Owner, name: string) | Extra(owner: Owner, hash: string) | Media(name: string)

  datatype FormError =
    | MissingRequestData          // 'invalid form submission, missing request data'
    | MissingField(path: Path)    // "missing required field '...'"
    | InvalidField(path: Path)    // "invalid field '...'"
    | MissingFile(name: string)   // "missing required file '...'"

  // ------------------------------------------------------------ value helpers

  /** `v[i]` on an array or a string; anything else has no such element. */
  function At(v: Val, i: nat): Val
  {
    match v
    case Arr(items) => if i < |items| then items[i] else Undefined
    case Str(s) => if i < |s| then Str([s[i]]) else Undefined
    case _ => Undefined
  }

  /** The elements a `for (i < v.length)` loop visits; none when `v.length` is undefined. */
  function Elements(v: Val): (r: Option<seq<Val>>)
    ensures r.Some? <==> Length(v).Some?
    ensures r.Some? ==> |r.value| == Length(v).value
  {
    match v
    case Arr(items) => Some(items)
    case Str(s) => Some(seq(|s|, i requires 0 <= i < |s| => Str([s[i]])))
    case _ => None
  }

  /** `!!v.length` */
  predicate HasLength(v: Val)
  {
    Length(v).Some? && Length(v).value > 0
  }

  /** `v == '0'` with JavaScript's loose equality, for the values it is asked about. */
  predicate LooselyZero(v: Val)
  {
    match v
    case Num(n) => n == 0
    case Bool(b) => !b
    case Str(s) => s == "0"
    case _ => false
  }

  predicate MatchesLabel(v: Val, option: string)
  {
    v.Str? && Lower(v.s) == Lower(option)
  }

  /** `optionLabels.find(label => typeof v === 'string' && v.toLowerCase() === label.toLowerCase())` */
  function FindLabel(v: Val, labels: seq<string>): (r: Option<string>)
    ensures r.Some? ==> r.value in labels && MatchesLabel(v, r.value)
    ensures r.None? <==> forall l | l in labels :: !MatchesLabel(v, l)
  {
    if |labels| == 0 then None
    else if MatchesLabel(v, labels[0]) then Some(labels[0])
    else FindLabel(v, labels[1..])
  }

  /** The value passes the option check: `find` returned a truthy label. */
  predicate LabelAccepted(v: Val, labels: seq<string>)
  {
    FindLabel(v, labels).Some? && FindLabel(v, labels).value != ""
  }

  predicate AllAccepted(items: seq<Val>, labels: seq<string>)
  {
    forall i | 0 <= i < |items| :: LabelAccepted(items[i], labels)
  }

  /** A value is accepted exactly when it is a non-empty string equal to some option label up to case. */
  lemma LabelAcceptedIff(v: Val, labels: seq<string>)
    ensures LabelAccepted(v, labels) <==> v.Str? && v.s != "" && exists l | l in labels :: EqualsIgnoreCase(v.s, l)
  {
    var r := FindLabel(v, labels);
    if v.Str? && v.s != "" && exists l | l in labels :: EqualsIgnoreCase(v.s, l) {
      var l :| l in labels && EqualsIgnoreCase(v.s, l);
      assert MatchesLabel(v, l);
      assert |Lower(r.value)| == |Lower(v.s)|;
    }
    if r.Some? && r.value != "" {
      assert |Lower(r.value)| == |Lower(v.s)|;
    }
  }

  /**
   * The checkbox and subjects loop: walk the values until one matches no
   * option label, then stop.
   */
  method CheckOptions(items: seq<Val>, labels: seq<string>) returns (ok: bool)
    ensures ok <==> AllAccepted(items, labels)
  {
    ok := true;
    for i := 0 to |items|
      invariant ok <==> AllAccepted(items[..i], labels)
    {
      var matchingLabel := FindLabel(items[i], labels);
      if matchingLabel.None? || matchingLabel.value == "" {
        ok := false;
        assert !LabelAccepted(items[..i + 1][i], labels);
        break;
      }
      assert items[..i + 1][i] == items[i];
    }
    if ok {
      assert items[..|items|] == items;
    }
  }

  // ------------------------------------------------------------ mandatory fields

  /** A required text value: missing when falsy, invalid when not a string. */
  function TextCheck(v: Val, path: Path): (r: seq<FormError>)
    ensures r == [] <==> Truthy(v) && v.Str?
    ensures r == [] || r == [MissingField(path)] || r == [InvalidField(path)]
    ensures forall e | e in r :: (e.MissingField? || e.InvalidField?) && e.path == path
  {
    if !Truthy(v) then [MissingField(path)]
    else if !v.Str? then [InvalidField(path)]
    else []
  }

  /** A required e-mail value: missing when falsy, invalid when not a string the e-mail validator accepts. */
  function EmailCheck(v: Val, path: Path, isValidEmail: string -> bool): (r: seq<FormError>)
    ensures r == [] <==> Truthy(v) && v.Str? && isValidEmail(v.s)
    ensures r == [] || r == [MissingField(path)] || r == [InvalidField(path)]
    ensures forall e | e in r :: (e.MissingField? || e.InvalidField?) && e.path == path
  {
    if !Truthy(v) then [MissingField(path)]
    else if !v.Str? || !isValidEmail(v.s) then [InvalidField(path)]
    else []
  }

  /** A required video link. */
  function RequiredLink(v: Val, path: Path, isValidYouTubeLink: string -> bool): (r: seq<FormError>)
    ensures r == [] <==> Truthy(v) && v.Str? && isValidYouTubeLink(v.s)
  {
    if !Truthy(v) then [MissingField(path)]
    else if !v.Str? || !isValidYouTubeLink(v.s) then [InvalidField(path)]
    else []
  }

  /** An optional video link: only a present value is checked. */
  function OptionalLink(v: Val, path: Path, isValidYouTubeLink: string -> bool): (r: seq<FormError>)
    ensures r == [] <==> !Truthy(v) || (v.Str? && isValidYouTubeLink(v.s))
    ensures r == [] || r == [InvalidField(path)]
  {
    if Truthy(v) && (!v.Str? || !isValidYouTubeLink(v.s)) then [InvalidField(path)] else []
  }

  /** Errors about the presentation type, its media and the uploaded poster. */
  predicate IsMediaError(e: FormError)
  {
    e.MissingFile? || ((e.MissingField? || e.InvalidField?) && (e.path.Media? || e.path == Top("presentationType") || e.path == Top("presentationMediaData")))
  }

  /** The presentation type must be poster, oral or exhibition, each with its media rules. */
  function MediaErrors(pres: Val, uploadedPoster: bool, isValidYouTubeLink: string -> bool): (r: seq<FormError>)
    ensures forall e | e in r :: IsMediaError(e)
    ensures !Truthy(OptGet(pres, "presentationType")) ==> r == [MissingField(Top("presentationType"))]
    ensures var t := OptGet(pres, "presentationType");
      (Truthy(t) && Truthy(OptGet(pres, "presentationMediaData")) && !(t in {Str("poster"), Str("oral"), Str("exhibition")}))
      ==> r == [InvalidField(Top("presentationType"))]
  {
    var t := OptGet(pres, "presentationType");
    var media := OptGet(pres, "presentationMediaData");
    var voiceover := OptGet(media, "voiceoverVideoLink");
    var video := OptGet(media, "presentationVideoLink");
    if !Truthy(t) then [MissingField(Top("presentationType"))]
    else if !Truthy(media) then [MissingField(Top("presentationMediaData"))]
    else if !t.Str? then [InvalidField(Top("presentationType"))]
    else if t.s == "poster" then
      (if uploadedPoster then [] else [MissingFile("poster")])
      + OptionalLink(voiceover, Media("voiceoverVideoLink"), isValidYouTubeLink)
    else if t.s == "oral" then
      RequiredLink(video, Media("presentationVideoLink"), isValidYouTubeLink)
    else if t.s == "exhibition" then
      RequiredLink(video, Media("presentationVideoLink"), isValidYouTubeLink)
      + OptionalLink(voiceover, Media("voiceoverVideoLink"), isValidYouTubeLink)
    else [InvalidField(Top("presentationType"))]
  }

  /** The errors the mandatory checks can report: about the first presenter, the title, the abstract and the media. */
  predicate IsMandatoryError(e: FormError)
  {
    IsMediaError(e)
    || e == MissingField(Top("presenterData"))
    || ((e.MissingField? || e.InvalidField?)
        && e.path in {Field(OfPresenter(0), "firstName"), Field(OfPresenter(0), "lastName"), Field(OfPresenter(0), "email"),
                      Field(OfPresentation, "title"), Field(OfPresentation, "abstract")})
  }

  /** The first presenter's name and e-mail, or the whole presenter list missing. */
  function FirstPresenterErrors(presenters: Val, isValidEmail: string -> bool): (r: seq<FormError>)
    ensures forall e | e in r :: IsMandatoryError(e) && !IsMediaError(e)
  {
    var first := At(presenters, 0);
    if Truthy(presenters) && Truthy(first) then
      var a := TextCheck(OptGet(first, "firstName"), Field(OfPresenter(0), "firstName"));
      var b := TextCheck(OptGet(first, "lastName"), Field(OfPresenter(0), "lastName"));
      var c := EmailCheck(OptGet(first, "email"), Field(OfPresenter(0), "email"), isValidEmail);
      a + b + c
    else [MissingField(Top("presenterData"))]
  }

  /** The title and the abstract. */
  function TitleAbstractErrors(data: Val): (r: seq<FormError>)
    ensures forall e | e in r :: IsMandatoryError(e) && !IsMediaError(e)
  {
    var a := TextCheck(OptGet(data, "title"), Field(OfPresentation, "title"));
    var b := TextCheck(OptGet(data, "abstract"), Field(OfPresentation, "abstract"));
    a + b
  }

  /** The checks that every submission must pass, whatever the form configuration. */
  function MandatoryErrors(pres: Val, uploadedPoster: bool, isEditMode: bool,
                           isValidEmail: string -> bool, isValidYouTubeLink: string -> bool): (r: seq<FormError>)
    ensures forall e | e in r :: IsMandatoryError(e)
    ensures isEditMode ==> forall e | e in r :: !IsMediaError(e)
  {
    FirstPresenterErrors(OptGet(pres, "presenterData"), isValidEmail)
    + TitleAbstractErrors(OptGet(pres, "presentationData"))
    + (if isEditMode then [] else MediaErrors(pres, uploadedPoster, isValidYouTubeLink))
  }

  // ------------------------------------------------------------ configured fields

  /**
   * How many presenters the configured checks look at: the first one plus
   * up to maxAddlPresenters more.
   */
  function ValidPresentersCount(maxAddlPresenters: int, presenterCount: Option<nat>): (r: int)
    ensures maxAddlPresenters >= 0 ==> 1 <= r <= 1 + maxAddlPresenters
    ensures presenterCount.Some? && presenterCount.value >= 1 ==> r <= presenterCount.value
    ensures maxAddlPresenters == 0 || presenterCount.None? ==> r == 1
  {
    if maxAddlPresenters != 0 && presenterCount.Some? && presenterCount.value > 1 then
      1 + if maxAddlPresenters < presenterCount.value - 1 then maxAddlPresenters else presenterCount.value - 1
    else 1
  }

  /**
   * For a configured maximum (0 through 7) and a non-empty presenter list,
   * the count is the smaller of the list length and 1 + maxAddlPresenters.
   */
  lemma ValidPresentersCountIsCappedLength(maxAddlPresenters: int, n: nat)
    requires 0 <= maxAddlPresenters && 1 <= n
    ensures ValidPresentersCount(maxAddlPresenters, Some(n)) == if n < 1 + maxAddlPresenters then n else 1 + maxAddlPresenters
    ensures 1 <= ValidPresentersCount(maxAddlPresenters, Some(n)) <= n
  {
  }

  /** Two presenters and at least one additional presenter allowed: both are checked. */
  lemma TwoPresentersBothChecked(maxAddlPresenters: int)
    requires maxAddlPresenters >= 1
    ensures ValidPresentersCount(maxAddlPresenters, Some(2)) == 2
  {
  }

  /** The level of one presenter: an empty or 'NULL' level is missing; any other value must match an option. */
  function LevelErrors(p: nat, v: Val, level: ChoiceField): (r: seq<FormError>)
    ensures |r| <= 1
    ensures level.isDisplayed && Truthy(v) && v != Str("NULL") ==>
      (r == [] <==> LabelAccepted(v, level.optionLabels))
  {
    if !level.isDisplayed then []
    else if !Truthy(v) || v == Str("NULL") then
      (if level.isRequired then [MissingField(Field(OfPresenter(p), "level"))] else [])
    else if !LabelAccepted(v, level.optionLabels) then [InvalidField(Field(OfPresenter(p), "level"))]
    else []
  }

  /** `!extraValues || (!value && (type !== 'number' || value != '0')) || type === 'checkbox' && !value.length` */
  predicate ExtraValueMissing(fieldType: string, extraValues: Val, v: Val)
  {
    !Truthy(extraValues)
    || (!Truthy(v) && (fieldType != "number" || !LooselyZero(v)))
    || (fieldType == "checkbox" && !HasLength(v))
  }

  /** The type rule of a present extra value. */
  predicate ExtraValueValid(f: ExtraField, v: Val)
  {
    if f.fieldType == "radio" then LabelAccepted(v, f.optionLabels)
    else if f.fieldType == "checkbox" then Elements(v).Some? && AllAccepted(Elements(v).value, f.optionLabels)
    else if f.fieldType == "number" then !ToNumber(v).NaN?
    else v.Str?
  }

  /** The error, if any, of one configured extra field. */
  function ExtraFieldError(owner: Owner, f: ExtraField, extraValues: Val): (r: seq<FormError>)
    ensures |r| <= 1
    ensures forall e | e in r :: (e == MissingField(Extra(owner, f.hash)) && f.isRequired) || e == InvalidField(Extra(owner, f.hash))
    ensures !f.isDisplayed ==> r == []
  {
    var v := OptGet(extraValues, f.hash);
    if !f.isDisplayed then []
    else if ExtraValueMissing(f.fieldType, extraValues, v) then
      (if f.isRequired then [MissingField(Extra(owner, f.hash))] else [])
    else if !ExtraValueValid(f, v) then [InvalidField(Extra(owner, f.hash))]
    else []
  }

  /** The extra-field errors in configuration order. */
  function ExtraFieldErrors(owner: Owner, fields: seq<ExtraField>, extraValues: Val): (r: seq<FormError>)
    ensures |r| <= |fields|
    ensures forall e | e in r :: (e.MissingField? || e.InvalidField?) && e.path.Extra? && e.path.owner == owner
  {
    if |fields| == 0 then []
    else ExtraFieldErrors(owner, fields[..|fields| - 1], extraValues) + ExtraFieldError(owner, fields[|fields| - 1], extraValues)
  }

  /** All errors of presenter `p` under the configuration. */
  function PresenterErrors(p: nat, presenter: Val, cfg: PresenterFields, isValidEmail: string -> bool): (r: seq<FormError>)
    ensures forall e | e in r :: (e.MissingField? || e.InvalidField?) && (e.path.Field? || e.path.Extra?) && e.path.owner == OfPresenter(p)
  {
    var major := OptGet(presenter, "major");
    TextCheck(OptGet(presenter, "firstName"), Field(OfPresenter(p), "firstName"))
    + TextCheck(OptGet(presenter, "lastName"), Field(OfPresenter(p), "lastName"))
    + EmailCheck(OptGet(presenter, "email"), Field(OfPresenter(p), "email"), isValidEmail)
    + LevelErrors(p, OptGet(presenter, "level"), cfg.level)
    + (if cfg.major.isDisplayed && cfg.major.isRequired then TextCheck(major, Field(OfPresenter(p), "major")) else [])
    + ExtraFieldErrors(OfPresenter(p), cfg.extraFields, OptGet(presenter, "extraValues"))
  }

  /** The errors of presenters 0 .. count - 1, in order. */
  function PresentersErrors(presenters: Val, count: int, cfg: PresenterFields, isValidEmail: string -> bool): (r: seq<FormError>)
    ensures forall e | e in r ::
              (e.MissingField? || e.InvalidField?) && (e.path.Field? || e.path.Extra?) && e.path.owner.OfPresenter? && e.path.owner.index < count
    decreases count
  {
    if count <= 0 then []
    else
      PresentersErrors(presenters, count - 1, cfg, isValidEmail)
      + PresenterErrors(count - 1, At(presenters, count - 1), cfg, isValidEmail)
  }

  /** The subjects must be present when required, and each must match an option; at most one error. */
  function SubjectErrors(data: Val, subjects: ChoiceField): (r: seq<FormError>)
    ensures r == [] || r == [MissingField(Field(OfPresentation, "subjects"))] || r == [InvalidField(Field(OfPresentation, "subjects"))]
  {
    var s := OptGet(data, "subjects");
    if !subjects.isDisplayed then []
    else if !Truthy(s) || !HasLength(s) then
      (if subjects.isRequired then [MissingField(Field(OfPresentation, "subjects"))] else [])
    else if !AllAccepted(Elements(s).value, subjects.optionLabels) then [InvalidField(Field(OfPresentation, "subjects"))]
    else []
  }

  /** The configured checks: the presenters taken into account, the subjects, the presentation's extra fields. */
  function ConfiguredErrors(pres: Val, cfg: FormConfig, isValidEmail: string -> bool): seq<FormError>
  {
    var presenters := OptGet(pres, "presenterData");
    var data := OptGet(pres, "presentationData");
    var count := ValidPresentersCount(cfg.presenterFields.maxAddlPresenters, Length(presenters));
    PresentersErrors(presenters, count, cfg.presenterFields, isValidEmail)
    + SubjectErrors(data, cfg.presentationFields.subjects)
    + ExtraFieldErrors(OfPresentation, cfg.presentationFields.extraFields, OptGet(data, "extraValues"))
  }

  /** getPresentationFormErrors as a whole: the configured checks run only once the mandatory ones pass. */
  function FormErrors(pres: Val, cfg: FormConfig, uploadedPoster: bool, eventId: Val, isEditMode: bool,
                      isValidEmail: string -> bool, isValidYouTubeLink: string -> bool): (r: seq<FormError>)
    ensures !Truthy(pres) || !Truthy(eventId) ==> r == [MissingRequestData]
  {
    if !Truthy(pres) || !Truthy(eventId) then [MissingRequestData]
    else
      var mandatory := MandatoryErrors(pres, uploadedPoster, isEditMode, isValidEmail, isValidYouTubeLink);
      if |mandatory| > 0 then mandatory
      else ConfiguredErrors(pres, cfg, isValidEmail)
  }

  /** One forEach over the configured extra fields. */
  method CheckExtraFields(owner: Owner, fields: seq<ExtraField>, extraValues: Val) returns (errs: seq<FormError>)
    ensures errs == ExtraFieldErrors(owner, fields, extraValues)
  {
    errs := [];
    for k := 0 to |fields|
      invariant errs == ExtraFieldErrors(owner, fields[..k], extraValues)
    {
      assert fields[..k + 1][..k] == fields[..k];
      var f := fields[k];
      if f.isDisplayed {
        var v := OptGet(extraValues, f.hash);
        if ExtraValueMissing(f.fieldType, extraValues, v) {
          if f.isRequired {
            errs := errs + [MissingField(Extra(owner, f.hash))];
          }
        } else if f.fieldType == "radio" {
          var matchingLabel := FindLabel(v, f.optionLabels);
          if matchingLabel.None? || matchingLabel.value == "" {
            errs := errs + [InvalidField(Extra(owner, f.hash))];
          }
        } else if f.fieldType == "checkbox" {
          match Elements(v)
          case None =>
            errs := errs + [InvalidField(Extra(owner, f.hash))];
          case Some(items) =>
            var ok := CheckOptions(items, f.optionLabels);
            if !ok {
              errs := errs + [InvalidField(Extra(owner, f.hash))];
            }
        } else if f.fieldType == "number" {
          if ToNumber(v).NaN? {
            errs := errs + [InvalidField(Extra(owner, f.hash))];
          }
        } else if !v.Str? {
          errs := errs + [InvalidField(Extra(owner, f.hash))];
        }
      }
    }
    assert fields[..|fields|] == fields;
  }

  /** The loop over the presenters taken into account. */
  method CheckPresenters(presenters: Val, count: int, cfg: PresenterFields, isValidEmail: string -> bool)
    returns (errs: seq<FormError>)
    ensures errs == PresentersErrors(presenters, count, cfg, isValidEmail)
  {
    errs := [];
    var n := if count < 0 then 0 else count;
    for p := 0 to n
      invariant errs == PresentersErrors(presenters, p, cfg, isValidEmail)
    {
      var currentPresenter := At(presenters, p);
      var found := TextCheck(OptGet(currentPresenter, "firstName"), Field(OfPresenter(p), "firstName"));
      found := found + TextCheck(OptGet(currentPresenter, "lastName"), Field(OfPresenter(p), "lastName"));
      found := found + EmailCheck(OptGet(currentPresenter, "email"), Field(OfPresenter(p), "email"), isValidEmail);
      found := found + LevelErrors(p, OptGet(currentPresenter, "level"), cfg.level);
      if cfg.major.isDisplayed && cfg.major.isRequired {
        found := found + TextCheck(OptGet(currentPresenter, "major"), Field(OfPresenter(p), "major"));
      } else {
        found := found + [];
      }
      var extraErrs := CheckExtraFields(OfPresenter(p), cfg.extraFields, OptGet(currentPresenter, "extraValues"));
      found := found + extraErrs;
      assert found == PresenterErrors(p, currentPresenter, cfg, isValidEmail);
      errs := errs + found;
    }
  }

  /** The subjects check: the loop stops at the first subject that matches no option. */
  method CheckSubjects(data: Val, subjects: ChoiceField) returns (errs: seq<FormError>)
    ensures errs == SubjectErrors(data, subjects)
  {
    errs := [];
    if subjects.isDisplayed {
      var s := OptGet(data, "subjects");
      if !Truthy(s) || !HasLength(s) {
        if subjects.isRequired {
          errs := [MissingField(Field(OfPresentation, "subjects"))];
        }
      } else {
        var ok := CheckOptions(Elements(s).value, subjects.optionLabels);
        if !ok {
          errs := [InvalidField(Field(OfPresentation, "subjects"))];
        }
      }
    }
  }

  /**
   * getPresentationFormErrors: the mandatory checks, and only when they all
   * pass, the checks the event's form configuration asks for.
   * `uploadedPoster` says whether a poster file came with the request.
   */
  method GetPresentationFormErrors(pres: Val, cfg: FormConfig, uploadedPoster: bool, eventId: Val, isEditMode: bool,
                                   isValidEmail: string -> bool, isValidYouTubeLink: string -> bool)
    returns (formErrs: seq<FormError>)
    ensures formErrs == FormErrors(pres, cfg, uploadedPoster, eventId, isEditMode, isValidEmail, isValidYouTubeLink)
  {
    if !Truthy(pres) || !Truthy(eventId) {
      return [MissingRequestData];
    }
    formErrs := MandatoryErrors(pres, uploadedPoster, isEditMode, isValidEmail, isValidYouTubeLink);
    if |formErrs| > 0 {
      return;
    }
    var presenters := OptGet(pres, "presenterData");
    var data := OptGet(pres, "presentationData");
    var validPresentersCount := ValidPresentersCount(cfg.presenterFields.maxAddlPresenters, Length(presenters));
    var presenterErrs := CheckPresenters(presenters, validPresentersCount, cfg.presenterFields, isValidEmail);
    var subjectErrs := CheckSubjects(data, cfg.presentationFields.subjects);
    var extraErrs := CheckExtraFields(OfPresentation, cfg.presentationFields.extraFields, OptGet(data, "extraValues"));
    formErrs := presenterErrs + subjectErrs + extraErrs;
    ConfiguredChecksFollowMandatory(pres, cfg, uploadedPoster, eventId, isEditMode, isValidEmail, isValidYouTubeLink);
  }

  /** When the mandatory checks pass, the result is the configured checks' errors in program order. */
  lemma ConfiguredChecksFollowMandatory(pres: Val, cfg: FormConfig, uploadedPoster: bool, eventId: Val, isEditMode: bool,
                                        isValidEmail: string -> bool, isValidYouTubeLink: string -> bool)
    requires Truthy(pres) && Truthy(eventId)
    requires MandatoryErrors(pres, uploadedPoster, isEditMode, isValidEmail, isValidYouTubeLink) == []
    ensures var presenters := OptGet(pres, "presenterData");
      var data := OptGet(pres, "presentationData");
      FormErrors(pres, cfg, uploadedPoster, eventId, isEditMode, isValidEmail, isValidYouTubeLink)
      == PresentersErrors(presenters, ValidPresentersCount(cfg.presenterFields.maxAddlPresenters, Length(presenters)), cfg.presenterFields, isValidEmail)
         + SubjectErrors(data, cfg.presentationFields.subjects)
         + ExtraFieldErrors(OfPresentation, cfg.presentationFields.extraFields, OptGet(data, "extraValues"))
  {
  }

  /** Any failed mandatory check ends validation: nothing configuration-specific is reported. */
  lemma MandatoryFailureShortCircuits(pres: Val, cfg: FormConfig, uploadedPoster: bool, eventId: Val, isEditMode: bool,
                                      isValidEmail: string -> bool, isValidYouTubeLink: string -> bool)
    requires Truthy(pres) && Truthy(eventId)
    requires MandatoryErrors(pres, uploadedPoster, isEditMode, isValidEmail, isValidYouTubeLink) != []
    ensures var r := FormErrors(pres, cfg, uploadedPoster, eventId, isEditMode, isValidEmail, isValidYouTubeLink);
      r != [] && forall e | e in r :: IsMandatoryError(e)
  {
  }

  /** Errors about named fields of a presenter or of the presentation. */
  predicate AllFieldErrors(r: seq<FormError>)
  {
    forall e | e in r :: (e.MissingField? || e.InvalidField?) && (e.path.Field? || e.path.Extra?)
  }

  lemma FieldErrorsAreNotMedia(a: seq<FormError>, b: seq<FormError>, c: seq<FormError>)
    requires AllFieldErrors(a) && AllFieldErrors(b) && AllFieldErrors(c)
    ensures forall e | e in a + b + c :: !IsMediaError(e)
  {
    assert forall e | e in a + b + c :: e in a || e in b || e in c;
  }

  /** The configured checks never report the presentation type, its media or the poster file. */
  lemma ConfiguredErrorsAreNotMedia(pres: Val, cfg: FormConfig, isValidEmail: string -> bool)
    ensures forall e | e in ConfiguredErrors(pres, cfg, isValidEmail) :: !IsMediaError(e)
  {
    var presenters := OptGet(pres, "presenterData");
    var data := OptGet(pres, "presentationData");
    var count := ValidPresentersCount(cfg.presenterFields.maxAddlPresenters, Length(presenters));
    FieldErrorsAreNotMedia(PresentersErrors(presenters, count, cfg.presenterFields, isValidEmail),
                           SubjectErrors(data, cfg.presentationFields.subjects),
                           ExtraFieldErrors(OfPresentation, cfg.presentationFields.extraFields, OptGet(data, "extraValues")));
  }

  /** In edit mode the presentation type, its media and the poster file are never reported. */
  lemma EditModeSkipsMedia(pres: Val, cfg: FormConfig, uploadedPoster: bool, eventId: Val,
                           isValidEmail: string -> bool, isValidYouTubeLink: string -> bool)
    ensures forall e | e in FormErrors(pres, cfg, uploadedPoster, eventId, true, isValidEmail, isValidYouTubeLink) :: !IsMediaError(e)
  {
    ConfiguredErrorsAreNotMedia(pres, cfg, isValidEmail);
  }

  /** Outside edit mode a submission without a presentation type is told so. */
  lemma NewSubmissionNeedsType(pres: Val, cfg: FormConfig, uploadedPoster: bool, eventId: Val,
                               isValidEmail: string -> bool, isValidYouTubeLink: string -> bool)
    requires Truthy(pres) && Truthy(eventId) && !Truthy(OptGet(pres, "presentationType"))
    ensures MissingField(Top("presentationType")) in FormErrors(pres, cfg, uploadedPoster, eventId, false, isValidEmail, isValidYouTubeLink)
  {
  }

  /** An accepted submission has a named first presenter with a valid e-mail, a title, an abstract and, outside edit mode, a known type. */
  lemma {:induction false} AcceptedSubmission(pres: Val, cfg: FormConfig, uploadedPoster: bool, eventId: Val, isEditMode: bool,
                                              isValidEmail: string -> bool, isValidYouTubeLink: string -> bool)
    requires FormErrors(pres, cfg, uploadedPoster, eventId, isEditMode, isValidEmail, isValidYouTubeLink) == []
    ensures var first := At(OptGet(pres, "presenterData"), 0);
      OptGet(first, "firstName").Str? && OptGet(first, "firstName").s != ""
      && OptGet(first, "lastName").Str? && OptGet(first, "lastName").s != ""
      && OptGet(first, "email").Str? && isValidEmail(OptGet(first, "email").s)
    ensures OptGet(OptGet(pres, "presentationData"), "title").Str? && OptGet(OptGet(pres, "presentationData"), "abstract").Str?
    ensures !isEditMode ==> OptGet(pres, "presentationType") in {Str("poster"), Str("oral"), Str("exhibition")}
  {
    var mandatory := MandatoryErrors(pres, uploadedPoster, isEditMode, isValidEmail, isValidYouTubeLink);
    assert mandatory == [];
    var presenters := OptGet(pres, "presenterData");
    var first := At(presenters, 0);
    assert Truthy(presenters) && Truthy(first);
    if !isEditMode {
      assert MediaErrors(pres, uploadedPoster, isValidYouTubeLink) == [];
    }
  }

  lemma CountInThree(a: seq<FormError>, b: seq<FormError>, c: seq<FormError>, x: FormError)
    requires x !in a && x !in c && multiset(b)[x] <= 1
    ensures multiset(a + b + c)[x] <= 1
  {
    assert multiset(a + b + c) == multiset(a) + multiset(b) + multiset(c);
  }

  /** The subjects are reported at most once as invalid, however many of them fail. */
  lemma {:induction false} SubjectsInvalidAtMostOnce(pres: Val, cfg: FormConfig, uploadedPoster: bool, eventId: Val, isEditMode: bool,
                                                     isValidEmail: string -> bool, isValidYouTubeLink: string -> bool)
    ensures multiset(FormErrors(pres, cfg, uploadedPoster, eventId, isEditMode, isValidEmail, isValidYouTubeLink))
              [InvalidField(Field(OfPresentation, "subjects"))] <= 1
  {
    var bad := InvalidField(Field(OfPresentation, "subjects"));
    if Truthy(pres) && Truthy(eventId) {
      var mandatory := MandatoryErrors(pres, uploadedPoster, isEditMode, isValidEmail, isValidYouTubeLink);
      if |mandatory| > 0 {
        assert !IsMandatoryError(bad);
        assert multiset(mandatory)[bad] == 0;
      } else {
        ConfiguredSubjectsInvalidAtMostOnce(pres, cfg, isValidEmail);
      }
    }
  }

  lemma ConfiguredSubjectsInvalidAtMostOnce(pres: Val, cfg: FormConfig, isValidEmail: string -> bool)
    ensures multiset(ConfiguredErrors(pres, cfg, isValidEmail))[InvalidField(Field(OfPresentation, "subjects"))] <= 1
  {
    var presenters := OptGet(pres, "presenterData");
    var data := OptGet(pres, "presentationData");
    var count := ValidPresentersCount(cfg.presenterFields.maxAddlPresenters, Length(presenters));
    CountInThree(PresentersErrors(presenters, count, cfg.presenterFields, isValidEmail),
                 SubjectErrors(data, cfg.presentationFields.subjects),
                 ExtraFieldErrors(OfPresentation, cfg.presentationFields.extraFields, OptGet(data, "extraValues")),
                 InvalidField(Field(OfPresentation, "subjects")));
  }
}

=== FILE: query_format.dfy ===
// queryFormat (backend/database.ts): named placeholders in SQL text. A first
// pass replaces `::name` by the escaped identifier, a second pass replaces
// `:name` by the escaped value or by NULL.

module QueryFormat {
  import opened Js

  /** The `\w` class: ASCII letters, digits and underscore. */
  predicate IsWordChar(c: char)
  {
    'a' <= c <= 'z' || 'A' <= c <= 'Z' || '0' <= c <= '9' || c == '_'
  }

  /** The end of the run of word characters that starts at `from` (the greedy `\w+`). */
  function WordEnd(s: string, from: nat): (r: nat)
    requires from <= |s|
    ensures from <= r <= |s| && (r < |s| ==> !IsWordChar(s[r]))
    ensures forall k | from <= k < r :: IsWordChar(s[k])
    decreases |s| - from
  {
    if from == |s| || !IsWordChar(s[from]) then from else WordEnd(s, from + 1)
  }

  /** The first pass, `/::(\w+)/g`: a known name becomes `escapeId(value)`, an unknown one stays. */
  function ReplaceIds(s: string, values: map<string, Val>, escapeId: Val -> string): string
    decreases |s|
  {
    if |s| >= 3 && s[0] == ':' && s[1] == ':' && IsWordChar(s[2]) then
      var j := WordEnd(s, 2);
      var key := s[2..j];
      (if key in values then escapeId(values[key]) else s[..j]) + ReplaceIds(s[j..], values, escapeId)
    else if |s| == 0 then ""
    else [s[0]] + ReplaceIds(s[1..], values, escapeId)
  }

  /** The second pass, `/:(\w+)/g`: a known name becomes `escape(value)`, an unknown one NULL. */
  function ReplaceValues(s: string, values: map<string, Val>, escape: Val -> string): string
    decreases |s|
  {
    if |s| >= 2 && s[0] == ':' && IsWordChar(s[1]) then
      var j := WordEnd(s, 1);
      var key := s[1..j];
      (if key in values then escape(values[key]) else "NULL") + ReplaceValues(s[j..], values, escape)
    else if |s| == 0 then ""
    else [s[0]] + ReplaceValues(s[1..], values, escape)
  }

  /** queryFormat; `values` is None when the caller passes no (or a falsy) values object. */
  function QueryFormat(query: string, values: Option<map<string, Val>>, escapeId: Val -> string, escape: Val -> string): (r: string)
    ensures values.None? ==> r == query
  {
    if values.None? then query
    else ReplaceValues(ReplaceIds(query, values.value, escapeId), values.value, escape)
  }

  /** Text without a colon passes both passes unchanged. */
  lemma {:induction false} NoPlaceholderUnchanged(s: string, values: map<string, Val>, escapeId: Val -> string, escape: Val -> string)
    requires forall i | 0 <= i < |s| :: s[i] != ':'
    ensures ReplaceIds(s, values, escapeId) == s
    ensures ReplaceValues(s, values, escape) == s
    decreases |s|
  {
    if |s| > 0 {
      NoPlaceholderUnchanged(s[1..], values, escapeId, escape);
      assert s == [s[0]] + s[1..];
    }
  }

  /** A placeholder `:key`, the key being a whole run of word characters. */
  predicate IsPlaceholder(key: string, rest: string)
  {
    |key| > 0 && (forall i | 0 <= i < |key| :: IsWordChar(key[i])) && (rest == "" || !IsWordChar(rest[0]))
  }

  lemma WordEndOfPlaceholder(prefix: string, key: string, rest: string)
    requires IsPlaceholder(key, rest)
    ensures WordEnd(prefix + key + rest, |prefix|) == |prefix| + |key|
    decreases |key|
  {
    var s := prefix + key + rest;
    if |key| > 0 {
      assert s == (prefix + [key[0]]) + key[1..] + rest;
      if |key| > 1 {
        WordEndOfPlaceholder(prefix + [key[0]], key[1..], rest);
      } else {
        assert key[1..] == "";
        assert (prefix + [key[0]]) + rest == s;
      }
    }
  }

  /** The value pass replaces a placeholder by the escaped value, or by NULL when the key is unknown. */
  lemma ValuePlaceholder(key: string, rest: string, values: map<string, Val>, escape: Val -> string)
    requires IsPlaceholder(key, rest)
    ensures ReplaceValues(":" + key + rest, values, escape)
         == (if key in values then escape(values[key]) else "NULL") + ReplaceValues(rest, values, escape)
  {
    var s := ":" + key + rest;
    WordEndOfPlaceholder(":", key, rest);
    assert s[1..1 + |key|] == key && s[1 + |key|..] == rest;
  }

  /**
   * An identifier placeholder whose key is unknown survives the first pass
   * and ends as `:NULL`, the text after it going through both passes. The
   * first pass must not glue word characters to the key.
   */
  lemma {:induction false} UnknownIdentifierBecomesNull(key: string, rest: string, values: map<string, Val>, escapeId: Val -> string, escape: Val -> string)
    requires IsPlaceholder(key, rest) && key !in values
    requires IsPlaceholder(key, ReplaceIds(rest, values, escapeId))
    ensures QueryFormat("::" + key + rest, Some(values), escapeId, escape)
         == ":NULL" + ReplaceValues(ReplaceIds(rest, values, escapeId), values, escape)
  {
    var r := ReplaceIds(rest, values, escapeId);
    UnknownIdentifierKept(key, rest, values, escapeId);
    var t := "::" + key + r;
    assert t[0] == ':' && t[1] == ':';
    assert t[1..] == ":" + key + r;
    ValuePlaceholder(key, r, values, escape);
  }

  /** The identifier pass keeps a placeholder whose key is unknown, and goes on with the text after it. */
  lemma UnknownIdentifierKept(key: string, rest: string, values: map<string, Val>, escapeId: Val -> string)
    requires IsPlaceholder(key, rest) && key !in values
    ensures ReplaceIds("::" + key + rest, values, escapeId) == "::" + key + ReplaceIds(rest, values, escapeId)
  {
    var s := "::" + key + rest;
    WordEndOfPlaceholder("::", key, rest);
    assert s[2..2 + |key|] == key && s[..2 + |key|] == "::" + key && s[2 + |key|..] == rest;
  }

  /** A known identifier placeholder is replaced by its escaped identifier in the first pass. */
  lemma KnownIdentifier(key: string, rest: string, values: map<string, Val>, escapeId: Val -> string)
    requires IsPlaceholder(key, rest) && key in values
    ensures ReplaceIds("::" + key + rest, values, escapeId) == escapeId(values[key]) + ReplaceIds(rest, values, escapeId)
  {
    var s := "::" + key + rest;
    WordEndOfPlaceholder("::", key, rest);
    assert s[2..2 + |key|] == key && s[2 + |key|..] == rest;
  }
}

=== FILE: random_str.dfy ===
// generateRandomString (backend/helpers/random-str.utils.ts): six characters,
// each of a kind chosen by one draw of Math.random() and picked by the next.

module RandomStr {

  /** A result of Math.random(): in [0, 1). */
  predicate IsDraw(r: real)
  {
    0.0 <= r < 1.0
  }

  /** `Math.floor(r * n)` for a draw `r`. */
  function Pick(r: real, n: nat): (k: int)
    requires IsDraw(r) && n > 0
    ensures 0 <= k < n
  {
    ScaledDrawBelow(r, n);
    (r * n as real).Floor
  }

  lemma ScaledDrawBelow(r: real, n: nat)
    requires IsDraw(r) && n > 0
    ensures 0.0 <= r * n as real < n as real
  {
    var m := n as real;
    assert m - r * m == (1.0 - r) * m;
    assert (1.0 - r) * m > 0.0;
  }

  /** getRandomUpperCase, getRandomLowerCase and getRandomNumber. */
  function UpperCase(r: real): char
    requires IsDraw(r)
  {
    (Pick(r, 26) + 65) as char
  }

  function LowerCase(r: real): char
    requires IsDraw(r)
  {
    (Pick(r, 26) + 97) as char
  }

  function Digit(r: real): char
    requires IsDraw(r)
  {
    (Pick(r, 10) + 48) as char
  }

  /** One iteration of the loop: the kind draw, then the character draw. */
  function CharFor(kind: real, pick: real): (c: char)
    requires IsDraw(kind) && IsDraw(pick)
    ensures Pick(kind, 4) == 0 ==> 'A' <= c <= 'Z'
    ensures Pick(kind, 4) == 1 ==> 'a' <= c <= 'z'
    ensures Pick(kind, 4) >= 2 ==> '0' <= c <= '9'
  {
    match Pick(kind, 4)
    case 0 => UpperCase(pick)
    case 1 => LowerCase(pick)
    case _ => Digit(pick)
  }

  predicate IsAlphanumeric(c: char)
  {
    'A' <= c <= 'Z' || 'a' <= c <= 'z' || '0' <= c <= '9'
  }

  /** The characters of the first `n` iterations, in draw order. */
  function RandomChars(draws: seq<real>, n: nat): (s: string)
    requires 2 * n <= |draws| && forall i | 0 <= i < |draws| :: IsDraw(draws[i])
    ensures |s| == n
    ensures forall i | 0 <= i < n :: s[i] == CharFor(draws[2 * i], draws[2 * i + 1])
  {
    if n == 0 then "" else RandomChars(draws, n - 1) + [CharFor(draws[2 * n - 2], draws[2 * n - 1])]
  }

  /** generateRandomString; `draws` are the twelve successive results of Math.random(). */
  method GenerateRandomString(draws: seq<real>) returns (rand: string)
    requires |draws| == 12 && forall i | 0 <= i < |draws| :: IsDraw(draws[i])
    ensures rand == RandomChars(draws, 6)
  {
    rand := "";
    for i := 0 to 6
      invariant rand == RandomChars(draws, i)
    {
      var kind := Pick(draws[2 * i], 4);
      if kind == 0 {
        rand := rand + [UpperCase(draws[2 * i + 1])];
      } else if kind == 1 {
        rand := rand + [LowerCase(draws[2 * i + 1])];
      } else {
        rand := rand + [Digit(draws[2 * i + 1])];
      }
    }
  }

  /** The string has six letters or digits; the kind draw fixes which. */
  lemma {:induction false} RandomStringShape(draws: seq<real>)
    requires |draws| == 12 && forall i | 0 <= i < |draws| :: IsDraw(draws[i])
    ensures |RandomChars(draws, 6)| == 6
    ensures forall i | 0 <= i < 6 :: IsAlphanumeric(RandomChars(draws, 6)[i])
    ensures forall i | 0 <= i < 6 && Pick(draws[2 * i], 4) == 0 :: 'A' <= RandomChars(draws, 6)[i] <= 'Z'
  {
    var s := RandomChars(draws, 6);
    forall i | 0 <= i < 6
      ensures IsAlphanumeric(s[i])
    {
      assert s[i] == CharFor(draws[2 * i], draws[2 * i + 1]);
    }
  }
}

=== FILE: row_helpers.dfy ===
// The row helpers of backend/functions.ts: first row, one column of the rows,
// dropping empty values, nesting columns into an object, and the file
// extension of an image MIME type.

module RowHelpers {
  import opened Js

  /** firstOrDefault: the first element of a non-empty array, otherwise null. */
  function FirstOrDefault(arr: Val): (r: Val)
    ensures arr.Arr? && |arr.items| > 0 ==> r == arr.items[0]
    ensures !(arr.Arr? && |arr.items| > 0) ==> r == Null
  {
    if arr.Arr? && |arr.items| > 0 then arr.items[0] else Null
  }

  /** `row[key]` inside the map of rowsToArray: a TypeError on a null or undefined row. */
  function Column(rows: seq<Val>, key: string): (r: Result<seq<Val>>)
    ensures r.Ok? <==> forall i | 0 <= i < |rows| :: !Nullish(rows[i])
    ensures r.Ok? ==> |r.value| == |rows| && forall i | 0 <= i < |rows| :: r.value[i] == OptGet(rows[i], key)
  {
    if |rows| == 0 then Ok([])
    else
      var n := |rows| - 1;
      var prefix :- Column(rows[..n], key);
      assert forall i | 0 <= i < n :: rows[..n][i] == rows[i];
      var last :- Get(rows[n], key);
      Ok(prefix + [last])
  }

  /** rowsToArray: null (not an empty array) unless there is at least one row. */
  function RowsToArray(arr: Val, key: string): (r: Result<Val>)
    ensures !(arr.Arr? && |arr.items| > 0) ==> r == Ok(Null)
    ensures r.Ok? && r.value.Arr? ==> |r.value.items| > 0
    ensures arr.Arr? && |arr.items| > 0 ==> (r.Ok? <==> Column(arr.items, key).Ok?)
    ensures arr.Arr? && |arr.items| > 0 && r.Ok? ==> r.value == Arr(Column(arr.items, key).value)
  {
    if arr.Arr? && |arr.items| > 0 then
      var column :- Column(arr.items, key);
      Ok(Arr(column))
    else Ok(Null)
  }

  /** A non-empty array gives the key of every row, in row order; it throws exactly when some row is null or undefined. */
  lemma RowsToArrayIsKeyColumn(arr: Val, key: string)
    requires arr.Arr? && |arr.items| > 0
    ensures RowsToArray(arr, key).Ok? <==> forall i | 0 <= i < |arr.items| :: !Nullish(arr.items[i])
    ensures RowsToArray(arr, key).Ok? ==>
      var column := RowsToArray(arr, key).value;
      column.Arr? && |column.items| == |arr.items|
      && forall i | 0 <= i < |arr.items| :: column.items[i] == OptGet(arr.items[i], key)
  {
  }

  /** The values discardNulls keeps: everything but null, undefined and NaN. */
  predicate Kept(v: Val)
  {
    !Nullish(v) && !v.NaN?
  }

  /** What discardNulls returns for an object. */
  function WithoutNulls(fields: map<string, Val>): (r: map<string, Val>)
    ensures forall key :: key in r <==> key in fields && Kept(fields[key])
    ensures forall key | key in r :: r[key] == fields[key]
  {
    map key | key in fields && Kept(fields[key]) :: fields[key]
  }

  /** discardNulls: the forEach that copies the kept entries into a fresh object; `{}` for a falsy input. */
  method DiscardNulls(obj: Val) returns (res: map<string, Val>)
    ensures obj.Obj? ==> res == WithoutNulls(obj.fields)
    ensures !obj.Obj? ==> res == map[]
  {
    res := map[];
    if !obj.Obj? {
      return;
    }
    var fields := obj.fields;
    var pending := fields.Keys;
    while pending != {}
      invariant pending <= fields.Keys
      invariant forall key :: key in res <==> key in fields && key !in pending && Kept(fields[key])
      invariant forall key | key in res :: res[key] == fields[key]
      decreases pending
    {
      var key :| key in pending;
      if Kept(fields[key]) {
        res := res[key := fields[key]];
      }
      pending := pending - {key};
    }
  }

  /** Dropping empty values twice drops nothing more, and 0, '' and false stay. */
  lemma WithoutNullsIdempotent(fields: map<string, Val>)
    ensures WithoutNulls(WithoutNulls(fields)) == WithoutNulls(fields)
    ensures forall key | key in fields && fields[key] in {Num(0), Str(""), Bool(false)} :: key in WithoutNulls(fields)
  {
  }

  // ------------------------------------------------------------ aggregateRowValuesAsObject

  /** `row[prop]` on a row object. */
  function Lookup(row: map<string, Val>, prop: string): Val
  {
    if prop in row then row[prop] else Undefined
  }

  /**
   * The inner loop over the (key, source column) pairs of the props map, in
   * key order: each step copies the column into the nested object, then sets
   * the column to undefined.
   */
  function Nest(row: map<string, Val>, pairs: seq<(string, string)>): (map<string, Val>, map<string, Val>)
  {
    if |pairs| == 0 then (row, map[])
    else
      var n := |pairs| - 1;
      var (rest, nested) := Nest(row, pairs[..n]);
      var (key, column) := pairs[n];
      (rest[column := Undefined], nested[key := Lookup(rest, column)])
  }

  /** One row after aggregateRowValuesAsObject. */
  function Aggregated(row: map<string, Val>, nestName: string, pairs: seq<(string, string)>): map<string, Val>
  {
    var (rest, nested) := Nest(row, pairs);
    rest[nestName := Obj(nested)]
  }

  /** aggregateRowValuesAsObject: every row is rewritten in place; the number of rows does not change. */
  method AggregateRowValuesAsObject(rows: array<map<string, Val>>, nestName: string, pairs: seq<(string, string)>)
    modifies rows
    ensures forall i | 0 <= i < rows.Length :: rows[i] == Aggregated(old(rows[i]), nestName, pairs)
  {
    for r := 0 to rows.Length
      invariant forall i | 0 <= i < r :: rows[i] == Aggregated(old(rows[i]), nestName, pairs)
      invariant forall i | r <= i < rows.Length :: rows[i] == old(rows[i])
    {
      var row := rows[r];
      var nested: map<string, Val> := map[];
      for k := 0 to |pairs|
        invariant (row, nested) == Nest(rows[r], pairs[..k])
      {
        assert pairs[..k + 1][..k] == pairs[..k];
        var (key, column) := pairs[k];
        nested := nested[key := Lookup(row, column)];
        row := row[column := Undefined];
      }
      assert pairs[..|pairs|] == pairs;
      rows[r] := row[nestName := Obj(nested)];
    }
  }

  predicate DistinctColumns(pairs: seq<(string, string)>)
  {
    forall i, j | 0 <= i < j < |pairs| :: pairs[i].1 != pairs[j].1
  }

  predicate DistinctKeys(pairs: seq<(string, string)>)
  {
    forall i, j | 0 <= i < j < |pairs| :: pairs[i].0 != pairs[j].0
  }

  /**
   * With distinct source columns, the nested object maps every key to the
   * row's original column, and every source column is left undefined.
   */
  lemma {:induction false} NestMovesColumns(row: map<string, Val>, pairs: seq<(string, string)>)
    requires DistinctColumns(pairs) && DistinctKeys(pairs)
    ensures var (rest, nested) := Nest(row, pairs);
      (forall i | 0 <= i < |pairs| :: pairs[i].0 in nested && nested[pairs[i].0] == Lookup(row, pairs[i].1))
      && (forall i | 0 <= i < |pairs| :: Lookup(rest, pairs[i].1) == Undefined)
      && (forall prop | forall i | 0 <= i < |pairs| :: pairs[i].1 != prop :: Lookup(rest, prop) == Lookup(row, prop))
  {
    if |pairs| > 0 {
      var n := |pairs| - 1;
      var init := pairs[..n];
      assert DistinctColumns(init) && DistinctKeys(init);
      NestMovesColumns(row, init);
      var (rest0, nested0) := Nest(row, init);
      var (rest, nested) := Nest(row, pairs);
      var (key, column) := pairs[n];
      assert Lookup(rest0, column) == Lookup(row, column) by {
        forall i | 0 <= i < n ensures init[i].1 != column {
          assert init[i] == pairs[i];
        }
      }
      forall i | 0 <= i < n
        ensures pairs[i].0 in nested && nested[pairs[i].0] == Lookup(row, pairs[i].1)
      {
        assert init[i] == pairs[i];
      }
      forall i | 0 <= i < n
        ensures Lookup(rest, pairs[i].1) == Undefined
      {
        assert init[i] == pairs[i];
      }
      forall prop | forall i | 0 <= i < |pairs| :: pairs[i].1 != prop
        ensures Lookup(rest, prop) == Lookup(row, prop)
      {
        forall i | 0 <= i < n ensures init[i].1 != prop {
          assert init[i] == pairs[i];
        }
      }
    }
  }

  // ------------------------------------------------------------ getMimeTypeExtension

  /** The own keys of the `knownTypes` literal, with their extensions. */
  const KnownTypes: map<string, string> :=
    map["image/jpeg" := ".jpg", "image/png" := ".png", "image/gif" := ".gif", "image/tiff" := ".tiff"]

  /** The members every object literal inherits from Object.prototype. */
  const InheritedMembers: set<string> := {
    "constructor", "hasOwnProperty", "isPrototypeOf", "propertyIsEnumerable", "toLocaleString", "toString",
    "valueOf", "__proto__", "__defineGetter__", "__defineSetter__", "__lookupGetter__", "__lookupSetter__"}

  /** What `knownTypes[key]` yields: an own extension, an inherited member, or undefined. */
  datatype KnownTypeEntry = Extension(ext: string) | InheritedMember(name: string)

  /** getMimeTypeExtension as written: the lookup also reaches Object.prototype. */
  function MimeTypeLookupAsWritten(mimeType: string): (r: KnownTypeEntry)
    ensures r.InheritedMember? <==> Lower(mimeType) in InheritedMembers
  {
    var key := Lower(mimeType);
    if key in KnownTypes then Extension(KnownTypes[key])
    else if key in InheritedMembers then InheritedMember(key)
    else Extension("")
  }

  /**
   * A MIME type that lower-cases to an inherited member ("constructor",
   * "__proto__", in any letter case) comes back as that member, not as ''.
   */
  lemma InheritedMemberLeaks()
    ensures MimeTypeLookupAsWritten("Constructor") == InheritedMember("constructor")
    ensures MimeTypeLookupAsWritten("__proto__") == InheritedMember("__proto__")
  {
    assert Lower("Constructor") == "constructor";
    assert Lower("__proto__") == "__proto__";
  }

  /** getMimeTypeExtension, looking only at the literal's own keys. */
  function GetMimeTypeExtension(mimeType: string): (ext: string)
    ensures ext in {".jpg", ".png", ".gif", ".tiff", ""}
    ensures ext != "" <==> Lower(mimeType) in KnownTypes
    ensures Lower(mimeType) == "image/jpeg" ==> ext == ".jpg"
    ensures Lower(mimeType) == "image/png" ==> ext == ".png"
    ensures Lower(mimeType) == "image/gif" ==> ext == ".gif"
    ensures Lower(mimeType) == "image/tiff" ==> ext == ".tiff"
  {
    var key := Lower(mimeType);
    if key in KnownTypes then KnownTypes[key] else ""
  }

  /** The lookup ignores letter case, and agrees with the written one on every name that is not inherited. */
  lemma MimeTypeIgnoresCase(a: string, b: string)
    requires Lower(a) == Lower(b)
    ensures GetMimeTypeExtension(a) == GetMimeTypeExtension(b)
    ensures Lower(a) !in InheritedMembers ==> MimeTypeLookupAsWritten(a) == Extension(GetMimeTypeExtension(a))
  {
  }
}

=== FILE: server_port.dfy ===
// normalizePort (www.ts): the listening port taken from an argument or the
// environment, as a number, a named pipe, or false.

module ServerPort {
  import opened Js

  /** The longest prefix of `s` made of decimal digits. */
  function DigitPrefix(s: string): (d: string)
    ensures |d| <= |s| && d == s[..|d|]
    ensures forall i | 0 <= i < |d| :: IsDigit(d[i])
    ensures |d| < |s| ==> !IsDigit(s[|d|])
  {
    if |s| == 0 || !IsDigit(s[0]) then "" else [s[0]] + DigitPrefix(s[1..])
  }

  /** `parseInt(s, 10)`: leading white space, an optional sign and the leading digits; None for NaN. */
  function ParseInt(s: string): (r: Option<int>)
  {
    var t := TrimStart(s);
    var negative := |t| > 0 && t[0] == '-';
    var unsigned := if |t| > 0 && (t[0] == '-' || t[0] == '+') then t[1..] else t;
    var digits := DigitPrefix(unsigned);
    var magnitude: int := DecimalValue(digits);
    if digits == "" then None
    else if negative then Some(-magnitude)
    else Some(magnitude)
  }

  /** What normalizePort returns: the input (a named pipe), a port number, or false. */
  datatype Port = NamedPipe(name: string) | PortNumber(port: nat) | NoPort

  function NormalizePort(val: string): (r: Port)
    ensures ParseInt(val).None? <==> r == NamedPipe(val)
    ensures r.PortNumber? <==> ParseInt(val).Some? && ParseInt(val).value >= 0
    ensures r.PortNumber? ==> r.port == ParseInt(val).value
    ensures r.NoPort? <==> ParseInt(val).Some? && ParseInt(val).value < 0
  {
    match ParseInt(val)
    case None => NamedPipe(val)
    case Some(port) => if port >= 0 then PortNumber(port) else NoPort
  }

  /** A plain decimal port string is read back as its number. */
  lemma {:induction false} DecimalPortReadBack(n: nat)
    ensures NormalizePort(NatToString(n)) == PortNumber(n)
  {
    var s := NatToString(n);
    assert |s| > 0 && !IsJsWhitespace(s[0]) && s[0] != '-' && s[0] != '+';
    assert TrimStart(s) == s;
    DigitsAreTheirOwnPrefix(s);
    NatToStringRoundTrip(n);
  }

  lemma {:induction false} DigitsAreTheirOwnPrefix(s: string)
    requires forall i | 0 <= i < |s| :: IsDigit(s[i])
    ensures DigitPrefix(s) == s
  {
    if |s| > 0 {
      DigitsAreTheirOwnPrefix(s[1..]);
    }
  }

  /** A string that does not start with a digit (after a sign) is a named pipe. */
  lemma PipeNamesKept(val: string)
    requires |val| > 0 && val[0] == '/'
    ensures NormalizePort(val) == NamedPipe(val)
  {
  }
}

=== FILE: sql_clauses.dfy ===
// The statement builders of shared-queries.ts that decide what a query says:
// the SET lists of updateEvent, updateDeprecatedEvent and updateLiveSession,
// the additional-presenter columns of insertPresentation and
// updatePresentation (with the in-place padding to eight presenters), the
// defaults of insertEvent and the shortcuts taken for empty input. A query
// object is a list of (key, value) entries in `Object.keys` order.

module SqlClauses {
  import opened Js
  import RowHelpers

  /** `s.slice(0, -2)` */
  function DropLastTwo(s: string): (r: string)
    ensures |s| >= 2 ==> r == s[..|s| - 2]
    ensures |s| < 2 ==> r == ""
  {
    if |s| < 2 then "" else s[..|s| - 2]
  }

  /** Each fragment followed by ', ', in order: what the `forEach` appends. */
  function Appended(fragments: seq<string>): string
  {
    if |fragments| == 0 then ""
    else Appended(fragments[..|fragments| - 1]) + fragments[|fragments| - 1] + ", "
  }

  lemma AppendedSnoc(fragments: seq<string>, f: string)
    ensures Appended(fragments + [f]) == Appended(fragments) + f + ", "
  {
    assert (fragments + [f])[..|fragments|] == fragments;
  }

  lemma JoinAppend(parts: seq<string>, last: string, sep: string)
    requires |parts| > 0
    ensures Join(parts + [last], sep) == Join(parts, sep) + sep + last
  {
    if |parts| > 1 {
      assert (parts + [last])[1..] == parts[1..] + [last];
      JoinAppend(parts[1..], last, sep);
    }
  }

  /** With at least one fragment, appending ', ' to each and dropping the final two characters is joining with ', '. */
  lemma {:induction false} AppendedIsJoin(fragments: seq<string>)
    requires |fragments| > 0
    ensures Appended(fragments) == Join(fragments, ", ") + ", "
  {
    var n := |fragments| - 1;
    if n > 0 {
      AppendedIsJoin(fragments[..n]);
      JoinAppend(fragments[..n], fragments[n], ", ");
      assert fragments[..n] + [fragments[n]] == fragments;
    }
  }

  // ------------------------------------------------------------ updateEvent

  const UpdateEventHead := "UPDATE event SET "
  const UpdateEventWhere := " WHERE eventId = :eventId AND deleteDate IS NULL"

  /** The columns updateEvent writes; every other key is skipped. */
  const EventColumns: set<string> := {"privacyLevel", "validEmails", "startDate", "endDate", "archiveDate", "logoImgName",
    "coverImgName", "thumbnailImgName", "splashCoverImgName", "splashVideoLink", "splashContent", "presentationFormConfig"}

  /** The splash columns, which the string 'NULL' clears with a literal SQL NULL. */
  const SplashColumns: set<string> := {"splashCoverImgName", "splashVideoLink", "splashContent"}

  /** The fragment of one entry: `k = :k`, `k = NULL` for a splash column set to 'NULL', or nothing. */
  function EventFragment(key: string, value: Val): Option<string>
  {
    if key !in EventColumns then None
    else if key in SplashColumns && value == Str("NULL") then Some(key + " = NULL")
    else Some(key + " = :" + key)
  }

  /** Only the known columns produce a fragment; a splash column is cleared by 'NULL', every other value is bound by name. */
  lemma EventFragmentCases(key: string, value: Val)
    ensures EventFragment(key, value).Some? <==> key in EventColumns
    ensures key in SplashColumns && value == Str("NULL") ==> EventFragment(key, value) == Some(key + " = NULL")
    ensures key in EventColumns && !(key in SplashColumns && value == Str("NULL")) ==> EventFragment(key, value) == Some(key + " = :" + key)
  {
    assert SplashColumns <= EventColumns;
  }

  /** The fragments of the entries, in order. */
  function EventFragments(entries: seq<(string, Val)>): (r: seq<string>)
    ensures |r| <= |entries|
  {
    if |entries| == 0 then []
    else
      var n := |entries| - 1;
      var f := EventFragment(entries[n].0, entries[n].1);
      EventFragments(entries[..n]) + (if f.Some? then [f.value] else [])
  }

  /** The statement updateEvent sends. */
  function UpdateEventSql(entries: seq<(string, Val)>): string
  {
    DropLastTwo(UpdateEventHead + Appended(EventFragments(entries))) + UpdateEventWhere
  }

  /** One more entry of the fragment list. */
  lemma EventFragmentsStep(entries: seq<(string, Val)>, i: nat)
    requires i < |entries|
    ensures var f := EventFragment(entries[i].0, entries[i].1);
      EventFragments(entries[..i + 1]) == EventFragments(entries[..i]) + (if f.Some? then [f.value] else [])
  {
    assert entries[..i + 1][..i] == entries[..i];
  }

  /** Appending an optional fragment and ', ' after a prefix. */
  lemma AppendOptional(head: string, before: seq<string>, f: Option<string>)
    ensures (if f.Some? then head + Appended(before) + f.value + ", " else head + Appended(before))
            == head + Appended(before + (if f.Some? then [f.value] else []))
  {
    if f.None? {
      assert before + [] == before;
    } else {
      AppendedSnoc(before, f.value);
      assert head + Appended(before) + f.value + ", " == head + (Appended(before) + f.value + ", ");
    }
  }

  /** One iteration of updateEvent's `forEach`. */
  lemma AppendEventStep(head: string, entries: seq<(string, Val)>, i: nat, query: string)
    requires i < |entries| && query == head + Appended(EventFragments(entries[..i]))
    ensures var f := EventFragment(entries[i].0, entries[i].1);
      (if f.Some? then query + f.value + ", " else query) == head + Appended(EventFragments(entries[..i + 1]))
  {
    EventFragmentsStep(entries, i);
    AppendOptional(head, EventFragments(entries[..i]), EventFragment(entries[i].0, entries[i].1));
  }

  /** updateEvent's `forEach` over `Object.keys(queryObj)`, appending each fragment and ', ' to `head`. */
  method AppendEventFragments(head: string, entries: seq<(string, Val)>) returns (query: string)
    ensures query == head + Appended(EventFragments(entries))
  {
    query := head;
    for i := 0 to |entries|
      invariant query == head + Appended(EventFragments(entries[..i]))
    {
      var fragment := EventFragment(entries[i].0, entries[i].1);
      AppendEventStep(head, entries, i, query);
      if fragment.Some? {
        query := query + fragment.value + ", ";
      }
    }
    assert entries[..|entries|] == entries;
  }

  /** updateEvent: the `forEach`, the slice that drops the last ', ' and the WHERE clause. */
  method UpdateEvent(entries: seq<(string, Val)>) returns (query: string)
    ensures query == UpdateEventSql(entries)
  {
    query := AppendEventFragments(UpdateEventHead, entries);
    query := DropLastTwo(query) + UpdateEventWhere;
  }

  /** With at least one known column, the SET list is the fragments joined by ', '. */
  lemma UpdateEventJoins(entries: seq<(string, Val)>)
    requires EventFragments(entries) != []
    ensures UpdateEventSql(entries) == UpdateEventHead + Join(EventFragments(entries), ", ") + UpdateEventWhere
  {
    var j := Join(EventFragments(entries), ", ");
    AppendedIsJoin(EventFragments(entries));
    assert UpdateEventHead + (j + ", ") == (UpdateEventHead + j) + ", ";
  }

  /** Without a known column the slice eats the 'T ' of 'SET ', leaving a malformed statement. */
  lemma UpdateEventWithoutColumns(entries: seq<(string, Val)>)
    requires forall k | 0 <= k < |entries| :: entries[k].0 !in EventColumns
    ensures UpdateEventSql(entries) == "UPDATE event SE" + UpdateEventWhere
  {
    NoEventFragments(entries);
  }

  /** The fragment list is empty exactly when no key is a known column. */
  lemma {:induction false} NoEventFragments(entries: seq<(string, Val)>)
    ensures EventFragments(entries) == [] <==> forall k | 0 <= k < |entries| :: entries[k].0 !in EventColumns
  {
    if |entries| > 0 {
      var n := |entries| - 1;
      NoEventFragments(entries[..n]);
      EventFragmentCases(entries[n].0, entries[n].1);
      assert forall k | 0 <= k < n :: entries[..n][k] == entries[k];
    }
  }

  /** A splash column whose value is the string 'NULL' is written as a literal SQL NULL. */
  lemma {:induction false} SplashNullIsLiteral(entries: seq<(string, Val)>, k: nat)
    requires k < |entries| && entries[k].0 in SplashColumns && entries[k].1 == Str("NULL")
    ensures entries[k].0 + " = NULL" in EventFragments(entries)
  {
    var n := |entries| - 1;
    if k < n {
      assert entries[..n][k] == entries[k];
      SplashNullIsLiteral(entries[..n], k);
    } else {
      EventFragmentCases(entries[n].0, entries[n].1);
    }
  }

  // ------------------------------------------------------------ updateDeprecatedEvent

  const DeprecatedHead := "UPDATE deprecatedEvent SET "
  const DeprecatedWhere := " WHERE institutionId = :eventId AND deleteDate IS NULL"

  /** The value of a key in an entry list (undefined when absent). */
  function EntryValue(entries: seq<(string, Val)>, key: string): Val
  {
    if |entries| == 0 then Undefined
    else if entries[0].0 == key then entries[0].1
    else EntryValue(entries[1..], key)
  }

  function PrivacyFragments(entries: seq<(string, Val)>): (r: seq<string>)
    ensures forall k | 0 <= k < |r| :: r[k] == "privacyLevel = :privacyLevel"
  {
    if |entries| == 0 then []
    else
      var n := |entries| - 1;
      PrivacyFragments(entries[..n]) + (if entries[n].0 == "privacyLevel" then ["privacyLevel = :privacyLevel"] else [])
  }

  /** updateDeprecatedEvent: no statement at all unless `privacyLevel` is truthy; then only that column is set. */
  function UpdateDeprecatedEvent(entries: seq<(string, Val)>): (r: Option<string>)
    ensures r.Some? <==> Truthy(EntryValue(entries, "privacyLevel"))
  {
    if !Truthy(EntryValue(entries, "privacyLevel")) then None
    else Some(DropLastTwo(DeprecatedHead + Appended(PrivacyFragments(entries))) + DeprecatedWhere)
  }

  predicate DistinctKeys(entries: seq<(string, Val)>)
  {
    forall i, j | 0 <= i < j < |entries| :: entries[i].0 != entries[j].0
  }

  lemma {:induction false} SinglePrivacyFragment(entries: seq<(string, Val)>)
    requires DistinctKeys(entries)
    requires exists k | 0 <= k < |entries| :: entries[k].0 == "privacyLevel"
    ensures PrivacyFragments(entries) == ["privacyLevel = :privacyLevel"]
  {
    var n := |entries| - 1;
    var prefix := entries[..n];
    if entries[n].0 == "privacyLevel" {
      NoPrivacyFragment(prefix);
    } else {
      var k :| 0 <= k < |entries| && entries[k].0 == "privacyLevel";
      assert prefix[k] == entries[k];
      SinglePrivacyFragment(prefix);
    }
  }

  lemma {:induction false} NoPrivacyFragment(entries: seq<(string, Val)>)
    requires forall k | 0 <= k < |entries| :: entries[k].0 != "privacyLevel"
    ensures PrivacyFragments(entries) == []
  {
    if |entries| > 0 {
      NoPrivacyFragment(entries[..|entries| - 1]);
    }
  }

  lemma {:induction false} PresentKeyIsListed(entries: seq<(string, Val)>, key: string)
    requires EntryValue(entries, key) != Undefined
    ensures exists k | 0 <= k < |entries| :: entries[k].0 == key
  {
    if entries[0].0 != key {
      PresentKeyIsListed(entries[1..], key);
      var k :| 0 <= k < |entries[1..]| && entries[1..][k].0 == key;
      assert entries[k + 1].0 == key;
    }
  }

  /** With a truthy privacy level the statement sets exactly that column. */
  lemma DeprecatedEventStatement(entries: seq<(string, Val)>)
    requires DistinctKeys(entries) && Truthy(EntryValue(entries, "privacyLevel"))
    ensures UpdateDeprecatedEvent(entries) == Some(DeprecatedHead + "privacyLevel = :privacyLevel" + DeprecatedWhere)
  {
    PresentKeyIsListed(entries, "privacyLevel");
    SinglePrivacyFragment(entries);
    var s := DeprecatedHead + Appended(["privacyLevel = :privacyLevel"]);
    assert Appended(["privacyLevel = :privacyLevel"]) == "privacyLevel = :privacyLevel, ";
    assert DropLastTwo(s) == DeprecatedHead + "privacyLevel = :privacyLevel";
  }

  // ------------------------------------------------------------ updateLiveSession

  const LiveSessionHead := "UPDATE liveSession SET "
  const LiveSessionWhere := " WHERE liveSessionId = :liveSessionId AND deleteDate IS NULL"

  /** The column each recognised key of the update object writes. */
  const LiveSessionColumns: map<string, string> := map["sessionLinkType" := "sessionLinkType", "link" := "zoomUrl", "title" := "name",
    "sessionStart" := "sessionStartDateTime", "sessionEnd" := "sessionEndDateTime", "description" := "description"]

  /** `column = :column` for a recognised key, where `cols` maps each recognised key to its column. */
  function ColumnFragment(cols: map<string, string>, key: string): string
    requires key in cols
  {
    cols[key] + " = :" + cols[key]
  }

  /** What key `idx` adds to the SET list: its fragment, followed by ', ' unless it is the last key of the object. */
  function SetPiece(cols: map<string, string>, keys: seq<string>, idx: nat): string
    requires idx < |keys|
  {
    if keys[idx] in cols then ColumnFragment(cols, keys[idx]) + (if idx < |keys| - 1 then ", " else "") else ""
  }

  /** The SET list after the first `i` keys. */
  function SetList(cols: map<string, string>, keys: seq<string>, i: nat): string
    requires i <= |keys|
  {
    if i == 0 then "" else SetList(cols, keys, i - 1) + SetPiece(cols, keys, i - 1)
  }

  /** One iteration of the `forEach`. */
  lemma SetStep(cols: map<string, string>, head: string, keys: seq<string>, idx: nat, query: string)
    requires idx < |keys| && query == head + SetList(cols, keys, idx)
    ensures query + SetPiece(cols, keys, idx) == head + SetList(cols, keys, idx + 1)
  {
    assert head + SetList(cols, keys, idx) + SetPiece(cols, keys, idx) == head + (SetList(cols, keys, idx) + SetPiece(cols, keys, idx));
  }

  /** The two appends of one iteration add exactly its piece. */
  lemma PieceAppended(cols: map<string, string>, keys: seq<string>, idx: nat, q: string)
    requires idx < |keys|
    ensures keys[idx] in cols && idx < |keys| - 1 ==> q + ColumnFragment(cols, keys[idx]) + ", " == q + SetPiece(cols, keys, idx)
    ensures keys[idx] in cols && idx == |keys| - 1 ==> q + ColumnFragment(cols, keys[idx]) == q + SetPiece(cols, keys, idx)
    ensures keys[idx] !in cols ==> q == q + SetPiece(cols, keys, idx)
  {
    if keys[idx] in cols && idx < |keys| - 1 {
      assert q + ColumnFragment(cols, keys[idx]) + ", " == q + (ColumnFragment(cols, keys[idx]) + ", ");
    }
  }

  /** The `forEach((key, idx) => ...)` of updateLiveSession, appending to `head`. */
  method AppendSetList(cols: map<string, string>, head: string, keys: seq<string>) returns (query: string)
    ensures query == head + SetList(cols, keys, |keys|)
  {
    query := head;
    for idx := 0 to |keys|
      invariant query == head + SetList(cols, keys, idx)
    {
      var key := keys[idx];
      SetStep(cols, head, keys, idx, query);
      PieceAppended(cols, keys, idx, query);
      if key in cols {
        query := query + ColumnFragment(cols, key);
        if idx < |keys| - 1 {
          query := query + ", ";
        }
      }
    }
  }

  /** updateLiveSession: the SET list and its WHERE clause. */
  method UpdateLiveSession(keys: seq<string>) returns (query: string)
    ensures query == LiveSessionHead + SetList(LiveSessionColumns, keys, |keys|) + LiveSessionWhere
  {
    query := AppendSetList(LiveSessionColumns, LiveSessionHead, keys);
    query := query + LiveSessionWhere;
  }

  /** The recognised fragments of the first `i` keys. */
  function Fragments(cols: map<string, string>, keys: seq<string>, i: nat): (r: seq<string>)
    requires i <= |keys|
    ensures |r| <= i
  {
    if i == 0 then []
    else Fragments(cols, keys, i - 1) + (if keys[i - 1] in cols then [ColumnFragment(cols, keys[i - 1])] else [])
  }

  /** Before the last key, the SET list is each recognised fragment followed by ', '. */
  lemma {:induction false} SetListBeforeLast(cols: map<string, string>, keys: seq<string>, i: nat)
    requires i < |keys|
    ensures SetList(cols, keys, i) == Appended(Fragments(cols, keys, i))
  {
    if i > 0 {
      SetListBeforeLast(cols, keys, i - 1);
      var before := Fragments(cols, keys, i - 1);
      if keys[i - 1] in cols {
        AppendedSnoc(before, ColumnFragment(cols, keys[i - 1]));
      } else {
        assert Fragments(cols, keys, i) == before;
      }
    }
  }

  /** When the last key is recognised, the recognised fragments are joined by ', '. */
  lemma SetListLastRecognised(cols: map<string, string>, keys: seq<string>)
    requires |keys| > 0 && keys[|keys| - 1] in cols
    ensures SetList(cols, keys, |keys|) == Join(Fragments(cols, keys, |keys|), ", ")
  {
    var n := |keys| - 1;
    SetListBeforeLast(cols, keys, n);
    var before := Fragments(cols, keys, n);
    var f := ColumnFragment(cols, keys[n]);
    assert Fragments(cols, keys, |keys|) == before + [f];
    assert SetList(cols, keys, |keys|) == Appended(before) + f;
    if before != [] {
      AppendedIsJoin(before);
      JoinAppend(before, f, ", ");
    } else {
      assert before + [f] == [f];
    }
  }

  /** When the last key is not recognised but an earlier one is, a trailing ', ' is left before WHERE. */
  lemma SetListLastSkipped(cols: map<string, string>, keys: seq<string>)
    requires |keys| > 0 && keys[|keys| - 1] !in cols && Fragments(cols, keys, |keys|) != []
    ensures SetList(cols, keys, |keys|) == Join(Fragments(cols, keys, |keys|), ", ") + ", "
  {
    var n := |keys| - 1;
    SetListBeforeLast(cols, keys, n);
    var before := Fragments(cols, keys, n);
    assert Fragments(cols, keys, |keys|) == before;
    assert SetList(cols, keys, |keys|) == Appended(before);
    AppendedIsJoin(before);
  }

  // ------------------------------------------------------------ presenters

  /** One presenter of the caller's array. */
  datatype Presenter = Presenter(firstName: Val, lastName: Val, email: Val, level: Val, major: Val)

  const BlankPresenter := Presenter(Null, Null, Null, Null, Null)

  /** The caller's presenter array after padding: blank presenters up to eight, longer arrays untouched. */
  function Padded(presenters: seq<Presenter>): (r: seq<Presenter>)
    ensures |r| == if |presenters| < 8 then 8 else |presenters|
    ensures r[..|presenters|] == presenters
    ensures forall k | |presenters| <= k < |r| :: r[k] == BlankPresenter
  {
    if |presenters| < 8 then presenters + seq(8 - |presenters|, _ => BlankPresenter) else presenters
  }

  /** The presenter array of updatePresentation's caller, which the padding extends in place. */
  class PresenterArray {
    var items: seq<Presenter>

    constructor (items: seq<Presenter>)
      ensures this.items == items
    {
      this.items := items;
    }

    /** `for (let i = presenters.length; i < 8; i++) presenters.push(blank)` */
    method PadToEight()
      modifies this
      ensures items == Padded(old(items))
    {
      if |items| < 8 {
        ghost var original := items;
        for i := |items| to 8
          invariant |items| == i
          invariant items == original + seq(i - |original|, _ => BlankPresenter)
        {
          items := items + [BlankPresenter];
        }
      }
    }
  }

  /** The five columns of an additional presenter. */
  datatype PresenterColumn = FirstName | LastName | Email | Year | Major

  /** The value bound for a column: a falsy level or major becomes the string 'NULL'. */
  function ColumnValue(p: Presenter, column: PresenterColumn): (v: Val)
    ensures column == Year ==> v == (if Truthy(p.level) then p.level else Str("NULL"))
    ensures column == Major ==> v == (if Truthy(p.major) then p.major else Str("NULL"))
  {
    match column
    case FirstName => p.firstName
    case LastName => p.lastName
    case Email => p.email
    case Year => if Truthy(p.level) then p.level else Str("NULL")
    case Major => if Truthy(p.major) then p.major else Str("NULL")
  }

  /** `addlPresentersObj` after presenters 1 .. i-1: key (n, c) stands for `presenter${n}${c}`. */
  function AddlValues(presenters: seq<Presenter>, i: nat): (obj: map<(nat, PresenterColumn), Val>)
    requires i <= |presenters|
  {
    if i <= 1 then map[]
    else
      var p := presenters[i - 1];
      AddlValues(presenters, i - 1)
        [(i, FirstName) := p.firstName][(i, LastName) := p.lastName][(i, Email) := p.email]
        [(i, Year) := ColumnValue(p, Year)][(i, Major) := ColumnValue(p, Major)]
  }

  /** The loop that fills `addlPresentersObj` for presenters 1 onward. */
  method AdditionalPresenterValues(presenters: seq<Presenter>) returns (obj: map<(nat, PresenterColumn), Val>)
    ensures obj == AddlValues(presenters, |presenters|)
  {
    obj := map[];
    if |presenters| <= 1 {
      return;
    }
    for i := 1 to |presenters|
      invariant obj == AddlValues(presenters, i)
    {
      var presenter := presenters[i];
      obj := obj[(i + 1, FirstName) := presenter.firstName];
      obj := obj[(i + 1, LastName) := presenter.lastName];
      obj := obj[(i + 1, Email) := presenter.email];
      obj := obj[(i + 1, Year) := if Truthy(presenter.level) then presenter.level else Str("NULL")];
      obj := obj[(i + 1, Major) := if Truthy(presenter.major) then presenter.major else Str("NULL")];
    }
  }

  /** Presenter i (from 1) is bound as presenter i+1, every column of it and nothing else. */
  lemma {:induction false} AddlValuesExact(presenters: seq<Presenter>, i: nat)
    requires i <= |presenters|
    ensures forall n: nat, c: PresenterColumn :: (n, c) in AddlValues(presenters, i) <==> 2 <= n <= i
    ensures forall n: nat, c: PresenterColumn | 2 <= n <= i :: AddlValues(presenters, i)[(n, c)] == ColumnValue(presenters[n - 1], c)
  {
    if i > 1 {
      AddlValuesExact(presenters, i - 1);
      var obj := AddlValues(presenters, i);
      forall n: nat, c: PresenterColumn | 2 <= n <= i
        ensures (n, c) in obj && obj[(n, c)] == ColumnValue(presenters[n - 1], c)
      {
        if n == i {
          match c
          case FirstName =>
          case LastName =>
          case Email =>
          case Year =>
          case Major =>
        }
      }
    }
  }

  /** The presenter numbers whose clauses each statement carries. */
  function InsertClauseNumbers(presenters: seq<Presenter>): (r: seq<nat>)
    ensures |presenters| >= 1 ==> |r| == |presenters| - 1
    ensures forall k | 0 <= k < |r| :: r[k] == k + 2
  {
    if |presenters| <= 1 then [] else seq(|presenters| - 1, k => k + 2)
  }

  /** updatePresentation always carries the clauses of presenters 2 to 8. */
  const UpdateClauseNumbers: seq<nat> := [2, 3, 4, 5, 6, 7, 8]

  /** After the padding, every placeholder of updatePresentation's seven clauses has a bound value, and the padded ones bind null and 'NULL'. */
  lemma PaddingBindsEveryClause(presenters: seq<Presenter>)
    ensures var obj := AddlValues(Padded(presenters), |Padded(presenters)|);
      (forall n, c | n in UpdateClauseNumbers :: (n, c) in obj)
      && (forall n: nat, c | |presenters| < n <= 8 && n >= 2 :: obj[(n, c)] == ColumnValue(BlankPresenter, c))
  {
    var padded := Padded(presenters);
    AddlValuesExact(padded, |padded|);
  }

  lemma BlankColumns()
    ensures ColumnValue(BlankPresenter, FirstName) == Null && ColumnValue(BlankPresenter, Year) == Str("NULL")
    ensures ColumnValue(BlankPresenter, Major) == Str("NULL")
  {
  }

  // ------------------------------------------------------------ insertEvent

  /** The arguments of insertEvent that have defaults. */
  datatype EventDefaults = EventDefaults(endDate: Val, privacyLevel: Val)

  /** A falsy end date is stored as null and a falsy privacy level as 'private'. */
  function InsertEventDefaults(endDate: Val, privacyLevel: Val): (r: EventDefaults)
    ensures Truthy(endDate) ==> r.endDate == endDate
    ensures !Truthy(endDate) ==> r.endDate == Null
    ensures Truthy(privacyLevel) ==> r.privacyLevel == privacyLevel
    ensures !Truthy(privacyLevel) ==> r.privacyLevel == Str("private")
  {
    EventDefaults(if Truthy(endDate) then endDate else Null, if Truthy(privacyLevel) then privacyLevel else Str("private"))
  }

  /** The defaults never leave a falsy privacy level. */
  lemma DefaultPrivacyIsTruthy(endDate: Val, privacyLevel: Val)
    ensures Truthy(InsertEventDefaults(endDate, privacyLevel).privacyLevel)
  {
  }

  // ------------------------------------------------------------ empty input

  /** getEventIdsByConsumerId: an empty row array gives `[]`, anything else goes through rowsToArray. */
  function EventIdsFromRows(rows: Val): (r: Result<Val>)
    ensures rows == Arr([]) ==> r == Ok(Arr([]))
    ensures rows.Arr? && |rows.items| > 0 ==> r == RowHelpers.RowsToArray(rows, "eventId")
    ensures !rows.Arr? ==> r == Ok(Null)
  {
    if rows.Arr? && |rows.items| == 0 then Ok(Arr([])) else RowHelpers.RowsToArray(rows, "eventId")
  }

  /** For an array of rows the ids are always an array, never the null rowsToArray gives for no rows. */
  lemma EventIdsOfArrayAreArray(rows: Val)
    requires rows.Arr? && EventIdsFromRows(rows).Ok?
    ensures EventIdsFromRows(rows).value.Arr?
  {
  }

  /** getPresentationsByEventIds and getLiveSessionByEventIds: no query at all for an empty id list. */
  datatype ByEventIds = NoQuery | Query(eventIds: seq<int>)

  function LookupByEventIds(eventIds: seq<int>): (r: ByEventIds)
    ensures r == NoQuery <==> |eventIds| == 0
    ensures r.Query? ==> r.eventIds == eventIds
  {
    if |eventIds| == 0 then NoQuery else Query(eventIds)
  }
}

=== FILE: subscription_guards.dfy ===
// The quota guard and the event-creation guard
// (middlewares/subscription.middleware.ts). Each guard throws an
// HttpException on its first failing check; the catch hands it to next(err).

module SubscriptionGuards {
  import opened Js
  import opened Http
  import opened Entities
  import opened EventUtils
  import opened SubscriptionUtils
  import opened SubscriptionQuota

  /** SubscriptionLimitType */
  datatype LimitType = Events | AdminAccounts | LiveSessions

  /** isSubscriptionLimitExceeded applied to the quota usage it fetched. */
  predicate IsSubscriptionLimitExceeded(limit: LimitType, usage: QuotaUsage)
  {
    match limit
    case Events =>
      usage.subscription.eventsNumberLimit.Some?
      && usage.current.events >= usage.subscription.eventsNumberLimit.value
    case AdminAccounts =>
      usage.subscription.numAdminAccounts.Some?
      && usage.current.adminAccounts >= usage.subscription.numAdminAccounts.value
    case LiveSessions => false
  }

  /** The quota usage stored for an id; an unknown or missing id throws inside the query helper. */
  function QuotaOf(quotaById: map<int, QuotaUsage>, id: Option<int>): (r: Result<QuotaUsage>)
    ensures r.Ok? <==> id.Some? && id.value in quotaById
    ensures r.Ok? ==> r.value == quotaById[id.value]
  {
    if id.Some? && id.value in quotaById then Ok(quotaById[id.value]) else Thrown("TypeError")
  }

  /**
   * subscriptionLimitMiddleware(limit, subscriptionId). The quota check is
   * called with the caller's consumerId, as the code is written.
   */
  function SubscriptionLimitMiddleware(
    limit: LimitType, subscriptionId: int, claims: Option<Claims>,
    subscriptions: map<int, Subscription>, quotaById: map<int, QuotaUsage>, now: int): (r: Outcome)
    ensures claims.None? ==> r == Raise(Internal)
    ensures claims.Some? && subscriptionId !in subscriptions ==> r == Raise(NotFound)
    ensures claims.Some? && subscriptionId in subscriptions && IsSubscriptionExpired(subscriptions[subscriptionId], now)
            ==> r == Raise(Forbidden)
    ensures r == Next <==>
              claims.Some? && subscriptionId in subscriptions
              && !IsSubscriptionExpired(subscriptions[subscriptionId], now)
              && QuotaOf(quotaById, claims.value.consumerId).Ok?
              && !IsSubscriptionLimitExceeded(limit, QuotaOf(quotaById, claims.value.consumerId).value)
  {
    if claims.None? then Raise(Internal)
    else if subscriptionId !in subscriptions then Raise(NotFound)
    else if IsSubscriptionExpired(subscriptions[subscriptionId], now) then Raise(Forbidden)
    else
      match QuotaOf(quotaById, claims.value.consumerId)
      case Thrown(_) => Raise(Internal)
      case Ok(usage) => if IsSubscriptionLimitExceeded(limit, usage) then Raise(Forbidden) else Next
  }

  /**
   * subscriptionLimitMiddleware as evidently intended: the quota looked up is
   * that of the subscription the guard was built for, as createEventGuard does.
   */
  function SubscriptionLimitMiddlewareBySubscription(
    limit: LimitType, subscriptionId: int, claims: Option<Claims>,
    subscriptions: map<int, Subscription>, quotaById: map<int, QuotaUsage>, now: int): (r: Outcome)
    ensures claims.None? ==> r == Raise(Internal)
    ensures claims.Some? && subscriptionId !in subscriptions ==> r == Raise(NotFound)
    ensures claims.Some? && subscriptionId in subscriptions && IsSubscriptionExpired(subscriptions[subscriptionId], now)
            ==> r == Raise(Forbidden)
    ensures r == Next <==>
              claims.Some? && subscriptionId in subscriptions
              && !IsSubscriptionExpired(subscriptions[subscriptionId], now)
              && subscriptionId in quotaById
              && !IsSubscriptionLimitExceeded(limit, quotaById[subscriptionId])
  {
    if claims.None? then Raise(Internal)
    else if subscriptionId !in subscriptions then Raise(NotFound)
    else if IsSubscriptionExpired(subscriptions[subscriptionId], now) then Raise(Forbidden)
    else
      match QuotaOf(quotaById, Some(subscriptionId))
      case Thrown(_) => Raise(Internal)
      case Ok(usage) => if IsSubscriptionLimitExceeded(limit, usage) then Raise(Forbidden) else Next
  }

  /** The body of a create-event request (CreateEventPayload); unparsable dates are None. */
  datatype CreateEventPayload = CreateEventPayload(
    eventLaunchDate: Option<int>,
    eventEndDate: Option<int>,
    eventCode: string,
    eventName: string,
    subscriptionId: int)

  /** An event with the same code or the same name already exists. */
  predicate IsDuplicate(existing: seq<Event>, payload: CreateEventPayload)
  {
    exists i | 0 <= i < |existing| :: existing[i].eventCode == payload.eventCode || existing[i].name == payload.eventName
  }

  /** The start date is after the end date. */
  predicate StartsAfterEnd(payload: CreateEventPayload)
  {
    IsAfter(payload.eventLaunchDate, payload.eventEndDate)
  }

  /** The end day lies beyond the last day the tier's uptime allows. */
  predicate EndsBeyondUptime(payload: CreateEventPayload, subscription: Subscription)
  {
    IsAfter(EndOfDayOpt(payload.eventEndDate),
            EndOfDayOpt(GetMaxEventDate(payload.eventLaunchDate, subscription.eventUptimeInDays)))
  }

  /**
   * createEventGuard with its reads as parameters: the subscriptions by id,
   * the quota usage by id, and the existing events.
   */
  function CreateEventGuard(
    payload: CreateEventPayload, subscriptions: map<int, Subscription>,
    quotaById: map<int, QuotaUsage>, existing: seq<Event>, now: int): (r: Outcome)
    ensures r == Raise(NotFound) <==> payload.subscriptionId !in subscriptions
    ensures r == Raise(Internal) <==>
              payload.subscriptionId in subscriptions && payload.subscriptionId != 0
              && !IsSubscriptionExpired(subscriptions[payload.subscriptionId], now)
              && payload.subscriptionId !in quotaById
    ensures r == Raise(BadRequest) <==>
              payload.subscriptionId in subscriptions && payload.subscriptionId != 0
              && !IsSubscriptionExpired(subscriptions[payload.subscriptionId], now)
              && payload.subscriptionId in quotaById
              && !IsSubscriptionLimitExceeded(Events, quotaById[payload.subscriptionId])
              && (IsDuplicate(existing, payload) || StartsAfterEnd(payload))
    ensures r == Next <==>
              payload.subscriptionId in subscriptions && payload.subscriptionId != 0
              && !IsSubscriptionExpired(subscriptions[payload.subscriptionId], now)
              && payload.subscriptionId in quotaById
              && !IsSubscriptionLimitExceeded(Events, quotaById[payload.subscriptionId])
              && !IsDuplicate(existing, payload) && !StartsAfterEnd(payload)
              && !EndsBeyondUptime(payload, subscriptions[payload.subscriptionId])
    ensures r in {Next, Raise(NotFound), Raise(Forbidden), Raise(BadRequest), Raise(Internal)}
  {
    var id := payload.subscriptionId;
    if id !in subscriptions then Raise(NotFound)
    else if id == 0 then Raise(Forbidden)
    else if IsSubscriptionExpired(subscriptions[id], now) then Raise(Forbidden)
    else
      match QuotaOf(quotaById, Some(id))
      case Thrown(_) => Raise(Internal)
      case Ok(usage) =>
        if IsSubscriptionLimitExceeded(Events, usage) then Raise(Forbidden)
        else if IsDuplicate(existing, payload) then Raise(BadRequest)
        else if StartsAfterEnd(payload) then Raise(BadRequest)
        else if EndsBeyondUptime(payload, subscriptions[id]) then Raise(Forbidden)
        else Next
  }

  // ------------------------------------------------------------ properties

  /** Reaching the events limit already counts as exceeding it; a null limit is never exceeded. */
  lemma EventsLimitRule(usage: QuotaUsage)
    ensures usage.subscription.eventsNumberLimit.None? ==> !IsSubscriptionLimitExceeded(Events, usage)
    ensures usage.subscription.eventsNumberLimit.Some? ==>
      (IsSubscriptionLimitExceeded(Events, usage) <==> usage.current.events >= usage.subscription.eventsNumberLimit.value)
  {
  }

  /** The admin-accounts limit follows the same rule with numAdminAccounts; live sessions are never limited. */
  lemma AdminAndLiveSessionRules(usage: QuotaUsage)
    ensures usage.subscription.numAdminAccounts.None? ==> !IsSubscriptionLimitExceeded(AdminAccounts, usage)
    ensures usage.subscription.numAdminAccounts.Some? ==>
      (IsSubscriptionLimitExceeded(AdminAccounts, usage) <==> usage.current.adminAccounts >= usage.subscription.numAdminAccounts.value)
    ensures !IsSubscriptionLimitExceeded(LiveSessions, usage)
  {
  }

  /** A null limit is "unlimited" in the check but gives 0 remaining in the arithmetic. */
  lemma NullLimitUnlimitedButNothingLeft(usage: QuotaUsage)
    requires usage.subscription.eventsNumberLimit.None? && usage.current.events >= 0
    ensures !IsSubscriptionLimitExceeded(Events, usage)
    ensures CalculateRemainingSubscriptionUsage(usage.subscription, usage.current).events == 0
  {
  }

  /** Subscription 0 is refused before its expiry or its quota is looked at. */
  lemma SubscriptionZeroRefused(
    payload: CreateEventPayload, subscriptions: map<int, Subscription>,
    quotaById: map<int, QuotaUsage>, existing: seq<Event>, now: int)
    requires payload.subscriptionId == 0 && 0 in subscriptions
    ensures CreateEventGuard(payload, subscriptions, quotaById, existing, now) == Raise(Forbidden)
  {
  }

  /** An event may end on its start day, and on the last day of the uptime window, but not a day later. */
  lemma {:induction false} EndDateBoundaries(start: int, end: int, uptime: int, subscription: Subscription)
    requires subscription.eventUptimeInDays == Some(uptime) && uptime >= 0
    ensures end == start ==>
      !StartsAfterEnd(CreateEventPayload(Some(start), Some(end), "", "", 0))
      && !EndsBeyondUptime(CreateEventPayload(Some(start), Some(end), "", "", 0), subscription)
    ensures EndOfDay(end) == EndOfDay(start + uptime * DAY) ==>
      !EndsBeyondUptime(CreateEventPayload(Some(start), Some(end), "", "", 0), subscription)
    ensures EndOfDay(end) == EndOfDay(start + (uptime + 1) * DAY) ==>
      EndsBeyondUptime(CreateEventPayload(Some(start), Some(end), "", "", 0), subscription)
  {
    EndOfDayMonotone(start, start + uptime * DAY);
    EndOfDayShift(start + uptime * DAY, 1);
    assert start + (uptime + 1) * DAY == start + uptime * DAY + 1 * DAY;
  }

  /** Without an uptime on the tier the end date is never refused for exceeding it. */
  lemma NullUptimeNeverLimitsEndDate(payload: CreateEventPayload, subscription: Subscription)
    requires subscription.eventUptimeInDays.None?
    ensures !EndsBeyondUptime(payload, subscription)
  {
  }

  /** The quota guard checks expiry before it ever consults the quota. */
  lemma ExpiryCheckedBeforeQuota(
    limit: LimitType, subscriptionId: int, claims: Claims,
    subscriptions: map<int, Subscription>, q1: map<int, QuotaUsage>, q2: map<int, QuotaUsage>, now: int)
    requires subscriptionId in subscriptions && IsSubscriptionExpired(subscriptions[subscriptionId], now)
    ensures SubscriptionLimitMiddleware(limit, subscriptionId, Some(claims), subscriptions, q1, now)
         == SubscriptionLimitMiddleware(limit, subscriptionId, Some(claims), subscriptions, q2, now)
         == Raise(Forbidden)
  {
  }

  /**
   * As written, a caller whose consumerId happens to name another
   * subscription with quota left passes the guard of a subscription whose
   * own events limit is used up; the corrected guard refuses.
   */
  lemma QuotaOfConsumerLetsExhaustedSubscriptionThrough()
    ensures var sub := Subscription(7, None, Recurring, Some(1), None, None, None, None);
            var other := Subscription(3, None, Recurring, Some(1), None, None, None, None);
            var quotaById := map[7 := QuotaUsage(sub, Quota(1, 0, 0, 0), Quota(0, 0, 0, 0)),
                                 3 := QuotaUsage(other, Quota(0, 0, 0, 0), Quota(1, 0, 0, 0))];
            var claims := Some(Claims(Some(3), None, None, None));
            IsSubscriptionLimitExceeded(Events, quotaById[7])
            && SubscriptionLimitMiddleware(Events, 7, claims, map[7 := sub], quotaById, 0) == Next
            && SubscriptionLimitMiddlewareBySubscription(Events, 7, claims, map[7 := sub], quotaById, 0) == Raise(Forbidden)
  {
  }

  /** The corrected guard and createEventGuard agree on the events quota: neither lets an exhausted subscription through. */
  lemma ExhaustedSubscriptionRefused(
    subscriptionId: int, claims: Option<Claims>, subscriptions: map<int, Subscription>,
    quotaById: map<int, QuotaUsage>, payload: CreateEventPayload, existing: seq<Event>, now: int)
    requires subscriptionId in quotaById && IsSubscriptionLimitExceeded(Events, quotaById[subscriptionId])
    requires payload.subscriptionId == subscriptionId
    ensures SubscriptionLimitMiddlewareBySubscription(Events, subscriptionId, claims, subscriptions, quotaById, now) != Next
    ensures CreateEventGuard(payload, subscriptions, quotaById, existing, now) != Next
  {
  }
}

=== FILE: subscription_presence.dfy ===
// The "caller has a subscription" gate (subscription-middleware.ts).

module SubscriptionPresence {
  import opened Js
  import opened Http
  import opened Entities
  import opened ResponseLocals

  /**
   * The decision of isConsumerHasSubscription over the read of the caller's
   * subscriptions. Reading consumerId from missing claims throws outside the
   * try, so that request is never answered.
   */
  function SubscriptionPresenceOutcome(userClaims: Option<Claims>, subscriptions: Fetch<seq<Subscription>>): (r: Outcome)
    ensures userClaims.None? ==> r == Unhandled
    ensures userClaims.Some? ==>
      (r == Next <==> subscriptions.Found? && |subscriptions.row| > 0)
      && (r == Respond(403) <==> subscriptions.Missing? || (subscriptions.Found? && |subscriptions.row| == 0))
      && (r == Respond(500) <==> subscriptions.QueryFailed?)
  {
    if userClaims.None? then Unhandled
    else
      match subscriptions
      case QueryFailed => Respond(500)
      case Missing => Respond(403)
      case Found(list) => if |list| > 0 then Next else Respond(403)
  }

  /** isConsumerHasSubscription: stores the list in res.locals.subscriptions before continuing. */
  method IsConsumerHasSubscription(locals: Locals, subscriptions: Fetch<seq<Subscription>>) returns (o: Outcome)
    modifies locals
    ensures o == SubscriptionPresenceOutcome(old(locals.userClaims), subscriptions)
    ensures o == Next ==> locals.subscriptions == Some(subscriptions.row)
    ensures o != Next ==> locals.subscriptions == old(locals.subscriptions)
    ensures locals.token == old(locals.token) && locals.userClaims == old(locals.userClaims)
    ensures locals.isEventAdmin == old(locals.isEventAdmin)
  {
    if locals.userClaims.None? {
      return Unhandled;
    }
    match subscriptions {
      case QueryFailed =>
        return Respond(500);
      case Missing =>
        return Respond(403);
      case Found(list) =>
        if |list| > 0 {
          locals.subscriptions := Some(list);
          return Next;
        }
        return Respond(403);
    }
  }
}

=== FILE: subscription_quota.dfy ===
// Quota arithmetic of a subscription (queries/subscriptions.ts): the usage
// counts and the clamped remaining amounts. The database reads are the
// parameters of the functions.

module SubscriptionQuota {
  import opened Js
  import opened Entities

  /** SubscriptionQuota: one count per limited resource. */
  datatype Quota = Quota(events: int, presentations: int, liveSessions: int, adminAccounts: int)

  /** What getSubscriptionQuotaUsageBySubscriptionId resolves to. */
  datatype QuotaUsage = QuotaUsage(subscription: Subscription, current: Quota, left: Quota)

  /** What getSubscriptionUsage resolves to. */
  datatype Usage = Usage(events: int, liveSessions: int)

  /** A tier limit used in a subtraction: JavaScript reads `null - n` as `0 - n`. */
  function LimitAsNumber(limit: Option<int>): int
  {
    if limit.Some? then limit.value else 0
  }

  /** `x > 0 ? x : 0` with `x = limit - current` */
  function Remaining(limit: Option<int>, current: int): (r: int)
    ensures r >= 0
    ensures r == 0 || r == LimitAsNumber(limit) - current
  {
    var x := LimitAsNumber(limit) - current;
    if x > 0 then x else 0
  }

  /** calculateRemainingSubscriptionUsage */
  function CalculateRemainingSubscriptionUsage(subscription: Subscription, current: Quota): (left: Quota)
    ensures left.events == Remaining(subscription.eventsNumberLimit, current.events)
    ensures left.presentations == Remaining(subscription.presentationsLimit, current.presentations)
    ensures left.liveSessions == Remaining(subscription.liveSessionsLimit, current.liveSessions)
    ensures left.adminAccounts == Remaining(subscription.numAdminAccounts, current.adminAccounts)
  {
    var liveSessions := LimitAsNumber(subscription.liveSessionsLimit) - current.liveSessions;
    var adminAccounts := LimitAsNumber(subscription.numAdminAccounts) - current.adminAccounts;
    var presentations := LimitAsNumber(subscription.presentationsLimit) - current.presentations;
    var events := LimitAsNumber(subscription.eventsNumberLimit) - current.events;
    Quota(
      events := if events > 0 then events else 0,
      presentations := if presentations > 0 then presentations else 0,
      liveSessions := if liveSessions > 0 then liveSessions else 0,
      adminAccounts := if adminAccounts > 0 then adminAccounts else 0)
  }

  /**
   * getSubscriptionQuotaUsageBySubscriptionId with its reads as parameters:
   * the subscription, the ids of its live events, its admin rows, and the
   * presentations and live sessions of those events. A missing subscription
   * throws when its id is read.
   */
  function GetSubscriptionQuotaUsage<A, P, L>(
    subscription: Option<Subscription>, eventIds: seq<int>,
    admins: seq<A>, presentations: seq<P>, liveSessions: seq<L>): (r: Result<QuotaUsage>)
    ensures subscription.None? <==> r.Thrown?
    ensures r.Ok? ==> r.value.current == Quota(|eventIds|, |presentations|, |liveSessions|, |admins|)
    ensures r.Ok? ==> r.value.subscription == subscription.value
    ensures r.Ok? ==> r.value.left == CalculateRemainingSubscriptionUsage(subscription.value, r.value.current)
  {
    if subscription.None? then Thrown("TypeError: subscription is undefined")
    else
      var current := Quota(
        events := |eventIds|,
        presentations := |presentations|,
        liveSessions := |liveSessions|,
        adminAccounts := |admins|);
      Ok(QuotaUsage(subscription.value, current, CalculateRemainingSubscriptionUsage(subscription.value, current)))
  }

  /** getSubscriptionUsage: `limit - n < 0 ? 0 : limit - n` for events, and a constant 0 for live sessions. */
  function GetSubscriptionUsage<E>(subscription: Option<Subscription>, events: seq<E>): (r: Result<Usage>)
    ensures subscription.None? <==> r.Thrown?
    ensures r.Ok? ==> r.value.liveSessions == 0
  {
    if subscription.None? then Thrown("TypeError: subscription is undefined")
    else
      var x := LimitAsNumber(subscription.value.eventsNumberLimit) - |events|;
      Ok(Usage(events := if x < 0 then 0 else x, liveSessions := 0))
  }

  // ------------------------------------------------------------ properties

  /** The two clamps agree: the events left reported by getSubscriptionUsage equal the remaining-quota arithmetic. */
  lemma UsageAgreesWithRemaining<E>(subscription: Subscription, events: seq<E>)
    ensures GetSubscriptionUsage(Some(subscription), events).value.events
         == Remaining(subscription.eventsNumberLimit, |events|)
  {
  }

  /** Remaining quota shrinks as usage grows and reaches 0 once usage reaches the limit. */
  lemma RemainingMonotone(limit: Option<int>, c1: int, c2: int)
    requires c1 <= c2
    ensures Remaining(limit, c2) <= Remaining(limit, c1)
    ensures c2 >= LimitAsNumber(limit) ==> Remaining(limit, c2) == 0
  {
  }

  /** Remaining quota is max(0, limit - current). */
  lemma RemainingIsClampedDifference(limit: int, current: int)
    ensures current >= limit ==> Remaining(Some(limit), current) == 0
    ensures current < limit ==> Remaining(Some(limit), current) == limit - current
  {
  }

  /** A null limit leaves nothing: it is not read as "unlimited" here. */
  lemma NullLimitLeavesNothing(current: nat)
    ensures Remaining(None, current) == 0
  {
  }

  /** Each remaining amount depends only on its own limit and its own count. */
  lemma RemainingIndependent(s1: Subscription, s2: Subscription, c1: Quota, c2: Quota)
    requires s1.eventsNumberLimit == s2.eventsNumberLimit && c1.events == c2.events
    ensures CalculateRemainingSubscriptionUsage(s1, c1).events == CalculateRemainingSubscriptionUsage(s2, c2).events
  {
  }
}

=== FILE: subscription_utils.dfy ===
// Subscription expiry and the "may buy another plan" rule
// (backend/helpers/subscription.utils.ts).

module SubscriptionUtils {
  import opened Js
  import opened Entities

  /** isSubscriptionExpired, with `new Date()` passed in as `now`: an end date that now is strictly after. */
  predicate IsSubscriptionExpired(subscription: Subscription, now: int)
  {
    subscription.endDate.Some? && now > subscription.endDate.value
  }

  /** `subscriptions.filter(s => s.billingType === 'recurring')` */
  function RecurringOnly(subscriptions: seq<Subscription>): (r: seq<Subscription>)
    ensures |r| <= |subscriptions|
    ensures forall s :: s in r <==> s in subscriptions && s.billingType == Recurring
  {
    if |subscriptions| == 0 then []
    else (if subscriptions[0].billingType == Recurring then [subscriptions[0]] else [])
         + RecurringOnly(subscriptions[1..])
  }

  /** The filter keeps input order: filtering a concatenation concatenates the filtered parts. */
  lemma {:induction false} RecurringOnlyKeepsOrder(front: seq<Subscription>, back: seq<Subscription>)
    ensures RecurringOnly(front + back) == RecurringOnly(front) + RecurringOnly(back)
  {
    if |front| > 0 {
      assert (front + back)[1..] == front[1..] + back;
      RecurringOnlyKeepsOrder(front[1..], back);
    } else {
      assert front + back == back;
    }
  }

  /** canPurchaseNewSubscriptionOrEvent: the filtered list of recurring subscriptions is empty. */
  predicate CanPurchaseNewSubscriptionOrEvent(subscriptions: seq<Subscription>): (r: bool)
    ensures r <==> forall i | 0 <= i < |subscriptions| :: subscriptions[i].billingType != Recurring
  {
    var recurring := RecurringOnly(subscriptions);
    assert |recurring| > 0 ==> recurring[0] in recurring;
    |recurring| == 0
  }

  /** A subscription with no end date never expires. */
  lemma NoEndDateNeverExpires(subscription: Subscription, now: int)
    requires subscription.endDate.None?
    ensures !IsSubscriptionExpired(subscription, now)
  {
  }

  /** With an end date, expiry starts strictly after it: at the end instant itself it is still live. */
  lemma ExpiryBoundary(subscription: Subscription, now: int)
    requires subscription.endDate.Some?
    ensures IsSubscriptionExpired(subscription, now) <==> now > subscription.endDate.value
    ensures !IsSubscriptionExpired(subscription, subscription.endDate.value)
  {
  }

  /** An empty list, or one of only single-payment subscriptions, always permits purchase. */
  lemma SinglePurchasesPermit(subscriptions: seq<Subscription>)
    requires forall i | 0 <= i < |subscriptions| :: subscriptions[i].billingType == Single
    ensures CanPurchaseNewSubscriptionOrEvent(subscriptions)
  {
  }
}

=== FILE: user_emails.dfy ===
// The additional-address routes of routes/users.ts: the my-emails list and
// the guard order of adding, deleting, making primary and re-verifying an
// address.

module UserEmails {
  import opened Js

  /** A consumerEmail row; `consumerPrimaryEmailId` is joined in from the consumer (null when unset). */
  datatype ConsumerEmailRow = ConsumerEmailRow(
    consumerEmailId: int,
    consumerId: int,
    email: string,
    verifiedAt: Val,
    consumerPrimaryEmailId: Option<int>)

  // ------------------------------------------------------------ GET /my-emails

  /** One entry of the my-emails reply. */
  datatype EmailItem = EmailItem(email: string, consumerEmailId: int, isPrimary: bool, isVerified: bool)

  /** The entry for one row: primary by exact (case-sensitive) equality, verified when `verifiedAt` is truthy. */
  function Item(row: ConsumerEmailRow, primaryEmail: string): (item: EmailItem)
    ensures item.email == row.email && item.consumerEmailId == row.consumerEmailId
    ensures item.isPrimary <==> row.email == primaryEmail
    ensures item.isVerified <==> Truthy(row.verifiedAt)
  {
    EmailItem(row.email, row.consumerEmailId, primaryEmail == row.email, Truthy(row.verifiedAt))
  }

  /** The list after the rows so far: primary entries are `unshift`ed, the others `push`ed. */
  function MyEmails(rows: seq<ConsumerEmailRow>, primaryEmail: string): (r: seq<EmailItem>)
    ensures |r| == |rows|
  {
    if |rows| == 0 then []
    else
      var n := |rows| - 1;
      var item := Item(rows[n], primaryEmail);
      if item.isPrimary then [item] + MyEmails(rows[..n], primaryEmail)
      else MyEmails(rows[..n], primaryEmail) + [item]
  }

  /** The handler's `map` callback, run over the rows in order. */
  method BuildMyEmails(rows: seq<ConsumerEmailRow>, primaryEmail: string) returns (consumerEmails: seq<EmailItem>)
    ensures consumerEmails == MyEmails(rows, primaryEmail)
  {
    consumerEmails := [];
    for i := 0 to |rows|
      invariant consumerEmails == MyEmails(rows[..i], primaryEmail)
    {
      assert rows[..i + 1][..i] == rows[..i];
      var item := EmailItem(rows[i].email, rows[i].consumerEmailId, primaryEmail == rows[i].email, Truthy(rows[i].verifiedAt));
      if primaryEmail == rows[i].email {
        consumerEmails := [item] + consumerEmails;
      } else {
        consumerEmails := consumerEmails + [item];
      }
    }
    assert rows[..|rows|] == rows;
  }

  /** The entries of the rows that are (or are not) the primary address, in row order. */
  function ItemsWhere(rows: seq<ConsumerEmailRow>, primaryEmail: string, primary: bool): (r: seq<EmailItem>)
    ensures forall k | 0 <= k < |r| :: r[k].isPrimary == primary
  {
    if |rows| == 0 then []
    else
      var n := |rows| - 1;
      var item := Item(rows[n], primaryEmail);
      ItemsWhere(rows[..n], primaryEmail, primary) + (if item.isPrimary == primary then [item] else [])
  }

  function Reverse<T>(s: seq<T>): (r: seq<T>)
    ensures |r| == |s|
  {
    if |s| == 0 then [] else Reverse(s[1..]) + [s[0]]
  }

  lemma ReverseAppend<T>(s: seq<T>, x: T)
    ensures Reverse(s + [x]) == [x] + Reverse(s)
  {
    if |s| > 0 {
      assert (s + [x])[1..] == s[1..] + [x];
      ReverseAppend(s[1..], x);
    }
  }

  /**
   * The reply lists the primary entries first (in reverse row order, since
   * each is put in front) and then every other entry in row order.
   */
  lemma {:induction false} MyEmailsPrimaryFirst(rows: seq<ConsumerEmailRow>, primaryEmail: string)
    ensures MyEmails(rows, primaryEmail)
        == Reverse(ItemsWhere(rows, primaryEmail, true)) + ItemsWhere(rows, primaryEmail, false)
  {
    if |rows| > 0 {
      var n := |rows| - 1;
      MyEmailsPrimaryFirst(rows[..n], primaryEmail);
      var item := Item(rows[n], primaryEmail);
      var p := ItemsWhere(rows[..n], primaryEmail, true);
      var o := ItemsWhere(rows[..n], primaryEmail, false);
      if item.isPrimary {
        ReverseAppend(p, item);
        assert ItemsWhere(rows, primaryEmail, true) == p + [item];
        assert ItemsWhere(rows, primaryEmail, false) == o;
      } else {
        assert ItemsWhere(rows, primaryEmail, true) == p;
        assert ItemsWhere(rows, primaryEmail, false) == o + [item];
        assert MyEmails(rows, primaryEmail) == (Reverse(p) + o) + [item];
      }
    }
  }

  /** With the primary address listed once, it is the first entry and the rest keep their order. */
  lemma PrimaryListedFirst(rows: seq<ConsumerEmailRow>, primaryEmail: string)
    requires |ItemsWhere(rows, primaryEmail, true)| == 1
    ensures MyEmails(rows, primaryEmail)[0].isPrimary
    ensures MyEmails(rows, primaryEmail)[1..] == ItemsWhere(rows, primaryEmail, false)
  {
    MyEmailsPrimaryFirst(rows, primaryEmail);
    var p := ItemsWhere(rows, primaryEmail, true);
    assert Reverse(p) == [p[0]];
  }

  // ------------------------------------------------------------ guards

  /** How a guarded address route ends: an HTTP error passed to `next`, or the route's work. */
  datatype EmailDecision = Refuse(status: int) | Proceed

  predicate Owns(row: ConsumerEmailRow, consumerId: int)
  {
    row.consumerId == consumerId
  }

  /** DELETE /emails/:id: 404 unknown, then 403 not the caller's, then 400 the primary address. */
  function DeleteEmailGuard(found: Option<ConsumerEmailRow>, consumerId: int): (r: EmailDecision)
    ensures found.None? ==> r == Refuse(404)
    ensures r == Refuse(403) <==> found.Some? && !Owns(found.value, consumerId)
    ensures r == Refuse(400) <==> found.Some? && Owns(found.value, consumerId) && found.value.consumerPrimaryEmailId == Some(found.value.consumerEmailId)
    ensures r.Proceed? <==> found.Some? && Owns(found.value, consumerId) && found.value.consumerPrimaryEmailId != Some(found.value.consumerEmailId)
  {
    match found
    case None => Refuse(404)
    case Some(row) =>
      if row.consumerId != consumerId then Refuse(403)
      else if Some(row.consumerEmailId) == row.consumerPrimaryEmailId then Refuse(400)
      else Proceed
  }

  /** PUT /emails/:id/set-primary: 404 unknown, then 403 not the caller's, then 400 unverified. */
  function SetPrimaryGuard(found: Option<ConsumerEmailRow>, consumerId: int): (r: EmailDecision)
    ensures found.None? ==> r == Refuse(404)
    ensures r == Refuse(403) <==> found.Some? && !Owns(found.value, consumerId)
    ensures r == Refuse(400) <==> found.Some? && Owns(found.value, consumerId) && !Truthy(found.value.verifiedAt)
    ensures r.Proceed? <==> found.Some? && Owns(found.value, consumerId) && Truthy(found.value.verifiedAt)
  {
    match found
    case None => Refuse(404)
    case Some(row) =>
      if row.consumerId != consumerId then Refuse(403)
      else if !Truthy(row.verifiedAt) then Refuse(400)
      else Proceed
  }

  /** PUT /emails/:id/send-code: 404 and 403 as above; otherwise it answers `{}` and mails a code only for an unverified address. */
  datatype SendCodeResult = SendCodeRefused(status: int) | SendCodeDone(mailsCode: bool)

  function SendCodeGuard(found: Option<ConsumerEmailRow>, consumerId: int): (r: SendCodeResult)
    ensures found.None? ==> r == SendCodeRefused(404)
    ensures r == SendCodeRefused(403) <==> found.Some? && !Owns(found.value, consumerId)
    ensures r == SendCodeDone(true) <==> found.Some? && Owns(found.value, consumerId) && !Truthy(found.value.verifiedAt)
    ensures r == SendCodeDone(false) <==> found.Some? && Owns(found.value, consumerId) && Truthy(found.value.verifiedAt)
  {
    match found
    case None => SendCodeRefused(404)
    case Some(row) =>
      if row.consumerId != consumerId then SendCodeRefused(403)
      else SendCodeDone(!Truthy(row.verifiedAt))
  }

  /** The two guards that share the 404/403 prefix agree on it: they refuse the same requests with the same status before their own last check. */
  lemma GuardsShareOwnershipChecks(found: Option<ConsumerEmailRow>, consumerId: int)
    ensures DeleteEmailGuard(found, consumerId) == Refuse(404) <==> SetPrimaryGuard(found, consumerId) == Refuse(404)
    ensures DeleteEmailGuard(found, consumerId) == Refuse(403) <==> SetPrimaryGuard(found, consumerId) == Refuse(403)
    ensures SendCodeGuard(found, consumerId).SendCodeRefused? <==> SetPrimaryGuard(found, consumerId) in {Refuse(404), Refuse(403)}
  {
  }

  // ------------------------------------------------------------ POST /emails

  /** The stored consumerEmail rows, keyed by address: owner and verification. */
  datatype StoredEmail = StoredEmail(consumerId: int, verified: bool)

  /** What POST /emails does to the table: refuse with 403, or reassign and/or insert. */
  datatype AddEmailResult = AddRefused(status: int) | Added(reassigned: bool, inserted: bool, table: map<string, StoredEmail>)

  /**
   * POST /emails for a validated address: 403 when a Firebase user has it or a
   * verified row exists; an unverified row of another consumer is reassigned
   * to the caller; a new row is inserted only when none exists.
   */
  function AddEmail(table: map<string, StoredEmail>, email: string, firebaseUserExists: bool, consumerId: int): (r: AddEmailResult)
    ensures r.AddRefused? <==> firebaseUserExists || (email in table && table[email].verified)
    ensures r.AddRefused? ==> r.status == 403
    ensures r.Added? ==> (r.inserted <==> email !in table)
    ensures r.Added? ==> (r.reassigned <==> email in table && table[email].consumerId != consumerId)
  {
    if firebaseUserExists || (email in table && table[email].verified) then AddRefused(403)
    else if email in table then
      var reassign := table[email].consumerId != consumerId;
      Added(reassign, false, if reassign then table[email := StoredEmail(consumerId, false)] else table)
    else Added(false, true, table[email := StoredEmail(consumerId, false)])
  }

  /** After an accepted add the address has one unverified row owned by the caller, and no other row changed. */
  lemma AddEmailClaimsAddress(table: map<string, StoredEmail>, email: string, firebaseUserExists: bool, consumerId: int)
    requires AddEmail(table, email, firebaseUserExists, consumerId).Added?
    ensures var t := AddEmail(table, email, firebaseUserExists, consumerId).table;
      email in t && t[email] == StoredEmail(consumerId, false)
      && t.Keys == table.Keys + {email}
      && forall other | other in table && other != email :: t[other] == table[other]
  {
  }
}
